=== FILE: README.md ===
# Gym tracker core, modelled in Dafny

This project models the logic of a desktop strength-training tracker, a
PySide6 and SQLite application that records workouts, body measurements and
goals. The widgets and charts are not modelled. The model covers the
computations that feed them:

- the strength arithmetic: the Epley one-rep max, volume, average, maximum
  and growth rate;
- the validation of a set against the weight and repetition bounds;
- the database operations the program relies on: the transaction wrapper,
  the seeding of the exercise catalogue, set insertion with its derived
  one-rep max, the last-record query, and the paginated and filtered
  history queries together with their shared WHERE builder;
- the tabs and dialogs:
  - the history tab's pagination state machine and its filter;
  - the record tab's numbered set list and the rules for saving a workout;
  - the statistics tab's per-day series and summary tables;
  - the legacy and v2 goal dialogs and tabs;
  - the body-composition goal dialog;
  - the body-measurement dialog's "minimum means unset" convention;
  - the body-measurement table's BMI column;
- the three importers (CSV workouts, Excel body measurements, Apple Health
  XML): their row parsers, their skip, overwrite and merge rules, and their
  counters;
- the file cache with its lifetime, and the cached body-measurement loader.

Conventions:

- Dates are day numbers (`int`). Weights and percentages are `real`.
- Python's `int()` is written out as truncation toward zero.
- Python truthiness of optional numbers is explicit: `Numeric.Truthy`.
- Each SQL query is a filter, sort and slice over sequences of rows.
- These are parameters of the operations that use them:
  - what the program takes from its environment: today's date, the clock;
  - library conversions: `strptime`, `fromisoformat`, `float(str)`,
    number-to-text, and the range of dates pandas can represent;
  - which database writes fail. Database reads always succeed in the model; see "## Left out".

One module per source component. Helper modules: `Wrappers` (Option),
`Numeric`, `Seqs` (filters, an insertion sort, pages), `Text` (strip, lower,
substring, replace), `Grouping` (distinct keys and sums per key) and `Dates`.
The module `BodyTable` stands for the body-measurement methods of the
database manager: `get_body_stats_by_date`, `add_body_stats` and
`update_body_stats`. Their code is not part of this model. They are taken to
find the first row on a day, to append under the next id, and to replace the
row with the same id.

## Model

| member | source | states |
|---|---|---|
| Calculations.OneRm | utils/calculations.py:4-15 | One repetition is its own one-rep max; otherwise the estimate times 30 equals the weight times (30 + reps), and it is never below a non-negative weight lifted at least once |
| Calculations.OneRmMonotone | utils/calculations.py:13-15 | The estimate never decreases as weight or repetitions grow, including the step from the one-repetition special case to two |
| Calculations.GrowthRate | utils/calculations.py:17-28 | Zero against a zero previous value; otherwise the rate times the previous value is 100 times the change |
| Calculations.GrowthPositiveIffIncrease | utils/calculations.py:26-28 | Against a positive previous value the rate is positive exactly when the value went up, and zero exactly when it stayed |
| Calculations.TotalVolume | utils/calculations.py:30-38 | Zero for no sets and never negative for non-negative sets; its value Σ weight × reps is fixed by TotalVolumeOne and TotalVolumeAppend |
| Calculations.TotalVolumeAppend | utils/calculations.py:38 | The volume of two lists together is the sum of their volumes |
| Calculations.TotalVolumeOne | utils/calculations.py:30-38 | One set contributes its weight times its repetitions, so with the append lemma the total is Σ weight × reps over every list |
| Calculations.AverageWeight | utils/calculations.py:40-50 | Zero for no sets; otherwise the average times the number of sets is the total weight |
| Calculations.AverageWeightBetween | utils/calculations.py:48-50 | The average lies between the lightest and the heaviest set |
| Calculations.MaxOneRm | utils/calculations.py:52-65 | Zero for no sets; otherwise the estimate of some set, and no set's estimate exceeds it |
| Validation.ValidateWeight | utils/validation.py:9-26 | Valid exactly for a number in [0.0, 500.0] whose double is whole; the type, lower-bound, upper-bound and step checks report in that order; the error is absent exactly when valid |
| Validation.HalfStepIffMultiple | utils/validation.py:23-24 | The rounding test accepts exactly the multiples of the 0.5 kg step |
| Validation.AcceptedWeightsAreHalfKilos | utils/constants.py:8-10 | The accepted float weights are exactly k × 0.5 for k in 0..1000 |
| Validation.ValidateReps | utils/validation.py:30-42 | Valid exactly for an integer in [1, 50]; type, lower bound and upper bound report in that order |
| Validation.ValidateSetData | utils/validation.py:46-58 | Valid exactly when weight and repetitions are both valid; a weight error is reported before a repetitions error |
| Models.DisplayNameInjective | database/models.py:15-17 | `name（variation）` determines name and variation when the name holds no opening full-width parenthesis |
| Store.Transaction | database/db_manager.py:30-51 | A connected block that finishes is committed; any exception, integrity or other, rolls the database back and is re-raised; the connection is closed exactly when it was opened |
| Store.SeedCount | database/db_manager.py:129-170 | The catalogue has 8 chest, 6 back, 5 leg, 7 shoulder and 9 arm exercises and nothing in any other category |
| Store.SeedCategories | database/db_manager.py:129-170 | The catalogue has 35 entries, each in one of the five categories |
| Store.InsertInitialExercises | database/db_manager.py:122-175 | A non-empty exercise table is left as it is; an empty one receives the 35 catalogue rows in catalogue order, each with its name, variation and category under consecutive ids, all in the five categories, and the other tables are untouched |
| Store.InsertInitialIdempotent | database/db_manager.py:125-127 | Running the initialisation a second time adds nothing |
| Store.InsertInitialKeepsValid | database/db_manager.py:172-175 | Seeding keeps every id unique and below its AUTOINCREMENT counter |
| Store.AddWorkout | database/db_manager.py:204-217 | A failed insert returns no id and changes nothing; otherwise the workout is appended under the counter's id and the counter advances |
| Store.AddWorkoutKeepsValid | database/db_manager.py:207-214 | Inserting a workout keeps ids unique and below the counter |
| Store.WorkoutOn | database/db_manager.py:219-233 | A found workout is stored and has the date; none is found only when no stored workout has it |
| Store.AddSetSafe | database/db_manager.py:236-255 | Succeeds exactly when no fault is raised; a failure changes nothing; a success appends the set with the one-rep max computed from its weight and repetitions |
| Store.AddSetKeepsValid | database/db_manager.py:239-247 | Inserting a set keeps ids unique and below the counter |
| Store.AddSetIgnoresSuppliedOneRm | database/db_manager.py:240-246 | Whatever estimate the caller put on the set, the stored row is the same |
| Store.HistoryPaginated | database/db_manager.py:279-296 | Exactly the slice at the offset of the one ordered history, so at most a page of rows, newest date first and by set id within a day, each a row of the three-table join |
| Store.OrderedHistory | database/db_manager.py:283-291 | Every row of the three-table join exactly once, newest date first and by set id within a day |
| Store.HistoryPagesCoverAll | database/db_manager.py:279-296 | Requesting the pages at offsets 0, size, 2·size and so on, with enough pages for every joined row, returns the ordered history: every joined row once, in order, nothing else |
| Store.BuildConditions | database/db_manager.py:312-325 | At most three conditions; none exactly when no filter is truthy (exercise id 0 is absent); each condition carries its own filter's value |
| Store.ConditionsMeaning | database/db_manager.py:315-329 | A joined row satisfies the conditions exactly when it is on or after the start, on or before the end, and of the selected exercise |
| Store.WhereClause | database/db_manager.py:327-329 | One placeholder per condition, and a WHERE keyword exactly when there is a condition |
| Store.FilteredQuery | database/db_manager.py:298-336 | The number of placeholders equals the number of parameters, and the WHERE keyword appears exactly when a filter is truthy |
| Store.FilteredCountQuery | database/db_manager.py:341-371 | The number of placeholders equals the number of parameters, and the WHERE keyword appears exactly when a filter is truthy |
| Store.FilteredOrdered | database/db_manager.py:332 | The matching rows, permuted into newest-first order |
| Store.FilteredHistory | database/db_manager.py:298-332 | Every row the filters select exactly once, newest first and by set id within a day |
| Store.HistoryFiltered | database/db_manager.py:298-339 | Exactly the slice at the offset of the filtered history, so at most a page of rows, newest first, each a matching row |
| Store.FilteredRecordCount | database/db_manager.py:341-374 | The count is the length of the filtered history the filtered pages are cut from, and never exceeds the joined rows |
| Store.PagesCoverCount | database/db_manager.py:298-374 | Requesting the filtered pages at offsets 0, size, 2·size and so on, with as many pages as the count demands, returns the filtered history: every matching row once, in order, nothing else |
| Store.SetsWithDatesComplete | database/db_manager.py:261-266 | Every set of the exercise whose workout exists takes part in the last-record query |
| Store.LastExerciseRecord | database/db_manager.py:257-277 | The first min(10, n) of the exercise's n dated sets in most-recent-workout-then-set-number order, so one to ten rows, sorted; absent exactly when the exercise has no such set |
| Store.LastRecordNoneIff | database/db_manager.py:271-274 | The answer is absent exactly when no set of the exercise belongs to a stored workout |
| HistoryTab.TotalPages | ui/history_tab.py:242 | At least one page; exactly one for no rows; otherwise the last page starts before the total and the pages hold every row |
| HistoryTab.LastPageNonEmpty | ui/history_tab.py:241-242 | The last page of a non-empty history holds a row and the page after it holds none |
| HistoryTab.PaginationButtons | ui/history_tab.py:273-287 | Previous is enabled exactly past the first page and next exactly before the last; each label carries the disabled mark exactly when its button is disabled |
| HistoryTab.PreviousPage | ui/history_tab.py:437-441 | Steps back one page and reloads exactly when past the first page; otherwise nothing changes |
| HistoryTab.NextPage | ui/history_tab.py:443-450 | Steps forward one page and reloads exactly when before the last page of the total; otherwise nothing changes |
| HistoryTab.NavigationStaysInRange | ui/history_tab.py:437-450 | Neither step leaves the range of pages, and a step that moved is undone by the opposite step |
| HistoryTab.ButtonsMatchHandlers | ui/history_tab.py:273-276 | Each button is enabled exactly when its handler would move, given the unfiltered total |
| HistoryTab.ApplyFilter | ui/history_tab.py:343-347 | Turns the filter on and returns to the first page |
| HistoryTab.RefreshData | ui/history_tab.py:452-455 | Returns to the first page and keeps the filter mode |
| HistoryTab.ClearFilter | ui/history_tab.py:427-435 | Filter off, first page, the last thirty days up to today, all exercises and an empty search |
| HistoryTab.SelectedExercise | ui/history_tab.py:207-210 | No exercise id when "全ての種目" is selected, otherwise the selected entry's id |
| HistoryTab.NarrowBySearch | ui/history_tab.py:229-235 | An order-preserving subsequence of the page holding exactly the rows whose "name variation" contains the search text, or the whole page when the text is blank |
| HistoryTab.FilteredView | ui/history_tab.py:207-242 | The rows are exactly the filtered page at offset page × 50 narrowed by the search text, so at most a page, all matching the search; the page count comes from the filtered total |
| HistoryTab.LoadHistory | ui/history_tab.py:183-271 | The "no data" view exactly for an empty unfiltered history; the filtered view while the filter is on; otherwise page × 50 of the whole history with the page count of the total |
| HistoryTab.NextPageIgnoresFilter | ui/history_tab.py:443-450 | Called directly with 120 rows stored and 10 matching the filter, the handler steps from the only filtered page to a page past the filtered results; the tab itself never makes this call, see NextPageAgreesWhenEnabled |
| HistoryTab.NextPageShown | ui/history_tab.py:242 | The step bounded by the total the page label shows: the filtered count while the filter is on |
| HistoryTab.NextPageShownStaysInRange | ui/history_tab.py:241-242 | With that bound a page within the filtered results stays within them |
| HistoryTab.NextPageAgreesWhenEnabled | ui/history_tab.py:114-115 | The next button is the only caller of the handler and is drawn from the shown total, so whenever the loaded view enables it, the step by the unfiltered total and the step by the shown total are the same step |
| HistoryTab.ParseRecordDateAsWritten | ui/history_tab.py:409-425 | A date or a datetime is returned as it is; a string, or any other value's text, yields nothing exactly when it does not parse as YYYY-MM-DD |
| HistoryTab.ParseRecordDate | ui/history_tab.py:409-425 | A date gives its day and a datetime its date; a string, or any other value's text, gives what parsing YYYY-MM-DD gives |
| HistoryTab.FilterDataAsWritten | ui/history_tab.py:349-407 | An order-preserving subsequence of the records holding exactly those the loop keeps, where comparing a datetime with the filter dates raises and skips the record |
| HistoryTab.FilterData | ui/history_tab.py:377-407 | An order-preserving subsequence holding exactly the records whose date parses and lies in the range, whose `name（variation）` label matches unless all exercises are selected, and whose lower-cased "name variation" contains the stripped, lower-cased search text |
| HistoryTab.AsWrittenDropsDateTimes | ui/history_tab.py:380-386 | Both filters agree on every record whose date is not a datetime; the written one drops every datetime record |
| HistoryTab.DateTimeRecordCounterexample | ui/history_tab.py:412-413 | A set recorded at 10:00 on a day inside the range is kept by the intended filter and dropped by the written one |
| RecordTab.AddSet | ui/record_tab.py:243-252 | Appends one fresh row numbered one past the count, keeping the others, so a form numbered 1..n stays numbered |
| RecordTab.Renumber | ui/record_tab.py:280-286 | Rows numbered 1..n in their order with their values kept |
| RecordTab.RemoveSet | ui/record_tab.py:270-286 | Refused, with the form unchanged, exactly when at most one row is left; otherwise the chosen row goes, the rest keep their order and values and are renumbered 1..n |
| RecordTab.ClearSets | ui/record_tab.py:352-362 | Exactly one fresh row numbered 1 |
| RecordTab.EditsKeepForm | ui/record_tab.py:243-286 | Adding and removing rows keep a numbered form numbered and never empty |
| RecordTab.RemoveUndoesAdd | ui/record_tab.py:243-286 | Removing the row just added gives back the form unchanged |
| RecordTab.ApplyPreviousRecord | ui/record_tab.py:220-241 | With a last record and a first row, that row takes the record's first set, confined to the spin ranges, and every other row is kept; otherwise the form is unchanged |
| RecordTab.Check | ui/record_tab.py:58-63 | A row is valid exactly when its float weight and integer repetitions are both valid, and an invalid row carries a message |
| RecordTab.ValidationErrors | ui/record_tab.py:298-304 | Each failing row appears once, in order, with its 1-based position and its message; the list is empty exactly when every row is valid |
| RecordTab.Succeeded | ui/record_tab.py:338-339 | At most the number of inserts, and equal to it exactly when no insert failed |
| RecordTab.SaveSets | ui/record_tab.py:324-339 | Appends one row per successful insert, in form order, each carrying the workout, the exercise, number i + 1 and row i's values; other tables are untouched |
| RecordTab.FindOrCreateWorkout | ui/record_tab.py:312-322 | The day's existing workout is reused with nothing changed; otherwise one is created; no workout exactly when none existed and creation failed |
| RecordTab.SaveWorkout | ui/record_tab.py:288-350 | Nothing stored without rows, without an exercise, with any invalid row (all reported) or when the workout cannot be created; otherwise one row per successful insert on the day's workout; the form resets to one fresh row exactly when every insert succeeded |
| GoalsTab.Progress | ui/goals_tab.py:141-147 | Zero for a non-positive target; within [0, 100] for a non-negative current weight; 100 once the target is reached; below it, the truncated percentage reached |
| GoalsTab.ProgressEndpoints | ui/goals_tab.py:142-143 | Reaching a positive target exactly gives 100 and no weight gives 0 |
| GoalsTab.ProgressMonotone | ui/goals_tab.py:142-143 | More current weight never shows less progress |
| GoalsTab.ProgressTextOf | ui/goals_tab.py:150-155 | "目標達成！" exactly when nothing remains; otherwise the positive remaining weight, which added to the current weight gives the target, and the bar's percentage |
| GoalsTab.RemainingBelowFull | ui/goals_tab.py:141-155 | A remaining text always comes with a bar short of 100 |
| GoalsTab.LoadGoal | ui/goals_tab.py:87-100 | A new goal leaves the widgets as they are; an existing one puts its exercise and month in, and weights confined to [0, 500] |
| GoalsTab.GetGoalData | ui/goals_tab.py:102-111 | The widget values, with the edited goal's id and achieved flag, or no id and not achieved for a new goal |
| GoalsTab.EditRoundTrip | ui/goals_tab.py:87-111 | Opening a goal whose weights the spin boxes can show and accepting it unchanged gives the same goal back |
| GoalsTab.MarkAsAchieved | ui/goals_tab.py:299-318 | The goal list never changes; "already achieved" exactly for a selected achieved goal; congratulations exactly for a selected unachieved goal whose confirmation was accepted; nothing without a selection |
| GoalDialogV2.Fresh | ui/goal_dialog_v2.py:55-110 | A new dialog keeps every spin box in range, no exercise, 8 repetitions and 3 sets, and the achieved-sets box only when editing |
| GoalDialogV2.LoadGoal | ui/goal_dialog_v2.py:278-298 | Every box stays in range; the goal's exercise is selected only when listed; missing repetitions, sets or achieved sets fall back to 8, 3 and 0; empty notes leave the box as it was |
| GoalDialogV2.GetGoalData | ui/goal_dialog_v2.py:300-313 | Never achieved, best weight 0.0, the edited goal's id or none, achieved sets from the box when present else 0, and empty notes as none |
| GoalDialogV2.EditRoundTrip | ui/goal_dialog_v2.py:278-313 | Opening a showable goal and saving it unchanged gives the same goal, except that it is no longer achieved and its best weight is 0 |
| GoalDialogV2.EditClearsAchieved | ui/goal_dialog_v2.py:311 | Any accepted edit leaves the goal not achieved and keeps its id |
| GoalsTabV2.SectionsIn | ui/goals_tab_v2.py:150-160 | No more sections than listed categories |
| GoalsTabV2.SectionsInSound | ui/goals_tab_v2.py:150-160 | Each section is a listed category holding exactly that category's goals, in list order |
| GoalsTabV2.SectionsInComplete | ui/goals_tab_v2.py:150-160 | Every listed category that has a goal gets its section |
| GoalsTabV2.SectionsInOrdered | ui/goals_tab_v2.py:150-160 | The sections' categories follow the listed order |
| GoalsTabV2.Sections | ui/goals_tab_v2.py:141-160 | Sections follow the order 脚, 胸, 背中, 肩, 腕; each holds exactly its category's goals in list order; every one of these categories with a goal is shown |
| GoalsTabV2.ShownIffKnownCategory | ui/goals_tab_v2.py:159-160 | A listed goal is shown exactly when its category is one of the five |
| GoalsTabV2.Notify | ui/goals_tab_v2.py:227-278 | Hidden exactly when no goal is achievable; otherwise the first three at most are listed, with an "others" line exactly when more than three are achievable |
| GoalsTabV2.NotifyAccountsForAll | ui/goals_tab_v2.py:262-275 | The listed goals and the "others" count add up to the achievable goals, and at most three are listed |
| GoalsTabV2.AddGoal | ui/goals_tab_v2.py:283-314 | A falsy exercise, a non-positive weight and a blank month are reported in that order with nothing stored; otherwise the goal is stored and reported added exactly when the returned id is truthy |
| GoalsTabV2.SpacesAreBlank | ui/goals_tab_v2.py:298 | A month made only of spaces is rejected as blank |
| GoalsTabV2.Achieve | ui/goals_tab_v2.py:357-358 | Achieved with every target set counted, and no other field touched |
| GoalsTabV2.AchieveIdempotent | ui/goals_tab_v2.py:357-358 | Achieving twice is the same as achieving once |
| GoalsTabV2.AchieveGoal | ui/goals_tab_v2.py:345-368 | A declined confirmation changes nothing; a confirmed one marks the goal achieved with every target set counted, keeping its id |
| GoalsTabV2.PendingIdsAreFiltered | ui/goals_tab_v2.py:375-380 | The goals asked about are exactly those not yet achieved, in list order, and the updated count counts those the recalculation reports updated |
| GoalsTabV2.UpdateAllProgress | ui/goals_tab_v2.py:370-390 | Recalculation is asked for exactly the goals not yet achieved, in list order, and the count is the number of those the recalculation reports updated |
| GoalsTabV2.ProgressNoticeOf | ui/goals_tab_v2.py:382-386 | The "nothing to update" message exactly for a zero count; otherwise the count is reported |
| GoalsTabV2.AchievementRate | ui/goals_tab_v2.py:400 | Within [0, 100]; 0 with no goals; otherwise the truncated percentage achieved; 100 exactly when every goal is achieved |
| GoalsTabV2.Statistics | ui/goals_tab_v2.py:392-410 | The total is the number of goals, the achieved count those achieved, achieved plus active is the total, and the rate is the achievement rate |
| BodyCompositionGoals.Fresh | ui/body_composition_goals_tab.py:36-160 | A new dialog keeps every spin box in its range, dates the goal 90 days ahead, has every toggle off and shows the current values at their minimums |
| BodyCompositionGoals.LoadTarget | ui/body_composition_goals_tab.py:233-251 | A truthy stored target switches its toggle on and puts the value, confined to the range, into the box; otherwise the toggle and box are left as they were |
| BodyCompositionGoals.LoadCurrent | ui/body_composition_goals_tab.py:253-261 | A truthy stored current value is put, confined to the range, into its box; otherwise the box is left as it was |
| BodyCompositionGoals.LoadGoal | ui/body_composition_goals_tab.py:216-264 | Fails exactly on a text date that does not parse; otherwise the name and date are loaded, the toggles on are those on before plus those with truthy targets, and non-empty notes replace the box |
| BodyCompositionGoals.TargetValue | ui/body_composition_goals_tab.py:272-275 | A target is present exactly when its toggle is on, with the box's value |
| BodyCompositionGoals.CurrentAsWritten | ui/body_composition_goals_tab.py:278-280 | A current value is absent exactly when the box shows at most zero |
| BodyCompositionGoals.GetGoalDataAsWritten | ui/body_composition_goals_tab.py:266-299 | The targets of the toggles that are on, current values absent only at or below zero, the edited goal's id and achieved flag (none and not achieved for a new goal), and empty notes as none |
| BodyCompositionGoals.CurrentAlwaysPresent | ui/body_composition_goals_tab.py:137-155 | As written no current value can come back absent, because the boxes' minimums are positive |
| BodyCompositionGoals.UnsetCurrentStoredAsMinimum | ui/body_composition_goals_tab.py:137-155 | A new goal whose current weight and fat were left at "未設定" is stored with 30.0 kg and 3.0 % |
| BodyCompositionGoals.GetGoalData | ui/body_composition_goals_tab.py:266-299 | As written, except that a current value at its box's minimum comes back absent |
| BodyCompositionGoals.TargetRoundTrip | ui/body_composition_goals_tab.py:233-275 | A target, absent or one the box shows unchanged, loaded into an untoggled box comes back as it was |
| BodyCompositionGoals.CurrentRoundTrip | ui/body_composition_goals_tab.py:253-280 | A current value, absent or above its minimum and showable, loaded into a box at its minimum comes back as it was |
| BodyCompositionGoals.EditRoundTrip | ui/body_composition_goals_tab.py:216-299 | Every goal the dialog can show comes back unchanged when it is opened in a new dialog and accepted |
| BodyCompositionGoals.AddGoal | ui/body_composition_goals_tab.py:544-567 | A blank or whitespace-only name is refused first, then a goal without any target; otherwise the goal is added exactly when the returned id is truthy |
| BodyCompositionGoals.NoTargetIffNoToggle | ui/body_composition_goals_tab.py:555-558 | A goal from the dialog has no target exactly when every toggle is off |
| BodyStatsDialog.Fresh | ui/body_stats_dialog.py:41-69 | A new dialog shows today and every box at its minimum |
| BodyStatsDialog.LoadDate | ui/body_stats_dialog.py:87-106 | A date, or a datetime by its day, is shown as it is; text that parses as YYYY-MM-DD is shown as that day; unparsable text and any other value fall back to today |
| BodyStatsDialog.LoadValue | ui/body_stats_dialog.py:108-122 | A missing measurement puts the box at its minimum; a present one is rounded to one decimal and confined to the box's range |
| Numeric.ValueAboveMinimum | ui/body_stats_dialog.py:138-149 | A box reads as missing exactly at its minimum, and otherwise as its value |
| BodyStatsDialog.LoadData | ui/body_stats_dialog.py:82-122 | Every box in range, the date as loaded and each measurement as loaded into its box |
| BodyStatsDialog.GetBodyStats | ui/body_stats_dialog.py:124-157 | The edited record's id or none, the shown date, and each measurement absent exactly when its box is at the minimum (weight 20, fat 0, muscle 0) |
| BodyStatsDialog.ValueRoundTrip | ui/body_stats_dialog.py:108-149 | A missing measurement, or one above the minimum and within the maximum at one decimal, comes back unchanged through the box |
| BodyStatsDialog.EditRoundTrip | ui/body_stats_dialog.py:82-157 | A record whose measurements the boxes keep comes back unchanged when opened and accepted |
| BodyStatsDialog.MinimumReadsAsMissing | ui/body_stats_dialog.py:52-58 | A measured 0.0 % body fat comes back as missing |
| BodyStatsTab.Bmi | ui/body_stats_tab.py:320 | The BMI times 1.70 squared is the weight |
| BodyStatsTab.ClassOf | ui/body_stats_tab.py:322-327 | 低体重 exactly below 18.5, 標準 exactly from 18.5 up to 25, 肥満 exactly from 25 on |
| BodyStatsTab.ClassMonotone | ui/body_stats_tab.py:319-327 | A heavier weight never lands in a lighter class |
| BodyStatsTab.ClassThresholds | ui/body_stats_tab.py:319-327 | At 1.70 m the classes change at 53.465 kg and 72.25 kg |
| BodyStatsTab.CellOf | ui/body_stats_tab.py:297-316 | "--" exactly for a falsy value, otherwise the value |
| BodyStatsTab.BmiCellOf | ui/body_stats_tab.py:318-329 | "--" exactly for a falsy weight, otherwise the BMI with its class |
| BodyStatsTab.RowOf | ui/body_stats_tab.py:290-334 | The record's date and cells, with no BMI exactly when the weight cell is "--" |
| BodyStatsTab.Series | ui/body_stats_tab.py:413-424 | Every record holding the value contributes its own date and value, and every point comes from such a record |
| BodyStatsTab.SeriesInOrder | ui/body_stats_tab.py:421-424 | The series is the value-holding records, in their order, as points |
| StatsTab.WindowStart | ui/stats_tab.py:245-249 | A lower bound exactly when the period is positive, lying that many days before today |
| StatsTab.InPeriod | ui/stats_tab.py:251-269 | Exactly one row per set of the exercise with a stored workout inside the period, in table order: every such set appears, and nothing else |
| StatsTab.ExerciseData | ui/stats_tab.py:242-271 | The period's rows of the exercise, each as often as in the query result, ordered by date then set number |
| StatsTab.ChartOrder | ui/stats_tab.py:258 | The same rows, each as often as before, ordered by date then set number |
| StatsTab.DailyMax | ui/stats_tab.py:286-294 | Keys are exactly the days with rows; each value is the largest of that day's values and is attained |
| StatsTab.DailySum | ui/stats_tab.py:360-368 | Keys are exactly the days with rows; each value is the sum of that day's values |
| StatsTab.PlotDates | ui/stats_tab.py:297 | Each day with data once, strictly ascending |
| StatsTab.MaxSeries | ui/stats_tab.py:286-298 | One point per day with data, ascending, each the attained maximum of the day |
| StatsTab.EmptyChartIffNoData | ui/stats_tab.py:280-283 | The series is empty exactly when there are no rows |
| StatsTab.OneRmSeries | ui/stats_tab.py:286-298 | Per day, the largest estimate, a missing or zero estimate counting as 0 |
| StatsTab.WeightSeries | ui/stats_tab.py:323-335 | Per day, the heaviest set |
| StatsTab.VolumeSeries | ui/stats_tab.py:360-372 | Per day, the sum of weight times reps of that day's sets |
| StatsTab.VolumeSeriesAddsUp | ui/stats_tab.py:360-372 | The bars of the volume chart add up to the total volume of all rows |
| StatsTab.RecordedOneRms | ui/stats_tab.py:519 | Exactly the estimates that are present and non-zero |
| StatsTab.MaxWeight | ui/stats_tab.py:524 | The largest weight, attained by some row |
| StatsTab.MaxRecordedOneRm | ui/stats_tab.py:526 | Absent exactly when no row has a truthy estimate; otherwise the largest such estimate |
| StatsTab.MeanOf | ui/stats_tab.py:525 | The mean of n values with the given total |
| StatsTab.ExerciseSummaryOf | ui/stats_tab.py:516-529 | Absent exactly for no rows; otherwise set count, attained maximum weight, mean weight, largest recorded estimate or none, total volume and mean volume |
| StatsTab.ChartPeak | ui/stats_tab.py:323-335 | A weight some row reaches and no row exceeds is the highest point of the weight chart |
| StatsTab.SummaryPeakIsChartPeak | ui/stats_tab.py:323-335 | The table's maximum weight is the highest point of the weight chart |
| StatsTab.SummaryVolumeIsChartTotal | ui/stats_tab.py:360-372 | The table's total volume is the sum of the volume chart's bars |
| StatsTab.JoinedWithWorkout | ui/stats_tab.py:541-542 | Each joined row is a set paired with its stored workout's date |
| StatsTab.JoinedWithWorkoutComplete | ui/stats_tab.py:541-542 | Every set whose workout is stored appears in the join |
| StatsTab.PeriodRows | ui/stats_tab.py:533-555 | Exactly one row per joined set inside the period, in table order, and empty exactly when none falls inside |
| StatsTab.OverallFromRows | ui/stats_tab.py:537-565 | Absent for no rows; otherwise distinct days, set count, days between 1 and sets, sets per day, average weight and total volume each absent exactly when falsy |
| StatsTab.OverallSummaryOf | ui/stats_tab.py:557-565 | Absent exactly when no joined row falls inside the period |
| StatsTab.OverallEmptyIff | ui/stats_tab.py:557-565 | The whole-training table is empty exactly when no stored set has a stored workout inside the period |
| StatsTab.SetInPeriodHasRow | ui/stats_tab.py:537-555 | A set with a stored workout inside the period yields a row |
| StatsTab.RowHasSetInPeriod | ui/stats_tab.py:537-555 | A row comes from a stored set whose workout lies inside the period |
| StatsTab.UpdateStatsTable | ui/stats_tab.py:509-565 | The per-exercise table exactly for a progress chart with a truthy exercise id, empty exactly without data; otherwise the whole-training table |
| StatsTab.CategoryRows | ui/stats_tab.py:398-417 | Exactly one row per joined set inside the period, in table order, each with its exercise's category and its workout's date |
| StatsTab.CategoryRowsSound | ui/stats_tab.py:398-417 | Every category row is the category and date of some joined set |
| StatsTab.CategoriesOf | ui/stats_tab.py:404 | Each category that has rows, once |
| StatsTab.RankedCategories | ui/stats_tab.py:404-405 | The categories with rows, once each, largest count first |
| StatsTab.Ranked | ui/stats_tab.py:404-405 | One bar per category with rows, each with its count, largest first |
| StatsTab.SetsPerCategory | ui/stats_tab.py:458-479 | One bar per category with rows, each holding its number of sets, largest first |
| StatsTab.SetsPerCategoryAddUp | ui/stats_tab.py:481-489 | The pie wedges add up to the number of rows |
| StatsTab.DatesIn | ui/stats_tab.py:399 | The dates of a category's rows, one per row, all of them |
| StatsTab.DaysPerCategory | ui/stats_tab.py:398-419 | One bar per category with rows, each holding its number of distinct days, largest first |
| StatsTab.DaysAtMostSets | ui/stats_tab.py:399 | A trained category has at least one day and no more days than sets |
| CsvImporter.FirstKey | utils/csv_workout_importer.py:94-96 | The first mapping key the name contains, every earlier key absent; none exactly when no key occurs |
| CsvImporter.ExtractExercise | utils/csv_workout_importer.py:79-99 | Bench exactly when a bench key but no squat key occurs; deadlift exactly when only a deadlift key occurs; squat otherwise, including the default |
| CsvImporter.LongSquatKeyShadowed | utils/csv_workout_importer.py:86-87 | A name containing the long squat key already contains the short one, so the long key never decides |
| CsvImporter.ChooseExercise | utils/csv_workout_importer.py:44-53 | Without a name the file-name guess; with one the given details, rejected exactly when one is empty |
| CsvImporter.FindExerciseByInfo | utils/csv_workout_importer.py:226-231 | A stored exercise matching name, variation and category; none exactly when no stored one matches |
| CsvImporter.GetOrCreateExercise | utils/csv_workout_importer.py:222-250 | The stored id when the exercise exists; otherwise a new exercise under the next id, or nothing on a fault with the database unchanged |
| CsvImporter.GetOrCreateOnce | utils/csv_workout_importer.py:222-250 | Asking twice for the same exercise creates it at most once and gives the same id |
| CsvImporter.FindAfterMisses | utils/csv_workout_importer.py:227-231 | A prefix without a match does not change the search's answer |
| CsvImporter.SetColumnInjective | utils/csv_workout_importer.py:161-163 | Different set numbers or kinds name different columns, so each set reads cells of its own |
| CsvImporter.ParseSet | utils/csv_workout_importer.py:160-180 | A set is kept exactly when weight and reps are positive numbers and the 1RM cell is not text; its estimate is the recorded one when positive, else the Epley estimate; text reached by a comparison breaks the row |
| CsvImporter.KeptOneRmPositive | utils/csv_workout_importer.py:170-179 | A kept set has positive weight and a positive one-rep max |
| CsvImporter.SetsFrom | utils/csv_workout_importer.py:160-180 | The kept sets in strictly increasing column order, each the set its own columns give |
| CsvImporter.SetsFromFails | utils/csv_workout_importer.py:160-180 | A failure exactly when some set's cells cannot be compared |
| CsvImporter.SetsFromComplete | utils/csv_workout_importer.py:160-180 | Every kept set is present |
| CsvImporter.ParseDate | utils/csv_workout_importer.py:197-214 | Fails exactly when no format matches; the first format wins when it matches |
| CsvImporter.ParseRow | utils/csv_workout_importer.py:146-195 | A record only for a usable date; it holds the parsed date and one to five kept sets in increasing set order, each the set its columns give |
| CsvImporter.ParseRowFails | utils/csv_workout_importer.py:146-195 | No record exactly when the date is unusable, some set's cells cannot be compared, or no set is kept |
| CsvImporter.ParseRowComplete | utils/csv_workout_importer.py:160-189 | Every kept set of the row is in its record |
| CsvImporter.SetCountBound | utils/csv_workout_importer.py:160 | Strictly increasing set numbers between 1 and 5 are at most five |
| CsvImporter.ParseRows | utils/csv_workout_importer.py:112-123 | Every row that parses contributes its record, and every record comes from some row |
| CsvImporter.ParseRowsAppend | utils/csv_workout_importer.py:112-123 | The records of two runs of rows are those of the first run then those of the second: row order is kept |
| CsvImporter.ParseRowsOne | utils/csv_workout_importer.py:112-123 | One row gives its record or nothing, and the number of records is the number of rows that parse |
| CsvImporter.DetectSets | utils/csv_workout_importer.py:354-359 | Exactly the set numbers with both weight and reps columns, ascending |
| CsvImporter.ValidateCsvFormat | utils/csv_workout_importer.py:346-375 | Invalid with no columns for an unreadable file; otherwise valid exactly when a Date column and some set columns exist, with the detected sets exactly the set numbers 1-5 whose weight and repetition columns both exist, ascending |
| CsvImporter.FindExisting | utils/csv_workout_importer.py:312-331 | A workout on that day holding a set of the exercise; none exactly when no such workout exists |
| CsvImporter.AppendSetRows | utils/csv_workout_importer.py:287-296 | One row per set appended in set order under consecutive ids, in the workout and exercise, with the set's number, weight, reps and estimate; each counted when its id is non-zero |
| CsvImporter.InsertSets | utils/csv_workout_importer.py:287-296 | Those rows appended to the sets table and the counter advanced past them, nothing else changed; every set counted when the counter is positive |
| CsvImporter.ReplaceSets | utils/csv_workout_importer.py:273-278 | The sets table afterwards is the old table without the workout's sets of the exercise, followed by the new rows; the workouts untouched; the workout holds the exercise afterwards when there was a set |
| CsvImporter.ReplaceSetsReplaces | utils/csv_workout_importer.py:265-278 | After an overwrite the workout's sets of the exercise are exactly the record's new rows, and every other set is as it was, in its order |
| CsvImporter.CreateWorkout | utils/csv_workout_importer.py:279-296 | Not created exactly on a fault or a falsy id, with nothing changed on a fault; otherwise the tables only grow, the sets table by exactly the record's sets, and the day is covered when there is a set |
| CsvImporter.DeleteSets | utils/csv_workout_importer.py:333-344 | Exactly the exercise's sets in that workout removed |
| CsvImporter.ImportOne | utils/csv_workout_importer.py:260-298 | Skipped exactly when the day is covered and overwrite is off; when overwriting a covered day, the found workout's sets of the exercise are deleted and the new rows appended; not created exactly when a new workout fails; otherwise the sets written and the day covered |
| CsvImporter.ImportFrom | utils/csv_workout_importer.py:252-306 | Counts every record, at most one outcome per record, never skips when overwriting, only grows the database without overwrite |
| CsvImporter.CoveredKept | utils/csv_workout_importer.py:312-331 | Without deletions a covered day stays covered |
| CsvImporter.ImportCovers | utils/csv_workout_importer.py:252-306 | After a fault-free import every record's day is covered |
| CsvImporter.CoveredRecordsSkipped | utils/csv_workout_importer.py:267-270 | Records whose days are covered are all skipped and nothing changes |
| CsvImporter.ImportTwiceSkipsAll | utils/csv_workout_importer.py:252-310 | A second import of the same file without overwrite skips every record and changes nothing |
| CsvImporter.ImportWorkoutCsv | utils/csv_workout_importer.py:24-77 | Succeeds exactly when the exercise details are complete and the exercise is found or created; then it counts the parsed records, one outcome each when no workout creation fails, only grows the tables without overwrite, and leaves every parsed record's day covered after a fault-free import without overwrite |
| ExcelImporter.FindHeaderRow | utils/excel_body_stats_importer.py:116-123 | The first of the first ten rows holding a cell with the header word, every earlier one without; none exactly when no such row exists |
| ExcelImporter.LastWhere | utils/excel_body_stats_importer.py:135-155 | The last index satisfying the test, none exactly when no element does |
| ExcelImporter.LastName | utils/excel_body_stats_importer.py:135-155 | The name of the last header cell of that kind, none exactly when no cell is of that kind |
| ExcelImporter.CreateColumnMapping | utils/excel_body_stats_importer.py:125-159 | Each measurement is mapped to the last column of its kind |
| ExcelImporter.DateKeywordWins | utils/excel_body_stats_importer.py:141-143 | A normalised name holding a date keyword is the date column whatever else it holds |
| ExcelImporter.KgRequired | utils/excel_body_stats_importer.py:145-155 | Weight and muscle columns hold "kg" in the normalised name |
| ExcelImporter.MarkSurvivesNormalising | utils/excel_body_stats_importer.py:121-139 | The header word survives lower-casing and stripping |
| ExcelImporter.MarkNamesDateColumn | utils/excel_body_stats_importer.py:121-143 | The cell that marks the header row names a date column |
| ExcelImporter.HeaderRowHasDateColumn | utils/excel_body_stats_importer.py:88-98 | When a header row is found, the mapping has a date column |
| ExcelImporter.CellUnder | utils/excel_body_stats_importer.py:198-210 | The cell of the only column with that name; a missing column reads as NaN |
| ExcelImporter.Named | utils/excel_body_stats_importer.py:205 | Exactly the indices of the columns with that name, ascending |
| ExcelImporter.SerialDate | utils/excel_body_stats_importer.py:255-261 | 1900-01-01 plus serial minus 2 days, none when that day is not representable |
| ExcelImporter.SerialDates | utils/excel_body_stats_importer.py:258 | Serial 2 is 1900-01-01 and consecutive serials are consecutive days |
| ExcelImporter.ParseDate | utils/excel_body_stats_importer.py:220-267 | NaN gives none; a date or datetime gives its day; text is stripped and tried against the formats; a number is a serial date |
| ExcelImporter.DigitRun | utils/excel_body_stats_importer.py:287 | The length of the run of digits at the start |
| ExcelImporter.FirstNumber | utils/excel_body_stats_importer.py:287-290 | A number exactly when the text holds a digit |
| ExcelImporter.NumberWithUnit | utils/excel_body_stats_importer.py:287-289 | A whole number followed by a unit reads as that number |
| ExcelImporter.DropCommasKeepsDigits | utils/excel_body_stats_importer.py:287 | Removing commas keeps exactly the same digits present |
| ExcelImporter.StripKeepsDigits | utils/excel_body_stats_importer.py:281 | Stripping keeps exactly the same digits present |
| ExcelImporter.ParseFloat | utils/excel_body_stats_importer.py:269-297 | NaN and dates give none; numbers as they are; text gives a number exactly when it holds a digit, the first number after dropping commas |
| ExcelImporter.ParseRowSafe | utils/excel_body_stats_importer.py:161-196 | A record exactly when a date column exists, its cell parses as a date and the weight parses; the record holds those values |
| ExcelImporter.ParseDataRows | utils/excel_body_stats_importer.py:100-111 | Every row that parses contributes its record, and every record comes from some row |
| ExcelImporter.ParseDataRowsInOrder | utils/excel_body_stats_importer.py:100-111 | The records of two runs of rows are those of the first then the second, one row gives its record or nothing, and the count is the number of rows that parse |
| ExcelImporter.CleanAndValidate | utils/excel_body_stats_importer.py:82-114 | An error exactly when no header row is found; otherwise the records of the rows below it |
| ExcelImporter.Merge | utils/excel_body_stats_importer.py:313-316 | Each measurement takes the record's value when truthy, else keeps the stored one |
| ExcelImporter.ImportOne | utils/excel_body_stats_importer.py:306-342 | Skipped exactly for a stored day without overwrite; updated exactly for a stored day with overwrite and success; imported exactly for a new day with success; otherwise nothing changes |
| ExcelImporter.OverwriteMerges | utils/excel_body_stats_importer.py:311-319 | After overwriting, the day reads as the merge of the stored row and the record |
| ExcelImporter.ImportAll | utils/excel_body_stats_importer.py:299-350 | Every record counted once in exactly one counter, no skips when overwriting, no updates and only growth without |
| ExcelImporter.ImportAllKeepsValid | utils/excel_body_stats_importer.py:299-350 | Ids stay unique and below the counter |
| ExcelImporter.ImportAllKeepsDays | utils/excel_body_stats_importer.py:299-350 | A day with a row keeps one |
| ExcelImporter.ImportAllCovers | utils/excel_body_stats_importer.py:299-350 | With every call succeeding, every record's day ends with a row |
| ExcelImporter.CoveredRecordsSkipped | utils/excel_body_stats_importer.py:311-323 | Records whose days all have rows are all skipped without overwrite and nothing changes |
| ExcelImporter.ImportTwiceSkipsAll | utils/excel_body_stats_importer.py:299-350 | A second import without overwrite skips every record and changes nothing |
| ExcelImporter.ImportFromExcel | utils/excel_body_stats_importer.py:21-52 | An error exactly without a header row; otherwise every record processed, only growth without overwrite, ids kept valid |
| ExcelImporter.ValidateExcelFormat | utils/excel_body_stats_importer.py:419-469 | Valid exactly with a header row, date and weight columns and a data row; the data-row count; only the weight can be reported missing |
| ExcelImporter.TruthyValues | utils/excel_body_stats_importer.py:388 | Exactly the truthy values, each from the records |
| ExcelImporter.TruthyValuesAppend | utils/excel_body_stats_importer.py:388 | The truthy values of consecutive runs of records are those of each run, in order, so each truthy value is kept as often as it occurs |
| ExcelImporter.TruthyValuesOne | utils/excel_body_stats_importer.py:388 | One value gives itself exactly when it is truthy |
| ExcelImporter.StatsOf | utils/excel_body_stats_importer.py:388-395 | None exactly without truthy values; otherwise the count of truthy values, a minimum and maximum that are truthy values and bound every one, and the average times the count equal to their sum |
| ExcelImporter.PreviewStatsOf | utils/excel_body_stats_importer.py:383-417 | Each measurement's statistics are absent exactly when no record holds a truthy value |
| ExcelImporter.EarliestDay | utils/excel_body_stats_importer.py:368 | The smallest record day, attained |
| ExcelImporter.LatestDay | utils/excel_body_stats_importer.py:369 | The largest record day, attained |
| ExcelImporter.PreviewOf | utils/excel_body_stats_importer.py:361-378 | The record count, a range holding every day, per-measurement counts of truthy values, the first five records and the statistics |
| ExcelImporter.PreviewImportData | utils/excel_body_stats_importer.py:352-381 | An error exactly for an unreadable sheet, no header row or no records; otherwise the count, a range holding every day, per-measurement counts, the first five records and the statistics |
| HealthImporter.ZoneCleaned | utils/health_data_importer.py:141 | No "Z" is left, and a text without one is unchanged |
| HealthImporter.ZoneCleanedIsReplace | utils/health_data_importer.py:141 | The cleaning is replacing every "Z" by "+0000" |
| HealthImporter.UtcSuffix | utils/health_data_importer.py:141 | A trailing "Z" becomes the offset "+0000" |
| HealthImporter.ParseAppleDateTime | utils/health_data_importer.py:130-154 | A day exactly when a pattern or the ISO fallback parses the cleaned text; the first pattern that parses decides |
| HealthImporter.FirstParsingUnique | utils/health_data_importer.py:143-147 | Only one pattern is the first that parses |
| HealthImporter.EntryOf | utils/health_data_importer.py:73-89 | An entry exactly for a record of the type with a start date and value that parse; its day and its value times the scale |
| HealthImporter.EntriesOf | utils/health_data_importer.py:73-92 | Every record that yields an entry contributes it, and every entry comes from a record |
| HealthImporter.EntriesInOrder | utils/health_data_importer.py:73-92 | The entries of two runs of records are those of the first then the second, one record gives its entry or nothing, and the count is the number of records of the type that parse |
| HealthImporter.Extract | utils/health_data_importer.py:68-98 | The entries sorted by day, a permutation of those the records yield, each included |
| HealthImporter.ExtractFromRecords | utils/health_data_importer.py:68-98 | Every sorted entry is one a record yields |
| HealthImporter.EntrySource | utils/health_data_importer.py:105-120 | An entry comes from a record of the type whose value converts, scaled |
| HealthImporter.FatIsPercentage | utils/health_data_importer.py:114-119 | A body-fat entry is a record's fraction times 100 |
| HealthImporter.NewRow | utils/health_data_importer.py:175-181 | A new row on the entry's day holding only that measurement |
| HealthImporter.ImportEntry | utils/health_data_importer.py:160-189 | Counted exactly when the call succeeds; a stored day gets the field replaced, a new day gets a new row; a failure changes nothing |
| HealthImporter.ImportEntryStores | utils/health_data_importer.py:163-185 | After success the day reads the new value, an existing row's other measurements kept |
| HealthImporter.ImportEntryKeepsValid | utils/health_data_importer.py:156-191 | Ids stay unique and below the counter |
| HealthImporter.ImportEntryTouchesOneField | utils/health_data_importer.py:165-168 | Every existing row keeps its id, day and other measurements |
| HealthImporter.ImportEntries | utils/health_data_importer.py:156-225 | The count is the number of successful calls, at most the entries; rows only grow |
| HealthImporter.ImportEntriesKeepsValid | utils/health_data_importer.py:156-225 | A whole import keeps ids unique and below the counter |
| HealthImporter.ImportEntriesTouchOneField | utils/health_data_importer.py:193-225 | A whole import leaves every existing row's other measurements as they were |
| HealthImporter.ImportFromExport | utils/health_data_importer.py:20-66 | The total is the sum of both counts, each bounded by its entries; rows only grow; ids stay valid |
| HealthImporter.TruthyValues | utils/health_data_importer.py:262 | Exactly the non-zero values, each from an entry |
| HealthImporter.TruthyValuesAppend | utils/health_data_importer.py:262 | The non-zero values of consecutive runs of entries are those of each run, in order, and one entry gives its value exactly when it is non-zero |
| HealthImporter.RangeStatsOf | utils/health_data_importer.py:257-270 | All empty for no entries; otherwise the first and last days, and min, average and max absent exactly without non-zero values; the min and max are themselves non-zero values of the entries, bound every non-zero value, and the average times their count is their sum |
| HealthImporter.SortedRange | utils/health_data_importer.py:265-266 | For sorted entries the first and last days bound every day |
| HealthImporter.SectionOf | utils/health_data_importer.py:241-250 | The count, the first five entries and the statistics, the range bounding every day when sorted |
| HealthImporter.PreviewImportData | utils/health_data_importer.py:227-255 | The weight and body-fat sections, each range bounding every day of its entries |
| Cache.FileName | utils/cache_manager.py:37 | The key followed by the ".cache" suffix |
| Cache.FileNameInjective | utils/cache_manager.py:37 | Different keys have different files |
| Cache.Get | utils/cache_manager.py:34-59 | A value exactly when the file exists and is not expired, leaving the directory unchanged; otherwise the file is gone |
| Cache.Set | utils/cache_manager.py:61-71 | The key's file holds the value stamped now; every other file is unchanged |
| Cache.GetAfterSet | utils/cache_manager.py:34-71 | A value set is read back until it expires, and not after |
| Cache.OtherKeysUntouched | utils/cache_manager.py:34-71 | Setting or reading one key leaves every other key's file alone |
| Cache.Clear | utils/cache_manager.py:73-91 | Exactly the ".cache" files removed, other files kept |
| Cache.NothingAfterClear | utils/cache_manager.py:73-91 | After clearing no key is found |
| Cache.ClearExpired | utils/cache_manager.py:93-117 | Exactly the expired ".cache" files removed |
| Cache.ClearExpiredKeepsAnswers | utils/cache_manager.py:93-117 | Clearing expired files changes no answer at the same moment, and doing it twice is doing it once |
| Cache.ExpiredFiles | utils/cache_manager.py:136-147 | The expired files are among the cache files |
| Cache.GetCacheInfo | utils/cache_manager.py:119-156 | The lifetime in minutes, the counts of cache files and expired ones, expired at most total |
| Cache.NoExpiredAfterClearExpired | utils/cache_manager.py:93-156 | After clearing expired files none is reported expired |
| Cache.GetBodyStatsCached | utils/cache_manager.py:167-182 | A hit returns the cached list unchanged; a miss returns the database's list, cached only when non-empty |
| Cache.SecondLoadUsesCache | utils/cache_manager.py:167-182 | After a miss with data, every load within the lifetime returns the first result whatever the database holds |
| Cache.InvalidateBodyStatsCache | utils/cache_manager.py:189-197 | Only the body-measurement file removed |
| Cache.LoadAfterInvalidate | utils/cache_manager.py:189-197 | After invalidation the next load reads the database |

## Left out

- Qt widgets, layouts, message boxes and matplotlib drawing: only the values shown or plotted are modelled.
- The QThread workers and the import dialogs: they are concurrency and glue around the importers.
- ui/goal_widget_v2.py is not part of this model. It is presentation, and it calls goal methods whose code is not available.
- The v2 and body-composition goal database methods: `get_all_goals_v2`, `calculate_goal_progress_v2`, `get_achievable_goals_v2`, `update_body_composition_goal_progress` and the like. Their code is not available, so they enter as parameters: a list of goals, a recalculation result, an achievable list.
- The database manager's body-measurement methods are represented by `BodyTable` under the assumptions stated above.
- The SQLite engine: tables are sequences of rows. Ties in ORDER BY (rows equal in every sort key) are broken by the model's stable insertion sort, which keeps table order; SQLite may return tied rows in another order, so the pages are pinned to one ordering that SQLite is free to differ from only among tied rows.
- pandas, openpyxl and ElementTree parsing, and the encoding and engine fallbacks. A sheet is a sequence of rows of cells; an XML document is a sequence of `Record` attributes.
- The Excel reader consumes the first sheet row as column labels. The model works on the rows `_find_header_row` sees.
- ExcelImporter.CellUnder: duplicate column names (pandas returns a Series there) read as NaN rather than raising.
- ExcelImporter.ParseFloat: a cell of another type, converted with `float(str(v))`, gives nothing. numpy integer types count as plain numbers.
- HealthImporter: the `unit` attribute is read but never used, so it is not modelled.
- HealthImporter: the 500 MB size warning only logs, so it is not modelled.
- HealthImporter.Extract: the stability of Python's sort is not stated; the result is sorted and a permutation.
- HealthImporter.ParseAppleDateTime: the second `replace('Z', '+00:00')` is a no-op once every "Z" is gone, and is dropped.
- HealthImporter.ImportEntries: an exception raised by a database call is modelled as a failed call; the count is the same.
- Failing database reads. In the source a read that raises is logged and answered as if nothing were stored. The model's reads always see the stored rows, so it does not show the consequences of such a failure:
  - `get_workout_by_date` (database/db_manager.py:231-233) and `_find_existing_workout` (utils/csv_workout_importer.py:328-330) answer None. `RecordTab.FindOrCreateWorkout` and `CsvImporter.ImportOne` would then create a second workout for a day that has one.
  - `get_all_exercises` (database/db_manager.py:186-188) answers an empty list. `CsvImporter.GetOrCreateExercise` would then insert a duplicate exercise.
  - `get_history_paginated`, `get_history_filtered` and `get_filtered_record_count` (database/db_manager.py:294-296, 337-339, 372-374) answer an empty page or 0, and `get_last_exercise_record` (275-277) answers None. The history and record tabs would then show no rows.
- CsvImporter.DeleteSets: a failing delete re-raises (utils/csv_workout_importer.py:342-344) and aborts the whole import. The model's delete always succeeds.
- CsvImporter.InsertSets: a set insert either succeeds or reports id 0. An exception inside one would abort the whole import; that is not modelled.
- CsvImporter.FindExisting: SQLite's `fetchone` order is not specified. The model returns the first matching workout in table order.
- CsvImporter.ValidateCsvFormat: column names are compared as given. The import path strips them before use, and the rows handed to `ParseRow` are taken to have stripped names.
- ExcelImporter.FirstNumber: only the ASCII digits 0-9 are digits. Python's `\d` and `float()` also accept other Unicode decimal digits, such as the full-width ０-９, which the model reads as non-digits.
- BodyStatsTab.Series: the tab as written plots hard-coded sample points instead of the stored measurements, marked as unfinished at ui/body_stats_tab.py:278-283 and 343-348. The model plots the stored measurements those placeholders stand for.
- Text.Lower folds only ASCII letters. The program's own keywords are ASCII, but the history search also lower-cases free text.
- HistoryTab.NarrowBySearch / HistoryTab.FilterData: only ASCII letters are case-folded; Python also folds other scripts. At ui/history_tab.py:230, 234, 375 and 396, `str.lower()` also folds É to é, full-width Ｂ to ｂ, and Greek and Cyrillic capitals, so a search with such letters can match rows the model does not.
- Floating-point formatting (`:.1f`, `:.0f`) and binary rounding are not modelled: values are exact reals.
- Validation: the `except Exception` branches are unreachable for the typed inputs modelled, so they are left out.
- Cache: file sizes (`total_size_mb`), pickling errors, and failures to remove or write a file are not modelled. A failing `set` is silently ignored in the source, which leaves the directory as it was.
- Cache: time is a real number of seconds rather than an integer clock. This is the more general choice.
- GoalsTab.LoadGoal: assumes the goal's exercise is listed in the combo box. Otherwise the source leaves the selection where it was.
- GoalsTab.MarkAsAchieved: the legacy tab persists nothing on "achieve". The source marks this as unfinished and the model follows it.
- StatsTab: the text labels of the summary tables are not modelled, only the numbers behind them.

## Findings

| source | as written | input that shows it | evidently intended | confidence | as-written member | corrected member |
|---|---|---|---|---|---|---|
| ui/history_tab.py:409-425 | `_parse_record_date` returns a datetime unchanged, because a datetime is a date. The range comparison with a date at line 385 then raises TypeError, and the record is dropped. | A record dated 10:00 on day 100, filter range 95..105, all exercises, empty search | The datetime's date is compared, and the record is kept | not executed | HistoryTab.FilterDataAsWritten, HistoryTab.DateTimeRecordCounterexample | HistoryTab.FilterData |
| ui/body_composition_goals_tab.py:278-280 | A current value counts as unset only at or below 0, but the boxes' minimums shown as "未設定" are 30, 20 and 3 | A new goal saved with the current weight left at "未設定" stores a current weight of 30.0 kg | A box at its "未設定" minimum gives no value | not executed | BodyCompositionGoals.GetGoalDataAsWritten, BodyCompositionGoals.UnsetCurrentStoredAsMinimum | BodyCompositionGoals.GetGoalData |

=== FILE: body_composition_goals.dfy ===
/**
 * The body-composition goals tab: the goal dialog (optional targets switched
 * on by toggle buttons, current values, notes), loading a stored goal into it,
 * the goal it returns, and the checks `add_goal` makes before storing.
 */
module BodyCompositionGoals {
  import opened Wrappers
  import opened Numeric
  import opened Text
  import opened Models

  /** A body-composition goal as the dialog builds it. Its class lives outside
      the shown models file; its fields are those the dialog fills. */
  datatype BodyGoal = BodyGoal(
    id: Option<int>, name: string,
    targetWeight: Option<real>, targetMuscle: Option<real>, targetFat: Option<real>, targetBmi: Option<real>,
    targetDate: Day,
    currentWeight: Option<real>, currentMuscle: Option<real>, currentFat: Option<real>,
    notes: Option<string>, achieved: bool)

  /** A stored target date: a date, or `YYYY-MM-DD` text parsed on loading. */
  datatype StoredDate = AsDate(day: Day) | AsText(text: string)

  /** The ranges of the spin boxes: a target and the current value share one. */
  const WeightLo := 30.0
  const WeightHi := 200.0
  const MuscleLo := 20.0
  const MuscleHi := 150.0
  const FatLo := 3.0
  const FatHi := 50.0
  const BmiLo := 15.0
  const BmiHi := 35.0

  /** One toggle button with its spin box. */
  datatype Target = Target(on: bool, value: real)

  /** The dialog's widgets. */
  datatype Widgets = Widgets(
    name: string, date: Day,
    weight: Target, muscle: Target, fat: Target, bmi: Target,
    currentWeight: real, currentMuscle: real, currentFat: real,
    notes: string)

  /** Every spin box within its range. */
  predicate InRange(w: Widgets) {
    WeightLo <= w.weight.value <= WeightHi && MuscleLo <= w.muscle.value <= MuscleHi
    && FatLo <= w.fat.value <= FatHi && BmiLo <= w.bmi.value <= BmiHi
    && WeightLo <= w.currentWeight <= WeightHi && MuscleLo <= w.currentMuscle <= MuscleHi
    && FatLo <= w.currentFat <= FatHi
  }

  /** A new dialog: the default name, a date 90 days ahead, every toggle off
      with targets 75 kg / 65 kg / 10 % / BMI 22, and the current values at
      their minimums, where the boxes show "未設定". */
  function Fresh(today: Day): (w: Widgets)
    ensures InRange(w) && w.date == today + 90
    ensures !w.weight.on && !w.muscle.on && !w.fat.on && !w.bmi.on
    ensures w.currentWeight == WeightLo && w.currentMuscle == MuscleLo && w.currentFat == FatLo
  {
    Widgets("夏までのボディメイク", today + 90,
            Target(false, 75.0), Target(false, 65.0), Target(false, 10.0), Target(false, 22.0),
            WeightLo, MuscleLo, FatLo, "")
  }

  /** A stored target: a truthy value switches the toggle on and is put into
      the spin box; otherwise the widget is left as it was. */
  function LoadTarget(t: Target, stored: Option<real>, lo: real, hi: real): (r: Target)
    requires lo <= hi && lo <= t.value <= hi
    ensures lo <= r.value <= hi
    ensures Truthy(stored) ==> r.on && r.value == SpinReal(stored.value, lo, hi)
    ensures !Truthy(stored) ==> r == t
  {
    if Truthy(stored) then Target(true, SpinReal(stored.value, lo, hi)) else t
  }

  /** A stored current value: a truthy one is put into the spin box. */
  function LoadCurrent(v: real, stored: Option<real>, lo: real, hi: real): (r: real)
    requires lo <= hi && lo <= v <= hi
    ensures lo <= r <= hi
    ensures Truthy(stored) ==> r == SpinReal(stored.value, lo, hi)
    ensures !Truthy(stored) ==> r == v
  {
    if Truthy(stored) then SpinReal(stored.value, lo, hi) else v
  }

  /** `load_goal_data`: the name, the target date (text is parsed with `parse`,
      the `strptime` of the source, whose failure propagates as an error:
      `None`), the truthy targets with their toggles, the truthy current
      values and non-empty notes. */
  function LoadGoal(w: Widgets, goal: BodyGoal, storedDate: StoredDate, parse: string -> Option<Day>): (r: Option<Widgets>)
    requires InRange(w)
    ensures r.None? <==> storedDate.AsText? && parse(storedDate.text).None?
    ensures r.Some? ==> InRange(r.value) && r.value.name == goal.name
    ensures r.Some? ==> r.value.date == (if storedDate.AsDate? then storedDate.day else parse(storedDate.text).value)
    ensures r.Some? ==> (r.value.weight.on <==> w.weight.on || Truthy(goal.targetWeight))
    ensures r.Some? ==> (r.value.muscle.on <==> w.muscle.on || Truthy(goal.targetMuscle))
    ensures r.Some? ==> (r.value.fat.on <==> w.fat.on || Truthy(goal.targetFat))
    ensures r.Some? ==> (r.value.bmi.on <==> w.bmi.on || Truthy(goal.targetBmi))
    ensures r.Some? ==> r.value.notes == (if goal.notes.Some? && goal.notes.value != "" then goal.notes.value else w.notes)
  {
    var date := match storedDate
      case AsDate(d) => Some(d)
      case AsText(s) => parse(s);
    if date.None? then None
    else
      Some(Widgets(goal.name, date.value,
        LoadTarget(w.weight, goal.targetWeight, WeightLo, WeightHi),
        LoadTarget(w.muscle, goal.targetMuscle, MuscleLo, MuscleHi),
        LoadTarget(w.fat, goal.targetFat, FatLo, FatHi),
        LoadTarget(w.bmi, goal.targetBmi, BmiLo, BmiHi),
        LoadCurrent(w.currentWeight, goal.currentWeight, WeightLo, WeightHi),
        LoadCurrent(w.currentMuscle, goal.currentMuscle, MuscleLo, MuscleHi),
        LoadCurrent(w.currentFat, goal.currentFat, FatLo, FatHi),
        if goal.notes.Some? && goal.notes.value != "" then goal.notes.value else w.notes))
  }

  function TargetValue(t: Target): (r: Option<real>)
    ensures r.Some? <==> t.on
    ensures r.Some? ==> r.value == t.value
  {
    if t.on then Some(t.value) else None
  }

  /** A current value as the source reads it: `value if value > 0 else None`. */
  function CurrentAsWritten(v: real): (r: Option<real>)
    ensures r.None? <==> v <= 0.0
    ensures r.Some? ==> r.value == v
  {
    if v > 0.0 then Some(v) else None
  }

  /** `get_goal_data` as written: a target is present exactly when its toggle
      is on; the current values are kept when positive; the edited goal's id
      and achieved flag are kept (none and not achieved for a new goal). */
  function GetGoalDataAsWritten(edited: Option<BodyGoal>, w: Widgets): (g: BodyGoal)
    ensures g.targetWeight == TargetValue(w.weight) && g.targetMuscle == TargetValue(w.muscle)
    ensures g.targetFat == TargetValue(w.fat) && g.targetBmi == TargetValue(w.bmi)
    ensures g.currentWeight == CurrentAsWritten(w.currentWeight)
    ensures g.currentMuscle == CurrentAsWritten(w.currentMuscle)
    ensures g.currentFat == CurrentAsWritten(w.currentFat)
    ensures g.id == (if edited.Some? then edited.value.id else None)
    ensures g.achieved == (edited.Some? && edited.value.achieved)
    ensures g.notes.None? <==> w.notes == ""
    ensures g.notes.Some? ==> g.notes.value == w.notes
    ensures g.name == w.name && g.targetDate == w.date
  {
    BodyGoal(
      if edited.Some? then edited.value.id else None, w.name,
      TargetValue(w.weight), TargetValue(w.muscle), TargetValue(w.fat), TargetValue(w.bmi),
      w.date,
      CurrentAsWritten(w.currentWeight), CurrentAsWritten(w.currentMuscle), CurrentAsWritten(w.currentFat),
      if w.notes == "" then None else Some(w.notes),
      edited.Some? && edited.value.achieved)
  }

  /** As written, no current value can come back unset: the spin boxes never
      go below 30, 20 and 3, all positive. */
  lemma CurrentAlwaysPresent(edited: Option<BodyGoal>, w: Widgets)
    requires InRange(w)
    ensures var g := GetGoalDataAsWritten(edited, w);
      g.currentWeight.Some? && g.currentMuscle.Some? && g.currentFat.Some?
  {
  }

  /** A new goal whose current weight was left at "未設定" is stored with a
      current weight of 30 kg. */
  lemma UnsetCurrentStoredAsMinimum(today: Day)
    ensures GetGoalDataAsWritten(None, Fresh(today)).currentWeight == Some(30.0)
    ensures GetGoalDataAsWritten(None, Fresh(today)).currentFat == Some(3.0)
  {
  }

  /** `get_goal_data` with the unset current values read back as unset. */
  function GetGoalData(edited: Option<BodyGoal>, w: Widgets): (g: BodyGoal)
    ensures g.targetWeight == TargetValue(w.weight) && g.targetMuscle == TargetValue(w.muscle)
    ensures g.targetFat == TargetValue(w.fat) && g.targetBmi == TargetValue(w.bmi)
    ensures g.currentWeight == ValueAboveMinimum(w.currentWeight, WeightLo)
    ensures g.currentMuscle == ValueAboveMinimum(w.currentMuscle, MuscleLo)
    ensures g.currentFat == ValueAboveMinimum(w.currentFat, FatLo)
    ensures g.id == (if edited.Some? then edited.value.id else None)
    ensures g.achieved == (edited.Some? && edited.value.achieved)
    ensures g.notes.None? <==> w.notes == ""
    ensures g.notes.Some? ==> g.notes.value == w.notes
    ensures g.name == w.name && g.targetDate == w.date
  {
    GetGoalDataAsWritten(edited, w).(
      currentWeight := ValueAboveMinimum(w.currentWeight, WeightLo),
      currentMuscle := ValueAboveMinimum(w.currentMuscle, MuscleLo),
      currentFat := ValueAboveMinimum(w.currentFat, FatLo))
  }

  /** A value a spin box over [lo, hi] shows unchanged. */
  predicate Fits(v: real, lo: real, hi: real) {
    lo <= v <= hi && IsTenth(v)
  }

  /** A target either absent or one its spin box shows unchanged. */
  predicate TargetFits(t: Option<real>, lo: real, hi: real) {
    t.None? || Fits(t.value, lo, hi)
  }

  /** A current value either unset or one above the minimum its spin box
      shows unchanged. */
  predicate CurrentFits(c: Option<real>, lo: real, hi: real) {
    c.None? || (Fits(c.value, lo, hi) && c.value > lo)
  }

  /** A goal the dialog can show without losing anything. */
  predicate Representable(g: BodyGoal) {
    TargetFits(g.targetWeight, WeightLo, WeightHi) && TargetFits(g.targetMuscle, MuscleLo, MuscleHi)
    && TargetFits(g.targetFat, FatLo, FatHi) && TargetFits(g.targetBmi, BmiLo, BmiHi)
    && CurrentFits(g.currentWeight, WeightLo, WeightHi) && CurrentFits(g.currentMuscle, MuscleLo, MuscleHi)
    && CurrentFits(g.currentFat, FatLo, FatHi)
    && (g.notes.Some? ==> g.notes.value != "")
  }

  lemma {:induction false} TargetRoundTrip(t: Option<real>, lo: real, hi: real, w: Target)
    requires 0.0 < lo <= hi && lo <= w.value <= hi && !w.on
    requires TargetFits(t, lo, hi)
    ensures TargetValue(LoadTarget(w, t, lo, hi)) == t
  {
    if t.Some? {
      assert Truthy(t);
    }
  }

  lemma {:induction false} CurrentRoundTrip(c: Option<real>, lo: real, hi: real, v: real)
    requires 0.0 <= lo <= hi && v == lo
    requires CurrentFits(c, lo, hi)
    ensures ValueAboveMinimum(LoadCurrent(v, c, lo, hi), lo) == c
  {
    if c.Some? {
      assert Truthy(c);
    }
  }

  /** Editing a goal in a new dialog and accepting it unchanged gives the goal
      back, for every goal the dialog can show. */
  lemma {:induction false} EditRoundTrip(goal: BodyGoal, today: Day)
    requires Representable(goal)
    ensures var w := LoadGoal(Fresh(today), goal, AsDate(goal.targetDate), s => None);
      w.Some? && GetGoalData(Some(goal), w.value) == goal
  {
    var blank := Fresh(today);
    var w := LoadGoal(blank, goal, AsDate(goal.targetDate), s => None).value;
    TargetRoundTrip(goal.targetWeight, WeightLo, WeightHi, blank.weight);
    TargetRoundTrip(goal.targetMuscle, MuscleLo, MuscleHi, blank.muscle);
    TargetRoundTrip(goal.targetFat, FatLo, FatHi, blank.fat);
    TargetRoundTrip(goal.targetBmi, BmiLo, BmiHi, blank.bmi);
    CurrentRoundTrip(goal.currentWeight, WeightLo, WeightHi, blank.currentWeight);
    CurrentRoundTrip(goal.currentMuscle, MuscleLo, MuscleHi, blank.currentMuscle);
    CurrentRoundTrip(goal.currentFat, FatLo, FatHi, blank.currentFat);
  }

  /** The outcome of `add_goal` after the dialog was accepted. */
  datatype AddOutcome =
    | BlankName   // "目標名を入力してください。"
    | NoTarget    // "少なくとも1つの目標値を設定してください。"
    | AddFailed   // "目標の追加に失敗しました。"
    | Added(id: int)

  predicate AnyTarget(g: BodyGoal) {
    Truthy(g.targetWeight) || Truthy(g.targetMuscle) || Truthy(g.targetFat) || Truthy(g.targetBmi)
  }

  /** `add_goal`: a blank or whitespace-only name is refused, then a goal with
      no truthy target; otherwise the goal is stored and a falsy id means the
      store failed. */
  function AddGoal(g: BodyGoal, stored: Option<int>): (r: AddOutcome)
    ensures r.BlankName? <==> Strip(g.name) == ""
    ensures r.NoTarget? <==> Strip(g.name) != "" && !AnyTarget(g)
    ensures r.Added? <==> Strip(g.name) != "" && AnyTarget(g) && stored.Some? && stored.value != 0
    ensures r.Added? ==> stored == Some(r.id)
  {
    if Strip(g.name) == "" then BlankName
    else if !AnyTarget(g) then NoTarget
    else if stored.None? || stored.value == 0 then AddFailed
    else Added(stored.value)
  }

  /** For a goal from the dialog, "no target" means exactly that every toggle
      was off: the spin boxes cannot reach 0. */
  lemma NoTargetIffNoToggle(w: Widgets)
    requires InRange(w)
    ensures !AnyTarget(GetGoalData(None, w)) <==> !w.weight.on && !w.muscle.on && !w.fat.on && !w.bmi.on
  {
  }
}

=== FILE: body_stats_dialog.dfy ===
/**
 * The body-measurement dialog. Each spin box stands for "not entered" at its
 * minimum (where it shows "未入力"): a missing value is loaded as the
 * minimum, and the minimum is read back as missing.
 */
module BodyStatsDialog {
  import opened Wrappers
  import opened Numeric
  import opened Models

  const WeightMin := 20.0
  const WeightMax := 300.0
  const FatMin := 0.0
  const FatMax := 50.0
  const MuscleMin := 0.0
  const MuscleMax := 100.0

  /** The dialog's widgets: the date edit and the three spin boxes. */
  datatype Widgets = Widgets(date: Day, weight: real, fat: real, muscle: real)

  predicate InRange(w: Widgets) {
    WeightMin <= w.weight <= WeightMax && FatMin <= w.fat <= FatMax && MuscleMin <= w.muscle <= MuscleMax
  }

  /** A new dialog: today, every box at its minimum. */
  function Fresh(today: Day): (w: Widgets)
    ensures InRange(w) && w.date == today
    ensures w.weight == WeightMin && w.fat == FatMin && w.muscle == MuscleMin
  {
    Widgets(today, WeightMin, FatMin, MuscleMin)
  }

  /** The date `load_data` shows: a date as it is (a datetime by its day), a
      string parsed as `YYYY-MM-DD` (`strptime`), today when the string does
      not parse or the value is of any other kind. */
  function LoadDate(v: DateValue, today: Day, strptime: string -> Option<Day>): (d: Day)
    ensures v.DateVal? || v.DateTimeVal? ==> d == v.day
    ensures v.StrVal? && strptime(v.text).Some? ==> d == strptime(v.text).value
    ensures v.StrVal? && strptime(v.text).None? ==> d == today
    ensures v.OtherVal? ==> d == today
  {
    match v
    case DateVal(day) => day
    case DateTimeVal(day, _) => day
    case StrVal(s) => if strptime(s).Some? then strptime(s).value else today
    case OtherVal(_) => today
  }

  /** One measurement put into its spin box: the value rounded and clamped,
      the minimum when missing. */
  function LoadValue(v: Option<real>, lo: real, hi: real): (r: real)
    requires lo <= hi
    ensures lo <= r <= hi
    ensures v.None? ==> r == lo
    ensures v.Some? ==> r == SpinReal(v.value, lo, hi)
  {
    if v.Some? then SpinReal(v.value, lo, hi) else lo
  }

  /** `load_data` for a stored record whose date column holds `rawDate`. */
  function LoadData(stats: BodyStats, rawDate: DateValue, today: Day, strptime: string -> Option<Day>): (w: Widgets)
    ensures InRange(w)
    ensures w.date == LoadDate(rawDate, today, strptime)
    ensures w.weight == LoadValue(stats.weight, WeightMin, WeightMax)
    ensures w.fat == LoadValue(stats.bodyFat, FatMin, FatMax)
    ensures w.muscle == LoadValue(stats.muscleMass, MuscleMin, MuscleMax)
  {
    Widgets(LoadDate(rawDate, today, strptime),
            LoadValue(stats.weight, WeightMin, WeightMax),
            LoadValue(stats.bodyFat, FatMin, FatMax),
            LoadValue(stats.muscleMass, MuscleMin, MuscleMax))
  }

  /** `get_body_stats`: the date, each measurement (none at its box's
      minimum), and the id of the record being edited (none for a new one). */
  function GetBodyStats(edited: Option<BodyStats>, w: Widgets): (s: BodyStats)
    ensures s.id == (if edited.Some? then edited.value.id else None)
    ensures s.date == w.date
    ensures s.weight.None? <==> w.weight <= WeightMin
    ensures s.bodyFat.None? <==> w.fat <= FatMin
    ensures s.muscleMass.None? <==> w.muscle <= MuscleMin
    ensures s.weight.Some? ==> s.weight.value == w.weight
    ensures s.bodyFat.Some? ==> s.bodyFat.value == w.fat
    ensures s.muscleMass.Some? ==> s.muscleMass.value == w.muscle
  {
    BodyStats(if edited.Some? then edited.value.id else None, w.date,
              ValueAboveMinimum(w.weight, WeightMin), ValueAboveMinimum(w.fat, FatMin), ValueAboveMinimum(w.muscle, MuscleMin))
  }

  /** A measurement the dialog keeps: missing, or strictly above the box's
      minimum, within its maximum, with one decimal. */
  predicate Keeps(v: Option<real>, lo: real, hi: real) {
    v.None? || (lo < v.value <= hi && IsTenth(v.value))
  }

  lemma {:induction false} ValueRoundTrip(v: Option<real>, lo: real, hi: real)
    requires lo <= hi && Keeps(v, lo, hi)
    ensures ValueAboveMinimum(LoadValue(v, lo, hi), lo) == v
  {
    if v.Some? {
      assert SpinReal(v.value, lo, hi) == v.value;
    }
  }

  /** Opening a stored record and accepting it unchanged gives the record back
      when every measurement is one the dialog keeps. */
  lemma {:induction false} EditRoundTrip(stats: BodyStats, today: Day, strptime: string -> Option<Day>)
    requires Keeps(stats.weight, WeightMin, WeightMax)
    requires Keeps(stats.bodyFat, FatMin, FatMax)
    requires Keeps(stats.muscleMass, MuscleMin, MuscleMax)
    ensures GetBodyStats(Some(stats), LoadData(stats, DateVal(stats.date), today, strptime)) == stats
  {
    ValueRoundTrip(stats.weight, WeightMin, WeightMax);
    ValueRoundTrip(stats.bodyFat, FatMin, FatMax);
    ValueRoundTrip(stats.muscleMass, MuscleMin, MuscleMax);
  }

  /** The price of the sentinel: a measured value equal to the minimum — 0.0 %
      body fat, say — is indistinguishable from "not entered" and comes back
      as missing. */
  lemma MinimumReadsAsMissing(stats: BodyStats, today: Day, strptime: string -> Option<Day>)
    requires stats.bodyFat == Some(FatMin)
    ensures GetBodyStats(Some(stats), LoadData(stats, DateVal(stats.date), today, strptime)).bodyFat.None?
  {
  }
}

=== FILE: body_stats_tab.dfy ===
/**
 * The body-measurement tab: the table cells (each measurement, or "--"), the
 * BMI column computed from the weight with a fixed height of 1.70 m and its
 * three classes, and the per-measurement series the graphs plot.
 */
module BodyStatsTab {
  import opened Wrappers
  import opened Numeric
  import opened Seqs
  import opened Models

  /** The fixed height the BMI column assumes, in metres. */
  const Height := 1.70

  /** `weight / 1.70 ** 2`. */
  function Bmi(weight: real): (b: real)
    ensures b * (Height * Height) == weight
  {
    weight / (Height * Height)
  }

  datatype BmiClass = Underweight | Normal | Obese   // 低体重, 標準, 肥満

  /** Below 18.5 underweight, below 25 normal, otherwise obese. */
  function ClassOf(bmi: real): (c: BmiClass)
    ensures c == Underweight <==> bmi < 18.5
    ensures c == Normal <==> 18.5 <= bmi < 25.0
    ensures c == Obese <==> 25.0 <= bmi
  {
    if bmi < 18.5 then Underweight
    else if bmi < 25.0 then Normal
    else Obese
  }

  /** The order of the classes. */
  function Rank(c: BmiClass): nat {
    match c
    case Underweight => 0
    case Normal => 1
    case Obese => 2
  }

  /** A heavier person never lands in a lighter class. */
  lemma ClassMonotone(w1: real, w2: real)
    requires w1 <= w2
    ensures Rank(ClassOf(Bmi(w1))) <= Rank(ClassOf(Bmi(w2)))
  {
    assert Bmi(w1) <= Bmi(w2) by {
      assert (Bmi(w2) - Bmi(w1)) * (Height * Height) == w2 - w1;
    }
  }

  /** The weights at which the classes change, for the fixed height: 53.465 kg
      and 72.25 kg. */
  lemma ClassThresholds(w: real)
    ensures ClassOf(Bmi(w)) == Underweight <==> w < 53.465
    ensures ClassOf(Bmi(w)) == Obese <==> w >= 72.25
  {
    var b := Bmi(w);
    assert b * 2.89 == w;
  }

  /** A table cell for a measurement: the value, or "--" when it is falsy. */
  datatype Cell = Dash | Shown(value: real)

  function CellOf(v: Option<real>): (c: Cell)
    ensures c.Dash? <==> !Truthy(v)
    ensures c.Shown? ==> c.value == v.value
  {
    if Truthy(v) then Shown(v.value) else Dash
  }

  /** The BMI column: "--" for a falsy weight, otherwise the BMI and its class. */
  datatype BmiCell = NoBmi | BmiShown(bmi: real, category: BmiClass)

  function BmiCellOf(weight: Option<real>): (c: BmiCell)
    ensures c.NoBmi? <==> !Truthy(weight)
    ensures c.BmiShown? ==> c.bmi * 2.89 == weight.value && c.category == ClassOf(c.bmi)
  {
    if Truthy(weight) then
      var b := Bmi(weight.value);
      BmiShown(b, ClassOf(b))
    else NoBmi
  }

  /** One table row of `load_data`. */
  datatype TableRow = TableRow(date: Day, weight: Cell, fat: Cell, muscle: Cell, bmi: BmiCell)

  function RowOf(s: BodyStats): (r: TableRow)
    ensures r.date == s.date
    ensures r.weight == CellOf(s.weight) && r.fat == CellOf(s.bodyFat) && r.muscle == CellOf(s.muscleMass)
    ensures r.bmi.NoBmi? <==> r.weight.Dash?
  {
    TableRow(s.date, CellOf(s.weight), CellOf(s.bodyFat), CellOf(s.muscleMass), BmiCellOf(s.weight))
  }

  /** A plotted point. */
  datatype Point = Point(date: Day, value: real)

  function HasValue(field: BodyStats -> Option<real>): BodyStats -> bool {
    (s: BodyStats) => field(s).Some?
  }

  function PointsOf(rows: seq<BodyStats>, field: BodyStats -> Option<real>): (r: seq<Point>)
    requires forall i :: 0 <= i < |rows| ==> field(rows[i]).Some?
    ensures |r| == |rows|
    ensures forall k :: 0 <= k < |r| ==> r[k] == Point(rows[k].date, field(rows[k]).value)
  {
    seq(|rows|, k requires 0 <= k < |rows| => Point(rows[k].date, field(rows[k]).value))
  }

  /** The series of one measurement (`plot_weight_progress` and its two
      siblings): the records holding a value, in their order, each plotted at
      its own date. */
  function Series(stats: seq<BodyStats>, field: BodyStats -> Option<real>): (r: seq<Point>)
    ensures |r| <= |stats|
    ensures forall i :: 0 <= i < |stats| && field(stats[i]).Some? ==>
      Point(stats[i].date, field(stats[i]).value) in r
    ensures forall k :: 0 <= k < |r| ==> exists s :: s in stats && s.date == r[k].date && field(s) == Some(r[k].value)
  {
    var kept := Filter(stats, HasValue(field));
    var r := PointsOf(kept, field);
    forall i | 0 <= i < |stats| && field(stats[i]).Some?
      ensures Point(stats[i].date, field(stats[i]).value) in r
    {
      assert HasValue(field)(stats[i]);
      var k :| 0 <= k < |kept| && kept[k] == stats[i];
      assert r[k] == Point(stats[i].date, field(stats[i]).value);
    }
    forall k | 0 <= k < |r|
      ensures exists s :: s in stats && s.date == r[k].date && field(s) == Some(r[k].value)
    {
      assert kept[k] in stats;
    }
    r
  }

  /** The series keeps the records' order: it is the value-holding records,
      as a subsequence, each turned into its point. */
  lemma SeriesInOrder(stats: seq<BodyStats>, field: BodyStats -> Option<real>)
    ensures var kept := Filter(stats, HasValue(field));
      IsSubseq(kept, stats) && Series(stats, field) == PointsOf(kept, field)
  {
    FilterIsSubseq(stats, HasValue(field));
  }
}

=== FILE: body_table.dfy ===
/**
 * The `body_stats` table as the importers use it: looking a measurement up
 * by day, adding one, and updating one by id. The database methods behind
 * these calls are not part of this model; the table is a sequence of rows
 * with an AUTOINCREMENT counter, the lookup returns the first row of the
 * day, and whether a call succeeds is supplied by the caller.
 */
module BodyTable {
  import opened Wrappers
  import opened Models

  datatype Table = Table(rows: seq<BodyStats>, nextId: int)

  /** Every row has an id below the counter, and ids are unique. */
  predicate Valid(t: Table) {
    t.nextId >= 1
    && (forall i :: 0 <= i < |t.rows| ==> t.rows[i].id.Some? && 1 <= t.rows[i].id.value < t.nextId)
    && (forall i, j :: 0 <= i < j < |t.rows| ==> t.rows[i].id != t.rows[j].id)
  }

  /** The index of the first row on `date`. */
  function IndexOn(rows: seq<BodyStats>, date: Day): (r: Option<nat>)
    ensures r.Some? ==> r.value < |rows| && rows[r.value].date == date
    ensures r.Some? ==> forall i :: 0 <= i < r.value ==> rows[i].date != date
    ensures r.None? <==> forall i :: 0 <= i < |rows| ==> rows[i].date != date
  {
    if rows == [] then None
    else if rows[0].date == date then Some(0)
    else
      var rest := IndexOn(rows[1..], date);
      assert forall i :: 1 <= i < |rows| ==> rows[i] == rows[1..][i - 1];
      if rest.Some? then Some(rest.value + 1) else None
  }

  /** `get_body_stats_by_date`. */
  function StatsOn(rows: seq<BodyStats>, date: Day): (r: Option<BodyStats>)
    ensures r.Some? ==> r.value in rows && r.value.date == date
    ensures r.None? <==> forall i :: 0 <= i < |rows| ==> rows[i].date != date
  {
    var i := IndexOn(rows, date);
    if i.Some? then Some(rows[i.value]) else None
  }

  /** `add_body_stats`; `ok` says whether it succeeds. A stored row gets a
      new id. */
  function Add(t: Table, s: BodyStats, ok: bool): (r: Table)
    ensures ok ==> r.rows == t.rows + [s.(id := Some(t.nextId))] && r.nextId == t.nextId + 1
    ensures !ok ==> r == t
  {
    if ok then Table(t.rows + [s.(id := Some(t.nextId))], t.nextId + 1) else t
  }

  /** `update_body_stats` (`UPDATE … WHERE id = ?`); `ok` says whether it
      succeeds. */
  function Update(t: Table, s: BodyStats, ok: bool): (r: Table)
    ensures |r.rows| == |t.rows| && r.nextId == t.nextId
    ensures forall i :: 0 <= i < |t.rows| ==> r.rows[i] == (if ok && t.rows[i].id == s.id then s else t.rows[i])
  {
    if !ok then t
    else Table(seq(|t.rows|, i requires 0 <= i < |t.rows| => if t.rows[i].id == s.id then s else t.rows[i]), t.nextId)
  }

  lemma AddKeepsValid(t: Table, s: BodyStats, ok: bool)
    requires Valid(t)
    ensures Valid(Add(t, s, ok))
  {
    var r := Add(t, s, ok);
    if ok {
      forall i, j | 0 <= i < j < |r.rows| ensures r.rows[i].id != r.rows[j].id {
        assert r.rows[i] == t.rows[i];
        if j < |t.rows| { assert r.rows[j] == t.rows[j]; }
      }
    }
  }

  /** A row is only ever replaced by a record with its own id, so updating
      keeps the table valid. */
  lemma UpdateKeepsValid(t: Table, s: BodyStats, ok: bool)
    requires Valid(t)
    ensures Valid(Update(t, s, ok))
  {
    var r := Update(t, s, ok);
    forall i | 0 <= i < |r.rows| ensures r.rows[i].id == t.rows[i].id {
    }
  }

  /** After adding a record on a day with no row, the lookup finds the new
      row. */
  lemma {:induction false} FoundAfterAdd(t: Table, s: BodyStats)
    requires StatsOn(t.rows, s.date).None?
    ensures StatsOn(Add(t, s, true).rows, s.date) == Some(s.(id := Some(t.nextId)))
  {
    var rows := Add(t, s, true).rows;
    var i := IndexOn(rows, s.date);
    assert rows[|t.rows|].date == s.date;
    assert forall k :: 0 <= k < |t.rows| ==> rows[k] == t.rows[k];
    assert i.Some? && i.value == |t.rows|;
  }

  /** Updating the row the lookup found, keeping its id and day, makes the
      lookup return the new values. */
  lemma {:induction false} FoundAfterUpdate(t: Table, s: BodyStats)
    requires Valid(t)
    requires StatsOn(t.rows, s.date).Some? && StatsOn(t.rows, s.date).value.id == s.id
    ensures StatsOn(Update(t, s, true).rows, s.date) == Some(s)
  {
    var rows := Update(t, s, true).rows;
    var k := IndexOn(t.rows, s.date).value;
    assert t.rows[k].id == s.id;
    forall i | 0 <= i < k ensures rows[i] == t.rows[i] && rows[i].date != s.date {
      assert t.rows[i].id != t.rows[k].id;
    }
    assert rows[k] == s;
    var found := IndexOn(rows, s.date);
    assert found.Some? && found.value == k;
  }
}

=== FILE: cache.dfy ===
/**
 * The file cache: one pickle file `<key>.cache` per key in a directory,
 * valid for `max_age` after its modification time, and the body-measurement
 * loader that keeps the whole table under the key "body_stats_all".
 *
 * The directory is a map from file name to the file's content and
 * modification time, in seconds; `now` is the clock reading of the call.
 * Pickling is not modelled: a file holds the value itself.
 */
module Cache {
  import opened Wrappers
  import opened Text
  import opened Models

  datatype CacheFile<V> = CacheFile(data: V, mtime: real)

  type Dir<V> = map<string, CacheFile<V>>

  /** The default lifetime, in minutes. */
  const DefaultMaxAgeMinutes := 30

  /** `timedelta(minutes=…)` in seconds. */
  function MaxAge(minutes: int): real {
    minutes as real * 60.0
  }

  const Suffix := ".cache"

  /** The file that holds `key`. */
  function FileName(key: string): (f: string)
    ensures EndsWith(f, Suffix) && |f| == |key| + |Suffix| && f[..|key|] == key
  {
    key + Suffix
  }

  /** Different keys have different files. */
  lemma FileNameInjective(k1: string, k2: string)
    requires FileName(k1) == FileName(k2)
    ensures k1 == k2
  {
    assert |k1| == |k2|;
    assert k1 == FileName(k1)[..|k1|];
  }

  /** A file older than the lifetime: `now - mtime > max_age`. */
  predicate Expired<V>(file: CacheFile<V>, now: real, maxAge: real) {
    now - file.mtime > maxAge
  }

  /** `get`: nothing for a missing file; an expired file is removed and gives
      nothing; a fresh file gives its value. */
  function Get<V>(dir: Dir<V>, key: string, now: real, maxAge: real): (r: (Option<V>, Dir<V>))
    ensures r.0.Some? <==> FileName(key) in dir && !Expired(dir[FileName(key)], now, maxAge)
    ensures r.0.Some? ==> r.0.value == dir[FileName(key)].data && r.1 == dir
    ensures r.0.None? ==> r.1 == dir - {FileName(key)}
  {
    var f := FileName(key);
    if f !in dir then (None, dir)
    else if Expired(dir[f], now, maxAge) then (None, dir - {f})
    else (Some(dir[f].data), dir)
  }

  /** `set`: the file is (re)written now. */
  function Set<V>(dir: Dir<V>, key: string, value: V, now: real): (r: Dir<V>)
    ensures FileName(key) in r && r[FileName(key)] == CacheFile(value, now)
    ensures forall f :: f != FileName(key) ==> (f in r <==> f in dir) && (f in dir ==> r[f] == dir[f])
  {
    dir[FileName(key) := CacheFile(value, now)]
  }

  /** A value set is read back until it expires, and not after. */
  lemma GetAfterSet<V>(dir: Dir<V>, key: string, value: V, setAt: real, now: real, maxAge: real)
    ensures now - setAt <= maxAge ==> Get(Set(dir, key, value, setAt), key, now, maxAge).0 == Some(value)
    ensures now - setAt > maxAge ==> Get(Set(dir, key, value, setAt), key, now, maxAge).0 == None
  {
  }

  /** Setting or reading one key leaves every other key's file alone. */
  lemma OtherKeysUntouched<V>(dir: Dir<V>, key: string, other: string, value: V, now: real, maxAge: real)
    requires other != key
    ensures var f := FileName(other);
      (f in Set(dir, key, value, now) <==> f in dir) && (f in dir ==> Set(dir, key, value, now)[f] == dir[f])
    ensures var f := FileName(other);
      (f in Get(dir, key, now, maxAge).1 <==> f in dir) && (f in dir ==> Get(dir, key, now, maxAge).1[f] == dir[f])
  {
    if FileName(other) == FileName(key) {
      FileNameInjective(other, key);
    }
  }

  /** A file the cache owns. */
  predicate IsCacheFile(name: string) {
    EndsWith(name, Suffix)
  }

  /** `clear`: every `.cache` file removed, other files kept. */
  function Clear<V>(dir: Dir<V>): (r: Dir<V>)
    ensures forall f :: f in r <==> f in dir && !IsCacheFile(f)
    ensures forall f :: f in r ==> r[f] == dir[f]
  {
    map f | f in dir && !IsCacheFile(f) :: dir[f]
  }

  /** After `clear` no key is found. */
  lemma NothingAfterClear<V>(dir: Dir<V>, key: string, now: real, maxAge: real)
    ensures Get(Clear(dir), key, now, maxAge).0.None?
  {
  }

  /** `clear_expired`: exactly the expired `.cache` files removed. */
  function ClearExpired<V>(dir: Dir<V>, now: real, maxAge: real): (r: Dir<V>)
    ensures forall f :: f in r <==> f in dir && !(IsCacheFile(f) && Expired(dir[f], now, maxAge))
    ensures forall f :: f in r ==> r[f] == dir[f]
  {
    map f | f in dir && !(IsCacheFile(f) && Expired(dir[f], now, maxAge)) :: dir[f]
  }

  /** Clearing the expired files changes no answer `get` gives at the same
      moment, and doing it twice is doing it once. */
  lemma ClearExpiredKeepsAnswers<V>(dir: Dir<V>, key: string, now: real, maxAge: real)
    ensures Get(ClearExpired(dir, now, maxAge), key, now, maxAge).0 == Get(dir, key, now, maxAge).0
    ensures ClearExpired(ClearExpired(dir, now, maxAge), now, maxAge) == ClearExpired(dir, now, maxAge)
  {
    var f := FileName(key);
    assert IsCacheFile(f);
  }

  /** `get_cache_info`, without the sizes. */
  datatype CacheInfo = CacheInfo(maxAgeMinutes: real, totalFiles: nat, expiredFiles: nat)

  function CacheFiles<V>(dir: Dir<V>): set<string> {
    set f | f in dir && IsCacheFile(f)
  }

  function ExpiredFiles<V>(dir: Dir<V>, now: real, maxAge: real): (r: set<string>)
    ensures r <= CacheFiles(dir)
  {
    set f | f in dir && IsCacheFile(f) && Expired(dir[f], now, maxAge)
  }

  function GetCacheInfo<V>(dir: Dir<V>, now: real, maxAge: real): (r: CacheInfo)
    ensures r.maxAgeMinutes * 60.0 == maxAge
    ensures r.totalFiles == |CacheFiles(dir)| && r.expiredFiles == |ExpiredFiles(dir, now, maxAge)|
    ensures r.expiredFiles <= r.totalFiles
  {
    SubsetCard(ExpiredFiles(dir, now, maxAge), CacheFiles(dir));
    CacheInfo(maxAge / 60.0, |CacheFiles(dir)|, |ExpiredFiles(dir, now, maxAge)|)
  }

  lemma SubsetCard<T>(a: set<T>, b: set<T>)
    requires a <= b
    ensures |a| <= |b|
  {
    assert b == a + (b - a);
  }

  /** After `clear_expired` the information reports no expired file. */
  lemma NoExpiredAfterClearExpired<V>(dir: Dir<V>, now: real, maxAge: real)
    ensures GetCacheInfo(ClearExpired(dir, now, maxAge), now, maxAge).expiredFiles == 0
  {
    assert ExpiredFiles(ClearExpired(dir, now, maxAge), now, maxAge) == {};
  }

  // ---------------------------------------------------------------- the cached loader

  const BodyStatsKey := "body_stats_all"

  /** `get_body_stats_optimized_cached`: the cached list when fresh;
      otherwise the list read from the database (`fromDb`), cached only when
      it is not empty. */
  function GetBodyStatsCached(dir: Dir<seq<BodyStats>>, fromDb: seq<BodyStats>, now: real, maxAge: real)
    : (r: (seq<BodyStats>, Dir<seq<BodyStats>>))
    ensures Get(dir, BodyStatsKey, now, maxAge).0.Some? ==> r == (Get(dir, BodyStatsKey, now, maxAge).0.value, dir)
    ensures Get(dir, BodyStatsKey, now, maxAge).0.None? ==> r.0 == fromDb
    ensures Get(dir, BodyStatsKey, now, maxAge).0.None? && fromDb != [] ==>
      r.1 == Set(dir, BodyStatsKey, fromDb, now)
    ensures Get(dir, BodyStatsKey, now, maxAge).0.None? && fromDb == [] ==>
      FileName(BodyStatsKey) !in r.1
  {
    var (cached, dir1) := Get(dir, BodyStatsKey, now, maxAge);
    if cached.Some? then (cached.value, dir1)
    else if fromDb != [] then (fromDb, Set(dir1, BodyStatsKey, fromDb, now))
    else (fromDb, dir1)
  }

  /** A load that read a non-empty list from the database is answered from
      the cache by every later load within the lifetime, whatever the database
      holds by then; a load answered from the cache is answered the same way
      again at the same moment. */
  lemma SecondLoadUsesCache(dir: Dir<seq<BodyStats>>, fromDb: seq<BodyStats>, later: seq<BodyStats>,
                            now: real, readAt: real, maxAge: real)
    requires now <= readAt && readAt - now <= maxAge
    ensures var (first, dir1) := GetBodyStatsCached(dir, fromDb, now, maxAge);
      Get(dir, BodyStatsKey, now, maxAge).0.None? && fromDb != [] ==>
        GetBodyStatsCached(dir1, later, readAt, maxAge).0 == first
    ensures var (first, dir1) := GetBodyStatsCached(dir, fromDb, now, maxAge);
      Get(dir, BodyStatsKey, now, maxAge).0.Some? ==>
        GetBodyStatsCached(dir1, later, now, maxAge).0 == first
  {
    var f := FileName(BodyStatsKey);
    if Get(dir, BodyStatsKey, now, maxAge).0.None? && fromDb != [] {
      GetAfterSet(dir - {f}, BodyStatsKey, fromDb, now, readAt, maxAge);
    }
  }

  /** `invalidate_body_stats_cache`: only the body-measurement file is
      removed, so the next load reads the database. */
  function InvalidateBodyStatsCache<V>(dir: Dir<V>): (r: Dir<V>)
    ensures FileName(BodyStatsKey) !in r
    ensures forall f :: f != FileName(BodyStatsKey) ==> (f in r <==> f in dir) && (f in r ==> r[f] == dir[f])
  {
    dir - {FileName(BodyStatsKey)}
  }

  lemma LoadAfterInvalidate(dir: Dir<seq<BodyStats>>, fromDb: seq<BodyStats>, now: real, maxAge: real)
    ensures GetBodyStatsCached(InvalidateBodyStatsCache(dir), fromDb, now, maxAge).0 == fromDb
  {
  }
}

=== FILE: calculations.dfy ===
/**
 * Strength derivations: the Epley one-rep-max estimate, growth rate, and the
 * volume / average / maximum aggregates over a list of performed sets.
 */
module Calculations {
  import opened Numeric

  /** One performed set as the aggregates read it: `{'weight': w, 'reps': n}`. */
  datatype SetData = SetData(weight: real, reps: int)

  /** Epley's estimate; a single repetition is already a one-rep max. */
  function OneRm(weight: real, reps: int): (r: real)
    ensures reps == 1 ==> r == weight
    ensures reps != 1 ==> r * 30.0 == weight * (30.0 + reps as real)
    ensures weight >= 0.0 && reps >= 1 ==> r >= weight
  {
    if reps == 1 then weight else weight * (1.0 + reps as real / 30.0)
  }

  /** The multiplier Epley's formula applies to the weight. */
  function Factor(reps: int): real {
    if reps == 1 then 1.0 else 1.0 + reps as real / 30.0
  }

  lemma FactorMonotone(r1: int, r2: int)
    requires 1 <= r1 <= r2
    ensures 1.0 <= Factor(r1) <= Factor(r2)
  {
  }

  lemma MulMonotone(a1: real, a2: real, b1: real, b2: real)
    requires 0.0 <= a1 <= a2 && 0.0 <= b1 <= b2
    ensures a1 * b1 <= a2 * b2
  {
    assert a1 * b1 <= a1 * b2;
    assert a1 * b2 <= a2 * b2;
  }

  /** The estimate never decreases when the weight or the repetitions grow,
      including the step from the `reps == 1` special case to two repetitions. */
  lemma OneRmMonotone(w1: real, w2: real, r1: int, r2: int)
    requires 0.0 <= w1 <= w2 && 1 <= r1 <= r2
    ensures OneRm(w1, r1) <= OneRm(w2, r2)
  {
    FactorMonotone(r1, r2);
    MulMonotone(w1, w2, Factor(r1), Factor(r2));
    assert OneRm(w1, r1) == w1 * Factor(r1);
    assert OneRm(w2, r2) == w2 * Factor(r2);
  }

  /** Percentage change from `previous` to `current`; 0 when there is no previous value. */
  function GrowthRate(current: real, previous: real): (r: real)
    ensures previous == 0.0 ==> r == 0.0
    ensures previous != 0.0 ==> r * previous == (current - previous) * 100.0
  {
    if previous == 0.0 then 0.0 else (current - previous) / previous * 100.0
  }

  /** Against a positive previous value, growth is positive exactly when the value went up. */
  lemma GrowthPositiveIffIncrease(current: real, previous: real)
    requires previous > 0.0
    ensures GrowthRate(current, previous) > 0.0 <==> current > previous
    ensures GrowthRate(current, previous) == 0.0 <==> current == previous
  {
    var r := GrowthRate(current, previous);
    assert r * previous == (current - previous) * 100.0;
    if r > 0.0 {
      assert r * previous > 0.0;
    }
  }

  function Volume(s: SetData): real {
    s.weight * s.reps as real
  }

  /** Σ weight × reps. */
  function TotalVolume(sets: seq<SetData>): (r: real)
    ensures sets == [] ==> r == 0.0
    ensures (forall i :: 0 <= i < |sets| ==> sets[i].weight >= 0.0 && sets[i].reps >= 0) ==> r >= 0.0
  {
    if sets == [] then 0.0
    else
      assert sets[0].weight >= 0.0 && sets[0].reps >= 0 ==> Volume(sets[0]) >= 0.0;
      Volume(sets[0]) + TotalVolume(sets[1..])
  }

  /** The volume of two sessions together is the sum of their volumes. */
  lemma {:induction false} TotalVolumeAppend(a: seq<SetData>, b: seq<SetData>)
    ensures TotalVolume(a + b) == TotalVolume(a) + TotalVolume(b)
  {
    if a == [] {
      assert a + b == b;
    } else {
      assert (a + b)[1..] == a[1..] + b;
      TotalVolumeAppend(a[1..], b);
    }
  }

  /** The volume of one set is its weight times its repetitions; with
      `TotalVolumeAppend` this fixes the total as Σ weight × reps. */
  lemma TotalVolumeOne(s: SetData)
    ensures TotalVolume([s]) == s.weight * s.reps as real
  {
  }

  function Weights(sets: seq<SetData>): (r: seq<real>)
    ensures |r| == |sets| && forall i :: 0 <= i < |sets| ==> r[i] == sets[i].weight
  {
    seq(|sets|, i requires 0 <= i < |sets| => sets[i].weight)
  }

  /** Mean weight, 0 for no sets; it lies between the lightest and the heaviest set. */
  function AverageWeight(sets: seq<SetData>): (r: real)
    ensures sets == [] ==> r == 0.0
    ensures sets != [] ==> r * (|sets| as real) == Sum(Weights(sets))
  {
    if sets == [] then 0.0 else Mean(Weights(sets))
  }

  /** The average lies between the lightest and the heaviest set. */
  lemma {:induction false} AverageWeightBetween(sets: seq<SetData>)
    requires sets != []
    ensures MinOf(Weights(sets)) <= AverageWeight(sets) <= MaxOf(Weights(sets))
  {
    MeanBetweenMinAndMax(Weights(sets));
  }

  function OneRms(sets: seq<SetData>): (r: seq<real>)
    ensures |r| == |sets| && forall i :: 0 <= i < |sets| ==> r[i] == OneRm(sets[i].weight, sets[i].reps)
  {
    seq(|sets|, i requires 0 <= i < |sets| => OneRm(sets[i].weight, sets[i].reps))
  }

  /** The best estimate over all sets, 0 for no sets. */
  function MaxOneRm(sets: seq<SetData>): (r: real)
    ensures sets == [] ==> r == 0.0
    ensures sets != [] ==> exists i :: 0 <= i < |sets| && r == OneRm(sets[i].weight, sets[i].reps)
    ensures forall i :: 0 <= i < |sets| ==> OneRm(sets[i].weight, sets[i].reps) <= r
  {
    if sets == [] then 0.0
    else
      var all := OneRms(sets);
      var m := MaxOf(all);
      assert exists i :: 0 <= i < |all| && all[i] == m;
      m
  }
}

=== FILE: csv_importer.dfy ===
/**
 * The CSV workout importer: guessing the exercise from the file name,
 * turning a spreadsheet row (a date and up to five sets of weight,
 * repetitions and one-rep max) into a workout record, checking a file's
 * columns, and writing the records into the database, skipping or
 * overwriting workouts that already hold the exercise.
 *
 * A row is a map from (stripped) column names to cells as pandas reads them;
 * `strptime` stands for `datetime.strptime(text, format)` and `show` for
 * Python's `str` of a number.
 */
module CsvImporter {
  import opened Wrappers
  import opened Numeric
  import opened Text
  import opened Seqs
  import opened Models
  import opened Dates
  import opened Store
  import Calculations

  // ---------------------------------------------------------------- exercise from the file name

  /** The exercise the importer writes to, by name, variation and category. */
  datatype ExerciseInfo = ExerciseInfo(name: string, variation: string, category: string)

  const Squat := ExerciseInfo("スクワット", "バーベル", "脚")
  const Bench := ExerciseInfo("ベンチプレス", "バーベル", "胸")
  const Deadlift := ExerciseInfo("デッドリフト", "バーベル", "背中")

  /** The keys tried against the lower-cased file name, in dictionary order. */
  const ExerciseMapping: seq<(string, ExerciseInfo)> := [
    ("squat", Squat), ("スクワット", Squat), ("バーベルスクワット", Squat),
    ("bench", Bench), ("ベンチプレス", Bench),
    ("deadlift", Deadlift), ("デッドリフト", Deadlift)]

  /** The index of the first key `name` contains. */
  function FirstKey(name: string, mapping: seq<(string, ExerciseInfo)>): (r: Option<nat>)
    ensures r.Some? ==> r.value < |mapping| && Contains(name, mapping[r.value].0)
    ensures r.Some? ==> forall j :: 0 <= j < r.value ==> !Contains(name, mapping[j].0)
    ensures r.None? <==> forall j :: 0 <= j < |mapping| ==> !Contains(name, mapping[j].0)
  {
    if mapping == [] then None
    else if Contains(name, mapping[0].0) then Some(0)
    else
      var rest := FirstKey(name, mapping[1..]);
      if rest.None? then None
      else
        assert forall j :: 1 <= j <= rest.value ==> mapping[j] == mapping[1..][j - 1];
        Some(rest.value + 1)
  }

  predicate NamesSquat(name: string) {
    Contains(name, "squat") || Contains(name, "スクワット") || Contains(name, "バーベルスクワット")
  }

  predicate NamesBench(name: string) {
    Contains(name, "bench") || Contains(name, "ベンチプレス")
  }

  predicate NamesDeadlift(name: string) {
    Contains(name, "deadlift") || Contains(name, "デッドリフト")
  }

  /** The exercise the mapping picks for an already lower-cased name: squat
      keys win over bench keys, bench keys over deadlift keys, and a name with
      none of them is taken for a barbell squat. */
  function ExerciseFor(name: string): (r: ExerciseInfo)
    ensures r == Bench <==> !NamesSquat(name) && NamesBench(name)
    ensures r == Deadlift <==> !NamesSquat(name) && !NamesBench(name) && NamesDeadlift(name)
    ensures r == Squat <==> NamesSquat(name) || (!NamesBench(name) && !NamesDeadlift(name))
  {
    var k := FirstKey(name, ExerciseMapping);
    assert ExerciseMapping[0].0 == "squat" && ExerciseMapping[1].0 == "スクワット";
    assert ExerciseMapping[2].0 == "バーベルスクワット" && ExerciseMapping[3].0 == "bench";
    assert ExerciseMapping[4].0 == "ベンチプレス" && ExerciseMapping[5].0 == "deadlift";
    assert ExerciseMapping[6].0 == "デッドリフト";
    assert Squat != Bench && Squat != Deadlift && Bench != Deadlift;
    if k.Some? then ExerciseMapping[k.value].1 else Squat
  }

  /** `_extract_exercise_from_filename` on the file's base name, matched
      after lower-casing. */
  function ExtractExercise(basename: string): (r: ExerciseInfo)
    ensures r == Bench <==> !NamesSquat(Lower(basename)) && NamesBench(Lower(basename))
    ensures r == Deadlift <==>
      !NamesSquat(Lower(basename)) && !NamesBench(Lower(basename)) && NamesDeadlift(Lower(basename))
    ensures r == Squat <==>
      NamesSquat(Lower(basename)) || (!NamesBench(Lower(basename)) && !NamesDeadlift(Lower(basename)))
  {
    ExerciseFor(Lower(basename))
  }

  /** The third key can never decide: a name containing "バーベルスクワット"
      already contains "スクワット". */
  lemma LongSquatKeyShadowed(name: string)
    requires Contains(name, "バーベルスクワット")
    ensures Contains(name, "スクワット")
  {
    var inner := "バーベルスクワット";
    ContainsAt(inner, "スクワット", 4);
    ContainsTransitive(name, inner, "スクワット");
  }

  /** The exercise `import_workout_csv` imports into: the one named by the
      caller, guessed from the file name when the name is falsy; `None` (the
      `ValueError` "種目情報が不完全です") when a name is given without a
      variation or a category. */
  function ChooseExercise(name: Option<string>, variation: Option<string>, category: Option<string>,
                          basename: string): (r: Option<ExerciseInfo>)
    ensures (name.None? || name.value == "") ==> r == Some(ExtractExercise(basename))
    ensures name.Some? && name.value != "" ==>
      (r.Some? <==> variation.Some? && variation.value != "" && category.Some? && category.value != "")
    ensures name.Some? && name.value != "" && r.Some? ==>
      r.value == ExerciseInfo(name.value, variation.value, category.value)
  {
    if name.None? || name.value == "" then Some(ExtractExercise(basename))
    else if variation.None? || variation.value == "" || category.None? || category.value == "" then None
    else Some(ExerciseInfo(name.value, variation.value, category.value))
  }

  /** The exercise with that name, variation and category, if stored. */
  function FindExerciseByInfo(exercises: seq<Exercise>, info: ExerciseInfo): (r: Option<Exercise>)
    ensures r.Some? ==> r.value in exercises
    ensures r.Some? ==> r.value.name == info.name && r.value.variation == info.variation && r.value.category == info.category
    ensures r.None? <==> forall i :: 0 <= i < |exercises| ==>
      !(exercises[i].name == info.name && exercises[i].variation == info.variation && exercises[i].category == info.category)
  {
    if exercises == [] then None
    else if exercises[0].name == info.name && exercises[0].variation == info.variation && exercises[0].category == info.category
    then Some(exercises[0])
    else
      var rest := FindExerciseByInfo(exercises[1..], info);
      assert forall i :: 1 <= i < |exercises| ==> exercises[i] == exercises[1..][i - 1];
      rest
  }

  /** `_get_or_create_exercise`: the id of the stored exercise when there is
      one, otherwise a new row; `None` when the insert fails or its id is 0. */
  function GetOrCreateExercise(db: Db, info: ExerciseInfo, fault: Option<Fault>): (r: (Option<int>, Db))
    ensures FindExerciseByInfo(db.exercises, info).Some? ==>
      r == (FindExerciseByInfo(db.exercises, info).value.id, db)
    ensures FindExerciseByInfo(db.exercises, info).None? && fault.Some? ==> r == (None, db)
    ensures FindExerciseByInfo(db.exercises, info).None? && fault.None? ==>
      r.1.exercises == db.exercises + [Exercise(Some(db.nextExerciseId), info.name, info.variation, info.category)]
      && r.1.workouts == db.workouts && r.1.sets == db.sets
    ensures FindExerciseByInfo(db.exercises, info).None? && fault.None? ==>
      (r.0.Some? <==> db.nextExerciseId != 0) && (r.0.Some? ==> r.0.value == db.nextExerciseId)
    ensures r.1.workouts == db.workouts && r.1.sets == db.sets
    ensures r.1.nextWorkoutId == db.nextWorkoutId && r.1.nextSetId == db.nextSetId
  {
    var found := FindExerciseByInfo(db.exercises, info);
    if found.Some? then (found.value.id, db)
    else
      var id := db.nextExerciseId;
      var block := if fault.Some? then Raised(fault.value)
        else Finished(db.(exercises := db.exercises + [Exercise(Some(id), info.name, info.variation, info.category)],
                          nextExerciseId := id + 1));
      var tx := Transaction(db, true, block);
      if tx.raised.Some? || id == 0 then (None, tx.db) else (Some(id), tx.db)
  }

  /** Asking twice for the same exercise creates it at most once. */
  lemma GetOrCreateOnce(db: Db, info: ExerciseInfo)
    requires db.nextExerciseId != 0
    ensures var (id, db1) := GetOrCreateExercise(db, info, None);
      GetOrCreateExercise(db1, info, None) == (id, db1)
  {
    var (id, db1) := GetOrCreateExercise(db, info, None);
    if FindExerciseByInfo(db.exercises, info).None? {
      var e := db1.exercises[|db.exercises|];
      var again := FindExerciseByInfo(db1.exercises, info);
      assert again.Some?;
      assert forall i :: 0 <= i < |db.exercises| ==> db1.exercises[i] == db.exercises[i];
      assert again.value == e by {
        // The only match is the row just inserted, the old rows having none.
        assert FindExerciseByInfo(db1.exercises, info) == FindExerciseByInfo(db.exercises + [e], info);
        FindAfterMisses(db.exercises, [e], info);
      }
    }
  }

  /** The search skips a prefix without a match. */
  lemma {:induction false} FindAfterMisses(a: seq<Exercise>, b: seq<Exercise>, info: ExerciseInfo)
    requires FindExerciseByInfo(a, info).None?
    ensures FindExerciseByInfo(a + b, info) == FindExerciseByInfo(b, info)
  {
    if a != [] {
      assert (a + b)[1..] == a[1..] + b;
      assert a[0] == (a + b)[0];
      assert forall i :: 0 <= i < |a[1..]| ==> a[1..][i] == a[i + 1];
      FindAfterMisses(a[1..], b, info);
    } else {
      assert a + b == b;
    }
  }

  // ---------------------------------------------------------------- reading rows

  /** A cell as pandas hands it over: an absent column, NaN, a number, or text. */
  datatype Cell = Missing | Nan | Num(value: real) | Str(text: string)

  /** `pd.isna`: an absent column reads as `None`, which is NA as well. */
  predicate IsNa(c: Cell) {
    c.Missing? || c.Nan?
  }

  function CellAt(row: map<string, Cell>, column: string): Cell {
    if column in row then row[column] else Missing
  }

  /** `f'{n} Set [{kind}]'` for a one-digit set number. */
  function SetColumn(n: nat, kind: string): (c: string)
    requires 1 <= n <= 9
  {
    ["0123456789"[n]] + " Set [" + kind + "]"
  }

  /** Different set numbers or kinds name different columns, so every set
      reads cells of its own. */
  lemma SetColumnInjective(n1: nat, kind1: string, n2: nat, kind2: string)
    requires 1 <= n1 <= 9 && 1 <= n2 <= 9
    requires SetColumn(n1, kind1) == SetColumn(n2, kind2)
    ensures n1 == n2 && kind1 == kind2
  {
    var c1 := SetColumn(n1, kind1);
    var c2 := SetColumn(n2, kind2);
    assert "0123456789"[n1] == c1[0] == c2[0] == "0123456789"[n2];
    assert |kind1| == |kind2|;
    assert kind1 == c1[7..7 + |kind1|] == c2[7..7 + |kind2|] == kind2;
  }

  const MaxSets := 5

  /** One set of a row, numbered by its columns. */
  datatype ParsedSet = ParsedSet(setNumber: int, weight: real, reps: int, oneRm: real)

  /** What the columns of one set give: nothing, a set, or a `TypeError` (a
      text cell compared with 0), which makes the whole row unreadable. */
  datatype SetCells = NoSet | Broken | Kept(parsed: ParsedSet)

  /** Both the weight and the repetitions are numbers above 0. */
  predicate Positive(w: Cell, reps: Cell) {
    w.Num? && reps.Num? && w.value > 0.0 && reps.value > 0.0
  }

  /** The columns of set `n`: kept when weight and repetitions are present
      and above 0, with `int(reps)` repetitions and the recorded one-rep max,
      or the Epley estimate when it is missing or not above 0. The conditions
      are evaluated left to right, so text in a cell raises only when the
      comparison that reads it is reached. */
  function ParseSet(row: map<string, Cell>, n: nat): (r: SetCells)
    requires 1 <= n <= MaxSets
    ensures var w := CellAt(row, SetColumn(n, "WT")); var reps := CellAt(row, SetColumn(n, "Reps"));
      var orm := CellAt(row, SetColumn(n, "1RM"));
      (r.Kept? <==> Positive(w, reps) && !orm.Str?)
      && (r.Broken? ==> !IsNa(w) && !IsNa(reps) && (w.Str? || reps.Str? || orm.Str?))
    ensures r.Kept? ==> var w := CellAt(row, SetColumn(n, "WT")); var reps := CellAt(row, SetColumn(n, "Reps"));
      var orm := CellAt(row, SetColumn(n, "1RM"));
      r.parsed.setNumber == n && r.parsed.weight == w.value && r.parsed.reps == Trunc(reps.value)
      && r.parsed.oneRm == (if orm.Num? && orm.value > 0.0 then orm.value
                         else Calculations.OneRm(w.value, Trunc(reps.value)))
  {
    var w := CellAt(row, SetColumn(n, "WT"));
    var reps := CellAt(row, SetColumn(n, "Reps"));
    var orm := CellAt(row, SetColumn(n, "1RM"));
    if IsNa(w) || IsNa(reps) then NoSet
    else if w.Str? then Broken
    else if w.value <= 0.0 then NoSet
    else if reps.Str? then Broken
    else if reps.value <= 0.0 then NoSet
    else
      var count := Trunc(reps.value);
      if IsNa(orm) then Kept(ParsedSet(n, w.value, count, Calculations.OneRm(w.value, count)))
      else if orm.Str? then Broken
      else if orm.value <= 0.0 then Kept(ParsedSet(n, w.value, count, Calculations.OneRm(w.value, count)))
      else Kept(ParsedSet(n, w.value, count, orm.value))
  }

  /** A kept set's one-rep max is above 0: a recorded one is, and the estimate
      is at least the weight. */
  lemma KeptOneRmPositive(row: map<string, Cell>, n: nat)
    requires 1 <= n <= MaxSets && ParseSet(row, n).Kept?
    ensures ParseSet(row, n).parsed.oneRm > 0.0 && ParseSet(row, n).parsed.weight > 0.0 && ParseSet(row, n).parsed.reps >= 0
  {
    var s := ParseSet(row, n).parsed;
    var reps := CellAt(row, SetColumn(n, "Reps"));
    assert Trunc(reps.value) >= 0;
    if Trunc(reps.value) != 1 {
      assert Calculations.OneRm(s.weight, s.reps) * 30.0 == s.weight * (30.0 + s.reps as real);
    }
  }

  /** The sets of columns `n` to 5, in column order; `None` when one of them
      raises. */
  function SetsFrom(row: map<string, Cell>, n: nat): (r: Option<seq<ParsedSet>>)
    requires 1 <= n <= MaxSets + 1
    ensures r.Some? ==> forall i :: 0 <= i < |r.value| ==>
      n <= r.value[i].setNumber <= MaxSets && ParseSet(row, r.value[i].setNumber) == Kept(r.value[i])
    ensures r.Some? ==> forall i, j :: 0 <= i < j < |r.value| ==> r.value[i].setNumber < r.value[j].setNumber
    decreases MaxSets + 1 - n
  {
    if n > MaxSets then Some([])
    else
      var here := ParseSet(row, n);
      var rest := SetsFrom(row, n + 1);
      if here.Broken? || rest.None? then None
      else if here.Kept? then Some([here.parsed] + rest.value)
      else rest
  }

  /** Reading the sets fails exactly when one of them raises. */
  lemma {:induction false} SetsFromFails(row: map<string, Cell>, n: nat)
    requires 1 <= n <= MaxSets + 1
    ensures SetsFrom(row, n).None? <==> exists k :: n <= k <= MaxSets && ParseSet(row, k).Broken?
    decreases MaxSets + 1 - n
  {
    if n <= MaxSets {
      SetsFromFails(row, n + 1);
      if ParseSet(row, n).Broken? {
        assert n <= n <= MaxSets && ParseSet(row, n).Broken?;
      }
      if exists k :: n <= k <= MaxSets && ParseSet(row, k).Broken? {
        var k :| n <= k <= MaxSets && ParseSet(row, k).Broken?;
        if k > n {
          assert n + 1 <= k <= MaxSets && ParseSet(row, k).Broken?;
        }
      }
    }
  }

  /** Every kept set is read. */
  lemma {:induction false} SetsFromComplete(row: map<string, Cell>, n: nat, k: nat)
    requires 1 <= n <= k <= MaxSets && SetsFrom(row, n).Some? && ParseSet(row, k).Kept?
    ensures ParseSet(row, k).parsed in SetsFrom(row, n).value
    decreases k - n
  {
    if k > n {
      SetsFromComplete(row, n + 1, k);
    }
  }

  /** A workout record read from one row. */
  datatype WorkoutRecord = WorkoutRecord(date: Day, sets: seq<ParsedSet>)

  const DateFormats: seq<string> := ["%Y/%m/%d", "%Y-%m-%d", "%m/%d/%Y", "%d/%m/%Y", "%Y年%m月%d日"]

  /** `_parse_date`: the formats in their fixed order. */
  function ParseDate(text: string, strptime: (string, string) -> Option<Day>): (r: Option<Day>)
    ensures r.None? <==> forall j :: 0 <= j < |DateFormats| ==> strptime(text, DateFormats[j]).None?
    ensures strptime(text, "%Y/%m/%d").Some? ==> r == strptime(text, "%Y/%m/%d")
  {
    ParseWith(text, DateFormats, strptime)
  }

  /** `str(row.get('Date', '')).strip()`. */
  function DateText(c: Cell, show: real -> string): string {
    match c
    case Missing => ""
    case Nan => "nan"
    case Num(x) => Strip(show(x))
    case Str(s) => Strip(s)
  }

  /** The row has a usable date: text other than empty or "nan" that one of
      the formats parses. */
  predicate HasDate(row: map<string, Cell>, strptime: (string, string) -> Option<Day>, show: real -> string) {
    var text := DateText(CellAt(row, "Date"), show);
    text != "" && text != "nan" && ParseDate(text, strptime).Some?
  }

  /** `_parse_workout_row`: the row's date and its kept sets; `None` for a
      row without a usable date, without any kept set, or whose cells raise
      (`ParseRowFails` states exactly when). */
  function ParseRow(row: map<string, Cell>, strptime: (string, string) -> Option<Day>, show: real -> string)
    : (r: Option<WorkoutRecord>)
    ensures r.Some? ==> HasDate(row, strptime, show)
    ensures r.Some? ==> r.value.date == ParseDate(DateText(CellAt(row, "Date"), show), strptime).value
    ensures r.Some? ==> 1 <= |r.value.sets| <= MaxSets
    ensures r.Some? ==> forall i :: 0 <= i < |r.value.sets| ==>
      1 <= r.value.sets[i].setNumber <= MaxSets && ParseSet(row, r.value.sets[i].setNumber) == Kept(r.value.sets[i])
    ensures r.Some? ==> forall i, j :: 0 <= i < j < |r.value.sets| ==> r.value.sets[i].setNumber < r.value.sets[j].setNumber
  {
    var text := DateText(CellAt(row, "Date"), show);
    if text == "" || text == "nan" then None
    else
      var date := ParseDate(text, strptime);
      if date.None? then None
      else
        var sets := SetsFrom(row, 1);
        if sets.None? || sets.value == [] then None
        else
          SetCountBound(sets.value);
          Some(WorkoutRecord(date.value, sets.value))
  }

  /** A row gives no record exactly when its date is unusable, one of its
      sets raises, or none of its sets is kept. */
  lemma ParseRowFails(row: map<string, Cell>, strptime: (string, string) -> Option<Day>, show: real -> string)
    ensures ParseRow(row, strptime, show).None? <==>
      !HasDate(row, strptime, show)
      || (exists k :: 1 <= k <= MaxSets && ParseSet(row, k).Broken?)
      || (forall k :: 1 <= k <= MaxSets ==> !ParseSet(row, k).Kept?)
  {
    SetsFromFails(row, 1);
    var sets := SetsFrom(row, 1);
    if HasDate(row, strptime, show) && sets.Some? {
      if sets.value == [] {
        forall k | 1 <= k <= MaxSets ensures !ParseSet(row, k).Kept? {
          if ParseSet(row, k).Kept? {
            SetsFromComplete(row, 1, k);
          }
        }
      } else {
        assert ParseSet(row, sets.value[0].setNumber).Kept?;
      }
    }
  }

  /** Every kept set of a row that gives a record is in the record. */
  lemma ParseRowComplete(row: map<string, Cell>, strptime: (string, string) -> Option<Day>, show: real -> string, k: nat)
    requires ParseRow(row, strptime, show).Some?
    requires 1 <= k <= MaxSets && ParseSet(row, k).Kept?
    ensures ParseSet(row, k).parsed in ParseRow(row, strptime, show).value.sets
  {
    SetsFromComplete(row, 1, k);
  }

  /** Strictly increasing set numbers between 1 and 5 are at most five. */
  lemma {:induction false} SetCountBound(sets: seq<ParsedSet>)
    requires forall i :: 0 <= i < |sets| ==> 1 <= sets[i].setNumber <= MaxSets
    requires forall i, j :: 0 <= i < j < |sets| ==> sets[i].setNumber < sets[j].setNumber
    ensures |sets| <= MaxSets
  {
    if |sets| > 0 {
      assert forall i :: 0 <= i < |sets| ==> sets[i].setNumber >= sets[0].setNumber + i by {
        forall i | 0 <= i < |sets| ensures sets[i].setNumber >= sets[0].setNumber + i {
          SteppedUp(sets, i);
        }
      }
      assert sets[|sets| - 1].setNumber >= 1 + |sets| - 1;
    }
  }

  lemma {:induction false} SteppedUp(sets: seq<ParsedSet>, i: nat)
    requires i < |sets|
    requires forall a, b :: 0 <= a < b < |sets| ==> sets[a].setNumber < sets[b].setNumber
    ensures sets[i].setNumber >= sets[0].setNumber + i
  {
    if i > 0 {
      SteppedUp(sets, i - 1);
    }
  }

  /** `_read_csv_file` after loading: the records of the rows that parse, in
      row order. */
  function ParseRows(rows: seq<map<string, Cell>>, strptime: (string, string) -> Option<Day>, show: real -> string)
    : (r: seq<WorkoutRecord>)
    ensures |r| <= |rows|
    ensures forall i :: 0 <= i < |rows| && ParseRow(rows[i], strptime, show).Some? ==>
      ParseRow(rows[i], strptime, show).value in r
    ensures forall k :: 0 <= k < |r| ==> FromSomeRow(r[k], rows, strptime, show)
  {
    var parsed := ParsedRows(rows, strptime, show);
    var r := Present(parsed);
    forall i | 0 <= i < |rows| && ParseRow(rows[i], strptime, show).Some?
      ensures ParseRow(rows[i], strptime, show).value in r
    {
      assert parsed[i] == ParseRow(rows[i], strptime, show);
    }
    forall k | 0 <= k < |r| ensures FromSomeRow(r[k], rows, strptime, show) {
      var i :| 0 <= i < |parsed| && parsed[i] == Some(r[k]);
    }
    r
  }

  /** Each row's parse, in row order. */
  function ParsedRows(rows: seq<map<string, Cell>>, strptime: (string, string) -> Option<Day>, show: real -> string)
    : (r: seq<Option<WorkoutRecord>>)
    ensures |r| == |rows|
    ensures forall i :: 0 <= i < |rows| ==> r[i] == ParseRow(rows[i], strptime, show)
  {
    seq(|rows|, i requires 0 <= i < |rows| => ParseRow(rows[i], strptime, show))
  }

  /** The records of two runs of rows are those of the first run followed by
      those of the second: the records come in row order. */
  lemma ParseRowsAppend(a: seq<map<string, Cell>>, b: seq<map<string, Cell>>,
                        strptime: (string, string) -> Option<Day>, show: real -> string)
    ensures ParseRows(a + b, strptime, show) == ParseRows(a, strptime, show) + ParseRows(b, strptime, show)
  {
    var pa := ParsedRows(a, strptime, show);
    var pb := ParsedRows(b, strptime, show);
    assert ParsedRows(a + b, strptime, show) == pa + pb;
    PresentAppend(pa, pb);
  }

  /** One row gives its record or nothing, so the records are one per row
      that parses. */
  lemma ParseRowsOne(rows: seq<map<string, Cell>>, row: map<string, Cell>,
                     strptime: (string, string) -> Option<Day>, show: real -> string)
    ensures ParseRows([row], strptime, show) ==
      if ParseRow(row, strptime, show).Some? then [ParseRow(row, strptime, show).value] else []
    ensures |ParseRows(rows, strptime, show)| == CountPresent(ParsedRows(rows, strptime, show))
  {
    assert ParsedRows([row], strptime, show) == [ParseRow(row, strptime, show)];
    PresentCount(ParsedRows(rows, strptime, show));
  }

  /** `x` is what one of `rows` parses to. */
  predicate FromSomeRow(x: WorkoutRecord, rows: seq<map<string, Cell>>,
                        strptime: (string, string) -> Option<Day>, show: real -> string) {
    exists i :: 0 <= i < |rows| && ParseRow(rows[i], strptime, show) == Some(x)
  }

  // ---------------------------------------------------------------- the format check

  /** `validate_csv_format`'s verdict: whether the file can be imported and
      the set numbers whose weight and repetition columns both exist. */
  datatype CsvFormat = CsvFormat(valid: bool, columns: seq<string>, detectedSets: seq<nat>)

  predicate HasSetColumns(columns: seq<string>, k: nat)
    requires 1 <= k <= MaxSets
  {
    SetColumn(k, "WT") in columns && SetColumn(k, "Reps") in columns
  }

  /** The set numbers from `n` to 5 with both columns. */
  function DetectSets(columns: seq<string>, n: nat): (r: seq<nat>)
    requires 1 <= n <= MaxSets + 1
    ensures forall k :: k in r <==> n <= k <= MaxSets && HasSetColumns(columns, k)
    ensures forall i, j :: 0 <= i < j < |r| ==> r[i] < r[j]
    decreases MaxSets + 1 - n
  {
    if n > MaxSets then []
    else
      var rest := DetectSets(columns, n + 1);
      assert forall j :: 0 <= j < |rest| ==> rest[j] in rest;
      if HasSetColumns(columns, n) then [n] + rest else rest
  }

  /** `validate_csv_format` on the header of the file (`None` when the file
      cannot be read): valid exactly when there is a "Date" column and at
      least one set with both its weight and repetition columns. Unlike the
      import, the check does not strip the column names. */
  function ValidateCsvFormat(header: Option<seq<string>>): (r: CsvFormat)
    ensures header.None? ==> r == CsvFormat(false, [], [])
    ensures header.Some? ==> r.columns == header.value
    ensures header.Some? ==>
      (r.valid <==> "Date" in header.value && exists k :: 1 <= k <= MaxSets && HasSetColumns(header.value, k))
    ensures forall k :: k in r.detectedSets ==> 1 <= k <= MaxSets
    ensures header.Some? ==>
      forall k :: k in r.detectedSets <==> 1 <= k <= MaxSets && HasSetColumns(header.value, k)
    ensures forall i, j :: 0 <= i < j < |r.detectedSets| ==> r.detectedSets[i] < r.detectedSets[j]
  {
    if header.None? then CsvFormat(false, [], [])
    else
      var detected := DetectSets(header.value, 1);
      assert detected != [] ==> detected[0] in detected;
      assert forall k :: 1 <= k <= MaxSets && HasSetColumns(header.value, k) ==> k in detected;
      CsvFormat(|detected| > 0 && "Date" in header.value, header.value, detected)
  }

  // ---------------------------------------------------------------- writing to the database

  /** The workout holds a set of the exercise: the join of
      `_find_existing_workout`, which needs an id to match. */
  predicate HoldsExercise(sets: seq<SetRecord>, w: Workout, exerciseId: int) {
    w.id.Some? && exists s :: s in sets && s.workoutId == w.id.value && s.exerciseId == exerciseId
  }

  /** Some workout on `date` holds a set of the exercise. */
  predicate Covered(db: Db, date: Day, exerciseId: int) {
    exists w :: w in db.workouts && w.date == date && HoldsExercise(db.sets, w, exerciseId)
  }

  /** `_find_existing_workout`: a workout on that day holding a set of the
      exercise; the query has no ORDER BY, and the first in table order is
      taken. */
  function FindExisting(workouts: seq<Workout>, sets: seq<SetRecord>, date: Day, exerciseId: int): (r: Option<Workout>)
    ensures r.Some? ==> r.value in workouts && r.value.date == date && HoldsExercise(sets, r.value, exerciseId)
    ensures r.None? <==> forall w :: w in workouts ==> !(w.date == date && HoldsExercise(sets, w, exerciseId))
  {
    if workouts == [] then None
    else if workouts[0].date == date && HoldsExercise(sets, workouts[0], exerciseId) then Some(workouts[0])
    else
      assert forall w :: w in workouts ==> w == workouts[0] || w in workouts[1..];
      FindExisting(workouts[1..], sets, date, exerciseId)
  }

  /** The note of a workout the import creates, `f"CSVインポート - {exercise_id}"`. */
  function ImportNote(exerciseId: int): string {
    "CSVインポート - " + (if exerciseId < 0 then "-" + NatText(-exerciseId) else NatText(exerciseId))
  }

  /** The row one set becomes under the given id. */
  function NewRow(id: int, workoutId: int, exerciseId: int, p: ParsedSet): SetRecord {
    SetRecord(Some(id), workoutId, exerciseId, p.setNumber, p.weight, p.reps, Some(p.oneRm))
  }

  /** The rows one record's sets become, with ids counted up from `firstId`
      and the record's own one-rep max. */
  function NewRows(firstId: int, workoutId: int, exerciseId: int, sets: seq<ParsedSet>): (r: seq<SetRecord>)
    ensures |r| == |sets|
    ensures forall k :: 0 <= k < |r| ==>
      r[k] == SetRecord(Some(firstId + k), workoutId, exerciseId, sets[k].setNumber, sets[k].weight, sets[k].reps, Some(sets[k].oneRm))
  {
    seq(|sets|, k requires 0 <= k < |sets| => NewRow(firstId + k, workoutId, exerciseId, sets[k]))
  }

  /** The first new row is the first set's, and the others follow it. */
  lemma NewRowsHead(firstId: int, workoutId: int, exerciseId: int, sets: seq<ParsedSet>)
    requires sets != []
    ensures NewRows(firstId, workoutId, exerciseId, sets) ==
      [NewRow(firstId, workoutId, exerciseId, sets[0])] + NewRows(firstId + 1, workoutId, exerciseId, sets[1..])
  {
    var all := NewRows(firstId, workoutId, exerciseId, sets);
    var rest := NewRows(firstId + 1, workoutId, exerciseId, sets[1..]);
    forall k | 1 <= k < |sets| ensures all[k] == rest[k - 1] {
      assert sets[1..][k - 1] == sets[k];
    }
  }

  /** Appending the first new row and then the others is appending all of them. */
  lemma AppendFirstRow(table: seq<SetRecord>, nextId: int, workoutId: int, exerciseId: int, sets: seq<ParsedSet>)
    requires sets != []
    ensures (table + [NewRow(nextId, workoutId, exerciseId, sets[0])]) + NewRows(nextId + 1, workoutId, exerciseId, sets[1..])
      == table + NewRows(nextId, workoutId, exerciseId, sets)
  {
    var head := [NewRow(nextId, workoutId, exerciseId, sets[0])];
    var tail := NewRows(nextId + 1, workoutId, exerciseId, sets[1..]);
    NewRowsHead(nextId, workoutId, exerciseId, sets);
    assert (table + head) + tail == table + (head + tail);
  }

  /** The set inserts of one record into the sets table whose counter is
      `nextId`, one transaction each, counting the inserts whose row id is
      truthy. */
  function AppendSetRows(table: seq<SetRecord>, nextId: int, workoutId: int, exerciseId: int, sets: seq<ParsedSet>)
    : (r: (nat, seq<SetRecord>))
    ensures r.1 == table + NewRows(nextId, workoutId, exerciseId, sets)
    ensures r.0 <= |sets|
    ensures nextId >= 1 ==> r.0 == |sets|
    decreases |sets|
  {
    if sets == [] then
      assert table + [] == table;
      (0, table)
    else
      var rest := AppendSetRows(table + [NewRow(nextId, workoutId, exerciseId, sets[0])], nextId + 1,
                                workoutId, exerciseId, sets[1..]);
      AppendFirstRow(table, nextId, workoutId, exerciseId, sets);
      ((if nextId != 0 then 1 else 0) + rest.0, rest.1)
  }

  /** The set inserts of one record: the new rows appended with consecutive
      ids from the counter, nothing else changed. */
  function InsertSets(db: Db, workoutId: int, exerciseId: int, sets: seq<ParsedSet>): (r: (nat, Db))
    ensures r.1 == db.(sets := db.sets + NewRows(db.nextSetId, workoutId, exerciseId, sets),
                       nextSetId := db.nextSetId + |sets|)
    ensures r.0 <= |sets|
    ensures db.nextSetId >= 1 ==> r.0 == |sets|
  {
    var (count, table) := AppendSetRows(db.sets, db.nextSetId, workoutId, exerciseId, sets);
    (count, db.(sets := table, nextSetId := db.nextSetId + |sets|))
  }

  /** Not one of the exercise's sets in the workout being overwritten. */
  function Survives(workoutId: int, exerciseId: int): SetRecord -> bool {
    (s: SetRecord) => !(s.workoutId == workoutId && s.exerciseId == exerciseId)
  }

  /** One of the exercise's sets in the workout being overwritten. */
  function Overwritten(workoutId: int, exerciseId: int): SetRecord -> bool {
    (s: SetRecord) => s.workoutId == workoutId && s.exerciseId == exerciseId
  }

  /** `_delete_existing_sets`. */
  function DeleteSets(db: Db, workoutId: int, exerciseId: int): (r: Db)
    ensures r.workouts == db.workouts && r.exercises == db.exercises && r.nextSetId == db.nextSetId
    ensures forall s :: s in r.sets <==> s in db.sets && !(s.workoutId == workoutId && s.exerciseId == exerciseId)
  {
    db.(sets := Filter(db.sets, Survives(workoutId, exerciseId)))
  }

  /** What happened to one record. */
  datatype Outcome = Skipped | NotCreated | Imported(sets: nat)

  /** One pass of the loop of `_import_to_database`: a record whose day
      already has a workout holding the exercise is skipped, unless
      overwriting, when that workout's sets of the exercise are replaced;
      otherwise a new workout is created (a falsy id counts as neither
      imported nor skipped) and the sets are inserted into it. */
  function ImportOne(db: Db, rec: WorkoutRecord, exerciseId: int, overwrite: bool, fault: Option<Fault>): (r: (Outcome, Db))
    ensures r.0.Skipped? <==> !overwrite && Covered(db, rec.date, exerciseId)
    ensures r.0.Skipped? || (r.0.NotCreated? && fault.Some?) ==> r.1 == db
    ensures r.0.NotCreated? <==> !Covered(db, rec.date, exerciseId) && (fault.Some? || db.nextWorkoutId == 0)
    ensures r.0.Imported? ==> r.0.sets <= |rec.sets| && (db.nextSetId >= 1 ==> r.0.sets == |rec.sets|)
    ensures r.0.Imported? && rec.sets != [] ==> Covered(r.1, rec.date, exerciseId)
    ensures overwrite && Covered(db, rec.date, exerciseId) ==> r.1.workouts == db.workouts
    ensures overwrite && Covered(db, rec.date, exerciseId) ==>
      var w := FindExisting(db.workouts, db.sets, rec.date, exerciseId).value;
      w.id.Some? && r.1.sets == DeleteSets(db, w.id.value, exerciseId).sets + NewRows(db.nextSetId, w.id.value, exerciseId, rec.sets)
    ensures !(overwrite && Covered(db, rec.date, exerciseId)) ==> db.workouts <= r.1.workouts && db.sets <= r.1.sets
    ensures r.0.Imported? ==> |r.1.sets| <= |db.sets| + |rec.sets|
    ensures !(overwrite && Covered(db, rec.date, exerciseId)) && r.0.Imported? ==> |r.1.sets| == |db.sets| + |rec.sets|
    ensures r.1.nextSetId >= db.nextSetId && r.1.nextWorkoutId >= db.nextWorkoutId
  {
    var existing := FindExisting(db.workouts, db.sets, rec.date, exerciseId);
    assert existing.Some? <==> Covered(db, rec.date, exerciseId);
    if existing.Some? && !overwrite then (Skipped, db)
    else if existing.Some? then
      var w := existing.value;
      var (count, after) := ReplaceSets(db, w, exerciseId, rec.sets);
      assert rec.sets != [] ==> Covered(after, rec.date, exerciseId);
      (Imported(count), after)
    else CreateWorkout(db, rec, exerciseId, fault)
  }

  /** The overwrite branch: the workout's sets of the exercise deleted and
      the record's sets inserted into it. */
  function ReplaceSets(db: Db, w: Workout, exerciseId: int, sets: seq<ParsedSet>): (r: (nat, Db))
    requires w.id.Some?
    ensures r.1.sets == DeleteSets(db, w.id.value, exerciseId).sets + NewRows(db.nextSetId, w.id.value, exerciseId, sets)
    ensures r.1.workouts == db.workouts
    ensures r.0 <= |sets| && (db.nextSetId >= 1 ==> r.0 == |sets|)
    ensures |r.1.sets| <= |db.sets| + |sets|
    ensures sets != [] ==> HoldsExercise(r.1.sets, w, exerciseId)
    ensures r.1.nextSetId >= db.nextSetId && r.1.nextWorkoutId == db.nextWorkoutId
  {
    var cleared := DeleteSets(db, w.id.value, exerciseId);
    var (count, after) := InsertSets(cleared, w.id.value, exerciseId, sets);
    assert |cleared.sets| <= |db.sets|;
    assert sets != [] ==> HoldsExercise(after.sets, w, exerciseId) by {
      if sets != [] {
        assert after.sets[|cleared.sets|] in after.sets;
      }
    }
    (count, after)
  }

  /** After an overwrite the workout's sets of the exercise are exactly the
      record's new rows, and every other set is as it was, in its order. */
  lemma ReplaceSetsReplaces(db: Db, w: Workout, exerciseId: int, sets: seq<ParsedSet>)
    requires w.id.Some?
    ensures Filter(ReplaceSets(db, w, exerciseId, sets).1.sets, Overwritten(w.id.value, exerciseId))
      == NewRows(db.nextSetId, w.id.value, exerciseId, sets)
    ensures Filter(ReplaceSets(db, w, exerciseId, sets).1.sets, Survives(w.id.value, exerciseId))
      == Filter(db.sets, Survives(w.id.value, exerciseId))
  {
    var id := w.id.value;
    var kept := Filter(db.sets, Survives(id, exerciseId));
    var added := NewRows(db.nextSetId, id, exerciseId, sets);
    FilterAppend(kept, added, Overwritten(id, exerciseId));
    FilterAppend(kept, added, Survives(id, exerciseId));
    FilterKeepsNone(kept, Overwritten(id, exerciseId));
    FilterKeepsAll(kept, Survives(id, exerciseId));
    FilterKeepsAll(added, Overwritten(id, exerciseId));
    FilterKeepsNone(added, Survives(id, exerciseId));
  }

  /** The branch without a covering workout: a new workout, then its sets;
      nothing more when the workout is not created. */
  function CreateWorkout(db: Db, rec: WorkoutRecord, exerciseId: int, fault: Option<Fault>): (r: (Outcome, Db))
    ensures !r.0.Skipped?
    ensures r.0.NotCreated? <==> fault.Some? || db.nextWorkoutId == 0
    ensures r.0.NotCreated? && fault.Some? ==> r.1 == db
    ensures r.0.Imported? ==> r.0.sets <= |rec.sets| && (db.nextSetId >= 1 ==> r.0.sets == |rec.sets|)
    ensures r.0.Imported? && rec.sets != [] ==> Covered(r.1, rec.date, exerciseId)
    ensures db.workouts <= r.1.workouts && db.sets <= r.1.sets
    ensures r.0.Imported? ==> |r.1.sets| == |db.sets| + |rec.sets|
    ensures r.1.nextSetId >= db.nextSetId && r.1.nextWorkoutId >= db.nextWorkoutId
  {
    var (id, created) := AddWorkout(db, rec.date, Some(ImportNote(exerciseId)), fault);
    if id.None? || id.value == 0 then (NotCreated, created)
    else
      var (count, after) := InsertSets(created, id.value, exerciseId, rec.sets);
      var w := Workout(id, rec.date, Some(ImportNote(exerciseId)));
      assert w in after.workouts by {
        assert after.workouts[|db.workouts|] == w;
      }
      assert rec.sets != [] ==> HoldsExercise(after.sets, w, exerciseId) by {
        if rec.sets != [] {
          assert after.sets[|db.sets|] in after.sets;
        }
      }
      (Imported(count), after)
  }

  /** The counters `_import_to_database` returns. */
  datatype ImportResult = ImportResult(importedWorkouts: nat, importedSets: nat, skippedWorkouts: nat, totalRecords: nat)

  /** The number of sets over all records. */
  function SetCount(records: seq<WorkoutRecord>): nat {
    if records == [] then 0 else |records[0].sets| + SetCount(records[1..])
  }

  predicate NoFaults(faults: seq<Option<Fault>>) {
    forall i :: 0 <= i < |faults| ==> faults[i].None?
  }

  /** `_import_to_database` over the records in order; `faults[i]` is how the
      creation of record `i`'s workout fails, if it does. */
  function ImportFrom(db: Db, records: seq<WorkoutRecord>, exerciseId: int, overwrite: bool, faults: seq<Option<Fault>>)
    : (r: (ImportResult, Db))
    requires |faults| >= |records|
    ensures r.0.totalRecords == |records|
    ensures r.0.importedWorkouts + r.0.skippedWorkouts <= |records|
    ensures overwrite ==> r.0.skippedWorkouts == 0
    ensures NoFaults(faults) && db.nextWorkoutId >= 1 ==> r.0.importedWorkouts + r.0.skippedWorkouts == |records|
    ensures r.0.importedSets <= SetCount(records)
    ensures !overwrite ==> db.workouts <= r.1.workouts && db.sets <= r.1.sets
    ensures !overwrite && db.nextSetId >= 1 ==> |r.1.sets| == |db.sets| + r.0.importedSets
    ensures r.1.nextSetId >= db.nextSetId && r.1.nextWorkoutId >= db.nextWorkoutId
    decreases |records|
  {
    if records == [] then (ImportResult(0, 0, 0, 0), db)
    else
      var (outcome, db1) := ImportOne(db, records[0], exerciseId, overwrite, faults[0]);
      assert NoFaults(faults) ==> NoFaults(faults[1..]);
      var (rest, db2) := ImportFrom(db1, records[1..], exerciseId, overwrite, faults[1..]);
      (ImportResult(
         rest.importedWorkouts + (if outcome.Imported? then 1 else 0),
         rest.importedSets + (if outcome.Imported? then outcome.sets else 0),
         rest.skippedWorkouts + (if outcome.Skipped? then 1 else 0),
         |records|),
       db2)
  }

  /** Without deletions, a covered day stays covered. */
  lemma CoveredKept(db: Db, db1: Db, date: Day, exerciseId: int)
    requires db.workouts <= db1.workouts && db.sets <= db1.sets
    requires Covered(db, date, exerciseId)
    ensures Covered(db1, date, exerciseId)
  {
    var w :| w in db.workouts && w.date == date && HoldsExercise(db.sets, w, exerciseId);
    var s :| s in db.sets && s.workoutId == w.id.value && s.exerciseId == exerciseId;
    assert s in db1.sets && w in db1.workouts;
  }

  /** Each record of the import has its day ending up covered: without
      overwriting and with every workout created, every imported day has a
      workout holding the exercise afterwards. */
  lemma {:induction false} ImportCovers(db: Db, records: seq<WorkoutRecord>, exerciseId: int, faults: seq<Option<Fault>>)
    requires |faults| >= |records| && NoFaults(faults) && db.nextWorkoutId >= 1
    requires forall j :: 0 <= j < |records| ==> records[j].sets != []
    ensures forall j :: 0 <= j < |records| ==>
      Covered(ImportFrom(db, records, exerciseId, false, faults).1, records[j].date, exerciseId)
    decreases |records|
  {
    if records != [] {
      var (outcome, db1) := ImportOne(db, records[0], exerciseId, false, faults[0]);
      assert Covered(db1, records[0].date, exerciseId);
      assert NoFaults(faults[1..]);
      ImportCovers(db1, records[1..], exerciseId, faults[1..]);
      var after := ImportFrom(db1, records[1..], exerciseId, false, faults[1..]).1;
      assert ImportFrom(db, records, exerciseId, false, faults).1 == after;
      CoveredKept(db1, after, records[0].date, exerciseId);
      forall j | 1 <= j < |records| ensures Covered(after, records[j].date, exerciseId) {
        assert records[j] == records[1..][j - 1];
      }
    }
  }

  /** Records whose days are all covered are all skipped, and nothing is
      written. */
  lemma {:induction false} CoveredRecordsSkipped(db: Db, records: seq<WorkoutRecord>, exerciseId: int, faults: seq<Option<Fault>>)
    requires |faults| >= |records|
    requires forall j :: 0 <= j < |records| ==> Covered(db, records[j].date, exerciseId)
    ensures ImportFrom(db, records, exerciseId, false, faults) == (ImportResult(0, 0, |records|, |records|), db)
    decreases |records|
  {
    if records != [] {
      assert ImportOne(db, records[0], exerciseId, false, faults[0]) == (Skipped, db);
      forall j | 0 <= j < |records[1..]| ensures Covered(db, records[1..][j].date, exerciseId) {
        assert records[1..][j] == records[j + 1];
      }
      CoveredRecordsSkipped(db, records[1..], exerciseId, faults[1..]);
    }
  }

  /** Importing the same file twice without overwriting: the second run skips
      every record and leaves the database as the first run left it. */
  lemma ImportTwiceSkipsAll(db: Db, records: seq<WorkoutRecord>, exerciseId: int,
                            faults: seq<Option<Fault>>, again: seq<Option<Fault>>)
    requires |faults| >= |records| && |again| >= |records| && NoFaults(faults) && db.nextWorkoutId >= 1
    requires forall j :: 0 <= j < |records| ==> records[j].sets != []
    ensures var first := ImportFrom(db, records, exerciseId, false, faults).1;
      ImportFrom(first, records, exerciseId, false, again) == (ImportResult(0, 0, |records|, |records|), first)
  {
    ImportCovers(db, records, exerciseId, faults);
    CoveredRecordsSkipped(ImportFrom(db, records, exerciseId, false, faults).1, records, exerciseId, again);
  }

  /** `import_workout_csv` after the file is read into rows: the exercise is
      chosen and looked up or created, the rows are parsed and the records
      imported. `None` stands for the `ValueError`s it raises: incomplete
      exercise details, or no exercise id. */
  function ImportWorkoutCsv(
    db: Db, basename: string, name: Option<string>, variation: Option<string>, category: Option<string>,
    rows: seq<map<string, Cell>>, strptime: (string, string) -> Option<Day>, show: real -> string,
    overwrite: bool, exerciseFault: Option<Fault>, faults: seq<Option<Fault>>)
    : (r: Option<(ImportResult, Db)>)
    requires |faults| >= |rows|
    ensures ChooseExercise(name, variation, category, basename).None? ==> r.None?
    ensures r.Some? ==> r.value.0.totalRecords == |ParseRows(rows, strptime, show)|
    ensures r.Some? ==> r.value.0.totalRecords <= |rows|
    ensures r.Some? ==> r.value.0.importedWorkouts + r.value.0.skippedWorkouts <= r.value.0.totalRecords
    ensures var info := ChooseExercise(name, variation, category, basename);
      r.Some? <==> info.Some? && GetOrCreateExercise(db, info.value, exerciseFault).0.Some?
    ensures r.Some? && !overwrite ==> db.workouts <= r.value.1.workouts && db.sets <= r.value.1.sets
    ensures r.Some? && NoFaults(faults) && db.nextWorkoutId >= 1 ==>
      r.value.0.importedWorkouts + r.value.0.skippedWorkouts == r.value.0.totalRecords
    ensures r.Some? && !overwrite && NoFaults(faults) && db.nextWorkoutId >= 1 ==>
      var exerciseId := GetOrCreateExercise(db, ChooseExercise(name, variation, category, basename).value, exerciseFault).0.value;
      forall x :: x in ParseRows(rows, strptime, show) ==> Covered(r.value.1, x.date, exerciseId)
  {
    var info := ChooseExercise(name, variation, category, basename);
    if info.None? then None
    else
      var records := ParseRows(rows, strptime, show);
      var (exerciseId, db1) := GetOrCreateExercise(db, info.value, exerciseFault);
      if exerciseId.None? then None
      else
        RecordsHaveSets(rows, strptime, show);
        if !overwrite && NoFaults(faults) && db.nextWorkoutId >= 1 then
          ImportCovers(db1, records, exerciseId.value, faults);
          Some(ImportFrom(db1, records, exerciseId.value, overwrite, faults))
        else Some(ImportFrom(db1, records, exerciseId.value, overwrite, faults))
  }

  /** Every parsed record holds at least one set. */
  lemma RecordsHaveSets(rows: seq<map<string, Cell>>, strptime: (string, string) -> Option<Day>, show: real -> string)
    ensures forall j :: 0 <= j < |ParseRows(rows, strptime, show)| ==> ParseRows(rows, strptime, show)[j].sets != []
  {
    var records := ParseRows(rows, strptime, show);
    forall j | 0 <= j < |records| ensures records[j].sets != [] {
      assert FromSomeRow(records[j], rows, strptime, show);
    }
  }
}

=== FILE: dates.dfy ===
/**
 * Trying date formats in order, as the importers do with a loop over
 * `datetime.strptime` that moves on at each `ValueError`. `strptime` stands
 * for the library call: the parsed value, or none when the text does not
 * match the format.
 */
module Dates {
  import opened Wrappers

  /** `formats[j]` is the first of the formats that parses `text`. */
  predicate FirstParsing<T>(text: string, formats: seq<string>, j: int, strptime: (string, string) -> Option<T>) {
    0 <= j < |formats| && strptime(text, formats[j]).Some?
    && forall i :: 0 <= i < j ==> strptime(text, formats[i]).None?
  }

  /** What the first format in `formats` that parses `text` gives. */
  function ParseWith<T(==)>(text: string, formats: seq<string>, strptime: (string, string) -> Option<T>): (r: Option<T>)
    ensures r.None? <==> forall j :: 0 <= j < |formats| ==> strptime(text, formats[j]).None?
    ensures r.Some? ==> exists j :: FirstParsing(text, formats, j, strptime) && strptime(text, formats[j]) == r
  {
    if formats == [] then None
    else if strptime(text, formats[0]).Some? then strptime(text, formats[0])
    else
      var rest := ParseWith(text, formats[1..], strptime);
      assert forall j :: 1 <= j < |formats| ==> formats[j] == formats[1..][j - 1];
      if rest.Some? then
        var j :| FirstParsing(text, formats[1..], j, strptime) && strptime(text, formats[1..][j]) == rest;
        assert FirstParsing(text, formats, j + 1, strptime);
        rest
      else rest
  }
}

=== FILE: excel_importer.dfy ===
/**
 * The Excel body-measurement importer: finding the header row, mapping
 * columns to measurements by keyword, reading dates (text in one of six
 * formats, a date, or an Excel serial number) and numbers (the first number
 * in a text cell), merging the records into the `body_stats` table, the
 * format check and the preview statistics.
 *
 * A sheet is the sequence of rows of the data frame `pd.read_excel` returns,
 * each a sequence of cells; the header row is searched for among them. The
 * date arithmetic of the libraries is a parameter (`Calendar`).
 */
module ExcelImporter {
  import opened Wrappers
  import opened Numeric
  import opened Text
  import opened Seqs
  import opened Models
  import opened Dates
  import opened BodyTable

  /** A cell: NaN, an integer, a float, text, a date, a datetime (a pandas
      `Timestamp`), or a value of any other type. A boolean cell is a Python
      `int`, so it reads as `IntVal(0)` or `IntVal(1)`, never as `OtherVal`. */
  datatype XValue =
    | Na
    | IntVal(i: int)
    | FloatVal(x: real)
    | TextVal(text: string)
    | DateCell(day: Day)
    | DateTimeCell(day: Day, seconds: int)
    | OtherVal

  // ---------------------------------------------------------------- the header row

  /** The word that marks the header row. */
  const HeaderMark := "日付"

  /** `pd.notna(cell) and '日付' in str(cell)`. Only text can contain it:
      `str` of a number, a date or a datetime is ASCII. */
  predicate MarksHeader(v: XValue) {
    v.TextVal? && Contains(v.text, HeaderMark)
  }

  predicate RowMarksHeader(row: seq<XValue>) {
    exists c :: c in row && MarksHeader(c)
  }

  /** Only the first ten rows are searched. */
  const HeaderSearchRows := 10

  function FindHeaderFrom(sheet: seq<seq<XValue>>, i: nat): (r: Option<nat>)
    requires i <= |sheet|
    ensures r.Some? ==> i <= r.value < |sheet| && r.value < HeaderSearchRows && RowMarksHeader(sheet[r.value])
    ensures r.Some? ==> forall k :: i <= k < r.value ==> !RowMarksHeader(sheet[k])
    ensures r.None? <==> forall k :: i <= k < |sheet| && k < HeaderSearchRows ==> !RowMarksHeader(sheet[k])
    decreases |sheet| - i
  {
    if i == |sheet| || i >= HeaderSearchRows then None
    else if RowMarksHeader(sheet[i]) then Some(i)
    else FindHeaderFrom(sheet, i + 1)
  }

  /** `_find_header_row`: the first of the first `min(10, len(df))` rows
      with a cell containing "日付". */
  function FindHeaderRow(sheet: seq<seq<XValue>>): (r: Option<nat>)
    ensures r.Some? ==> r.value < |sheet| && r.value < HeaderSearchRows && RowMarksHeader(sheet[r.value])
    ensures r.Some? ==> forall k :: 0 <= k < r.value ==> !RowMarksHeader(sheet[k])
    ensures r.None? <==> forall k :: 0 <= k < |sheet| && k < HeaderSearchRows ==> !RowMarksHeader(sheet[k])
  {
    FindHeaderFrom(sheet, 0)
  }

  // ---------------------------------------------------------------- column mapping

  /** What a column holds. */
  datatype Kind = DateColumn | WeightColumn | FatColumn | MuscleColumn | Unused

  const DateKeys: seq<string> := ["日付", "date", "測定日"]
  const WeightKeys: seq<string> := ["体重"]
  const FatKeys: seq<string> := ["脂肪率", "体脂肪", "body_fat", "bodyfat"]
  const MuscleKeys: seq<string> := ["筋肉量", "muscle"]

  predicate ContainsAny(s: string, keys: seq<string>) {
    exists k :: k in keys && Contains(s, k)
  }

  /** The kind of a column named `name`, decided by `name.lower().strip()`:
      a date keyword first, then a weight keyword with "kg", a body-fat
      keyword, a muscle keyword with "kg". */
  function KindOf(name: string): Kind {
    var t := Strip(Lower(name));
    if ContainsAny(t, DateKeys) then DateColumn
    else if ContainsAny(t, WeightKeys) && Contains(t, "kg") then WeightColumn
    else if ContainsAny(t, FatKeys) then FatColumn
    else if ContainsAny(t, MuscleKeys) && Contains(t, "kg") then MuscleColumn
    else Unused
  }

  /** The name of a header cell. NaN is skipped; `str` of a number or a date
      contains none of the keywords, so only text names a column. */
  function HeaderName(v: XValue): Option<string> {
    if v.TextVal? then Some(v.text) else None
  }

  function KindAt(v: XValue): Kind {
    if v.TextVal? then KindOf(v.text) else Unused
  }

  /** The column chosen for each measurement, by name. */
  datatype Mapping = Mapping(date: Option<string>, weight: Option<string>, fat: Option<string>, muscle: Option<string>)

  function Field(m: Mapping, k: Kind): Option<string> {
    match k
    case DateColumn => m.date
    case WeightColumn => m.weight
    case FatColumn => m.fat
    case MuscleColumn => m.muscle
    case Unused => None
  }

  /** Header cell `i` is the last of kind `k`. */
  predicate LastOfKind(header: seq<XValue>, i: int, k: Kind) {
    0 <= i < |header| && KindAt(header[i]) == k && forall j :: i < j < |header| ==> KindAt(header[j]) != k
  }

  /** The index of the last element satisfying `p`. */
  function LastWhere<T>(xs: seq<T>, p: T -> bool): (r: Option<nat>)
    ensures r.None? <==> forall i :: 0 <= i < |xs| ==> !p(xs[i])
    ensures r.Some? ==> r.value < |xs| && p(xs[r.value]) && forall j :: r.value < j < |xs| ==> !p(xs[j])
  {
    if xs == [] then None
    else if p(xs[|xs| - 1]) then Some(|xs| - 1)
    else
      assert forall i :: 0 <= i < |xs| - 1 ==> xs[..|xs| - 1][i] == xs[i];
      LastWhere(xs[..|xs| - 1], p)
  }

  function OfKind(k: Kind): XValue -> bool {
    (v: XValue) => KindAt(v) == k
  }

  /** The name of the last column of kind `k`: each header cell in turn
      overwrites the entry of its kind. */
  function LastName(header: seq<XValue>, k: Kind): (r: Option<string>)
    requires k != Unused
    ensures r.None? <==> forall i :: 0 <= i < |header| ==> KindAt(header[i]) != k
    ensures r.Some? ==> exists i :: LastOfKind(header, i, k) && HeaderName(header[i]) == r
  {
    var last := LastWhere(header, OfKind(k));
    if last.None? then
      assert forall i :: 0 <= i < |header| ==> !OfKind(k)(header[i]);
      None
    else
      var i := last.value;
      assert LastOfKind(header, i, k) by {
        assert forall j :: i < j < |header| ==> !OfKind(k)(header[j]);
      }
      HeaderName(header[i])
  }

  /** `_create_column_mapping`. */
  function CreateColumnMapping(header: seq<XValue>): (m: Mapping)
    ensures forall k :: k != Unused ==> Field(m, k) == LastName(header, k)
  {
    Mapping(LastName(header, DateColumn), LastName(header, WeightColumn), LastName(header, FatColumn), LastName(header, MuscleColumn))
  }

  /** A column mentioning a date keyword is the date column whatever else
      its name says. */
  lemma DateKeywordWins(name: string, key: string)
    requires key in DateKeys && Contains(Strip(Lower(name)), key)
    ensures KindOf(name) == DateColumn
  {
  }

  /** Weight and muscle columns need "kg" in the name. */
  lemma KgRequired(name: string)
    requires KindOf(name) == WeightColumn || KindOf(name) == MuscleColumn
    ensures Contains(Strip(Lower(name)), "kg")
  {
  }

  /** The mark survives `lower()` and `strip()`. */
  lemma MarkSurvivesNormalising(text: string)
    requires Contains(text, HeaderMark)
    ensures Contains(Strip(Lower(text)), HeaderMark)
  {
    assert forall k :: 0 <= k < |HeaderMark| ==> !('A' <= HeaderMark[k] <= 'Z');
    LowerKeepsWord(text, HeaderMark);
    assert !IsSpace(HeaderMark[0]) && !IsSpace(HeaderMark[|HeaderMark| - 1]);
    StripKeepsWord(Lower(text), HeaderMark);
  }

  /** The cell that marks the header row names a date column. */
  lemma MarkNamesDateColumn(v: XValue)
    requires MarksHeader(v)
    ensures KindAt(v) == DateColumn
  {
    MarkSurvivesNormalising(v.text);
    assert HeaderMark in DateKeys;
  }

  /** So a sheet whose header row is found always has a date column. */
  lemma HeaderRowHasDateColumn(sheet: seq<seq<XValue>>)
    requires FindHeaderRow(sheet).Some?
    ensures CreateColumnMapping(sheet[FindHeaderRow(sheet).value]).date.Some?
  {
    MarkedHeaderHasDateColumn(sheet[FindHeaderRow(sheet).value]);
  }

  lemma MarkedHeaderHasDateColumn(header: seq<XValue>)
    requires RowMarksHeader(header)
    ensures CreateColumnMapping(header).date.Some?
  {
    var c :| c in header && MarksHeader(c);
    MarkNamesDateColumn(c);
    var i :| 0 <= i < |header| && header[i] == c;
    assert LastName(header, DateColumn).Some? by {
      assert KindAt(header[i]) == DateColumn;
    }
    assert Field(CreateColumnMapping(header), DateColumn) == LastName(header, DateColumn);
  }

  // ---------------------------------------------------------------- reading cells

  /** Column `i` is the only one named `name`. */
  predicate OnlyColumn(header: seq<XValue>, name: string, i: int) {
    0 <= i < |header| && header[i] == TextVal(name)
    && forall j :: 0 <= j < |header| && header[j] == TextVal(name) ==> j == i
  }

  /** The value in the column named `name`. A missing column reads as NaN,
      and so does a name shared by several columns: pandas then hands over a
      whole series, and both readers end up with no value. */
  function CellUnder(header: seq<XValue>, row: seq<XValue>, name: string): (v: XValue)
    ensures v != Na ==> exists i :: OnlyColumn(header, name, i) && i < |row| && row[i] == v
    ensures forall i :: OnlyColumn(header, name, i) && i < |row| ==> v == row[i]
  {
    var named := Named(header, name);
    forall i | OnlyColumn(header, name, i) ensures named == [i] {
      NamedOnly(header, name, i);
    }
    if |named| == 1 && named[0] < |row| then
      assert OnlyColumn(header, name, named[0]) by {
        forall j | 0 <= j < |header| && header[j] == TextVal(name) ensures j == named[0] {
          assert j in named;
        }
      }
      row[named[0]]
    else Na
  }

  /** The indices of the columns named `name`, in increasing order. */
  function Named(header: seq<XValue>, name: string): (r: seq<nat>)
    ensures forall k :: 0 <= k < |r| ==> r[k] < |header| && header[r[k]] == TextVal(name)
    ensures forall i :: 0 <= i < |header| && header[i] == TextVal(name) ==> i in r
    ensures forall a, b :: 0 <= a < b < |r| ==> r[a] < r[b]
  {
    if header == [] then []
    else
      var n := |header| - 1;
      var before := Named(header[..n], name);
      assert forall i :: 0 <= i < n ==> header[..n][i] == header[i];
      if header[n] == TextVal(name) then before + [n] else before
  }

  lemma {:induction false} NamedNone(header: seq<XValue>, name: string)
    requires forall j :: 0 <= j < |header| ==> header[j] != TextVal(name)
    ensures Named(header, name) == []
  {
    if header != [] {
      var n := |header| - 1;
      assert forall j :: 0 <= j < n ==> header[..n][j] == header[j];
      NamedNone(header[..n], name);
    }
  }

  lemma {:induction false} NamedOnly(header: seq<XValue>, name: string, i: int)
    requires OnlyColumn(header, name, i)
    ensures Named(header, name) == [i]
  {
    var n := |header| - 1;
    var prefix := header[..n];
    assert forall j :: 0 <= j < n ==> prefix[j] == header[j];
    if i == n {
      NamedNone(prefix, name);
    } else {
      NamedOnly(prefix, name, i);
    }
  }

  const ExcelDateFormats: seq<string> := ["%Y/%m/%d", "%Y-%m-%d", "%m/%d/%Y", "%d/%m/%Y", "%Y年%m月%d日", "%Y.%m.%d"]

  /** The day number of 1900-01-01. */
  const Day1900 := 693596

  /** What the program borrows from its libraries for dates:
      `datetime.strptime(text, format)`, and whether a day is one that
      `datetime(1900, 1, 1) + pd.Timedelta(days=…)` can represent (outside
      the range the addition raises and the cell has no date). */
  datatype Calendar = Calendar(strptime: (string, string) -> Option<Day>, representable: Day -> bool)

  /** An Excel serial number: 1900-01-01 plus `int(n) - 2` days. */
  function SerialDate(n: int, cal: Calendar): (r: Option<Day>)
    ensures r.Some? <==> cal.representable(Day1900 + n - 2)
    ensures r.Some? ==> r.value == Day1900 + n - 2
  {
    var d := Day1900 + n - 2;
    if cal.representable(d) then Some(d) else None
  }

  /** `_parse_date`: a date or datetime as its day; text stripped and tried
      against the six formats in order; a number as a serial; anything else
      has no date. */
  function ParseDate(v: XValue, cal: Calendar): (r: Option<Day>)
    ensures v.Na? || v.OtherVal? ==> r.None?
    ensures v.DateCell? || v.DateTimeCell? ==> r == Some(v.day)
    ensures v.TextVal? ==> r == (if Strip(v.text) == "" then None else ParseWith(Strip(v.text), ExcelDateFormats, cal.strptime))
    ensures v.IntVal? ==> r == SerialDate(v.i, cal)
    ensures v.FloatVal? ==> r == SerialDate(Trunc(v.x), cal)
  {
    match v
    case Na => None
    case DateTimeCell(d, _) => Some(d)
    case DateCell(d) => Some(d)
    case TextVal(s) =>
      var t := Strip(s);
      if t == "" then None else ParseWith(t, ExcelDateFormats, cal.strptime)
    case IntVal(n) => SerialDate(n, cal)
    case FloatVal(x) => SerialDate(Trunc(x), cal)
    case OtherVal => None
  }

  /** Serial 2 is 1900-01-01, and consecutive serials are consecutive days. */
  lemma SerialDates(n: int, cal: Calendar)
    requires cal.representable(Day1900) && cal.representable(Day1900 + n - 2) && cal.representable(Day1900 + n - 1)
    ensures SerialDate(2, cal) == Some(Day1900)
    ensures SerialDate(n + 1, cal).value == SerialDate(n, cal).value + 1
  {
  }

  // ---------------------------------------------------------------- numbers in text

  /** The length of the run of digits `s` starts with. */
  function DigitRun(s: string): (n: nat)
    ensures n <= |s| && forall i :: 0 <= i < n ==> IsDigit(s[i])
    ensures n < |s| ==> !IsDigit(s[n])
  {
    if s != [] && IsDigit(s[0]) then
      var rest := DigitRun(s[1..]);
      assert forall i :: 1 <= i < 1 + rest ==> s[i] == s[1..][i - 1];
      1 + rest
    else 0
  }

  function Pow10(k: nat): (r: nat)
    ensures r >= 1
  {
    if k == 0 then 1 else 10 * Pow10(k - 1)
  }

  /** The value of `\d+\.?\d*` matched at the start of `s`: the digits, then,
      after a point, the fractional digits. */
  function LeadingNumber(s: string): (r: real)
    requires s != [] && IsDigit(s[0])
    ensures r >= 0.0
  {
    var a := DigitRun(s);
    var whole := NatValue(s[..a]) as real;
    if a < |s| && s[a] == '.' then
      var b := DigitRun(s[a + 1..]);
      whole + NatValue(s[a + 1..][..b]) as real / Pow10(b) as real
    else whole
  }

  predicate HasDigit(s: string) {
    exists i :: 0 <= i < |s| && IsDigit(s[i])
  }

  /** `float(re.search(r'(-?\d+\.?\d*)', s).group(1))`: the leftmost match,
      with a minus sign only when a digit follows it; `None` when there is no
      match. */
  function FirstNumber(s: string): (r: Option<real>)
    ensures r.Some? <==> HasDigit(s)
  {
    if s == [] then None
    else if s[0] == '-' && |s| > 1 && IsDigit(s[1]) then Some(-LeadingNumber(s[1..]))
    else if IsDigit(s[0]) then Some(LeadingNumber(s))
    else
      assert HasDigit(s) ==> HasDigit(s[1..]) by {
        if HasDigit(s) {
          var i :| 0 <= i < |s| && IsDigit(s[i]);
          assert s[1..][i - 1] == s[i];
        }
      }
      assert HasDigit(s[1..]) ==> HasDigit(s) by {
        if HasDigit(s[1..]) {
          var i :| 0 <= i < |s[1..]| && IsDigit(s[1..][i]);
          assert s[i + 1] == s[1..][i];
        }
      }
      FirstNumber(s[1..])
  }

  /** A whole number followed by a unit reads as that number: "65kg" gives 65. */
  lemma {:induction false} NumberWithUnit(n: nat, unit: string)
    requires unit == [] || (!IsDigit(unit[0]) && unit[0] != '.')
    ensures FirstNumber(NatText(n) + unit) == Some(n as real)
  {
    var ds := NatText(n);
    var s := ds + unit;
    assert s[0] == ds[0];
    assert forall i :: 0 <= i < |ds| ==> s[i] == ds[i];
    var a := DigitRun(s);
    assert |unit| > 0 ==> s[|ds|] == unit[0];
    assert a == |ds|;
    assert s[..a] == ds;
    NatValueOfText(n);
    assert a < |s| ==> s[a] == unit[0];
  }

  /** Removing commas keeps the digits and only drops commas. */
  lemma {:induction false} DropCommasKeepsDigits(s: string)
    ensures HasDigit(ReplaceChar(s, ',', "")) <==> HasDigit(s)
  {
    if s != [] {
      DropCommasKeepsDigits(s[1..]);
      var head := if s[0] == ',' then "" else [s[0]];
      var rest := ReplaceChar(s[1..], ',', "");
      assert ReplaceChar(s, ',', "") == head + rest;
      HasDigitSplit(head, rest);
      HasDigitSplit([s[0]], s[1..]);
      assert [s[0]] + s[1..] == s;
    }
  }

  lemma HasDigitSplit(a: string, b: string)
    ensures HasDigit(a + b) <==> HasDigit(a) || HasDigit(b)
  {
    if HasDigit(a + b) {
      var i :| 0 <= i < |a + b| && IsDigit((a + b)[i]);
      if i >= |a| { assert b[i - |a|] == (a + b)[i]; }
    }
    if HasDigit(b) {
      var i :| 0 <= i < |b| && IsDigit(b[i]);
      assert (a + b)[|a| + i] == b[i];
    }
    if HasDigit(a) {
      var i :| 0 <= i < |a| && IsDigit(a[i]);
      assert (a + b)[i] == a[i];
    }
  }

  lemma DigitSurvivesStrip(s: string, i: int)
    requires 0 <= i < |s| && IsDigit(s[i])
    ensures HasDigit(Strip(s))
  {
    var w := [s[i]];
    assert s[i..i + 1] == w;
    ContainsAt(s, w, i);
    StripKeepsWord(s, w);
    var t := Strip(s);
    var j :| 0 <= j <= |t| - 1 && StartsWith(t[j..], w);
    assert t[j] == t[j..][0] == s[i];
  }

  lemma StripAddsNoDigit(s: string)
    requires HasDigit(Strip(s))
    ensures HasDigit(s)
  {
    var t := Strip(s);
    var i :| 0 <= i < |t| && IsDigit(t[i]);
    var j :| 0 <= j <= |s| - |t| && StartsWith(s[j..], t);
    assert s[j + i] == s[j..][..|t|][i] == t[i];
  }

  /** Stripping spaces keeps the digits. */
  lemma StripKeepsDigits(s: string)
    ensures HasDigit(Strip(s)) <==> HasDigit(s)
  {
    if HasDigit(s) {
      var i :| 0 <= i < |s| && IsDigit(s[i]);
      DigitSurvivesStrip(s, i);
    }
    if HasDigit(Strip(s)) {
      StripAddsNoDigit(s);
    }
  }

  /** `_parse_float`: numbers as they are; in text, the first number after
      removing commas; `None` for NaN, text without a digit, and any other
      value (`float(str(value))` fails for dates). */
  function ParseFloat(v: XValue): (r: Option<real>)
    ensures v.Na? || v.DateCell? || v.DateTimeCell? || v.OtherVal? ==> r.None?
    ensures v.IntVal? ==> r == Some(v.i as real)
    ensures v.FloatVal? ==> r == Some(v.x)
    ensures v.TextVal? ==> (r.Some? <==> HasDigit(v.text))
    ensures v.TextVal? && r.Some? ==> r == FirstNumber(ReplaceChar(Strip(v.text), ',', ""))
  {
    match v
    case IntVal(i) => Some(i as real)
    case FloatVal(x) => Some(x)
    case TextVal(s) =>
      var t := Strip(s);
      StripKeepsDigits(s);
      DropCommasKeepsDigits(t);
      if t == "" then None else FirstNumber(ReplaceChar(t, ',', ""))
    case _ => None
  }

  // ---------------------------------------------------------------- rows

  /** One measurement read from the sheet; the weight is required. */
  datatype ExcelRecord = ExcelRecord(date: Day, weight: real, fat: Option<real>, muscle: Option<real>)

  /** `_parse_numeric_column`. */
  function NumberUnder(header: seq<XValue>, row: seq<XValue>, column: Option<string>): Option<real> {
    if column.None? then None else ParseFloat(CellUnder(header, row, column.value))
  }

  /** `_parse_row_safe`: a record when the date column holds a date and the
      weight column a number. */
  function ParseRowSafe(header: seq<XValue>, m: Mapping, row: seq<XValue>, cal: Calendar)
    : (r: Option<ExcelRecord>)
    ensures r.Some? <==>
      m.date.Some? && ParseDate(CellUnder(header, row, m.date.value), cal).Some?
      && NumberUnder(header, row, m.weight).Some?
    ensures r.Some? ==>
      r.value == ExcelRecord(ParseDate(CellUnder(header, row, m.date.value), cal).value,
                             NumberUnder(header, row, m.weight).value,
                             NumberUnder(header, row, m.fat), NumberUnder(header, row, m.muscle))
  {
    if m.date.None? then None
    else
      var cell := CellUnder(header, row, m.date.value);
      if cell.Na? then None
      else
        var date := ParseDate(cell, cal);
        if date.None? then None
        else
          var weight := NumberUnder(header, row, m.weight);
          if weight.None? then None
          else Some(ExcelRecord(date.value, weight.value, NumberUnder(header, row, m.fat), NumberUnder(header, row, m.muscle)))
  }

  /** `x` is what one of `rows` parses to. */
  predicate FromSomeRow(x: ExcelRecord, header: seq<XValue>, m: Mapping, rows: seq<seq<XValue>>,
                        cal: Calendar) {
    exists i :: 0 <= i < |rows| && ParseRowSafe(header, m, rows[i], cal) == Some(x)
  }

  /** The records of the data rows, in order; rows that do not parse are
      dropped. */
  function ParseDataRows(header: seq<XValue>, m: Mapping, rows: seq<seq<XValue>>, cal: Calendar)
    : (r: seq<ExcelRecord>)
    ensures |r| <= |rows|
    ensures forall i :: 0 <= i < |rows| && ParseRowSafe(header, m, rows[i], cal).Some? ==>
      ParseRowSafe(header, m, rows[i], cal).value in r
    ensures forall k :: 0 <= k < |r| ==> FromSomeRow(r[k], header, m, rows, cal)
  {
    var parsed := ParsedDataRows(header, m, rows, cal);
    var r := Present(parsed);
    forall i | 0 <= i < |rows| && ParseRowSafe(header, m, rows[i], cal).Some?
      ensures ParseRowSafe(header, m, rows[i], cal).value in r
    {
      assert parsed[i] == ParseRowSafe(header, m, rows[i], cal);
    }
    forall k | 0 <= k < |r| ensures FromSomeRow(r[k], header, m, rows, cal) {
      var i :| 0 <= i < |parsed| && parsed[i] == Some(r[k]);
    }
    r
  }

  /** Each data row's parse, in row order. */
  function ParsedDataRows(header: seq<XValue>, m: Mapping, rows: seq<seq<XValue>>, cal: Calendar)
    : (r: seq<Option<ExcelRecord>>)
    ensures |r| == |rows|
    ensures forall i :: 0 <= i < |rows| ==> r[i] == ParseRowSafe(header, m, rows[i], cal)
  {
    seq(|rows|, i requires 0 <= i < |rows| => ParseRowSafe(header, m, rows[i], cal))
  }

  /** The records of two runs of rows are those of the first run followed by
      those of the second, and one row gives its record or nothing: the records
      come in row order, one per row that parses. */
  lemma ParseDataRowsInOrder(header: seq<XValue>, m: Mapping, a: seq<seq<XValue>>, b: seq<seq<XValue>>,
                             row: seq<XValue>, cal: Calendar)
    ensures ParseDataRows(header, m, a + b, cal) == ParseDataRows(header, m, a, cal) + ParseDataRows(header, m, b, cal)
    ensures ParseDataRows(header, m, [row], cal) ==
      if ParseRowSafe(header, m, row, cal).Some? then [ParseRowSafe(header, m, row, cal).value] else []
    ensures |ParseDataRows(header, m, a, cal)| == CountPresent(ParsedDataRows(header, m, a, cal))
  {
    assert ParsedDataRows(header, m, a + b, cal) == ParsedDataRows(header, m, a, cal) + ParsedDataRows(header, m, b, cal);
    PresentAppend(ParsedDataRows(header, m, a, cal), ParsedDataRows(header, m, b, cal));
    assert ParsedDataRows(header, m, [row], cal) == [ParseRowSafe(header, m, row, cal)];
    PresentCount(ParsedDataRows(header, m, a, cal));
  }

  /** `_clean_and_validate_data`: `None` (the `ValueError`) without a header
      row; otherwise the records of the rows below it. */
  function CleanAndValidate(sheet: seq<seq<XValue>>, cal: Calendar)
    : (r: Option<seq<ExcelRecord>>)
    ensures r.None? <==> FindHeaderRow(sheet).None?
    ensures r.Some? ==> var h := FindHeaderRow(sheet).value;
      r.value == ParseDataRows(sheet[h], CreateColumnMapping(sheet[h]), sheet[h + 1..], cal)
  {
    var found := FindHeaderRow(sheet);
    if found.None? then None
    else
      var h := found.value;
      Some(ParseDataRows(sheet[h], CreateColumnMapping(sheet[h]), sheet[h + 1..], cal))
  }

  // ---------------------------------------------------------------- import

  /** What happened to one record. */
  datatype Outcome = Imported | Updated | Skipped | Failed

  /** The stored measurement with the record's values where they are truthy
      (`new or old`, field by field). */
  function Merge(existing: BodyStats, rec: ExcelRecord): (s: BodyStats)
    ensures s.id == existing.id && s.date == existing.date
    ensures Truthy(s.weight) <==> Truthy(Some(rec.weight)) || Truthy(existing.weight)
    ensures Truthy(s.bodyFat) <==> Truthy(rec.fat) || Truthy(existing.bodyFat)
    ensures Truthy(s.muscleMass) <==> Truthy(rec.muscle) || Truthy(existing.muscleMass)
    ensures Truthy(rec.fat) ==> s.bodyFat == rec.fat
    ensures !Truthy(rec.fat) ==> s.bodyFat == existing.bodyFat
  {
    existing.(weight := OrElse(Some(rec.weight), existing.weight),
              bodyFat := OrElse(rec.fat, existing.bodyFat),
              muscleMass := OrElse(rec.muscle, existing.muscleMass))
  }

  /** The loop body of `_import_to_database`: an existing day is merged
      (when overwriting) or skipped; a new day is added. `ok` is whether the
      database call succeeds. */
  function ImportOne(t: Table, rec: ExcelRecord, overwrite: bool, ok: bool): (r: (Outcome, Table))
    ensures r.0 == Skipped <==> StatsOn(t.rows, rec.date).Some? && !overwrite
    ensures r.0 == Updated <==> StatsOn(t.rows, rec.date).Some? && overwrite && ok
    ensures r.0 == Imported <==> StatsOn(t.rows, rec.date).None? && ok
    ensures r.0 == Skipped || r.0 == Failed ==> r.1 == t
    ensures r.0 == Imported ==> r.1.rows == t.rows + [BodyStats(Some(t.nextId), rec.date, Some(rec.weight), rec.fat, rec.muscle)]
    ensures !overwrite ==> t.rows <= r.1.rows
  {
    var existing := StatsOn(t.rows, rec.date);
    if existing.Some? then
      if overwrite then
        var merged := Merge(existing.value, rec);
        (if ok then Updated else Failed, Update(t, merged, ok))
      else (Skipped, t)
    else
      (if ok then Imported else Failed, Add(t, BodyStats(None, rec.date, Some(rec.weight), rec.fat, rec.muscle), ok))
  }

  /** Overwriting a stored day: afterwards the day reads as the merge of the
      stored measurement and the record. */
  lemma OverwriteMerges(t: Table, rec: ExcelRecord)
    requires Valid(t) && StatsOn(t.rows, rec.date).Some?
    ensures StatsOn(ImportOne(t, rec, true, true).1.rows, rec.date) == Some(Merge(StatsOn(t.rows, rec.date).value, rec))
    ensures Valid(ImportOne(t, rec, true, true).1)
  {
    var merged := Merge(StatsOn(t.rows, rec.date).value, rec);
    FoundAfterUpdate(t, merged);
    UpdateKeepsValid(t, merged, true);
  }

  /** The counters `_import_to_database` returns. */
  datatype Counts = Counts(imported: nat, updated: nat, skipped: nat, errors: nat, totalProcessed: nat)

  function Tally(c: Counts, o: Outcome): Counts {
    match o
    case Imported => c.(imported := c.imported + 1)
    case Updated => c.(updated := c.updated + 1)
    case Skipped => c.(skipped := c.skipped + 1)
    case Failed => c.(errors := c.errors + 1)
  }

  /** The number of successful database calls among the first `n`. */
  function Successes(oks: seq<bool>): nat {
    if oks == [] then 0 else (if oks[0] then 1 else 0) + Successes(oks[1..])
  }

  /** `_import_to_database` over the records in order; `oks[i]` is whether
      record `i`'s database call succeeds. */
  function ImportAll(t: Table, records: seq<ExcelRecord>, overwrite: bool, oks: seq<bool>): (r: (Counts, Table))
    requires |oks| >= |records|
    ensures r.0.totalProcessed == |records|
    ensures r.0.imported + r.0.updated + r.0.skipped + r.0.errors == |records|
    ensures overwrite ==> r.0.skipped == 0
    ensures !overwrite ==> r.0.updated == 0 && t.rows <= r.1.rows
    ensures r.0.imported + r.0.updated <= Successes(oks[..|records|])
    decreases |records|
  {
    if records == [] then (Counts(0, 0, 0, 0, 0), t)
    else
      var (o, t1) := ImportOne(t, records[0], overwrite, oks[0]);
      var (c, t2) := ImportAll(t1, records[1..], overwrite, oks[1..]);
      assert oks[..|records|][1..] == oks[1..][..|records| - 1];
      (Tally(c, o).(totalProcessed := |records|), t2)
  }

  lemma ImportOneKeepsValid(t: Table, rec: ExcelRecord, overwrite: bool, ok: bool)
    requires Valid(t)
    ensures Valid(ImportOne(t, rec, overwrite, ok).1)
  {
    var existing := StatsOn(t.rows, rec.date);
    if existing.Some? && overwrite {
      UpdateKeepsValid(t, Merge(existing.value, rec), ok);
    } else if existing.None? {
      AddKeepsValid(t, BodyStats(None, rec.date, Some(rec.weight), rec.fat, rec.muscle), ok);
    }
  }

  /** Importing keeps the table's ids unique and below the counter. */
  lemma {:induction false} ImportAllKeepsValid(t: Table, records: seq<ExcelRecord>, overwrite: bool, oks: seq<bool>)
    requires |oks| >= |records| && Valid(t)
    ensures Valid(ImportAll(t, records, overwrite, oks).1)
    decreases |records|
  {
    if records != [] {
      ImportOneKeepsValid(t, records[0], overwrite, oks[0]);
      ImportAllKeepsValid(ImportOne(t, records[0], overwrite, oks[0]).1, records[1..], overwrite, oks[1..]);
    }
  }

  /** Some row is on day `d`. */
  predicate HasDay(t: Table, d: Day) {
    exists i :: 0 <= i < |t.rows| && t.rows[i].date == d
  }

  /** A day that has a row keeps one: rows are only appended, and an
      overwrite replaces the day's row by one on the same day. */
  lemma ImportOneKeepsDays(t: Table, rec: ExcelRecord, overwrite: bool, ok: bool, d: Day)
    requires Valid(t) && HasDay(t, d)
    ensures HasDay(ImportOne(t, rec, overwrite, ok).1, d)
  {
    var j :| 0 <= j < |t.rows| && t.rows[j].date == d;
    var r := ImportOne(t, rec, overwrite, ok).1;
    var existing := StatsOn(t.rows, rec.date);
    if existing.Some? && overwrite && ok {
      var k := IndexOn(t.rows, rec.date).value;
      var merged := Merge(existing.value, rec);
      assert r == Update(t, merged, true);
      if t.rows[j].id == merged.id {
        assert t.rows[j].id == t.rows[k].id;
        assert j == k;
      }
      assert r.rows[j].date == d;
    } else {
      assert r.rows[j] == t.rows[j];
    }
  }

  /** A successful import leaves a row on the record's day. */
  lemma ImportOneCovers(t: Table, rec: ExcelRecord, overwrite: bool)
    requires Valid(t)
    ensures HasDay(ImportOne(t, rec, overwrite, true).1, rec.date)
  {
    var existing := StatsOn(t.rows, rec.date);
    if existing.Some? {
      ImportOneKeepsDays(t, rec, overwrite, true, rec.date);
    } else {
      var r := ImportOne(t, rec, overwrite, true).1;
      assert r.rows[|t.rows|].date == rec.date;
    }
  }

  lemma {:induction false} ImportAllKeepsDays(t: Table, records: seq<ExcelRecord>, overwrite: bool, oks: seq<bool>, d: Day)
    requires |oks| >= |records| && Valid(t) && HasDay(t, d)
    ensures HasDay(ImportAll(t, records, overwrite, oks).1, d)
    decreases |records|
  {
    if records != [] {
      ImportOneKeepsValid(t, records[0], overwrite, oks[0]);
      ImportOneKeepsDays(t, records[0], overwrite, oks[0], d);
      ImportAllKeepsDays(ImportOne(t, records[0], overwrite, oks[0]).1, records[1..], overwrite, oks[1..], d);
    }
  }

  /** Every record's day has a row. */
  predicate CoversAll(t: Table, records: seq<ExcelRecord>) {
    forall i :: 0 <= i < |records| ==> HasDay(t, records[i].date)
  }

  /** When every database call succeeds, every imported day has a row
      afterwards. */
  lemma {:induction false} ImportAllCovers(t: Table, records: seq<ExcelRecord>, overwrite: bool, oks: seq<bool>)
    requires |oks| >= |records| && Valid(t)
    requires forall i :: 0 <= i < |records| ==> oks[i]
    ensures CoversAll(ImportAll(t, records, overwrite, oks).1, records)
    decreases |records|
  {
    if records != [] {
      var t1 := ImportOne(t, records[0], overwrite, oks[0]).1;
      var r := ImportAll(t, records, overwrite, oks).1;
      ImportOneKeepsValid(t, records[0], overwrite, oks[0]);
      ImportOneCovers(t, records[0], overwrite);
      ImportAllKeepsDays(t1, records[1..], overwrite, oks[1..], records[0].date);
      assert forall i :: 0 <= i < |records| - 1 ==> oks[1..][i] by {
        forall i | 0 <= i < |records| - 1 ensures oks[1..][i] {
          assert oks[1..][i] == oks[i + 1];
        }
      }
      ImportAllCovers(t1, records[1..], overwrite, oks[1..]);
      CoversAllCons(r, records);
    }
  }

  lemma CoversAllCons(t: Table, records: seq<ExcelRecord>)
    requires records != [] && HasDay(t, records[0].date) && CoversAll(t, records[1..])
    ensures CoversAll(t, records)
  {
    forall i | 0 <= i < |records| ensures HasDay(t, records[i].date) {
      if i > 0 {
        assert records[i] == records[1..][i - 1];
      }
    }
  }

  /** Importing records whose days all have rows, without overwriting,
      skips every one and changes nothing. */
  lemma {:induction false} CoveredRecordsSkipped(t: Table, records: seq<ExcelRecord>, oks: seq<bool>)
    requires |oks| >= |records| && CoversAll(t, records)
    ensures ImportAll(t, records, false, oks) == (Counts(0, 0, |records|, 0, |records|), t)
    decreases |records|
  {
    if records != [] {
      assert HasDay(t, records[0].date);
      assert StatsOn(t.rows, records[0].date).Some?;
      assert CoversAll(t, records[1..]) by {
        forall i | 0 <= i < |records[1..]| ensures HasDay(t, records[1..][i].date) {
          assert records[1..][i] == records[i + 1];
        }
      }
      CoveredRecordsSkipped(t, records[1..], oks[1..]);
    }
  }

  /** Importing the same file twice without overwriting: when the first
      import's database calls all succeed, the second skips every record and
      leaves the table as the first left it. */
  lemma ImportTwiceSkipsAll(t: Table, records: seq<ExcelRecord>, overwrite: bool, oks: seq<bool>, again: seq<bool>)
    requires Valid(t) && |oks| >= |records| && |again| >= |records|
    requires forall i :: 0 <= i < |records| ==> oks[i]
    ensures var first := ImportAll(t, records, overwrite, oks).1;
      ImportAll(first, records, false, again) == (Counts(0, 0, |records|, 0, |records|), first)
  {
    ImportAllCovers(t, records, overwrite, oks);
    CoveredRecordsSkipped(ImportAll(t, records, overwrite, oks).1, records, again);
  }

  /** `import_from_excel` on a sheet that reads: `None` (the `ValueError`)
      without a header row, otherwise the counters and the new table. */
  function ImportFromExcel(t: Table, sheet: seq<seq<XValue>>, cal: Calendar, overwrite: bool, oks: seq<bool>)
    : (r: Option<(Counts, Table)>)
    requires |oks| >= |sheet|
    ensures r.None? <==> FindHeaderRow(sheet).None?
    ensures r.Some? ==> r.value.0.totalProcessed == |CleanAndValidate(sheet, cal).value| < |sheet|
    ensures r.Some? && !overwrite ==> t.rows <= r.value.1.rows
    ensures r.Some? && Valid(t) ==> Valid(r.value.1)
  {
    var records := CleanAndValidate(sheet, cal);
    if records.None? then None
    else
      var h := FindHeaderRow(sheet).value;
      assert |records.value| <= |sheet[h + 1..]|;
      assert Valid(t) ==> Valid(ImportAll(t, records.value, overwrite, oks).1) by {
        if Valid(t) {
          ImportAllKeepsValid(t, records.value, overwrite, oks);
        }
      }
      Some(ImportAll(t, records.value, overwrite, oks))
  }

  // ---------------------------------------------------------------- the format check and the preview

  /** Why `validate_excel_format` rejects a file. */
  datatype FormatError = Unreadable | NoHeaderRow | MissingColumns(missing: seq<string>) | NoDataRows

  datatype ExcelFormat = Invalid(error: FormatError) | ValidFormat(headerRow: nat, dataRows: nat, mapping: Mapping)

  /** `validate_excel_format` on a sheet (`None` when the file cannot be
      read): a header row, a date and a weight column, and at least one row
      below the header. */
  function ValidateExcelFormat(sheet: Option<seq<seq<XValue>>>): (r: ExcelFormat)
    ensures sheet.None? ==> r == Invalid(Unreadable)
    ensures r.ValidFormat? <==>
      sheet.Some? && FindHeaderRow(sheet.value).Some?
      && CreateColumnMapping(sheet.value[FindHeaderRow(sheet.value).value]).date.Some?
      && CreateColumnMapping(sheet.value[FindHeaderRow(sheet.value).value]).weight.Some?
      && FindHeaderRow(sheet.value).value + 1 < |sheet.value|
    ensures r.ValidFormat? ==> r.dataRows == |sheet.value| - r.headerRow - 1 && r.dataRows > 0
    ensures r.Invalid? && r.error.MissingColumns? ==> r.error.missing == ["体重"]
  {
    if sheet.None? then Invalid(Unreadable)
    else
      var s := sheet.value;
      var found := FindHeaderRow(s);
      if found.None? then Invalid(NoHeaderRow)
      else
        var h := found.value;
        var m := CreateColumnMapping(s[h]);
        HeaderRowHasDateColumn(s);
        var missing := (if m.date.None? then ["日付"] else []) + (if m.weight.None? then ["体重"] else []);
        if missing != [] then Invalid(MissingColumns(missing))
        else if |s| - h - 1 == 0 then Invalid(NoDataRows)
        else ValidFormat(h, |s| - h - 1, m)
  }

  /** The statistics of one measurement over the records. */
  datatype ValueStats = ValueStats(min: real, max: real, avg: real, count: nat)

  /** The truthy values of a measurement, in record order. */
  function TruthyValues(values: seq<Option<real>>): (r: seq<real>)
    ensures |r| <= |values|
    ensures forall k :: 0 <= k < |r| ==> r[k] != 0.0 && Some(r[k]) in values
    ensures forall i :: 0 <= i < |values| && Truthy(values[i]) ==> values[i].value in r
  {
    if values == [] then []
    else
      var rest := TruthyValues(values[1..]);
      assert forall k :: 0 <= k < |rest| ==> Some(rest[k]) in values by {
        forall k | 0 <= k < |rest| ensures Some(rest[k]) in values {
          assert Some(rest[k]) in values[1..];
        }
      }
      assert forall i :: 1 <= i < |values| ==> values[i] == values[1..][i - 1];
      if Truthy(values[0]) then [values[0].value] + rest else rest
  }

  /** The truthy values of consecutive runs of records are those of each
      run, in order. */
  lemma {:induction false} TruthyValuesAppend(a: seq<Option<real>>, b: seq<Option<real>>)
    ensures TruthyValues(a + b) == TruthyValues(a) + TruthyValues(b)
    decreases |a|
  {
    if a == [] {
      assert a + b == b;
    } else {
      var head := if Truthy(a[0]) then [a[0].value] else [];
      assert (a + b)[0] == a[0] && (a + b)[1..] == a[1..] + b;
      assert TruthyValues(a + b) == head + TruthyValues(a[1..] + b);
      TruthyValuesAppend(a[1..], b);
      assert TruthyValues(a) == head + TruthyValues(a[1..]);
    }
  }

  /** One value gives itself exactly when it is truthy. */
  lemma TruthyValuesOne(x: Option<real>)
    ensures TruthyValues([x]) == if Truthy(x) then [x.value] else []
  {
    assert [x][1..] == [];
  }

  /** The statistics of the truthy values, none when there is none. */
  function StatsOf(values: seq<Option<real>>): (r: Option<ValueStats>)
    ensures r.None? <==> forall i :: 0 <= i < |values| ==> !Truthy(values[i])
    ensures r.Some? ==> r.value.count == |TruthyValues(values)| && r.value.count > 0
    ensures r.Some? ==> r.value.min <= r.value.avg <= r.value.max
    ensures r.Some? ==> forall i :: 0 <= i < |values| && Truthy(values[i]) ==> r.value.min <= values[i].value <= r.value.max
    ensures r.Some? ==> Some(r.value.min) in values && Some(r.value.max) in values
    ensures r.Some? ==> r.value.min in TruthyValues(values) && r.value.max in TruthyValues(values)
    ensures r.Some? ==> IsMean(r.value.avg, r.value.count, Sum(TruthyValues(values)))
  {
    var vs := TruthyValues(values);
    if vs == [] then
      None
    else
      MeanBetweenMinAndMax(vs);
      MeanIsMean(vs);
      assert Truthy(Some(vs[0])) by {
        assert Some(vs[0]) in values;
      }
      Some(ValueStats(MinOf(vs), MaxOf(vs), Mean(vs), |vs|))
  }

  function Weights(records: seq<ExcelRecord>): (r: seq<Option<real>>)
    ensures |r| == |records| && forall i :: 0 <= i < |records| ==> r[i] == Some(records[i].weight)
  {
    seq(|records|, i requires 0 <= i < |records| => Some(records[i].weight))
  }

  function Fats(records: seq<ExcelRecord>): (r: seq<Option<real>>)
    ensures |r| == |records| && forall i :: 0 <= i < |records| ==> r[i] == records[i].fat
  {
    seq(|records|, i requires 0 <= i < |records| => records[i].fat)
  }

  function Muscles(records: seq<ExcelRecord>): (r: seq<Option<real>>)
    ensures |r| == |records| && forall i :: 0 <= i < |records| ==> r[i] == records[i].muscle
  {
    seq(|records|, i requires 0 <= i < |records| => records[i].muscle)
  }

  /** `_calculate_preview_stats`: each measurement's statistics over its
      truthy values, absent when it has none. */
  datatype PreviewStats = PreviewStats(weight: Option<ValueStats>, fat: Option<ValueStats>, muscle: Option<ValueStats>)

  function PreviewStatsOf(records: seq<ExcelRecord>): (r: PreviewStats)
    ensures r.weight.None? <==> forall i :: 0 <= i < |records| ==> records[i].weight == 0.0
    ensures r.fat.None? <==> forall i :: 0 <= i < |records| ==> !Truthy(records[i].fat)
    ensures r.muscle.None? <==> forall i :: 0 <= i < |records| ==> !Truthy(records[i].muscle)
  {
    var w := Weights(records);
    assert forall i :: 0 <= i < |records| ==> (Truthy(w[i]) <==> records[i].weight != 0.0);
    PreviewStats(StatsOf(w), StatsOf(Fats(records)), StatsOf(Muscles(records)))
  }

  /** The earliest day among the records. */
  function EarliestDay(records: seq<ExcelRecord>): (d: Day)
    requires records != []
    ensures exists i :: 0 <= i < |records| && records[i].date == d
    ensures forall i :: 0 <= i < |records| ==> d <= records[i].date
  {
    if |records| == 1 then records[0].date
    else
      var rest := EarliestDay(records[1..]);
      assert forall i :: 1 <= i < |records| ==> records[i] == records[1..][i - 1];
      if records[0].date <= rest then records[0].date else rest
  }

  /** The latest day among the records. */
  function LatestDay(records: seq<ExcelRecord>): (d: Day)
    requires records != []
    ensures exists i :: 0 <= i < |records| && records[i].date == d
    ensures forall i :: 0 <= i < |records| ==> records[i].date <= d
  {
    if |records| == 1 then records[0].date
    else
      var rest := LatestDay(records[1..]);
      assert forall i :: 1 <= i < |records| ==> records[i] == records[1..][i - 1];
      if records[0].date >= rest then records[0].date else rest
  }

  /** What `preview_import_data` reports for a sheet with records. */
  datatype Preview = Preview(totalRecords: nat, start: Day, end: Day,
                             weightCount: nat, fatCount: nat, muscleCount: nat,
                             sample: seq<ExcelRecord>, stats: PreviewStats)

  /** The number of sample records shown. */
  const SampleSize := 5

  /** `p` reports `records`: their count, a date range holding every day,
      how many records carry each measurement, the first five records and
      the statistics. */
  predicate PreviewDescribes(p: Preview, records: seq<ExcelRecord>) {
    && p.totalRecords == |records| > 0
    && p.start <= p.end
    && (forall i :: 0 <= i < |records| ==> p.start <= records[i].date <= p.end)
    && p.weightCount == |TruthyValues(Weights(records))|
    && p.fatCount == |TruthyValues(Fats(records))|
    && p.muscleCount == |TruthyValues(Muscles(records))|
    && p.sample <= records && |p.sample| == (if |records| < SampleSize then |records| else SampleSize)
    && p.stats == PreviewStatsOf(records)
  }

  /** The preview of a non-empty list of records. */
  function PreviewOf(records: seq<ExcelRecord>): (p: Preview)
    requires records != []
    ensures PreviewDescribes(p, records)
  {
    var n := if |records| < SampleSize then |records| else SampleSize;
    Preview(|records|, EarliestDay(records), LatestDay(records),
            |TruthyValues(Weights(records))|, |TruthyValues(Fats(records))|, |TruthyValues(Muscles(records))|,
            records[..n], PreviewStatsOf(records))
  }

  /** `preview_import_data` on a sheet (`None` when the file cannot be
      read): `None` (the error entry) without a header row or without
      records, otherwise the preview of the records. */
  function PreviewImportData(sheet: Option<seq<seq<XValue>>>, cal: Calendar): (r: Option<Preview>)
    ensures r.None? <==> sheet.None? || CleanAndValidate(sheet.value, cal).None? || CleanAndValidate(sheet.value, cal).value == []
    ensures r.Some? ==> PreviewDescribes(r.value, CleanAndValidate(sheet.value, cal).value)
  {
    if sheet.None? then None
    else
      var cleaned := CleanAndValidate(sheet.value, cal);
      if cleaned.None? || cleaned.value == [] then None
      else Some(PreviewOf(cleaned.value))
  }
}

=== FILE: goal_dialog_v2.dfy ===
/**
 * The goal dialog of the "sets × weight × reps" goals: the v2 goal record,
 * the dialog's spin-box ranges and defaults, loading a stored goal into the
 * widgets and building the goal the dialog returns.
 */
module GoalDialogV2 {
  import opened Wrappers
  import opened Numeric

  /** The v2 goal: a weight to lift for a number of repetitions in a number of
      sets, the sets achieved so far, and the best weight recorded. */
  datatype GoalV2 = GoalV2(
    id: Option<int>, exerciseId: Option<int>, targetWeight: real, targetReps: int,
    targetSets: int, currentAchievedSets: int, currentMaxWeight: real,
    targetMonth: string, achieved: bool, notes: Option<string>)

  /** A goal as handed to the dialog for editing. Repetitions, sets and
      achieved sets are read with a fallback, so a record may lack them. */
  datatype StoredGoal = StoredGoal(
    id: Option<int>, exerciseId: int, targetWeight: real, targetReps: Option<int>,
    targetSets: Option<int>, currentAchievedSets: Option<int>,
    targetMonth: string, notes: Option<string>)

  const TargetWeightMin := 0.0
  const TargetWeightMax := 500.0
  const TargetRepsMin := 1
  const TargetRepsMax := 50
  const TargetSetsMin := 1
  const TargetSetsMax := 10
  const AchievedSetsMin := 0
  const AchievedSetsMax := 10
  const DefaultReps := 8
  const DefaultSets := 3

  /** The widgets of the dialog. `exerciseId` is the selected combo entry's
      data (the placeholder entry carries none); `achievedSets` is the
      progress spin box, which only exists when a goal is being edited. */
  datatype Widgets = Widgets(
    exerciseId: Option<int>, targetWeight: real, targetReps: int, targetSets: int,
    targetMonth: string, notes: string, achievedSets: Option<int>)

  /** The bounds every spin box keeps. */
  predicate InRange(w: Widgets) {
    TargetWeightMin <= w.targetWeight <= TargetWeightMax
    && TargetRepsMin <= w.targetReps <= TargetRepsMax
    && TargetSetsMin <= w.targetSets <= TargetSetsMax
    && (w.achievedSets.Some? ==> AchievedSetsMin <= w.achievedSets.value <= AchievedSetsMax)
  }

  /** A freshly built dialog: placeholder exercise, 0 kg, 8 reps, 3 sets,
      empty texts, and a progress spin at 0 when editing. */
  function Fresh(editing: bool): (w: Widgets)
    ensures InRange(w)
    ensures w.exerciseId.None? && w.targetReps == DefaultReps && w.targetSets == DefaultSets
    ensures w.achievedSets.Some? <==> editing
  {
    Widgets(None, TargetWeightMin, DefaultReps, DefaultSets, "", "", if editing then Some(AchievedSetsMin) else None)
  }

  /** `load_goal_data`: the goal's exercise is selected when the combo lists
      it; its values go into the spin boxes, clamped, with 8 reps and 3 sets
      when the record has none; non-empty notes are shown. */
  function LoadGoal(w: Widgets, goal: StoredGoal, listed: seq<int>): (r: Widgets)
    requires InRange(w) && w.achievedSets.Some?
    ensures InRange(r) && r.achievedSets.Some?
    ensures goal.exerciseId in listed ==> r.exerciseId == Some(goal.exerciseId)
    ensures goal.exerciseId !in listed ==> r.exerciseId == w.exerciseId
    ensures goal.targetReps.None? ==> r.targetReps == DefaultReps
    ensures goal.targetSets.None? ==> r.targetSets == DefaultSets
    ensures goal.currentAchievedSets.None? ==> r.achievedSets == Some(0)
    ensures r.targetMonth == goal.targetMonth
    ensures goal.notes.Some? && goal.notes.value != "" ==> r.notes == goal.notes.value
    ensures goal.notes.None? || goal.notes.value == "" ==> r.notes == w.notes
  {
    Widgets(
      if goal.exerciseId in listed then Some(goal.exerciseId) else w.exerciseId,
      SpinReal(goal.targetWeight, TargetWeightMin, TargetWeightMax),
      ClampInt(goal.targetReps.GetOr(DefaultReps), TargetRepsMin, TargetRepsMax),
      ClampInt(goal.targetSets.GetOr(DefaultSets), TargetSetsMin, TargetSetsMax),
      goal.targetMonth,
      if goal.notes.Some? && goal.notes.value != "" then goal.notes.value else w.notes,
      Some(ClampInt(goal.currentAchievedSets.GetOr(0), AchievedSetsMin, AchievedSetsMax)))
  }

  /** `get_goal_data`: the widget values; the id of the goal being edited
      (none for a new one); never achieved; the best weight reset to 0; the
      achieved sets from the progress spin, 0 for a new goal; empty notes as
      none. */
  function GetGoalData(edited: Option<StoredGoal>, w: Widgets): (g: GoalV2)
    ensures !g.achieved && g.currentMaxWeight == 0.0
    ensures g.id == (if edited.Some? then edited.value.id else None)
    ensures g.currentAchievedSets == (if w.achievedSets.Some? then w.achievedSets.value else 0)
    ensures g.notes.None? <==> w.notes == ""
    ensures g.notes.Some? ==> g.notes.value == w.notes
    ensures g.exerciseId == w.exerciseId && g.targetWeight == w.targetWeight
    ensures g.targetReps == w.targetReps && g.targetSets == w.targetSets && g.targetMonth == w.targetMonth
  {
    GoalV2(
      if edited.Some? then edited.value.id else None,
      w.exerciseId, w.targetWeight, w.targetReps, w.targetSets,
      if w.achievedSets.Some? then w.achievedSets.value else 0,
      0.0, w.targetMonth, false,
      if w.notes == "" then None else Some(w.notes))
  }

  /** A v2 goal handed back to the dialog for editing, every field present. */
  function StoredOf(g: GoalV2): (s: StoredGoal)
    requires g.exerciseId.Some?
    ensures s.id == g.id && s.exerciseId == g.exerciseId.value
  {
    StoredGoal(g.id, g.exerciseId.value, g.targetWeight, Some(g.targetReps), Some(g.targetSets),
               Some(g.currentAchievedSets), g.targetMonth, g.notes)
  }

  /** A goal whose values the widgets can show. */
  predicate Showable(g: GoalV2) {
    TargetWeightMin <= g.targetWeight <= TargetWeightMax && IsTenth(g.targetWeight)
    && TargetRepsMin <= g.targetReps <= TargetRepsMax
    && TargetSetsMin <= g.targetSets <= TargetSetsMax
    && AchievedSetsMin <= g.currentAchievedSets <= AchievedSetsMax
    && (g.notes.Some? ==> g.notes.value != "")
  }

  /** Opening a stored goal and saving without changes returns the same goal,
      except that it is no longer achieved and its best weight is 0 — the
      edit path clears both. */
  lemma {:induction false} EditRoundTrip(g: GoalV2, listed: seq<int>)
    requires g.exerciseId.Some? && g.exerciseId.value in listed
    requires Showable(g)
    ensures GetGoalData(Some(StoredOf(g)), LoadGoal(Fresh(true), StoredOf(g), listed))
            == g.(achieved := false, currentMaxWeight := 0.0)
  {
    var w := LoadGoal(Fresh(true), StoredOf(g), listed);
    assert w.targetWeight == g.targetWeight;
    assert w.notes == "" <==> g.notes.None?;
  }

  /** Any accepted edit leaves the goal not achieved, whatever it was before. */
  lemma EditClearsAchieved(g: GoalV2, w: Widgets)
    requires g.exerciseId.Some?
    ensures !GetGoalData(Some(StoredOf(g)), w).achieved
    ensures GetGoalData(Some(StoredOf(g)), w).id == g.id
  {
  }
}

=== FILE: goals_tab.dfy ===
/**
 * The legacy goals tab: the progress bar and remaining-weight text of a goal
 * card, the goal dialog's spin boxes and the goal it returns, and the
 * "mark as achieved" action (whose persistence the tab never implemented).
 */
module GoalsTab {
  import opened Wrappers
  import opened Numeric
  import opened Models

  /** Both weight spin boxes of the dialog range over [0, 500] kg at one decimal. */
  const GoalWeightMin := 0.0
  const GoalWeightMax := 500.0

  /** The progress bar value: the truncated percentage of the target reached,
      capped at 100; 0 when the target is not positive. */
  function Progress(current: real, target: real): (p: int)
    ensures target <= 0.0 ==> p == 0
    ensures target > 0.0 && current >= 0.0 ==> 0 <= p <= 100
    ensures target > 0.0 && current >= target ==> p == 100
    ensures target > 0.0 && 0.0 <= current < target ==>
      p as real <= current / target * 100.0 < p as real + 1.0
  {
    if target > 0.0 then
      var pct := Trunc(current / target * 100.0);
      assert current >= target ==> current / target >= 1.0;
      if pct < 100 then pct else 100
    else 0
  }

  /** Reaching the target exactly gives a full bar; no progress gives an empty one. */
  lemma ProgressEndpoints(target: real)
    requires target > 0.0
    ensures Progress(target, target) == 100
    ensures Progress(0.0, target) == 0
  {
    assert 0.0 / target * 100.0 == 0.0;
  }

  /** More current weight never shows less progress. */
  lemma ProgressMonotone(c1: real, c2: real, target: real)
    requires 0.0 <= c1 <= c2
    ensures Progress(c1, target) <= Progress(c2, target)
  {
    if target > 0.0 {
      assert c1 / target <= c2 / target by {
        assert c2 / target - c1 / target == (c2 - c1) / target;
      }
    }
  }

  /** The text under the bar. */
  datatype ProgressText =
    | Remaining(kg: real, percent: int)   // "残り {kg:.1f}kg ({percent}%)"
    | Reached                             // "目標達成！"

  /** `GoalWidget`'s text: the remaining weight and the bar's percentage while
      the target is above the current weight, "目標達成！" otherwise. */
  function ProgressTextOf(goal: Goal): (t: ProgressText)
    ensures t.Reached? <==> goal.targetWeight - goal.currentWeight <= 0.0
    ensures t.Remaining? ==> t.kg > 0.0 && goal.currentWeight + t.kg == goal.targetWeight
    ensures t.Remaining? ==> t.percent == Progress(goal.currentWeight, goal.targetWeight)
  {
    var remaining := goal.targetWeight - goal.currentWeight;
    if remaining > 0.0 then Remaining(remaining, Progress(goal.currentWeight, goal.targetWeight))
    else Reached
  }

  /** A remaining text always comes with a bar short of full, for any weights
      the dialog can produce. */
  lemma RemainingBelowFull(goal: Goal)
    requires 0.0 <= goal.currentWeight
    requires ProgressTextOf(goal).Remaining?
    ensures ProgressTextOf(goal).percent < 100
  {
    var t := goal.targetWeight;
    var c := goal.currentWeight;
    assert c / t < 1.0 by {
      assert c / t * t == c;
    }
  }

  /** What the dialog's widgets hold when it is accepted. */
  datatype DialogInput = DialogInput(
    exerciseId: int, targetWeight: real, currentWeight: real, targetMonth: string)

  /** `load_goal_data`: an existing goal's values put into the widgets (the
      spin boxes round to one decimal and clamp to [0, 500]); a new goal
      leaves them as they are. */
  function LoadGoal(goal: Option<Goal>, blank: DialogInput): (d: DialogInput)
    ensures goal.None? ==> d == blank
    ensures goal.Some? ==> d.exerciseId == goal.value.exerciseId && d.targetMonth == goal.value.targetMonth
    ensures goal.Some? ==> GoalWeightMin <= d.targetWeight <= GoalWeightMax
    ensures goal.Some? ==> GoalWeightMin <= d.currentWeight <= GoalWeightMax
  {
    match goal
    case None => blank
    case Some(g) =>
      DialogInput(g.exerciseId, SpinReal(g.targetWeight, GoalWeightMin, GoalWeightMax),
                  SpinReal(g.currentWeight, GoalWeightMin, GoalWeightMax), g.targetMonth)
  }

  /** `GoalDialog.get_goal_data`: the widget values, with the id and the
      achieved flag of the goal being edited (none and not achieved for a new
      goal). */
  function GetGoalData(edited: Option<Goal>, d: DialogInput): (g: Goal)
    ensures edited.Some? ==> g.id == edited.value.id && g.achieved == edited.value.achieved
    ensures edited.None? ==> g.id.None? && !g.achieved
    ensures g.exerciseId == d.exerciseId && g.targetWeight == d.targetWeight
    ensures g.currentWeight == d.currentWeight && g.targetMonth == d.targetMonth
  {
    Goal(if edited.Some? then edited.value.id else None, d.exerciseId,
         d.targetWeight, d.currentWeight, d.targetMonth,
         if edited.Some? then edited.value.achieved else false)
  }

  /** Opening a stored goal in the dialog and accepting it unchanged gives the
      goal back, when its weights are ones the spin boxes can show. */
  lemma EditRoundTrip(goal: Goal, blank: DialogInput)
    requires GoalWeightMin <= goal.targetWeight <= GoalWeightMax && IsTenth(goal.targetWeight)
    requires GoalWeightMin <= goal.currentWeight <= GoalWeightMax && IsTenth(goal.currentWeight)
    ensures GetGoalData(Some(goal), LoadGoal(Some(goal), blank)) == goal
  {
  }

  /** What the achieve button shows. */
  datatype AchieveNotice =
    | NoSelection      // nothing selected: returns silently
    | AlreadyAchieved  // "この目標は既に達成済みです"
    | NotConfirmed     // the confirmation was declined
    | Congratulated    // "おめでとうございます！…マークしました"

  /** `mark_as_achieved`. The database update is an unimplemented TODO in the
      source, so the goal list is the same on every path; only the notice
      differs. */
  function MarkAsAchieved(goals: seq<Goal>, selected: Option<nat>, confirmed: bool): (r: (seq<Goal>, AchieveNotice))
    ensures r.0 == goals
    ensures r.1 == AlreadyAchieved <==> selected.Some? && selected.value < |goals| && goals[selected.value].achieved
    ensures r.1 == Congratulated <==>
      selected.Some? && selected.value < |goals| && !goals[selected.value].achieved && confirmed
    ensures r.1 == NoSelection <==> selected.None? || selected.value >= |goals|
  {
    if selected.None? || selected.value >= |goals| then (goals, NoSelection)
    else if goals[selected.value].achieved then (goals, AlreadyAchieved)
    else if confirmed then (goals, Congratulated)
    else (goals, NotConfirmed)
  }
}

=== FILE: goals_tab_v2.dfy ===
/**
 * The v2 goals tab: grouping goals by category for display, the
 * "almost achieved" notification, validating a new goal, marking a goal
 * achieved, recalculating progress, and the goal statistics.
 */
module GoalsTabV2 {
  import opened Wrappers
  import opened Numeric
  import opened Text
  import opened Seqs
  import opened GoalDialogV2

  /** One entry of the goal list the database returns: the goal with its
      exercise's category and name. */
  datatype GoalEntry = GoalEntry(goal: GoalV2, category: string, exerciseName: string)

  /** The order in which category sections are shown. */
  const CategoryOrder: seq<string> := ["脚", "胸", "背中", "肩", "腕"]

  /** One category header with its goals, in list order. */
  datatype Section = Section(category: string, entries: seq<GoalEntry>)

  function InCategory(c: string): GoalEntry -> bool {
    (e: GoalEntry) => e.category == c
  }

  /** A section holds exactly its category's goals, in list order, and is
      not empty. */
  predicate IsSectionOf(s: Section, entries: seq<GoalEntry>) {
    s.entries != [] && s.entries == Filter(entries, InCategory(s.category))
  }

  function SectionCategories(r: seq<Section>): (cs: seq<string>)
    ensures |cs| == |r| && forall k :: 0 <= k < |r| ==> cs[k] == r[k].category
  {
    seq(|r|, k requires 0 <= k < |r| => r[k].category)
  }

  /** The sections for the categories `order`, skipping empty ones. */
  function SectionsIn(order: seq<string>, entries: seq<GoalEntry>): (r: seq<Section>)
    ensures |r| <= |order|
  {
    if order == [] then []
    else
      var c := order[0];
      var rest := SectionsIn(order[1..], entries);
      var group := Filter(entries, InCategory(c));
      if group == [] then rest else [Section(c, group)] + rest
  }

  /** Each section is one of the listed categories and holds exactly that
      category's goals, in list order. */
  lemma {:induction false} SectionsInSound(order: seq<string>, entries: seq<GoalEntry>)
    ensures forall k :: 0 <= k < |SectionsIn(order, entries)| ==>
      SectionsIn(order, entries)[k].category in order && IsSectionOf(SectionsIn(order, entries)[k], entries)
  {
    if order != [] {
      SectionsInSound(order[1..], entries);
      var r := SectionsIn(order, entries);
      var rest := SectionsIn(order[1..], entries);
      forall k | 0 <= k < |r| ensures r[k].category in order && IsSectionOf(r[k], entries) {
        if r != rest && k > 0 {
          assert r[k] == rest[k - 1];
        }
        if r == rest {
          assert r[k].category in order[1..];
        }
      }
    }
  }

  /** Every listed category that has a goal gets a section. */
  lemma {:induction false} SectionsInComplete(order: seq<string>, entries: seq<GoalEntry>, c: string)
    requires c in order && Filter(entries, InCategory(c)) != []
    ensures c in SectionCategories(SectionsIn(order, entries))
  {
    if c == order[0] {
      SectionsInHead(order, entries);
    } else {
      assert c in order[1..] by {
        var i :| 0 <= i < |order| && order[i] == c;
        assert order[1..][i - 1] == c;
      }
      SectionsInComplete(order[1..], entries, c);
      SectionsInKeepsTail(order, entries, c);
    }
  }

  /** The first listed category, when it has goals, gets the first section. */
  lemma SectionsInHead(order: seq<string>, entries: seq<GoalEntry>)
    requires order != [] && Filter(entries, InCategory(order[0])) != []
    ensures order[0] in SectionCategories(SectionsIn(order, entries))
  {
    var r := SectionsIn(order, entries);
    assert r == [Section(order[0], Filter(entries, InCategory(order[0])))] + SectionsIn(order[1..], entries);
    assert SectionCategories(r)[0] == order[0];
  }

  /** A section for the later categories is a section for the whole list. */
  lemma SectionsInKeepsTail(order: seq<string>, entries: seq<GoalEntry>, c: string)
    requires order != [] && c in SectionCategories(SectionsIn(order[1..], entries))
    ensures c in SectionCategories(SectionsIn(order, entries))
  {
    var r := SectionsIn(order, entries);
    var rest := SectionsIn(order[1..], entries);
    var cs := SectionCategories(r);
    var k :| 0 <= k < |rest| && SectionCategories(rest)[k] == c;
    if r == rest {
      assert cs[k] == c;
    } else {
      assert r == [Section(order[0], Filter(entries, InCategory(order[0])))] + rest;
      assert r[k + 1] == rest[k];
      assert cs[k + 1] == c;
    }
  }

  /** The sections come in the listed order. */
  lemma {:induction false} SectionsInOrdered(order: seq<string>, entries: seq<GoalEntry>)
    ensures IsSubseq(SectionCategories(SectionsIn(order, entries)), order)
  {
    if order != [] {
      SectionsInOrdered(order[1..], entries);
      var r := SectionsIn(order, entries);
      var rest := SectionsIn(order[1..], entries);
      if r == rest {
        SubseqOfTail(SectionCategories(rest), order);
      } else {
        assert SectionCategories(r)[1..] == SectionCategories(rest);
      }
    }
  }

  /** `load_goals`: one section per category of the fixed order that has
      goals, each with that category's goals in list order. */
  function Sections(entries: seq<GoalEntry>): (r: seq<Section>)
    ensures forall k :: 0 <= k < |r| ==> r[k].category in CategoryOrder && IsSectionOf(r[k], entries)
    ensures forall c :: c in CategoryOrder && Filter(entries, InCategory(c)) != [] ==> c in SectionCategories(r)
    ensures IsSubseq(SectionCategories(r), CategoryOrder)
  {
    SectionsInSound(CategoryOrder, entries);
    SectionsInOrdered(CategoryOrder, entries);
    SectionsCoverCategories(CategoryOrder, entries);
    SectionsIn(CategoryOrder, entries)
  }

  lemma SectionsCoverCategories(order: seq<string>, entries: seq<GoalEntry>)
    ensures forall c :: c in order && Filter(entries, InCategory(c)) != [] ==> c in SectionCategories(SectionsIn(order, entries))
  {
    forall c | c in order && Filter(entries, InCategory(c)) != []
      ensures c in SectionCategories(SectionsIn(order, entries))
    {
      SectionsInComplete(order, entries, c);
    }
  }

  /** A goal appears on the tab exactly when its category is one of the five. */
  lemma ShownIffKnownCategory(entries: seq<GoalEntry>, e: GoalEntry)
    requires e in entries
    ensures (exists k :: 0 <= k < |Sections(entries)| && e in Sections(entries)[k].entries)
            <==> e.category in CategoryOrder
  {
    var r := Sections(entries);
    if e.category in CategoryOrder {
      var i :| 0 <= i < |entries| && entries[i] == e;
      assert InCategory(e.category)(entries[i]);
      assert e.category in SectionCategories(r);
      var k :| 0 <= k < |r| && SectionCategories(r)[k] == e.category;
      assert IsSectionOf(r[k], entries);
      assert e in r[k].entries;
    }
    if exists k :: 0 <= k < |r| && e in r[k].entries {
      var k :| 0 <= k < |r| && e in r[k].entries;
      assert IsSectionOf(r[k], entries);
      var j :| 0 <= j < |r[k].entries| && r[k].entries[j] == e;
      assert InCategory(r[k].category)(e);
    }
  }

  /** The notification box: hidden with no achievable goals; otherwise the
      first three goals, and a line "他{n}件…" for the rest when there are more. */
  datatype Notification<T> = Hidden | Shown(listed: seq<T>, others: Option<nat>)

  const NotifiedMax := 3

  /** `update_achievement_notifications`. */
  function Notify<T>(achievable: seq<T>): (r: Notification<T>)
    ensures r.Hidden? <==> achievable == []
    ensures r.Shown? ==> r.listed == achievable[..if |achievable| < NotifiedMax then |achievable| else NotifiedMax]
    ensures r.Shown? ==> (r.others.Some? <==> |achievable| > NotifiedMax)
    ensures r.Shown? && r.others.Some? ==> r.others.value > 0
  {
    if achievable == [] then Hidden
    else if |achievable| > NotifiedMax then Shown(achievable[..NotifiedMax], Some(|achievable| - NotifiedMax))
    else Shown(achievable, None)
  }

  /** Every achievable goal is accounted for: listed, or counted in the
      "others" line. */
  lemma NotifyAccountsForAll<T>(achievable: seq<T>)
    requires achievable != []
    ensures var r := Notify(achievable);
      |r.listed| + r.others.GetOr(0) == |achievable| && |r.listed| <= NotifiedMax
  {
  }

  /** The outcome of `add_goal` after the dialog was accepted. */
  datatype AddOutcome =
    | MissingExercise    // "種目を選択してください。"
    | NonPositiveWeight  // "目標重量は0より大きい値を入力してください。"
    | BlankMonth         // "目標期限を入力してください。"
    | SaveFailed         // "目標の保存に失敗しました。"
    | Added(id: int)

  /** The falsy exercise ids: none, or 0. */
  predicate HasExercise(g: GoalV2) {
    g.exerciseId.Some? && g.exerciseId.value != 0
  }

  /** `add_goal`: the checks run in order — exercise, weight, month — and the
      first failure is reported with nothing stored; otherwise the goal is
      stored through `add_goal_v2`, whose falsy id means failure. */
  function AddGoal(g: GoalV2, stored: Option<int>): (r: AddOutcome)
    ensures r.MissingExercise? <==> !HasExercise(g)
    ensures r.NonPositiveWeight? <==> HasExercise(g) && g.targetWeight <= 0.0
    ensures r.BlankMonth? <==> HasExercise(g) && g.targetWeight > 0.0 && Strip(g.targetMonth) == ""
    ensures r.Added? ==> HasExercise(g) && g.targetWeight > 0.0 && Strip(g.targetMonth) != ""
    ensures r.Added? ==> stored == Some(r.id) && r.id != 0
    ensures r.SaveFailed? <==>
      HasExercise(g) && g.targetWeight > 0.0 && Strip(g.targetMonth) != "" && (stored.None? || stored.value == 0)
  {
    if !HasExercise(g) then MissingExercise
    else if g.targetWeight <= 0.0 then NonPositiveWeight
    else if Strip(g.targetMonth) == "" then BlankMonth
    else if stored.None? || stored.value == 0 then SaveFailed
    else Added(stored.value)
  }

  /** A month made only of spaces is blank. */
  lemma SpacesAreBlank(g: GoalV2)
    requires HasExercise(g) && g.targetWeight > 0.0
    requires forall i :: 0 <= i < |g.targetMonth| ==> IsSpace(g.targetMonth[i])
    ensures AddGoal(g, Some(1)).BlankMonth?
  {
    StripEmptyIffAllSpace(g.targetMonth);
  }

  /** `achieve_goal` once confirmed: achieved, with every target set counted
      as done. */
  function Achieve(g: GoalV2): (r: GoalV2)
    ensures r.achieved && r.currentAchievedSets == r.targetSets
    ensures r.(achieved := g.achieved, currentAchievedSets := g.currentAchievedSets) == g
  {
    g.(achieved := true, currentAchievedSets := g.targetSets)
  }

  /** Achieving twice is the same as achieving once. */
  lemma AchieveIdempotent(g: GoalV2)
    ensures Achieve(Achieve(g)) == Achieve(g)
  {
  }

  /** The goal after the achieve button: unchanged when the question is
      declined; otherwise achieved — the object is changed before the update
      is sent, so also when the update fails (then the list is not reloaded). */
  function AchieveGoal(g: GoalV2, confirmed: bool): (r: GoalV2)
    ensures !confirmed ==> r == g
    ensures confirmed ==> r.achieved && r.currentAchievedSets == r.targetSets && r.id == g.id
  {
    if confirmed then Achieve(g) else g
  }

  /** Whether a goal's progress is recalculated and the recalculation reported
      a change. */
  function Updated(recalc: Option<int> -> bool): GoalEntry -> bool {
    (e: GoalEntry) => !e.goal.achieved && recalc(e.goal.id)
  }

  function Pending(): GoalEntry -> bool {
    (e: GoalEntry) => !e.goal.achieved
  }

  /** The ids of `es`, in order. */
  function Ids(es: seq<GoalEntry>): (r: seq<Option<int>>)
    ensures |r| == |es| && forall k :: 0 <= k < |es| ==> r[k] == es[k].goal.id
  {
    seq(|es|, k requires 0 <= k < |es| => es[k].goal.id)
  }

  /** The ids sent to the recalculation for the goals `gs`, in list order. */
  function PendingIds(gs: seq<GoalEntry>): seq<Option<int>> {
    if gs == [] then []
    else
      var e := gs[|gs| - 1];
      PendingIds(gs[..|gs| - 1]) + (if !e.goal.achieved then [e.goal.id] else [])
  }

  /** How many of those recalculations report a change. */
  function UpdatedCount(gs: seq<GoalEntry>, recalc: Option<int> -> bool): (n: nat)
    ensures n <= |PendingIds(gs)|
  {
    if gs == [] then 0
    else
      var e := gs[|gs| - 1];
      UpdatedCount(gs[..|gs| - 1], recalc) + (if !e.goal.achieved && recalc(e.goal.id) then 1 else 0)
  }

  /** The ids sent are those of the pending goals, and the count is the
      number of pending goals whose recalculation reports a change. */
  lemma {:induction false} PendingIdsAreFiltered(gs: seq<GoalEntry>, recalc: Option<int> -> bool)
    ensures PendingIds(gs) == Ids(Filter(gs, Pending()))
    ensures UpdatedCount(gs, recalc) == |Filter(gs, Updated(recalc))|
  {
    if gs != [] {
      var i := |gs| - 1;
      assert gs[..i + 1] == gs;
      PendingIdsAreFiltered(gs[..i], recalc);
      PendingStep(gs, i);
      UpdatedStep(gs, i, recalc);
    }
  }

  lemma PendingIdsStep(goals: seq<GoalEntry>, i: nat, recalc: Option<int> -> bool)
    requires i < |goals|
    ensures PendingIds(goals[..i + 1])
      == PendingIds(goals[..i]) + (if !goals[i].goal.achieved then [goals[i].goal.id] else [])
    ensures UpdatedCount(goals[..i + 1], recalc)
      == UpdatedCount(goals[..i], recalc) + (if !goals[i].goal.achieved && recalc(goals[i].goal.id) then 1 else 0)
  {
    assert goals[..i + 1][..i] == goals[..i];
  }

  /** `update_all_progress`: recalculates (through `recalc`, the database's
      `calculate_goal_progress_v2`) every goal not yet achieved, in list
      order, and counts the recalculations that reported a truthy result.
      `asked` lists the ids sent, in order. */
  method UpdateAllProgress(goals: seq<GoalEntry>, recalc: Option<int> -> bool)
    returns (asked: seq<Option<int>>, count: nat)
    ensures |asked| == |Filter(goals, Pending())|
    ensures forall k :: 0 <= k < |asked| ==> asked[k] == Filter(goals, Pending())[k].goal.id
    ensures count == |Filter(goals, Updated(recalc))|
    ensures count <= |asked|
  {
    asked := [];
    count := 0;
    var i := 0;
    while i < |goals|
      invariant 0 <= i <= |goals|
      invariant asked == PendingIds(goals[..i])
      invariant count == UpdatedCount(goals[..i], recalc)
    {
      var g := goals[i].goal;
      PendingIdsStep(goals, i, recalc);
      if !g.achieved {
        asked := asked + [g.id];
        if recalc(g.id) {
          count := count + 1;
        }
      }
      i := i + 1;
    }
    assert goals[..|goals|] == goals;
    PendingIdsAreFiltered(goals, recalc);
  }

  /** One more goal of the list adds its id to the ids asked for when it is
      pending. */
  lemma PendingStep(goals: seq<GoalEntry>, i: nat)
    requires i < |goals|
    ensures Ids(Filter(goals[..i + 1], Pending()))
      == Ids(Filter(goals[..i], Pending())) + (if !goals[i].goal.achieved then [goals[i].goal.id] else [])
  {
    var e := goals[i];
    FilterSnoc(goals, i, Pending());
    assert Pending()(e) == !e.goal.achieved;
    var pending := Filter(goals[..i], Pending());
    assert Ids(pending + [e]) == Ids(pending) + [e.goal.id];
  }

  /** One more goal of the list adds one to the count when it is pending and
      its recalculation reports a change. */
  lemma UpdatedStep(goals: seq<GoalEntry>, i: nat, recalc: Option<int> -> bool)
    requires i < |goals|
    ensures |Filter(goals[..i + 1], Updated(recalc))|
      == |Filter(goals[..i], Updated(recalc))| + (if !goals[i].goal.achieved && recalc(goals[i].goal.id) then 1 else 0)
  {
    var e := goals[i];
    FilterSnoc(goals, i, Updated(recalc));
    assert Updated(recalc)(e) == (!e.goal.achieved && recalc(e.goal.id));
  }

  /** The message after `update_all_progress`. */
  datatype ProgressNotice = UpdatedGoals(count: nat) | NothingToUpdate

  function ProgressNoticeOf(count: nat): (n: ProgressNotice)
    ensures n.NothingToUpdate? <==> count == 0
    ensures n.UpdatedGoals? ==> n.count == count
  {
    if count > 0 then UpdatedGoals(count) else NothingToUpdate
  }

  /** `show_goals_statistics`. */
  datatype GoalStatistics = GoalStatistics(total: nat, achieved: nat, active: int, rate: int)

  function Done(): GoalEntry -> bool {
    (e: GoalEntry) => e.goal.achieved
  }

  /** The achievement rate: the truncated percentage of goals achieved, 0
      with no goals. */
  function AchievementRate(achieved: nat, total: nat): (rate: int)
    requires achieved <= total
    ensures 0 <= rate <= 100
    ensures total == 0 ==> rate == 0
    ensures total > 0 ==> rate as real <= achieved as real / total as real * 100.0 < rate as real + 1.0
    ensures rate == 100 <==> total > 0 && achieved == total
  {
    if total > 0 then
      var q := achieved as real / total as real;
      DivideBounds(achieved as real, total as real, 0.0, 1.0);
      assert q == 1.0 <==> achieved == total by {
        DivideExact(achieved as real, total as real);
      }
      var p := q * 100.0;
      assert 0.0 <= p <= 100.0;
      assert p == 100.0 <==> achieved == total;
      Trunc(p)
    else 0
  }

  function Statistics(goals: seq<GoalEntry>): (s: GoalStatistics)
    ensures s.total == |goals| && s.achieved == |Filter(goals, Done())|
    ensures s.achieved + s.active == s.total && s.active >= 0
    ensures s.rate == AchievementRate(s.achieved, s.total)
  {
    var total := |goals|;
    var achieved := |Filter(goals, Done())|;
    GoalStatistics(total, achieved, total - achieved, AchievementRate(achieved, total))
  }
}

=== FILE: grouping.dfy ===
/**
 * GROUP BY and dictionary aggregation: the sorted distinct keys of a column
 * (`sorted(d.keys())`), distinct values in first-occurrence order, per-key
 * sums and counts, and the fact that summing the per-key totals over all keys
 * gives back the grand total.
 */
module Grouping {

  predicate NoDuplicates<K(==)>(ks: seq<K>) {
    forall i, j :: 0 <= i < j < |ks| ==> ks[i] != ks[j]
  }

  predicate StrictlyIncreasing(xs: seq<int>) {
    forall i, j :: 0 <= i < j < |xs| ==> xs[i] < xs[j]
  }

  function InsertSorted(x: int, s: seq<int>): (r: seq<int>)
    requires StrictlyIncreasing(s)
    ensures StrictlyIncreasing(r)
    ensures forall y :: y in r <==> y == x || y in s
    ensures |r| <= |s| + 1
  {
    if s == [] then [x]
    else if x < s[0] then [x] + s
    else if x == s[0] then s
    else
      var rest := InsertSorted(x, s[1..]);
      var r := [s[0]] + rest;
      assert forall y :: y in rest ==> s[0] < y;
      assert StrictlyIncreasing(r) by {
        forall i, j | 0 <= i < j < |r| ensures r[i] < r[j] {
          assert r[j] == rest[j - 1];
          if i > 0 {
            assert r[i] == rest[i - 1];
          } else {
            assert rest[j - 1] in rest;
          }
        }
      }
      assert forall y :: y in r <==> y == s[0] || y in rest;
      r
  }

  /** `sorted(set(xs))`: each value once, ascending. */
  function SortedDistinct(xs: seq<int>): (r: seq<int>)
    ensures StrictlyIncreasing(r)
    ensures forall y :: y in r <==> y in xs
    ensures |r| <= |xs|
  {
    if xs == [] then []
    else
      var rest := SortedDistinct(xs[1..]);
      assert forall y :: y in xs <==> y == xs[0] || y in xs[1..];
      InsertSorted(xs[0], rest)
  }

  /** The distinct values of `xs` in the order they first occur. */
  function Distinct<K(==)>(xs: seq<K>): (r: seq<K>)
    ensures NoDuplicates(r)
    ensures forall i :: 0 <= i < |r| ==> r[i] in xs
    ensures forall i :: 0 <= i < |xs| ==> xs[i] in r
    ensures |r| <= |xs|
  {
    if xs == [] then []
    else
      var front := xs[..|xs| - 1];
      var p := Distinct(front);
      var last := xs[|xs| - 1];
      assert forall i :: 0 <= i < |xs| - 1 ==> xs[i] == front[i];
      if last in p then p else p + [last]
  }

  /** A duplicate-free sequence holds each value at most once. */
  lemma {:induction false} NoDupAtMostOnce<K>(b: seq<K>, x: K)
    requires NoDuplicates(b)
    ensures multiset(b)[x] <= 1
  {
    if b != [] {
      assert b == [b[0]] + b[1..];
      NoDupAtMostOnce(b[1..], x);
      if b[0] == x {
        assert x !in b[1..];
      }
    }
  }

  lemma TwiceCounted<K>(a: seq<K>, i: int, j: int)
    requires 0 <= i < j < |a| && a[i] == a[j]
    ensures multiset(a)[a[i]] >= 2
  {
    assert a == a[..i] + [a[i]] + a[i + 1..j] + [a[j]] + a[j + 1..];
  }

  /** Reordering a duplicate-free sequence keeps it duplicate-free. */
  lemma NoDupPermutation<K>(a: seq<K>, b: seq<K>)
    requires multiset(a) == multiset(b) && NoDuplicates(b)
    ensures NoDuplicates(a)
  {
    forall i, j | 0 <= i < j < |a| ensures a[i] != a[j] {
      if a[i] == a[j] {
        TwiceCounted(a, i, j);
        NoDupAtMostOnce(b, a[i]);
        assert false;
      }
    }
  }

  // ---------------------------------------------------------------- per-key totals

  function SumAll<T>(rows: seq<T>, f: T -> real): real {
    if rows == [] then 0.0 else f(rows[0]) + SumAll(rows[1..], f)
  }

  /** The total of `f` over the rows whose key is `k`. */
  function SumWhere<T, K(==)>(rows: seq<T>, key: T -> K, k: K, f: T -> real): real {
    if rows == [] then 0.0 else (if key(rows[0]) == k then f(rows[0]) else 0.0) + SumWhere(rows[1..], key, k, f)
  }

  function SumOverKeys<T, K(==)>(keys: seq<K>, rows: seq<T>, key: T -> K, f: T -> real): real {
    if keys == [] then 0.0 else SumWhere(rows, key, keys[0], f) + SumOverKeys(keys[1..], rows, key, f)
  }

  /** `v` counted once for every occurrence of `k` in `keys`. */
  function Indicator<K(==)>(keys: seq<K>, k: K, v: real): real {
    if keys == [] then 0.0 else (if keys[0] == k then v else 0.0) + Indicator(keys[1..], k, v)
  }

  lemma {:induction false} IndicatorAbsent<K>(keys: seq<K>, k: K, v: real)
    requires k !in keys
    ensures Indicator(keys, k, v) == 0.0
  {
    if keys != [] {
      IndicatorAbsent(keys[1..], k, v);
    }
  }

  lemma {:induction false} IndicatorOnce<K>(keys: seq<K>, k: K, v: real)
    requires NoDuplicates(keys) && k in keys
    ensures Indicator(keys, k, v) == v
  {
    if keys[0] == k {
      assert k !in keys[1..];
      IndicatorAbsent(keys[1..], k, v);
    } else {
      IndicatorOnce(keys[1..], k, v);
    }
  }

  lemma {:induction false} SplitHead<T, K>(keys: seq<K>, rows: seq<T>, key: T -> K, f: T -> real)
    requires rows != []
    ensures SumOverKeys(keys, rows, key, f)
      == Indicator(keys, key(rows[0]), f(rows[0])) + SumOverKeys(keys, rows[1..], key, f)
  {
    if keys != [] {
      SplitHead(keys[1..], rows, key, f);
    }
  }

  /** Adding up the per-key totals over a duplicate-free list of keys that covers
      every row gives the total over all rows. */
  lemma {:induction false} Partition<T, K>(keys: seq<K>, rows: seq<T>, key: T -> K, f: T -> real)
    requires NoDuplicates(keys)
    requires forall i :: 0 <= i < |rows| ==> key(rows[i]) in keys
    ensures SumOverKeys(keys, rows, key, f) == SumAll(rows, f)
  {
    if rows == [] {
      EmptyRows(keys, rows, key, f);
    } else {
      Partition(keys, rows[1..], key, f);
      SplitHead(keys, rows, key, f);
      IndicatorOnce(keys, key(rows[0]), f(rows[0]));
    }
  }

  lemma {:induction false} EmptyRows<T, K>(keys: seq<K>, rows: seq<T>, key: T -> K, f: T -> real)
    requires rows == []
    ensures SumOverKeys(keys, rows, key, f) == 0.0
  {
    if keys != [] {
      EmptyRows(keys[1..], rows, key, f);
    }
  }

  /** How many rows have key `k`. */
  function CountWhere<T, K(==)>(rows: seq<T>, key: T -> K, k: K): nat {
    if rows == [] then 0 else (if key(rows[0]) == k then 1 else 0) + CountWhere(rows[1..], key, k)
  }

  /** Weight of a row when rows are counted rather than summed. */
  function One<T>(x: T): real { 1.0 }

  lemma {:induction false} CountIsSumOfOnes<T, K>(rows: seq<T>, key: T -> K, k: K)
    ensures CountWhere(rows, key, k) as real == SumWhere(rows, key, k, One)
  {
    if rows != [] {
      CountIsSumOfOnes(rows[1..], key, k);
    }
  }

  lemma {:induction false} SumOfOnes<T>(rows: seq<T>)
    ensures SumAll(rows, One) == |rows| as real
  {
    if rows != [] {
      SumOfOnes(rows[1..]);
    }
  }

  /** Adding one more row at the end adds its value to its own key's total. */
  lemma {:induction false} SumWhereSnoc<T, K>(rows: seq<T>, x: T, key: T -> K, k: K, f: T -> real)
    ensures SumWhere(rows + [x], key, k, f) == SumWhere(rows, key, k, f) + (if key(x) == k then f(x) else 0.0)
  {
    if rows != [] {
      assert (rows + [x])[1..] == rows[1..] + [x];
      SumWhereSnoc(rows[1..], x, key, k, f);
    }
  }

  /** A key no row carries has total zero. */
  lemma {:induction false} SumWhereAbsent<T, K>(rows: seq<T>, key: T -> K, k: K, f: T -> real)
    requires forall i :: 0 <= i < |rows| ==> key(rows[i]) != k
    ensures SumWhere(rows, key, k, f) == 0.0
  {
    if rows != [] {
      SumWhereAbsent(rows[1..], key, k, f);
    }
  }
}

=== FILE: health_importer.dfy ===
/**
 * The Apple Health importer: body-mass and body-fat records taken from the
 * `Record` elements of an `export.xml`, their timestamps parsed, sorted by
 * day, and written into the `body_stats` table one measurement at a time;
 * and the preview that counts them and reports their ranges.
 *
 * The XML parser is not modelled: the input is the document's `Record`
 * elements in document order, each with its attributes. The date and number
 * conversions of the standard library are parameters (`Library`).
 */
module HealthImporter {
  import opened Wrappers
  import opened Numeric
  import opened Text
  import opened Seqs
  import opened Models
  import opened Dates
  import opened BodyTable

  /** A `Record` element: its `type`, and its `startDate`, `value` and
      `unit` attributes when present. */
  datatype XmlRecord = XmlRecord(kind: string, startDate: Option<string>, value: Option<string>, unit: Option<string>)

  const BodyMassType := "HKQuantityTypeIdentifierBodyMass"
  const BodyFatType := "HKQuantityTypeIdentifierBodyFatPercentage"

  /** The library conversions the importer relies on, each `None` where the
      library raises: `datetime.strptime(text, pattern)`,
      `datetime.fromisoformat(text)` (both reduced to the calendar day of the
      timestamp as written) and `float(text)`. */
  datatype Library = Library(strptime: (string, string) -> Option<Day>,
                             fromIsoFormat: string -> Option<Day>,
                             toFloat: string -> Option<real>)

  const ApplePatterns: seq<string> := ["%Y-%m-%d %H:%M:%S %z", "%Y-%m-%d %H:%M:%S", "%Y-%m-%d"]

  /** The timestamp with every "Z" written as the offset "+0000". */
  function ZoneCleaned(text: string): (r: string)
    ensures forall i :: 0 <= i < |r| ==> r[i] != 'Z'
    ensures (forall i :: 0 <= i < |text| ==> text[i] != 'Z') ==> r == text
  {
    if text == [] then []
    else
      var rest := ZoneCleaned(text[1..]);
      var head := if text[0] == 'Z' then "+0000" else [text[0]];
      assert forall i :: 0 <= i < |head| ==> head[i] != 'Z';
      head + rest
  }

  /** `ZoneCleaned` is `str.replace('Z', '+0000')`. */
  lemma {:induction false} ZoneCleanedIsReplace(text: string)
    ensures ZoneCleaned(text) == ReplaceChar(text, 'Z', "+0000")
  {
    if text != [] {
      ZoneCleanedIsReplace(text[1..]);
    }
  }

  /** A UTC timestamp: the trailing "Z" becomes the offset "+0000". */
  lemma UtcSuffix(stamp: string)
    requires forall i :: 0 <= i < |stamp| ==> stamp[i] != 'Z'
    ensures ZoneCleaned(stamp + "Z") == stamp + "+0000"
  {
    ZoneCleanedIsReplace(stamp + "Z");
    ZoneAppend(stamp, "Z");
  }

  lemma {:induction false} ZoneAppend(a: string, b: string)
    ensures ZoneCleaned(a + b) == ZoneCleaned(a) + ZoneCleaned(b)
  {
    if a == [] {
      assert a + b == b;
    } else {
      assert (a + b)[1..] == a[1..] + b;
      ZoneAppend(a[1..], b);
    }
  }

  /** `_parse_apple_datetime`: the three patterns in order on the cleaned
      text, then `fromisoformat` (its own "Z" replacement has nothing left
      to replace). */
  function ParseAppleDateTime(text: string, lib: Library): (r: Option<Day>)
    ensures var cleaned := ZoneCleaned(text);
      r.Some? <==> (exists j :: 0 <= j < |ApplePatterns| && lib.strptime(cleaned, ApplePatterns[j]).Some?)
                   || lib.fromIsoFormat(cleaned).Some?
    ensures var cleaned := ZoneCleaned(text);
      forall j :: FirstParsing(cleaned, ApplePatterns, j, lib.strptime) ==> r == lib.strptime(cleaned, ApplePatterns[j])
  {
    var cleaned := ZoneCleaned(text);
    var byPattern := ParseWith(cleaned, ApplePatterns, lib.strptime);
    assert forall j :: FirstParsing(cleaned, ApplePatterns, j, lib.strptime) && byPattern.Some? ==>
      byPattern == lib.strptime(cleaned, ApplePatterns[j]) by {
      forall j | FirstParsing(cleaned, ApplePatterns, j, lib.strptime) && byPattern.Some?
        ensures byPattern == lib.strptime(cleaned, ApplePatterns[j])
      {
        var k :| FirstParsing(cleaned, ApplePatterns, k, lib.strptime) && lib.strptime(cleaned, ApplePatterns[k]) == byPattern;
        FirstParsingUnique(cleaned, ApplePatterns, j, k, lib.strptime);
      }
    }
    if byPattern.Some? then byPattern else lib.fromIsoFormat(cleaned)
  }

  /** Only one pattern is the first that parses. */
  lemma FirstParsingUnique<T>(text: string, formats: seq<string>, j: int, k: int, strptime: (string, string) -> Option<T>)
    requires FirstParsing(text, formats, j, strptime) && FirstParsing(text, formats, k, strptime)
    ensures j == k
  {
  }

  /** One measurement: its day and value. */
  datatype Entry = Entry(date: Day, value: real)

  /** Python truthiness of an optional attribute. */
  predicate Given(a: Option<string>) {
    a.Some? && a.value != ""
  }

  /** One record of the wanted type, or nothing: it needs a `startDate` and a
      `value`, a timestamp that parses and a value that converts; the value
      is multiplied by `scale`. */
  function EntryOf(rec: XmlRecord, kind: string, scale: real, lib: Library): (r: Option<Entry>)
    ensures r.Some? <==>
      rec.kind == kind && Given(rec.startDate) && Given(rec.value)
      && ParseAppleDateTime(rec.startDate.value, lib).Some? && lib.toFloat(rec.value.value).Some?
    ensures r.Some? ==> r.value.date == ParseAppleDateTime(rec.startDate.value, lib).value
    ensures r.Some? ==> r.value.value == lib.toFloat(rec.value.value).value * scale
  {
    if rec.kind != kind || !Given(rec.startDate) || !Given(rec.value) then None
    else
      var day := ParseAppleDateTime(rec.startDate.value, lib);
      var x := lib.toFloat(rec.value.value);
      if day.None? || x.None? then None else Some(Entry(day.value, x.value * scale))
  }

  function DayKey(e: Entry): Key {
    Key(e.date, 0)
  }

  /** The entries of one type in document order. */
  function EntriesOf(records: seq<XmlRecord>, kind: string, scale: real, lib: Library): (r: seq<Entry>)
    ensures |r| <= |records|
    ensures forall i :: 0 <= i < |records| && EntryOf(records[i], kind, scale, lib).Some? ==>
      EntryOf(records[i], kind, scale, lib).value in r
    ensures forall k :: 0 <= k < |r| ==> exists i :: 0 <= i < |records| && EntryOf(records[i], kind, scale, lib) == Some(r[k])
  {
    var parsed := ParsedEntries(records, kind, scale, lib);
    var r := Present(parsed);
    forall i | 0 <= i < |records| && EntryOf(records[i], kind, scale, lib).Some?
      ensures EntryOf(records[i], kind, scale, lib).value in r
    {
      assert parsed[i] == EntryOf(records[i], kind, scale, lib);
    }
    forall k | 0 <= k < |r| ensures exists i :: 0 <= i < |records| && EntryOf(records[i], kind, scale, lib) == Some(r[k]) {
      var i :| 0 <= i < |parsed| && parsed[i] == Some(r[k]);
    }
    r
  }

  /** Each record's entry, in document order. */
  function ParsedEntries(records: seq<XmlRecord>, kind: string, scale: real, lib: Library): (r: seq<Option<Entry>>)
    ensures |r| == |records|
    ensures forall i :: 0 <= i < |records| ==> r[i] == EntryOf(records[i], kind, scale, lib)
  {
    seq(|records|, i requires 0 <= i < |records| => EntryOf(records[i], kind, scale, lib))
  }

  /** The entries of two runs of records are those of the first run followed
      by those of the second, and one record gives its entry or nothing: the
      entries come in document order, one per record of the type that parses. */
  lemma EntriesInOrder(a: seq<XmlRecord>, b: seq<XmlRecord>, rec: XmlRecord, kind: string, scale: real, lib: Library)
    ensures EntriesOf(a + b, kind, scale, lib) == EntriesOf(a, kind, scale, lib) + EntriesOf(b, kind, scale, lib)
    ensures EntriesOf([rec], kind, scale, lib) ==
      if EntryOf(rec, kind, scale, lib).Some? then [EntryOf(rec, kind, scale, lib).value] else []
    ensures |EntriesOf(a, kind, scale, lib)| == CountPresent(ParsedEntries(a, kind, scale, lib))
  {
    assert ParsedEntries(a + b, kind, scale, lib) == ParsedEntries(a, kind, scale, lib) + ParsedEntries(b, kind, scale, lib);
    PresentAppend(ParsedEntries(a, kind, scale, lib), ParsedEntries(b, kind, scale, lib));
    assert ParsedEntries([rec], kind, scale, lib) == [EntryOf(rec, kind, scale, lib)];
    PresentCount(ParsedEntries(a, kind, scale, lib));
  }

  /** `_extract_weight_records` and `_extract_body_fat_records`: the
      entries of one type, sorted by day. */
  function Extract(records: seq<XmlRecord>, kind: string, scale: real, lib: Library): (r: seq<Entry>)
    ensures SortedBy(r, DayKey)
    ensures multiset(r) == multiset(EntriesOf(records, kind, scale, lib))
    ensures forall i :: 0 <= i < |records| && EntryOf(records[i], kind, scale, lib).Some? ==>
      EntryOf(records[i], kind, scale, lib).value in r
  {
    var unsorted := EntriesOf(records, kind, scale, lib);
    var r := SortBy(unsorted, DayKey);
    forall i | 0 <= i < |records| && EntryOf(records[i], kind, scale, lib).Some?
      ensures EntryOf(records[i], kind, scale, lib).value in r
    {
      assert EntryOf(records[i], kind, scale, lib).value in multiset(unsorted);
    }
    r
  }

  /** Every sorted entry is one a record yields. */
  lemma ExtractFromRecords(records: seq<XmlRecord>, kind: string, scale: real, lib: Library, k: int)
    requires 0 <= k < |Extract(records, kind, scale, lib)|
    ensures exists i :: 0 <= i < |records| && EntryOf(records[i], kind, scale, lib) == Some(Extract(records, kind, scale, lib)[k])
  {
    var r := Extract(records, kind, scale, lib);
    var unsorted := EntriesOf(records, kind, scale, lib);
    assert r[k] in multiset(unsorted);
    var j :| 0 <= j < |unsorted| && unsorted[j] == r[k];
  }

  /** `_extract_weight_records`: the body mass in kilograms, as recorded
      (the `unit` attribute is read but not used). */
  function WeightEntries(records: seq<XmlRecord>, lib: Library): seq<Entry> {
    Extract(records, BodyMassType, 1.0, lib)
  }

  /** `_extract_body_fat_records`: Apple Health stores a fraction (0.15 for
      15 %), the importer a percentage. */
  function FatEntries(records: seq<XmlRecord>, lib: Library): seq<Entry> {
    Extract(records, BodyFatType, 100.0, lib)
  }

  lemma EntrySource(rec: XmlRecord, kind: string, scale: real, lib: Library)
    requires EntryOf(rec, kind, scale, lib).Some?
    ensures rec.kind == kind && Given(rec.value) && lib.toFloat(rec.value.value).Some?
    ensures EntryOf(rec, kind, scale, lib).value.value == lib.toFloat(rec.value.value).value * scale
  {
  }

  /** Record `i` is a body-fat record whose value converts to `x` / 100. */
  predicate FatRecord(records: seq<XmlRecord>, i: int, x: real, lib: Library) {
    0 <= i < |records| && records[i].kind == BodyFatType
    && Given(records[i].value) && lib.toFloat(records[i].value.value).Some?
    && x == lib.toFloat(records[i].value.value).value * 100.0
  }

  /** A body-fat entry is the record's fraction times 100. */
  lemma FatIsPercentage(records: seq<XmlRecord>, lib: Library, k: int)
    requires 0 <= k < |FatEntries(records, lib)|
    ensures exists i :: FatRecord(records, i, FatEntries(records, lib)[k].value, lib)
  {
    ExtractFromRecords(records, BodyFatType, 100.0, lib, k);
    var i :| 0 <= i < |records| && EntryOf(records[i], BodyFatType, 100.0, lib) == Some(FatEntries(records, lib)[k]);
    EntrySource(records[i], BodyFatType, 100.0, lib);
    assert FatRecord(records, i, FatEntries(records, lib)[k].value, lib);
  }

  // ---------------------------------------------------------------- import

  /** Which measurement an import writes. */
  datatype Field = WeightField | FatField

  /** The stored measurement with one field replaced. */
  function WithField(s: BodyStats, f: Field, x: real): BodyStats {
    match f
    case WeightField => s.(weight := Some(x))
    case FatField => s.(bodyFat := Some(x))
  }

  function FieldOf(s: BodyStats, f: Field): Option<real> {
    match f
    case WeightField => s.weight
    case FatField => s.bodyFat
  }

  /** A new row holding only the one measurement. */
  function NewRow(e: Entry, f: Field): (s: BodyStats)
    ensures s.id.None? && s.date == e.date && FieldOf(s, f) == Some(e.value)
    ensures s.muscleMass.None? && (f == WeightField ==> s.bodyFat.None?) && (f == FatField ==> s.weight.None?)
  {
    match f
    case WeightField => BodyStats(None, e.date, Some(e.value), None, None)
    case FatField => BodyStats(None, e.date, None, Some(e.value), None)
  }

  /** The loop body of `_import_weight_data` / `_import_body_fat_data`: the
      day's row gets the value, or a new row is added; `ok` is whether the
      database call succeeds, and only a success is counted. */
  function ImportEntry(t: Table, e: Entry, f: Field, ok: bool): (r: (bool, Table))
    ensures r.0 == ok
    ensures !ok ==> r.1 == t
    ensures StatsOn(t.rows, e.date).Some? ==> r.1 == Update(t, WithField(StatsOn(t.rows, e.date).value, f, e.value), ok)
    ensures StatsOn(t.rows, e.date).None? ==> r.1 == Add(t, NewRow(e, f), ok)
  {
    var existing := StatsOn(t.rows, e.date);
    if existing.Some? then (ok, Update(t, WithField(existing.value, f, e.value), ok))
    else (ok, Add(t, NewRow(e, f), ok))
  }

  /** After a successful import the day reads the new value; the other
      measurements of an existing row are kept, and a new row has none. */
  lemma ImportEntryStores(t: Table, e: Entry, f: Field)
    requires Valid(t)
    ensures var after := StatsOn(ImportEntry(t, e, f, true).1.rows, e.date);
      after.Some? && FieldOf(after.value, f) == Some(e.value)
    ensures var before := StatsOn(t.rows, e.date); var after := StatsOn(ImportEntry(t, e, f, true).1.rows, e.date);
      before.Some? ==> after == Some(WithField(before.value, f, e.value))
    ensures var after := StatsOn(ImportEntry(t, e, f, true).1.rows, e.date);
      StatsOn(t.rows, e.date).None? ==> after == Some(NewRow(e, f).(id := Some(t.nextId)))
  {
    var before := StatsOn(t.rows, e.date);
    if before.Some? {
      FoundAfterUpdate(t, WithField(before.value, f, e.value));
    } else {
      FoundAfterAdd(t, NewRow(e, f));
    }
  }

  lemma ImportEntryKeepsValid(t: Table, e: Entry, f: Field, ok: bool)
    requires Valid(t)
    ensures Valid(ImportEntry(t, e, f, ok).1)
  {
    var existing := StatsOn(t.rows, e.date);
    if existing.Some? {
      UpdateKeepsValid(t, WithField(existing.value, f, e.value), ok);
    } else {
      AddKeepsValid(t, NewRow(e, f), ok);
    }
  }

  /** `b` is `a` apart from the measurement `f`. */
  predicate SameBut(a: BodyStats, b: BodyStats, f: Field) {
    a.id == b.id && a.date == b.date && a.muscleMass == b.muscleMass
    && (f == WeightField ==> a.bodyFat == b.bodyFat)
    && (f == FatField ==> a.weight == b.weight)
  }

  /** Importing one kind of measurement touches nothing else: every existing
      row keeps its id, its day and its other measurements. */
  lemma ImportEntryTouchesOneField(t: Table, e: Entry, f: Field, ok: bool)
    requires Valid(t)
    ensures var r := ImportEntry(t, e, f, ok).1;
      |t.rows| <= |r.rows| && forall i :: 0 <= i < |t.rows| ==> SameBut(t.rows[i], r.rows[i], f)
  {
    var r := ImportEntry(t, e, f, ok).1;
    var existing := StatsOn(t.rows, e.date);
    if existing.Some? && ok {
      var k := IndexOn(t.rows, e.date).value;
      forall i | 0 <= i < |t.rows| ensures SameBut(t.rows[i], r.rows[i], f) {
        if t.rows[i].id == existing.value.id {
          assert t.rows[i].id == t.rows[k].id;
          assert i == k;
        }
      }
    } else {
      forall i | 0 <= i < |t.rows| ensures SameBut(t.rows[i], r.rows[i], f) {
        assert r.rows[i] == t.rows[i];
      }
    }
  }

  /** The number of successful database calls. */
  function Successes(oks: seq<bool>): (n: nat)
    ensures n <= |oks|
  {
    if oks == [] then 0 else (if oks[0] then 1 else 0) + Successes(oks[1..])
  }

  /** `_import_weight_data` / `_import_body_fat_data`: the entries in order;
      `oks[i]` is whether entry `i`'s database call succeeds. The count is the
      number of successes. */
  function ImportEntries(t: Table, entries: seq<Entry>, f: Field, oks: seq<bool>): (r: (nat, Table))
    requires |oks| >= |entries|
    ensures r.0 == Successes(oks[..|entries|])
    ensures r.0 <= |entries|
    ensures |t.rows| <= |r.1.rows|
    decreases |entries|
  {
    if entries == [] then (0, t)
    else
      var (counted, t1) := ImportEntry(t, entries[0], f, oks[0]);
      var (n, t2) := ImportEntries(t1, entries[1..], f, oks[1..]);
      assert oks[..|entries|][1..] == oks[1..][..|entries| - 1];
      ((if counted then 1 else 0) + n, t2)
  }

  lemma {:induction false} ImportEntriesKeepsValid(t: Table, entries: seq<Entry>, f: Field, oks: seq<bool>)
    requires |oks| >= |entries| && Valid(t)
    ensures Valid(ImportEntries(t, entries, f, oks).1)
    decreases |entries|
  {
    if entries != [] {
      ImportEntryKeepsValid(t, entries[0], f, oks[0]);
      ImportEntriesKeepsValid(ImportEntry(t, entries[0], f, oks[0]).1, entries[1..], f, oks[1..]);
    }
  }

  /** A whole import of one kind of measurement leaves every existing row's
      other measurements as they were. */
  lemma {:induction false} ImportEntriesTouchOneField(t: Table, entries: seq<Entry>, f: Field, oks: seq<bool>)
    requires |oks| >= |entries| && Valid(t)
    ensures var r := ImportEntries(t, entries, f, oks).1;
      forall i :: 0 <= i < |t.rows| ==> SameBut(t.rows[i], r.rows[i], f)
    decreases |entries|
  {
    if entries != [] {
      var t1 := ImportEntry(t, entries[0], f, oks[0]).1;
      ImportEntryTouchesOneField(t, entries[0], f, oks[0]);
      ImportEntryKeepsValid(t, entries[0], f, oks[0]);
      ImportEntriesTouchOneField(t1, entries[1..], f, oks[1..]);
    }
  }

  /** The counts `import_from_export_xml` returns. */
  datatype HealthResult = HealthResult(weightRecords: nat, bodyFatRecords: nat, total: nat)

  /** `import_from_export_xml` on the document's records: the weights first,
      then the body fat; `weightOks` and `fatOks` say which database calls
      succeed. */
  function ImportFromExport(t: Table, records: seq<XmlRecord>, lib: Library, weightOks: seq<bool>, fatOks: seq<bool>)
    : (r: (HealthResult, Table))
    requires |weightOks| >= |records| && |fatOks| >= |records|
    ensures r.0.total == r.0.weightRecords + r.0.bodyFatRecords
    ensures r.0.weightRecords <= |WeightEntries(records, lib)| && r.0.bodyFatRecords <= |FatEntries(records, lib)|
    ensures r.0.total <= 2 * |records|
    ensures |t.rows| <= |r.1.rows|
    ensures Valid(t) ==> Valid(r.1)
  {
    var weights := WeightEntries(records, lib);
    var fats := FatEntries(records, lib);
    var (w, t1) := ImportEntries(t, weights, WeightField, weightOks);
    var (b, t2) := ImportEntries(t1, fats, FatField, fatOks);
    assert Valid(t) ==> Valid(t2) by {
      if Valid(t) {
        ImportEntriesKeepsValid(t, weights, WeightField, weightOks);
        ImportEntriesKeepsValid(t1, fats, FatField, fatOks);
      }
    }
    (HealthResult(w, b, w + b), t2)
  }

  // ---------------------------------------------------------------- the preview

  /** The value of every entry, in order. */
  function ValuesOf(entries: seq<Entry>): (r: seq<real>)
    ensures |r| == |entries| && forall i :: 0 <= i < |entries| ==> r[i] == entries[i].value
  {
    seq(|entries|, i requires 0 <= i < |entries| => entries[i].value)
  }

  /** The values of the entries that are truthy (non-zero), in entry order. */
  function TruthyValues(entries: seq<Entry>): (r: seq<real>)
    ensures |r| <= |entries|
    ensures forall k :: 0 <= k < |r| ==> r[k] != 0.0 && exists i :: 0 <= i < |entries| && entries[i].value == r[k]
    ensures forall i :: 0 <= i < |entries| && entries[i].value != 0.0 ==> entries[i].value in r
  {
    var vs := ValuesOf(entries);
    var r := NonZeros(vs);
    assert forall i :: 0 <= i < |entries| && entries[i].value != 0.0 ==> vs[i] in r;
    r
  }

  /** The truthy values of consecutive runs of entries are those of each run,
      in order, and one entry gives its value exactly when it is non-zero. */
  lemma TruthyValuesAppend(a: seq<Entry>, b: seq<Entry>)
    ensures TruthyValues(a + b) == TruthyValues(a) + TruthyValues(b)
    ensures forall e :: TruthyValues([e]) == if e.value != 0.0 then [e.value] else []
  {
    assert ValuesOf(a + b) == ValuesOf(a) + ValuesOf(b);
    NonZerosAppend(ValuesOf(a), ValuesOf(b));
    forall e ensures TruthyValues([e]) == if e.value != 0.0 then [e.value] else [] {
      assert ValuesOf([e]) == [e.value];
      assert [e.value][1..] == [];
    }
  }

  /** `_calculate_preview_stats`. */
  datatype RangeStats = RangeStats(startDate: Option<Day>, endDate: Option<Day>,
                                   minValue: Option<real>, maxValue: Option<real>, average: Option<real>)

  function RangeStatsOf(entries: seq<Entry>): (r: RangeStats)
    ensures entries == [] ==> r == RangeStats(None, None, None, None, None)
    ensures entries != [] ==> r.startDate == Some(entries[0].date) && r.endDate == Some(entries[|entries| - 1].date)
    ensures r.minValue.None? <==> forall i :: 0 <= i < |entries| ==> entries[i].value == 0.0
    ensures r.minValue.Some? <==> r.maxValue.Some? && r.average.Some?
    ensures r.minValue.Some? ==> r.minValue.value <= r.average.value <= r.maxValue.value
    ensures r.minValue.Some? ==> forall i :: 0 <= i < |entries| && entries[i].value != 0.0 ==>
      r.minValue.value <= entries[i].value <= r.maxValue.value
    ensures r.minValue.Some? ==> exists i :: 0 <= i < |entries| && entries[i].value == r.minValue.value
    ensures r.maxValue.Some? ==> exists i :: 0 <= i < |entries| && entries[i].value == r.maxValue.value
    ensures r.minValue.Some? ==> r.minValue.value in TruthyValues(entries) && r.maxValue.value in TruthyValues(entries)
    ensures r.average.Some? ==> IsMean(r.average.value, |TruthyValues(entries)|, Sum(TruthyValues(entries)))
  {
    if entries == [] then RangeStats(None, None, None, None, None)
    else
      var vs := TruthyValues(entries);
      if vs == [] then
        RangeStats(Some(entries[0].date), Some(entries[|entries| - 1].date), None, None, None)
      else
        MeanBetweenMinAndMax(vs);
        MeanIsMean(vs);
        RangeStats(Some(entries[0].date), Some(entries[|entries| - 1].date), Some(MinOf(vs)), Some(MaxOf(vs)), Some(Mean(vs)))
  }

  /** The reported range bounds every entry's day. */
  predicate RangeBounds(range: RangeStats, entries: seq<Entry>) {
    range.startDate.Some? && range.endDate.Some?
    && forall i :: 0 <= i < |entries| ==> range.startDate.value <= entries[i].date <= range.endDate.value
  }

  /** For sorted entries the first and last days bound every day. */
  lemma SortedRange(entries: seq<Entry>)
    requires SortedBy(entries, DayKey) && entries != []
    ensures RangeBounds(RangeStatsOf(entries), entries)
  {
    forall i | 0 <= i < |entries|
      ensures entries[0].date <= entries[i].date <= entries[|entries| - 1].date
    {
      if 0 < i { assert KeyLe(DayKey(entries[0]), DayKey(entries[i])); }
      if i < |entries| - 1 { assert KeyLe(DayKey(entries[i]), DayKey(entries[|entries| - 1])); }
    }
  }

  /** One section of `preview_import_data`. */
  datatype Section = Section(count: nat, dateRange: RangeStats, sample: seq<Entry>)

  const SampleSize := 5

  function SectionOf(entries: seq<Entry>): (r: Section)
    ensures r.count == |entries| && r.sample <= entries
    ensures |r.sample| == (if |entries| < SampleSize then |entries| else SampleSize)
    ensures r.dateRange == RangeStatsOf(entries)
    ensures SortedBy(entries, DayKey) && entries != [] ==> RangeBounds(r.dateRange, entries)
  {
    assert SortedBy(entries, DayKey) && entries != [] ==> RangeBounds(RangeStatsOf(entries), entries) by {
      if SortedBy(entries, DayKey) && entries != [] { SortedRange(entries); }
    }
    Section(|entries|, RangeStatsOf(entries), entries[..if |entries| < SampleSize then |entries| else SampleSize])
  }

  /** `preview_import_data`: the weight and body-fat sections; as the entries
      are sorted, each section's date range spans all its entries. */
  function PreviewImportData(records: seq<XmlRecord>, lib: Library): (r: (Section, Section))
    ensures r.0 == SectionOf(WeightEntries(records, lib)) && r.1 == SectionOf(FatEntries(records, lib))
    ensures r.0.count > 0 ==> RangeBounds(r.0.dateRange, WeightEntries(records, lib))
    ensures r.1.count > 0 ==> RangeBounds(r.1.dateRange, FatEntries(records, lib))
  {
    (SectionOf(WeightEntries(records, lib)), SectionOf(FatEntries(records, lib)))
  }
}

=== FILE: history_tab.dfy ===
/**
 * The history tab: page arithmetic and the page state machine (previous,
 * next, and the resets done by applying, clearing and refreshing the
 * filter), what one load of the tab shows, and the in-memory record filter
 * with its date parser.
 */
module HistoryTab {
  import opened Wrappers
  import opened Text
  import opened Seqs
  import opened Models
  import opened Store

  /** Rows per page. */
  const PageSize: nat := 50

  /** The label of the exercise filter's first entry, meaning "no exercise filter". */
  const AllExercises: string := "全ての種目"

  /** Days before today that the start-date filter is reset to. */
  const DefaultSpan: int := 30

  /** `max(1, (total + page_size - 1) // page_size)`: the number of pages,
      never less than one. */
  function TotalPages(total: nat, pageSize: nat): (r: nat)
    requires pageSize > 0
    ensures r >= 1
    ensures total == 0 ==> r == 1
    ensures total > 0 ==> (r - 1) * pageSize < total <= r * pageSize
  {
    var q := (total + pageSize - 1) / pageSize;
    assert q * pageSize <= total + pageSize - 1 < (q + 1) * pageSize;
    if q > 1 then q else 1
  }

  /** The last page holds at least one row and every row is on some page. */
  lemma LastPageNonEmpty(rows: seq<HistoryRow>, pageSize: nat)
    requires pageSize > 0 && |rows| > 0
    ensures Page(rows, (TotalPages(|rows|, pageSize) - 1) * pageSize, pageSize) != []
    ensures Page(rows, TotalPages(|rows|, pageSize) * pageSize, pageSize) == []
  {
    var n := TotalPages(|rows|, pageSize);
    assert (n - 1) * pageSize < |rows|;
    assert rows[(n - 1) * pageSize] == Page(rows, (n - 1) * pageSize, pageSize)[0];
  }

  // ---------------------------------------------------------------- buttons

  datatype Buttons = Buttons(previousEnabled: bool, nextEnabled: bool, previousText: string, nextText: string)

  /** `update_pagination_buttons`. */
  function PaginationButtons(page: nat, totalPages: int): (b: Buttons)
    ensures b.previousEnabled <==> page > 0
    ensures b.nextEnabled <==> page < totalPages - 1
    ensures b.previousText == if b.previousEnabled then "◀ 前のページ" else "◀ 前のページ (無効)"
    ensures b.nextText == if b.nextEnabled then "次のページ ▶" else "次のページ ▶ (無効)"
  {
    var previous := page > 0;
    var next := page < totalPages - 1;
    Buttons(previous, next,
      if previous then "◀ 前のページ" else "◀ 前のページ (無効)",
      if next then "次のページ ▶" else "次のページ ▶ (無効)")
  }

  // ---------------------------------------------------------------- page state

  /** `current_page` and `apply_current_filter`. */
  datatype PageState = PageState(page: nat, filterApplied: bool)

  const Initial: PageState := PageState(0, false)

  /** The page is one of the pages of `total` rows. */
  predicate PageInRange(page: nat, total: nat) {
    page < TotalPages(total, PageSize)
  }

  /** `previous_page`: step back unless on the first page; the flag says whether the history is reloaded. */
  function PreviousPage(s: PageState): (r: (PageState, bool))
    ensures r.1 <==> s.page > 0
    ensures r.1 ==> r.0.page + 1 == s.page && r.0.filterApplied == s.filterApplied
    ensures !r.1 ==> r.0 == s
  {
    if s.page > 0 then (s.(page := s.page - 1), true) else (s, false)
  }

  /** `next_page`: step forward unless on the last page, where the last page is
      computed from `get_total_record_count`, the unfiltered total. */
  function NextPage(s: PageState, totalRecords: nat): (r: (PageState, bool))
    ensures r.1 <==> s.page < TotalPages(totalRecords, PageSize) - 1
    ensures r.1 ==> r.0.page == s.page + 1 && r.0.filterApplied == s.filterApplied
    ensures !r.1 ==> r.0 == s
  {
    if s.page < TotalPages(totalRecords, PageSize) - 1 then (s.(page := s.page + 1), true) else (s, false)
  }

  /** Neither button leaves the range of pages, and a step that moves can be undone. */
  lemma NavigationStaysInRange(s: PageState, total: nat)
    requires PageInRange(s.page, total)
    ensures PageInRange(PreviousPage(s).0.page, total)
    ensures PageInRange(NextPage(s, total).0.page, total)
    ensures NextPage(s, total).1 ==> PreviousPage(NextPage(s, total).0) == (s, true)
    ensures PreviousPage(s).1 ==> NextPage(PreviousPage(s).0, total) == (s, true)
  {
  }

  /** The enabled buttons are exactly the moves the handlers make, when the
      buttons were drawn for the unfiltered total. */
  lemma ButtonsMatchHandlers(s: PageState, total: nat)
    ensures PaginationButtons(s.page, TotalPages(total, PageSize)).previousEnabled == PreviousPage(s).1
    ensures PaginationButtons(s.page, TotalPages(total, PageSize)).nextEnabled == NextPage(s, total).1
  {
  }

  /** `apply_filter`: filter on, back to the first page. */
  function ApplyFilter(s: PageState): (r: PageState)
    ensures r.page == 0 && r.filterApplied
  {
    PageState(0, true)
  }

  /** `refresh_data`: back to the first page, filter mode unchanged. */
  function RefreshData(s: PageState): (r: PageState)
    ensures r.page == 0 && r.filterApplied == s.filterApplied
  {
    s.(page := 0)
  }

  /** The filter widgets: date range, the selected entry of the exercise box
      (its label and the exercise id stored with it) and the search box. */
  datatype FilterInputs = FilterInputs(start: Day, end: Day, exerciseLabel: string, exerciseId: Option<int>, search: string)

  /** `clear_filter`: the last thirty days, all exercises, an empty search box,
      filter off, first page. */
  function ClearFilter(s: PageState, today: Day): (r: (PageState, FilterInputs))
    ensures r.0.page == 0 && !r.0.filterApplied
    ensures r.1.end == today && today - r.1.start == DefaultSpan
    ensures r.1.exerciseLabel == AllExercises && r.1.exerciseId.None? && r.1.search == []
  {
    (PageState(0, false), FilterInputs(today - DefaultSpan, today, AllExercises, None, ""))
  }

  // ---------------------------------------------------------------- loading

  /** The exercise id handed to the query: none when "all exercises" is selected. */
  function SelectedExercise(f: FilterInputs): (r: Option<int>)
    ensures f.exerciseLabel == AllExercises ==> r.None?
    ensures f.exerciseLabel != AllExercises ==> r == f.exerciseId
  {
    if f.exerciseLabel == AllExercises then None else f.exerciseId
  }

  /** `search_box.text().lower().strip()`. */
  function SearchKey(text: string): string {
    Strip(Lower(text))
  }

  /** The search text occurs in `"name variation"`, lower-cased. */
  predicate SearchMatches(row: HistoryRow, key: string) {
    Contains(Lower(row.name + " " + row.variation), key)
  }

  /** The search box applied to a page already fetched: with a non-empty key,
      only the rows whose exercise matches it, in their order. */
  function NarrowBySearch(page: seq<HistoryRow>, key: string): (r: seq<HistoryRow>)
    ensures IsSubseq(r, page)
    ensures forall i :: 0 <= i < |r| ==> key == [] || SearchMatches(r[i], key)
    ensures forall i :: 0 <= i < |page| && (key == [] || SearchMatches(page[i], key)) ==> page[i] in r
  {
    if key != [] then
      FilterIsSubseq(page, row => SearchMatches(row, key));
      Filter(page, row => SearchMatches(row, key))
    else
      SubseqOfItself(page);
      page
  }

  datatype View =
    | NoData(buttons: Buttons)
    | Shown(rows: seq<HistoryRow>, totalPages: nat, buttons: Buttons)

  /** The filtered branch of `load_history`: one page of the filtered query at
      offset page × page size, narrowed by the search text, with the page count
      taken from the filtered total. */
  function FilteredView(db: Db, s: PageState, f: FilterInputs): (v: View)
    ensures v.Shown? && |v.rows| <= PageSize && v.totalPages >= 1
    ensures v.buttons == PaginationButtons(s.page, v.totalPages)
    ensures v.totalPages == TotalPages(FilteredRecordCount(db, Some(f.start), Some(f.end), SelectedExercise(f)), PageSize)
    ensures v.rows == NarrowBySearch(HistoryFiltered(db, Some(f.start), Some(f.end), SelectedExercise(f), PageSize, s.page * PageSize), SearchKey(f.search))
    ensures forall i :: 0 <= i < |v.rows| ==> SearchKey(f.search) == [] || SearchMatches(v.rows[i], SearchKey(f.search))
  {
    var exerciseId := SelectedExercise(f);
    var page := HistoryFiltered(db, Some(f.start), Some(f.end), exerciseId, PageSize, s.page * PageSize);
    var rows := NarrowBySearch(page, SearchKey(f.search));
    var pages := TotalPages(FilteredRecordCount(db, Some(f.start), Some(f.end), exerciseId), PageSize);
    Shown(rows, pages, PaginationButtons(s.page, pages))
  }

  /** `load_history`: the filtered view while the filter is on; otherwise one
      page of the whole history, or the "no data" view (with both buttons
      drawn for zero pages) when the database holds no set. */
  function LoadHistory(db: Db, s: PageState, f: FilterInputs): (v: View)
    ensures v.NoData? <==> !s.filterApplied && TotalRecordCount(db) == 0
    ensures v.NoData? ==> v.buttons == PaginationButtons(s.page, 0)
    ensures v.Shown? ==> |v.rows| <= PageSize && v.totalPages >= 1
    ensures v.Shown? ==> v.buttons == PaginationButtons(s.page, v.totalPages)
    ensures s.filterApplied ==> v == FilteredView(db, s, f)
    ensures v.Shown? && !s.filterApplied ==>
      v.totalPages == TotalPages(TotalRecordCount(db), PageSize) && v.rows == HistoryPaginated(db, PageSize, s.page * PageSize)
  {
    if s.filterApplied then FilteredView(db, s, f)
    else if TotalRecordCount(db) == 0 then NoData(PaginationButtons(s.page, 0))
    else
      var pages := TotalPages(TotalRecordCount(db), PageSize);
      Shown(HistoryPaginated(db, PageSize, s.page * PageSize), pages, PaginationButtons(s.page, pages))
  }

  /** While a filter is on, `next_page` still moves by the unfiltered total: on
      the last filtered page the next button can be enabled and the step lands
      on a page beyond the filtered results. */
  lemma NextPageIgnoresFilter()
    ensures NextPage(PageState(0, true), 120).1
    ensures NextPage(PageState(0, true), 120).0.page >= TotalPages(10, PageSize)
  {
  }

  /** The same step bounded by the total the page label shows: the filtered
      count while the filter is on. */
  function NextPageShown(s: PageState, totalRecords: nat, filteredTotal: nat): (r: (PageState, bool))
    ensures var total := if s.filterApplied then filteredTotal else totalRecords;
      (r.1 <==> s.page < TotalPages(total, PageSize) - 1)
      && (r.1 ==> r.0.page == s.page + 1 && r.0.filterApplied == s.filterApplied)
      && (!r.1 ==> r.0 == s)
  {
    NextPage(s, if s.filterApplied then filteredTotal else totalRecords)
  }

  /** More rows never mean fewer pages. */
  lemma TotalPagesMonotone(a: nat, b: nat)
    requires a <= b
    ensures TotalPages(a, PageSize) <= TotalPages(b, PageSize)
  {
    assert (a + PageSize - 1) / PageSize <= (b + PageSize - 1) / PageSize;
  }

  /** The next button is the only way the tab calls `next_page`, and the button
      is drawn from the total the tab shows. While it is enabled, the written
      step and the step bounded by the shown total agree, so the two differ only
      on states the tab never hands to the handler. */
  lemma NextPageAgreesWhenEnabled(db: Db, s: PageState, f: FilterInputs)
    requires LoadHistory(db, s, f).buttons.nextEnabled
    ensures NextPage(s, TotalRecordCount(db))
      == NextPageShown(s, TotalRecordCount(db), FilteredRecordCount(db, Some(f.start), Some(f.end), SelectedExercise(f)))
  {
    var filtered := FilteredRecordCount(db, Some(f.start), Some(f.end), SelectedExercise(f));
    TotalPagesMonotone(filtered, TotalRecordCount(db));
  }

  /** With the bound taken from the shown total, a page that is within the
      filtered results stays within them. */
  lemma NextPageShownStaysInRange(s: PageState, totalRecords: nat, filteredTotal: nat)
    requires s.filterApplied && PageInRange(s.page, filteredTotal)
    ensures PageInRange(NextPageShown(s, totalRecords, filteredTotal).0.page, filteredTotal)
  {
  }

  // ---------------------------------------------------------------- in-memory filter

  /** What `_parse_record_date` returns: a plain date, or a datetime object. */
  datatype Parsed = PlainDate(day: Day) | DateAndTime(day: Day, seconds: int)

  /** `_parse_record_date` as written. A `datetime` is an instance of `date`,
      so the first branch returns it unchanged and the `.date()` branch meant
      for it is never reached. `strptime` stands for parsing `%Y-%m-%d`. */
  function ParseRecordDateAsWritten(v: DateValue, strptime: string -> Option<Day>): (r: Option<Parsed>)
    ensures v.DateVal? ==> r == Some(PlainDate(v.day))
    ensures v.DateTimeVal? ==> r == Some(DateAndTime(v.day, v.seconds))
    ensures v.StrVal? ==> (r.None? <==> strptime(v.text).None?)
    ensures v.OtherVal? ==> (r.None? <==> strptime(v.shown).None?)
  {
    match v
    case DateVal(d) => Some(PlainDate(d))
    case DateTimeVal(d, t) => Some(DateAndTime(d, t))
    case StrVal(s) => if strptime(s).Some? then Some(PlainDate(strptime(s).value)) else None
    case OtherVal(s) => if strptime(s).Some? then Some(PlainDate(strptime(s).value)) else None
  }

  /** `_parse_record_date` as intended: a datetime contributes its date. */
  function ParseRecordDate(v: DateValue, strptime: string -> Option<Day>): (r: Option<Day>)
    ensures v.DateVal? || v.DateTimeVal? ==> r == Some(v.day)
    ensures v.StrVal? ==> r == strptime(v.text)
    ensures v.OtherVal? ==> r == strptime(v.shown)
  {
    match v
    case DateVal(d) => Some(d)
    case DateTimeVal(d, _) => Some(d)
    case StrVal(s) => strptime(s)
    case OtherVal(s) => strptime(s)
  }

  /** The columns of a record the filter reads. */
  datatype Record = Record(dateValue: DateValue, name: string, variation: string)

  /** The exercise condition: "all exercises" is selected, or the record's `name（variation）` label is. */
  predicate ExerciseMatches(rec: Record, selected: string) {
    selected == AllExercises || selected == Exercise(None, rec.name, rec.variation, "").DisplayName()
  }

  predicate RecordSearchMatches(rec: Record, key: string) {
    key == [] || Contains(Lower(rec.name + " " + rec.variation), key)
  }

  /** Whether `filter_data` keeps a record, as written: comparing a datetime
      with the filter's dates raises `TypeError`, which skips the record. */
  predicate KeepAsWritten(rec: Record, f: FilterInputs, strptime: string -> Option<Day>) {
    match ParseRecordDateAsWritten(rec.dateValue, strptime)
    case None => false
    case Some(p) =>
      p.PlainDate? && f.start <= p.day <= f.end
      && ExerciseMatches(rec, f.exerciseLabel) && RecordSearchMatches(rec, SearchKey(f.search))
  }

  /** Whether `filter_data` keeps a record: the date parses and lies in the
      range, the exercise matches, and the search text matches. */
  predicate Keep(rec: Record, f: FilterInputs, strptime: string -> Option<Day>) {
    var d := ParseRecordDate(rec.dateValue, strptime);
    d.Some? && f.start <= d.value <= f.end
    && ExerciseMatches(rec, f.exerciseLabel) && RecordSearchMatches(rec, SearchKey(f.search))
  }

  /** `filter_data` as written. */
  function FilterDataAsWritten(data: seq<Record>, f: FilterInputs, strptime: string -> Option<Day>): (r: seq<Record>)
    ensures IsSubseq(r, data)
    ensures forall i :: 0 <= i < |r| ==> KeepAsWritten(r[i], f, strptime)
    ensures forall i :: 0 <= i < |data| && KeepAsWritten(data[i], f, strptime) ==> data[i] in r
  {
    FilterIsSubseq(data, rec => KeepAsWritten(rec, f, strptime));
    Filter(data, rec => KeepAsWritten(rec, f, strptime))
  }

  /** `filter_data`: the records that pass every condition, in their original
      order; records whose date does not parse are dropped. */
  function FilterData(data: seq<Record>, f: FilterInputs, strptime: string -> Option<Day>): (r: seq<Record>)
    ensures IsSubseq(r, data)
    ensures forall i :: 0 <= i < |r| ==> Keep(r[i], f, strptime)
    ensures forall i :: 0 <= i < |data| && Keep(data[i], f, strptime) ==> data[i] in r
  {
    FilterIsSubseq(data, rec => Keep(rec, f, strptime));
    Filter(data, rec => Keep(rec, f, strptime))
  }

  /** The two filters agree except on datetime values, which the written
      filter always drops. */
  lemma AsWrittenDropsDateTimes(rec: Record, f: FilterInputs, strptime: string -> Option<Day>)
    ensures !rec.dateValue.DateTimeVal? ==> (KeepAsWritten(rec, f, strptime) <==> Keep(rec, f, strptime))
    ensures rec.dateValue.DateTimeVal? ==> !KeepAsWritten(rec, f, strptime)
  {
  }

  /** A concrete record: a workout at 10:00 on day 100, inside the range
      95..105 with no other filter, is kept by the intended filter and dropped
      by the written one. */
  lemma DateTimeRecordCounterexample(strptime: string -> Option<Day>)
    ensures var rec := Record(DateTimeVal(100, 36000), "スクワット", "バーベル");
      var f := FilterInputs(95, 105, AllExercises, None, "");
      Keep(rec, f, strptime) && !KeepAsWritten(rec, f, strptime)
  {
    assert SearchKey("") == [];
  }
}

=== FILE: models.dfy ===
/**
 * The persisted records. Dates are day numbers (proleptic Gregorian
 * ordinals, as `date.toordinal()` gives them); weights are reals; an `id` is
 * `None` until the database has assigned one.
 */
module Models {
  import opened Wrappers

  type Day = int

  /** A date as a dynamically typed Python value: a `date`, a `datetime`
      (day and seconds into the day), a string, or anything else (with its
      string form). */
  datatype DateValue =
    | DateVal(day: Day)
    | DateTimeVal(day: Day, seconds: int)
    | StrVal(text: string)
    | OtherVal(shown: string)

  /** The five training categories, in the order the program lists them. */
  const Categories: seq<string> := ["胸", "背中", "脚", "肩", "腕"]

  datatype Exercise = Exercise(id: Option<int>, name: string, variation: string, category: string) {

    /** `name（variation）`, with full-width parentheses. */
    function DisplayName(): (r: string)
      ensures |r| == |name| + |variation| + 2
      ensures r[..|name|] == name && r[|name|] == '（'
      ensures r[|name| + 1..|r| - 1] == variation && r[|r| - 1] == '）'
    {
      name + "（" + variation + "）"
    }
  }

  /** Two exercises whose names contain no opening full-width parenthesis show the
      same display name only when name and variation both agree, so matching a
      record against a selected display name identifies the exercise. */
  lemma DisplayNameInjective(a: Exercise, b: Exercise)
    requires '（' !in a.name && '（' !in b.name
    requires a.DisplayName() == b.DisplayName()
    ensures a.name == b.name && a.variation == b.variation
  {
    var d := a.DisplayName();
    assert a.name == d[..|a.name|] == b.name;
  }

  datatype Workout = Workout(id: Option<int>, date: Day, notes: Option<string> := None)

  /** One set as stored; `oneRm` is filled in by the database layer. */
  datatype SetRecord = SetRecord(
    id: Option<int>, workoutId: int, exerciseId: int, setNumber: int,
    weight: real, reps: int, oneRm: Option<real> := None)

  /** The legacy goal: a target weight for a month (`YYYY-MM`), without repetitions or sets. */
  datatype Goal = Goal(
    id: Option<int>, exerciseId: int, targetWeight: real, currentWeight: real,
    targetMonth: string, achieved: bool := false)

  /** A body measurement; each value is independently optional. */
  datatype BodyStats = BodyStats(
    id: Option<int>, date: Day,
    weight: Option<real> := None, bodyFat: Option<real> := None, muscleMass: Option<real> := None)
}

=== FILE: numeric.dfy ===
/**
 * Number helpers shared by the whole model: Python's `int()` on a float,
 * Python truthiness of an optional number, the behaviour of Qt spin boxes
 * (`setValue` rounds to the displayed decimals and clamps to the range), and
 * sums, minima, maxima and means over sequences of reals.
 */
module Numeric {
  import opened Wrappers

  /** Python `int(x)` for a float: truncation toward zero. */
  function Trunc(x: real): (r: int)
    ensures x >= 0.0 ==> r >= 0 && r as real <= x < r as real + 1.0
    ensures x < 0.0 ==> r <= 0 && r as real - 1.0 < x <= r as real
  {
    if x >= 0.0 then x.Floor else -((-x).Floor)
  }

  /** Python truthiness of an optional float: `None` and `0.0` are falsy. */
  predicate Truthy(v: Option<real>) {
    v.Some? && v.value != 0.0
  }

  /** `incoming or existing`: the incoming value when it is truthy, the existing one otherwise. */
  function OrElse(incoming: Option<real>, existing: Option<real>): (r: Option<real>)
    ensures Truthy(incoming) ==> r == incoming
    ensures !Truthy(incoming) ==> r == existing
  {
    if Truthy(incoming) then incoming else existing
  }

  /** A value with at most one decimal place. */
  predicate IsTenth(x: real) {
    (x * 10.0).Floor as real == x * 10.0
  }

  /** Rounding to one decimal, as a spin box with `setDecimals(1)` stores a value (ties upward). */
  function Round1(x: real): (r: real)
    ensures IsTenth(r)
    ensures x - 0.05 < r <= x + 0.05
    ensures IsTenth(x) ==> r == x
  {
    var y := x * 10.0;
    var n := (y + 0.5).Floor;
    var r := n as real / 10.0;
    assert r * 10.0 == n as real;
    assert IsTenth(r) by {
      assert (n as real).Floor == n;
    }
    assert x - 0.05 < r <= x + 0.05 by {
      assert n as real <= y + 0.5 < n as real + 1.0;
    }
    assert IsTenth(x) ==> r == x by {
      if IsTenth(x) {
        assert y.Floor as real == y;
        assert n == y.Floor;
      }
    }
    r
  }

  function ClampReal(x: real, lo: real, hi: real): (r: real)
    requires lo <= hi
    ensures lo <= r <= hi
    ensures lo <= x <= hi ==> r == x
    ensures x < lo ==> r == lo
    ensures x > hi ==> r == hi
  {
    if x < lo then lo else if x > hi then hi else x
  }

  function ClampInt(x: int, lo: int, hi: int): (r: int)
    requires lo <= hi
    ensures lo <= r <= hi
    ensures lo <= x <= hi ==> r == x
    ensures x < lo ==> r == lo
    ensures x > hi ==> r == hi
  {
    if x < lo then lo else if x > hi then hi else x
  }

  /** The value a one-decimal `QDoubleSpinBox` with range [lo, hi] holds after `setValue(v)`. */
  function SpinReal(v: real, lo: real, hi: real): (r: real)
    requires lo <= hi
    ensures lo <= r <= hi
    ensures lo <= v <= hi && IsTenth(v) ==> r == v
  {
    ClampReal(Round1(v), lo, hi)
  }

  /** A spin box whose minimum is shown as "unset" text: at or below the
      minimum it reads as no value, above it as its value. */
  function ValueAboveMinimum(x: real, lo: real): (r: Option<real>)
    ensures r.None? <==> x <= lo
    ensures r.Some? ==> r.value == x
  {
    if x > lo then Some(x) else None
  }

  /** The non-zero (truthy) numbers of `s`, in order. */
  function NonZeros(s: seq<real>): (r: seq<real>)
    ensures |r| <= |s|
    ensures forall k :: 0 <= k < |r| ==> r[k] != 0.0 && r[k] in s
    ensures forall i :: 0 <= i < |s| && s[i] != 0.0 ==> s[i] in r
  {
    if s == [] then []
    else
      var rest := NonZeros(s[1..]);
      assert forall i :: 1 <= i < |s| ==> s[i] == s[1..][i - 1];
      if s[0] != 0.0 then [s[0]] + rest else rest
  }

  /** The non-zero numbers of consecutive runs are those of each run, in order. */
  lemma {:induction false} NonZerosAppend(a: seq<real>, b: seq<real>)
    ensures NonZeros(a + b) == NonZeros(a) + NonZeros(b)
    decreases |a|
  {
    if a == [] {
      assert a + b == b;
    } else {
      assert (a + b)[0] == a[0] && (a + b)[1..] == a[1..] + b;
      NonZerosAppend(a[1..], b);
    }
  }

  function Sum(s: seq<real>): real {
    if s == [] then 0.0 else s[0] + Sum(s[1..])
  }

  lemma {:induction false} SumAppend(a: seq<real>, b: seq<real>)
    ensures Sum(a + b) == Sum(a) + Sum(b)
  {
    if a == [] {
      assert a + b == b;
    } else {
      assert (a + b)[1..] == a[1..] + b;
      SumAppend(a[1..], b);
    }
  }

  /** A sum of values that all lie in [lo, hi] lies in [|s|·lo, |s|·hi]. */
  lemma {:induction false} SumBounds(s: seq<real>, lo: real, hi: real)
    requires forall i :: 0 <= i < |s| ==> lo <= s[i] <= hi
    ensures |s| as real * lo <= Sum(s) <= |s| as real * hi
  {
    if s != [] {
      SumBounds(s[1..], lo, hi);
    }
  }

  /** The largest element (Python `max` over a non-empty list). */
  function MaxOf(s: seq<real>): (r: real)
    requires |s| > 0
    ensures r in s
    ensures forall i :: 0 <= i < |s| ==> s[i] <= r
  {
    if |s| == 1 then s[0]
    else
      var m := MaxOf(s[1..]);
      assert forall i :: 1 <= i < |s| ==> s[i] == s[1..][i - 1];
      if s[0] >= m then s[0] else m
  }

  /** The smallest element (Python `min` over a non-empty list). */
  function MinOf(s: seq<real>): (r: real)
    requires |s| > 0
    ensures r in s
    ensures forall i :: 0 <= i < |s| ==> r <= s[i]
  {
    if |s| == 1 then s[0]
    else
      var m := MinOf(s[1..]);
      assert forall i :: 1 <= i < |s| ==> s[i] == s[1..][i - 1];
      if s[0] <= m then s[0] else m
  }

  /** `average` is the mean of `n` values adding up to `total`. */
  predicate IsMean(average: real, n: nat, total: real) {
    average * n as real == total
  }

  /** `sum(s) / len(s)` for a non-empty list. */
  function Mean(s: seq<real>): (r: real)
    requires |s| > 0
    ensures r * (|s| as real) == Sum(s)
  {
    var t, n := Sum(s), |s| as real;
    DivideExact(t, n);
    t / n
  }

  lemma MeanIsMean(s: seq<real>)
    requires |s| > 0
    ensures IsMean(Mean(s), |s|, Sum(s))
  {
  }

  /** The mean lies between the smallest and the largest element. */
  lemma {:induction false} MeanBetweenMinAndMax(s: seq<real>)
    requires |s| > 0
    ensures MinOf(s) <= Mean(s) <= MaxOf(s)
  {
    MeanBounds(s, MinOf(s), MaxOf(s));
  }

  /** The mean of values that all lie in [lo, hi] lies in [lo, hi]. */
  lemma MeanBounds(s: seq<real>, lo: real, hi: real)
    requires |s| > 0
    requires forall i :: 0 <= i < |s| ==> lo <= s[i] <= hi
    ensures lo <= Mean(s) <= hi
  {
    SumBounds(s, lo, hi);
    ScaledBounds(Mean(s), |s| as real, Sum(s), lo, hi);
  }

  /** A number whose multiple `t` by a positive `n` lies in [n·lo, n·hi] lies in [lo, hi]. */
  lemma ScaledBounds(m: real, n: real, t: real, lo: real, hi: real)
    requires n > 0.0 && m * n == t && n * lo <= t <= n * hi
    ensures lo <= m <= hi
  {
    if m < lo {
      MulStrict(m, lo, n);
    }
    if m > hi {
      MulStrict(hi, m, n);
    }
  }

  lemma MulStrict(a: real, b: real, n: real)
    requires a < b && n > 0.0
    ensures a * n < b * n
  {
  }

  lemma DivideExact(a: real, n: real)
    requires n > 0.0
    ensures (a / n) * n == a
  {
  }

  lemma DivideBounds(a: real, n: real, lo: real, hi: real)
    requires n > 0.0 && n * lo <= a <= n * hi
    ensures lo <= a / n <= hi
  {
  }
}

=== FILE: record_tab.dfy ===
/**
 * The record tab: the list of set rows being entered (add, remove with
 * renumbering, clear, prefill from the last record) and saving a workout —
 * validating every set, finding or creating the day's workout, inserting
 * the sets one by one, and clearing the form only when every set was saved.
 */
module RecordTab {
  import opened Wrappers
  import opened Numeric
  import opened Validation
  import opened Models
  import opened Store
  import Calculations

  /** One set row: its displayed number and the values of its two spin boxes. */
  datatype SetInput = SetInput(number: int, weight: real, reps: int)

  /** A new set row, its spin boxes at their minimums. */
  function FreshSet(n: int): SetInput {
    SetInput(n, WeightMin, RepsMin)
  }

  /** The rows are numbered 1, 2, …, n in order. */
  predicate Numbered(sets: seq<SetInput>) {
    forall i :: 0 <= i < |sets| ==> sets[i].number == i + 1
  }

  /** `add_set`: a fresh row numbered one past the current count. */
  function AddSet(sets: seq<SetInput>): (r: seq<SetInput>)
    ensures |r| == |sets| + 1 && r[..|sets|] == sets && r[|sets|] == FreshSet(|sets| + 1)
    ensures Numbered(sets) ==> Numbered(r)
  {
    sets + [FreshSet(|sets| + 1)]
  }

  /** The rows renumbered 1..n, values kept. */
  function Renumber(sets: seq<SetInput>): (r: seq<SetInput>)
    ensures |r| == |sets| && Numbered(r)
    ensures forall i :: 0 <= i < |r| ==> r[i].weight == sets[i].weight && r[i].reps == sets[i].reps
  {
    seq(|sets|, i requires 0 <= i < |sets| => sets[i].(number := i + 1))
  }

  /** `remove_set`: refused (with a warning) when only one row is left;
      otherwise the row goes and the rest are renumbered in their order. */
  function RemoveSet(sets: seq<SetInput>, i: int): (r: (seq<SetInput>, bool))
    requires 0 <= i < |sets|
    ensures !r.1 <==> |sets| <= 1
    ensures !r.1 ==> r.0 == sets
    ensures r.1 ==> |r.0| == |sets| - 1 && |r.0| >= 1 && Numbered(r.0)
    ensures r.1 ==> forall k :: 0 <= k < i ==> r.0[k].weight == sets[k].weight && r.0[k].reps == sets[k].reps
    ensures r.1 ==> forall k :: i <= k < |r.0| ==> r.0[k].weight == sets[k + 1].weight && r.0[k].reps == sets[k + 1].reps
  {
    if |sets| <= 1 then (sets, false)
    else (Renumber(sets[..i] + sets[i + 1..]), true)
  }

  /** `clear_sets`: every row goes and one fresh row is added. */
  function ClearSets(): (r: seq<SetInput>)
    ensures |r| == 1 && Numbered(r) && r[0] == FreshSet(1)
  {
    AddSet([])
  }

  /** Adding and removing rows, starting from a numbered non-empty form, keeps
      it numbered and non-empty. */
  lemma EditsKeepForm(sets: seq<SetInput>, i: int)
    requires Numbered(sets) && |sets| >= 1 && 0 <= i < |sets|
    ensures Numbered(AddSet(sets)) && |AddSet(sets)| >= 1
    ensures Numbered(RemoveSet(sets, i).0) && |RemoveSet(sets, i).0| >= 1
  {
  }

  /** Removing the row just added gives back a numbered form unchanged. */
  lemma RemoveUndoesAdd(sets: seq<SetInput>)
    requires Numbered(sets) && |sets| >= 1
    ensures RemoveSet(AddSet(sets), |sets|) == (sets, true)
  {
    var added := AddSet(sets);
    assert added[..|sets|] + added[|sets| + 1..] == sets;
    var r := RemoveSet(added, |sets|).0;
    assert |r| == |sets|;
    forall i | 0 <= i < |sets| ensures r[i] == sets[i] {
      assert r[i] == sets[i].(number := i + 1);
    }
    assert r == sets;
  }

  /** `set_previous_data` on the first row after `get_last_exercise_record`:
      the spin boxes take the last record's first set, rounded to one decimal
      and clamped to their ranges; without a record the form is unchanged. */
  function ApplyPreviousRecord(sets: seq<SetInput>, last: Option<seq<DatedSet>>): (r: seq<SetInput>)
    ensures |r| == |sets|
    ensures last.None? || sets == [] || last.value == [] ==> r == sets
    ensures last.Some? && last.value != [] && sets != [] ==>
      r[0].number == sets[0].number
      && r[0].weight == SpinReal(last.value[0].row.weight, WeightMin, WeightMax)
      && r[0].reps == ClampInt(last.value[0].row.reps, RepsMin, RepsMax)
      && r[1..] == sets[1..]
    ensures last.Some? && last.value != [] && sets != [] ==>
      WeightMin <= r[0].weight <= WeightMax && RepsMin <= r[0].reps <= RepsMax
  {
    if last.None? || last.value == [] || sets == [] then sets
    else
      var first := last.value[0].row;
      [sets[0].(weight := SpinReal(first.weight, WeightMin, WeightMax), reps := ClampInt(first.reps, RepsMin, RepsMax))] + sets[1..]
  }

  // ---------------------------------------------------------------- validation

  /** `validate_set_data(weight_spin.value(), reps_spin.value())`: the weight box yields a float, the reps box an int. */
  function Check(s: SetInput): (v: Verdict)
    ensures v.valid <==> ValidateWeight(PyFloat(s.weight)).valid && ValidateReps(PyInt(s.reps)).valid
    ensures !v.valid ==> v.error.Some?
  {
    ValidateSetData(PyFloat(s.weight), PyInt(s.reps))
  }

  /** One line of the error dialog: `セット#{n}: {message}`. */
  datatype SetError = SetError(position: int, message: Message)

  /** The positions (1-based) and messages of the failing verdicts, in order. */
  function ErrorsOf(verdicts: seq<Verdict>): (r: seq<SetError>)
    ensures forall e :: e in r ==>
      1 <= e.position <= |verdicts| && !verdicts[e.position - 1].valid
      && Some(e.message) == verdicts[e.position - 1].error
    ensures forall k, l :: 0 <= k < l < |r| ==> r[k].position < r[l].position
    ensures forall i :: 0 <= i < |verdicts| && !verdicts[i].valid && verdicts[i].error.Some? ==>
      SetError(i + 1, verdicts[i].error.value) in r
  {
    if verdicts == [] then []
    else
      var front := verdicts[..|verdicts| - 1];
      var v := verdicts[|verdicts| - 1];
      var errors := ErrorsOf(front);
      if v.valid || v.error.None? then errors
      else errors + [SetError(|verdicts|, v.error.value)]
  }

  /** `validation_errors`: each failing row with its 1-based position and the
      validator's message, in order; empty exactly when every row passes. */
  function ValidationErrors(sets: seq<SetInput>): (r: seq<SetError>)
    ensures forall e :: e in r ==>
      1 <= e.position <= |sets| && !Check(sets[e.position - 1]).valid
      && Some(e.message) == Check(sets[e.position - 1]).error
    ensures forall k, l :: 0 <= k < l < |r| ==> r[k].position < r[l].position
    ensures forall i :: 0 <= i < |sets| && !Check(sets[i]).valid ==>
      SetError(i + 1, Check(sets[i]).error.value) in r
    ensures r == [] <==> forall i :: 0 <= i < |sets| ==> Check(sets[i]).valid
  {
    var verdicts := seq(|sets|, i requires 0 <= i < |sets| => Check(sets[i]));
    var r := ErrorsOf(verdicts);
    assert forall i :: 0 <= i < |sets| ==> verdicts[i] == Check(sets[i]);
    assert r != [] ==> r[0] in r;
    r
  }

  // ---------------------------------------------------------------- saving

  /** How many of the inserts succeeded. */
  function Succeeded(faults: seq<Option<Fault>>): (n: nat)
    ensures n <= |faults|
    ensures n == |faults| <==> forall i :: 0 <= i < |faults| ==> faults[i].None?
  {
    if faults == [] then 0
    else
      var front := faults[..|faults| - 1];
      assert forall i :: 0 <= i < |front| ==> front[i] == faults[i];
      Succeeded(front) + (if faults[|faults| - 1].None? then 1 else 0)
  }

  /** A stored row made from form row `setNumber - 1`, whose insert succeeded. */
  predicate IsSavedRow(row: SetRecord, workoutId: int, exerciseId: int, sets: seq<SetInput>, faults: seq<Option<Fault>>)
    requires |faults| == |sets|
  {
    row.workoutId == workoutId && row.exerciseId == exerciseId
    && 1 <= row.setNumber <= |sets| && faults[row.setNumber - 1].None?
    && row.weight == sets[row.setNumber - 1].weight && row.reps == sets[row.setNumber - 1].reps
    && row.oneRm == Some(Calculations.OneRm(row.weight, row.reps))
  }

  /** The loop of `save_workout` that inserts the sets: row i is inserted with
      set number i + 1 through `add_set_safe`, whose outcome `faults[i]` decides;
      a failed insert is counted out and the loop goes on. */
  method SaveSets(db: Db, workoutId: int, exerciseId: int, sets: seq<SetInput>, faults: seq<Option<Fault>>)
    returns (after: Db, saved: nat)
    requires |faults| == |sets|
    ensures saved == Succeeded(faults)
    ensures |after.sets| == |db.sets| + saved && after.sets[..|db.sets|] == db.sets
    ensures after.workouts == db.workouts && after.exercises == db.exercises
    ensures forall k :: |db.sets| <= k < |after.sets| ==> IsSavedRow(after.sets[k], workoutId, exerciseId, sets, faults)
    ensures forall k, l :: |db.sets| <= k < l < |after.sets| ==> after.sets[k].setNumber < after.sets[l].setNumber
  {
    after := db;
    saved := 0;
    var i := 0;
    while i < |sets|
      invariant 0 <= i <= |sets|
      invariant saved == Succeeded(faults[..i])
      invariant |after.sets| == |db.sets| + saved && after.sets[..|db.sets|] == db.sets
      invariant after.workouts == db.workouts && after.exercises == db.exercises
      invariant forall k :: |db.sets| <= k < |after.sets| ==>
        IsSavedRow(after.sets[k], workoutId, exerciseId, sets, faults) && after.sets[k].setNumber <= i
      invariant forall k, l :: |db.sets| <= k < l < |after.sets| ==> after.sets[k].setNumber < after.sets[l].setNumber
    {
      var row := SetRecord(None, workoutId, exerciseId, i + 1, sets[i].weight, sets[i].reps);
      var result := AddSetSafe(after, row, faults[i]);
      assert faults[..i + 1][..i] == faults[..i];
      if result.0 {
        assert result.1.sets == after.sets + [result.1.sets[|after.sets|]];
        saved := saved + 1;
      }
      after := result.1;
      i := i + 1;
    }
    assert faults[..|sets|] == faults;
  }

  datatype SaveOutcome =
    | NoSets                                 // "保存するセットがありません"
    | NoExercise                             // "種目を選択してください"
    | InvalidInput(errors: seq<SetError>)    // "以下のエラーを修正してください"
    | WorkoutNotCreated                      // "ワークアウトの作成に失敗しました"
    | Saved(count: nat)                      // "{n}セットを保存しました"
    | PartlySaved(count: nat, total: nat)    // "{n}/{total}セットを保存しました"

  /** The workout the sets are attached to: the day's existing workout, or a
      newly created one; `None` (database unchanged) when creation failed or
      returned a falsy id. */
  function FindOrCreateWorkout(db: Db, date: Day, fault: Option<Fault>): (r: (Option<Workout>, Db))
    requires Valid(db)
    ensures r.0.None? <==> WorkoutOn(db.workouts, date).None? && fault.Some?
    ensures r.0.None? ==> r.1 == db
    ensures r.0.Some? ==> r.0.value in r.1.workouts && r.0.value.date == date && r.0.value.id.Some?
    ensures r.1.sets == db.sets && r.1.exercises == db.exercises
    ensures WorkoutOn(db.workouts, date).Some? ==> r == (WorkoutOn(db.workouts, date), db)
    ensures r.0.Some? && WorkoutOn(db.workouts, date).None? ==>
      r.1.workouts == db.workouts + [r.0.value]
  {
    var existing := WorkoutOn(db.workouts, date);
    if existing.Some? then
      var j :| 0 <= j < |db.workouts| && db.workouts[j] == existing.value;
      (existing, db)
    else
      var created := AddWorkout(db, date, None, fault);
      if created.0.None? || created.0.value == 0 then (None, db)
      else
        var w := Workout(created.0, date, None);
        (Some(w), created.1)
  }

  /** `save_workout`. Nothing is stored when the form is empty, no exercise is
      selected or any row fails validation (then every failing row is reported).
      The day's workout is reused, or created; if creating it fails no set is
      stored. The sets are then inserted in order; only when all of them were
      stored is the form reset to one fresh row. */
  method SaveWorkout(db: Db, sets: seq<SetInput>, exerciseId: Option<int>, date: Day,
                     workoutFault: Option<Fault>, setFaults: seq<Option<Fault>>)
    returns (outcome: SaveOutcome, after: Db, form: seq<SetInput>)
    requires Valid(db)
    requires |setFaults| == |sets|
    ensures outcome.NoSets? <==> sets == []
    ensures outcome.NoExercise? <==> sets != [] && exerciseId.None?
    ensures outcome.InvalidInput? <==> sets != [] && exerciseId.Some? && ValidationErrors(sets) != []
    ensures outcome.InvalidInput? ==> outcome.errors == ValidationErrors(sets)
    ensures outcome.WorkoutNotCreated? <==>
      sets != [] && exerciseId.Some? && ValidationErrors(sets) == [] && WorkoutOn(db.workouts, date).None? && workoutFault.Some?
    ensures outcome.NoSets? || outcome.NoExercise? || outcome.InvalidInput? || outcome.WorkoutNotCreated? ==>
      after == db && form == sets
    ensures outcome.Saved? ==> outcome.count == |sets| && form == ClearSets()
    ensures outcome.PartlySaved? ==> outcome.count < outcome.total == |sets| && form == sets
    ensures outcome.Saved? || outcome.PartlySaved? ==>
      (outcome.Saved? <==> forall i :: 0 <= i < |setFaults| ==> setFaults[i].None?)
    ensures (outcome.Saved? || outcome.PartlySaved?) && WorkoutOn(db.workouts, date).Some? ==>
      after.workouts == db.workouts
    ensures outcome.Saved? || outcome.PartlySaved? ==>
      |after.sets| - |db.sets| == Succeeded(setFaults) && after.sets[..|db.sets|] == db.sets
    ensures outcome.Saved? || outcome.PartlySaved? ==>
      exists w :: w in after.workouts && w.date == date && w.id.Some? &&
        forall k :: |db.sets| <= k < |after.sets| ==> IsSavedRow(after.sets[k], w.id.value, exerciseId.value, sets, setFaults)
  {
    if sets == [] {
      return NoSets, db, sets;
    }
    if exerciseId.None? {
      return NoExercise, db, sets;
    }
    var errors := ValidationErrors(sets);
    if errors != [] {
      return InvalidInput(errors), db, sets;
    }
    var found := FindOrCreateWorkout(db, date, workoutFault);
    if found.0.None? {
      return WorkoutNotCreated, db, sets;
    }
    var workout := found.0.value;
    var count;
    after, count := SaveSets(found.1, workout.id.value, exerciseId.value, sets, setFaults);
    assert workout in after.workouts;
    if count == |sets| {
      outcome, form := Saved(count), ClearSets();
    } else {
      outcome, form := PartlySaved(count, |sets|), sets;
    }
  }
}

=== FILE: seqs.dfy ===
/**
 * Sequence operations that stand in for the SQL clauses and list
 * comprehensions of the program: filtering (WHERE / `if` in a
 * comprehension), ordering by a two-part key (ORDER BY a, b), and
 * LIMIT/OFFSET pages.
 */
module Seqs {

  /** `a` can be obtained from `b` by deleting elements (order is kept). */
  predicate IsSubseq<T(==)>(a: seq<T>, b: seq<T>)
    decreases |b|
  {
    if a == [] then true
    else if b == [] then false
    else if a[0] == b[0] then IsSubseq(a[1..], b[1..])
    else IsSubseq(a, b[1..])
  }

  /** Every sequence is a subsequence of itself. */
  lemma {:induction false} SubseqOfItself<T>(s: seq<T>)
    ensures IsSubseq(s, s)
  {
    if s != [] {
      SubseqOfItself(s[1..]);
    }
  }

  /** A subsequence of the tail is a subsequence of the whole. */
  lemma {:induction false} SubseqOfTail<T>(a: seq<T>, b: seq<T>)
    requires b != [] && IsSubseq(a, b[1..])
    ensures IsSubseq(a, b)
    decreases |b|, 1
  {
    if a != [] && a[0] == b[0] {
      SubseqDropHead(a, b[1..]);
    }
  }

  /** Dropping the first element of a subsequence keeps it a subsequence. */
  lemma {:induction false} SubseqDropHead<T>(a: seq<T>, b: seq<T>)
    requires a != [] && IsSubseq(a, b)
    ensures IsSubseq(a[1..], b)
    decreases |b|, 2
  {
    if a[0] == b[0] {
      SubseqOfTail(a[1..], b);
    } else {
      SubseqDropHead(a, b[1..]);
      SubseqOfTail(a[1..], b);
    }
  }

  /** The elements of `s` satisfying `keep`, in their original order. */
  function Filter<T(==)>(s: seq<T>, keep: T -> bool): (r: seq<T>)
    ensures |r| <= |s|
    ensures forall i :: 0 <= i < |r| ==> keep(r[i]) && r[i] in s
    ensures forall i :: 0 <= i < |s| && keep(s[i]) ==> s[i] in r
  {
    if s == [] then []
    else if keep(s[0]) then [s[0]] + Filter(s[1..], keep)
    else Filter(s[1..], keep)
  }

  /** Filtering keeps the order: the result is a subsequence. */
  lemma {:induction false} FilterIsSubseq<T>(s: seq<T>, keep: T -> bool)
    ensures IsSubseq(Filter(s, keep), s)
  {
    if s != [] {
      FilterIsSubseq(s[1..], keep);
      if !keep(s[0]) {
        SubseqOfTail(Filter(s, keep), s);
      }
    }
  }

  lemma {:induction false} FilterAppend<T>(a: seq<T>, b: seq<T>, keep: T -> bool)
    ensures Filter(a + b, keep) == Filter(a, keep) + Filter(b, keep)
  {
    if a == [] {
      assert a + b == b;
    } else {
      assert (a + b)[1..] == a[1..] + b;
      FilterAppend(a[1..], b, keep);
    }
  }

  /** Filtering keeps everything when every element passes. */
  lemma {:induction false} FilterKeepsAll<T>(s: seq<T>, keep: T -> bool)
    requires forall i :: 0 <= i < |s| ==> keep(s[i])
    ensures Filter(s, keep) == s
  {
    if s != [] {
      FilterKeepsAll(s[1..], keep);
    }
  }

  /** Filtering keeps nothing when no element passes. */
  lemma {:induction false} FilterKeepsNone<T>(s: seq<T>, keep: T -> bool)
    requires forall i :: 0 <= i < |s| ==> !keep(s[i])
    ensures Filter(s, keep) == []
  {
    if s != [] {
      FilterKeepsNone(s[1..], keep);
    }
  }

  /** Every kept element of `s`, mapped by `f`, is in an element-wise image
      of the filtered sequence. */
  lemma MappedFilterHas<A, B>(s: seq<A>, keep: A -> bool, f: A -> B, r: seq<B>, x: A)
    requires |r| == |Filter(s, keep)|
    requires forall i :: 0 <= i < |r| ==> r[i] == f(Filter(s, keep)[i])
    requires x in s && keep(x)
    ensures f(x) in r
  {
    var kept := Filter(s, keep);
    var k :| 0 <= k < |kept| && kept[k] == x;
    assert r[k] == f(x);
  }

  /** Filtering one more element of `s` appends it when it is kept. */
  lemma FilterSnoc<T>(s: seq<T>, i: nat, keep: T -> bool)
    requires i < |s|
    ensures Filter(s[..i + 1], keep) == Filter(s[..i], keep) + (if keep(s[i]) then [s[i]] else [])
  {
    assert s[..i + 1] == s[..i] + [s[i]];
    FilterAppend(s[..i], [s[i]], keep);
    assert [s[i]][1..] == [];
  }

  /** Removing the same element from two orderings of the same elements
      leaves two orderings of the same elements. */
  lemma RemoveMatching<T>(a: seq<T>, b: seq<T>, k: nat)
    requires multiset(a) == multiset(b) && a != [] && k < |b| && b[k] == a[0]
    ensures b == b[..k] + [a[0]] + b[k + 1..]
    ensures multiset(a[1..]) == multiset(b[..k] + b[k + 1..])
  {
    var x := a[0];
    var rest := b[..k] + b[k + 1..];
    assert b == b[..k] + [x] + b[k + 1..];
    assert a == [x] + a[1..];
    assert multiset(a) == multiset(a[1..]) + multiset{x};
    assert multiset(b) == multiset(rest) + multiset{x};
    forall y ensures multiset(a[1..])[y] == multiset(rest)[y] {
      assert multiset(a)[y] == multiset(a[1..])[y] + multiset{x}[y];
      assert multiset(b)[y] == multiset(rest)[y] + multiset{x}[y];
    }
  }

  /** `f` applied to every element, in order. */
  function Mapped<A, B>(s: seq<A>, f: A -> B): (r: seq<B>)
    ensures |r| == |s| && forall i :: 0 <= i < |s| ==> r[i] == f(s[i])
  {
    seq(|s|, i requires 0 <= i < |s| => f(s[i]))
  }

  /** Mapping two orderings of the same elements gives two orderings of the same images. */
  lemma {:induction false} MappedPermutation<A, B>(a: seq<A>, b: seq<A>, f: A -> B)
    requires multiset(a) == multiset(b)
    ensures multiset(Mapped(a, f)) == multiset(Mapped(b, f))
    decreases |a|
  {
    if a == [] {
      assert |multiset(b)| == 0;
    } else {
      assert a[0] in multiset(b);
      var k :| 0 <= k < |b| && b[k] == a[0];
      RemoveMatching(a, b, k);
      MappedPermutation(a[1..], b[..k] + b[k + 1..], f);
      MappedSplit(b[..k], a[0], b[k + 1..], f);
      MappedSplit([], a[0], a[1..], f);
      assert [] + [a[0]] + a[1..] == a;
    }
  }

  /** Mapping a sequence split around one element maps each part. */
  lemma MappedSplit<A, B>(left: seq<A>, x: A, right: seq<A>, f: A -> B)
    ensures Mapped(left + [x] + right, f) == Mapped(left, f) + [f(x)] + Mapped(right, f)
    ensures Mapped(left + right, f) == Mapped(left, f) + Mapped(right, f)
  {
  }

  /** A two-part ordering key compared lexicographically, ascending. */
  datatype Key = Key(major: int, minor: int)

  predicate KeyLe(a: Key, b: Key) {
    a.major < b.major || (a.major == b.major && a.minor <= b.minor)
  }

  predicate SortedBy<T>(s: seq<T>, key: T -> Key) {
    forall i, j :: 0 <= i < j < |s| ==> KeyLe(key(s[i]), key(s[j]))
  }

  /** Inserts `x` before the first element whose key is not below it. */
  function Insert<T>(x: T, s: seq<T>, key: T -> Key): (r: seq<T>)
    requires SortedBy(s, key)
    ensures SortedBy(r, key)
    ensures multiset(r) == multiset(s) + multiset{x}
  {
    if s == [] then [x]
    else if KeyLe(key(x), key(s[0])) then
      assert forall j :: 0 < j < |s| ==> KeyLe(key(x), key(s[j]));
      [x] + s
    else
      var rest := Insert(x, s[1..], key);
      assert s == [s[0]] + s[1..];
      InsertHeadSorted(s[0], rest, x, s[1..], key);
      [s[0]] + rest
  }

  /** Putting `h` in front of `rest` keeps it sorted when `h` is below every element of `rest`. */
  lemma InsertHeadSorted<T>(h: T, rest: seq<T>, x: T, tail: seq<T>, key: T -> Key)
    requires SortedBy(rest, key)
    requires multiset(rest) == multiset(tail) + multiset{x}
    requires !KeyLe(key(x), key(h))
    requires forall j :: 0 <= j < |tail| ==> KeyLe(key(h), key(tail[j]))
    ensures SortedBy([h] + rest, key)
  {
    forall j | 0 <= j < |rest| ensures KeyLe(key(h), key(rest[j])) {
      assert rest[j] in multiset(rest);
      if rest[j] != x {
        assert rest[j] in multiset(tail);
        var k :| 0 <= k < |tail| && tail[k] == rest[j];
      }
    }
    var r := [h] + rest;
    forall i, j | 0 <= i < j < |r| ensures KeyLe(key(r[i]), key(r[j])) {
      if i > 0 {
        assert r[i] == rest[i - 1] && r[j] == rest[j - 1];
      } else {
        assert r[j] == rest[j - 1];
      }
    }
  }

  /** ORDER BY `key`: a sorted permutation of `s`. */
  function SortBy<T>(s: seq<T>, key: T -> Key): (r: seq<T>)
    ensures SortedBy(r, key)
    ensures multiset(r) == multiset(s)
    ensures |r| == |s|
  {
    if s == [] then []
    else
      assert s == [s[0]] + s[1..];
      Insert(s[0], SortBy(s[1..], key), key)
  }

  /** LIMIT `limit` OFFSET `offset`. */
  function Page<T>(s: seq<T>, offset: nat, limit: nat): (r: seq<T>)
    ensures |r| <= limit
    ensures offset >= |s| ==> r == []
    ensures offset < |s| ==> |r| == if offset + limit <= |s| then limit else |s| - offset
    ensures forall i :: 0 <= i < |r| ==> r[i] == s[offset + i]
  {
    if offset >= |s| then [] else if offset + limit <= |s| then s[offset..offset + limit] else s[offset..]
  }

  /** Every row of a page of a permutation of `all` is a row of `all`. */
  lemma PageOfPermutation<T>(ordered: seq<T>, all: seq<T>, offset: nat, limit: nat)
    requires multiset(ordered) == multiset(all)
    ensures forall i :: 0 <= i < |Page(ordered, offset, limit)| ==> Page(ordered, offset, limit)[i] in all
  {
    var p := Page(ordered, offset, limit);
    forall i | 0 <= i < |p| ensures p[i] in all {
      assert p[i] == ordered[offset + i];
      assert p[i] in multiset(ordered);
    }
  }

  /** A page of a sorted sequence is sorted. */
  lemma PageOfSorted<T>(s: seq<T>, offset: nat, limit: nat, key: T -> Key)
    requires SortedBy(s, key)
    ensures SortedBy(Page(s, offset, limit), key)
  {
    var p := Page(s, offset, limit);
    forall i, j | 0 <= i < j < |p| ensures KeyLe(key(p[i]), key(p[j])) {
      assert p[i] == s[offset + i] && p[j] == s[offset + j];
    }
  }

  /** Where page `k` of size `size` starts. */
  function PageOffset(k: nat, size: nat): (r: nat)
    ensures r == k * size
  {
    k * size
  }

  /** The first `n` pages of size `size`, one after another. */
  function Pages<T>(s: seq<T>, size: nat, n: nat): seq<T> {
    if n == 0 then [] else Pages(s, size, n - 1) + Page(s, PageOffset(n - 1, size), size)
  }

  /** What `n` successive requests of `size` rows return, one after another,
      when `page(offset)` answers the request at `offset`. */
  function ReadPages<T>(page: nat -> seq<T>, size: nat, n: nat): seq<T> {
    if n == 0 then [] else ReadPages(page, size, n - 1) + page(PageOffset(n - 1, size))
  }

  /** A reader that answers every request with the page of `s` reads the pages of `s`. */
  lemma {:induction false} ReadPagesArePages<T>(page: nat -> seq<T>, s: seq<T>, size: nat, n: nat)
    requires forall offset: nat :: page(offset) == Page(s, offset, size)
    ensures ReadPages(page, size, n) == Pages(s, size, n)
  {
    if n > 0 {
      ReadPagesArePages(page, s, size, n - 1);
    }
  }

  /** The first `e` rows, or all of them when there are fewer. */
  function Upto<T>(s: seq<T>, e: nat): (r: seq<T>)
    ensures |r| <= |s|
  {
    s[..if e <= |s| then e else |s|]
  }

  /** Reading pages 0 .. n-1 yields exactly the first n·size rows. */
  lemma {:induction false} PagesArePrefix<T>(s: seq<T>, size: nat, n: nat)
    ensures Pages(s, size, n) == Upto(s, n * size)
  {
    if n > 0 {
      var m := n - 1;
      PagesArePrefix(s, size, m);
      MulSucc(m, size);
      PageExtendsPrefix(s, m * size, size);
    }
  }

  /** Enough pages to hold every row read every row, once each, in order. */
  lemma PagesCoverAll<T>(s: seq<T>, size: nat, n: nat)
    requires n * size >= |s|
    ensures Pages(s, size, n) == s
  {
    PagesArePrefix(s, size, n);
    assert s[..|s|] == s;
  }

  lemma MulSucc(m: nat, size: nat)
    ensures (m + 1) * size == m * size + size
  {
  }

  /** The rows before `offset` followed by the page at `offset` are the rows
      before `offset + size`. */
  lemma PageExtendsPrefix<T>(s: seq<T>, offset: nat, size: nat)
    ensures Upto(s, offset) + Page(s, offset, size) == Upto(s, offset + size)
  {
    var a := if offset <= |s| then offset else |s|;
    var b := if offset + size <= |s| then offset + size else |s|;
    assert Page(s, offset, size) == s[a..b];
    assert s[..a] + s[a..b] == s[..b];
  }
}

=== FILE: stats_tab.dfy ===
/**
 * The statistics tab: the per-exercise query behind the three progress
 * charts, the per-day series each chart plots, the summary table (for one
 * exercise or for all training), and the per-category frequency and set-count
 * charts. Plot styling is not modelled; what is modelled is which points and
 * numbers are computed.
 */
module StatsTab {
  import opened Wrappers
  import opened Numeric
  import opened Seqs
  import opened Grouping
  import opened Models
  import opened Store

  /** A row of the per-exercise query: `w.date, s.weight, s.reps, s.one_rm, s.set_number`. */
  datatype ExerciseRow = ExerciseRow(date: Day, weight: real, reps: int, oneRm: Option<real>, setNumber: int)

  /** The first day of the selected period, `today - period_days`; no lower
      bound when the period is zero or negative ("all time"). */
  function WindowStart(today: Day, periodDays: int): (r: Option<Day>)
    ensures r.Some? <==> periodDays > 0
    ensures r.Some? ==> r.value < today && today - r.value == periodDays
  {
    if periodDays > 0 then Some(today - periodDays) else None
  }

  /** `w.date >= ?`, or no condition at all. */
  predicate InWindow(date: Day, start: Option<Day>) {
    start.None? || date >= start.value
  }

  function ToRow(d: DatedSet): ExerciseRow {
    ExerciseRow(d.date, d.row.weight, d.row.reps, d.row.oneRm, d.row.setNumber)
  }

  /** `ORDER BY w.date, s.set_number`. */
  function ChartKey(r: ExerciseRow): Key {
    Key(r.date, r.setNumber)
  }

  function MapRows(ds: seq<DatedSet>): (r: seq<ExerciseRow>)
    ensures |r| == |ds|
    ensures forall i :: 0 <= i < |r| ==> r[i] == ToRow(ds[i])
  {
    seq(|ds|, i requires 0 <= i < |ds| => ToRow(ds[i]))
  }

  /** `row` comes from a set of the exercise whose workout is stored. */
  predicate FromExercise(db: Db, exerciseId: int, row: ExerciseRow) {
    exists d :: d in SetsWithDates(db.sets, db.workouts, exerciseId) && row == ToRow(d)
  }

  /** The window condition on a set with its date. */
  function DatedInWindow(start: Option<Day>): DatedSet -> bool {
    (d: DatedSet) => InWindow(d.date, start)
  }

  /** The sets of one exercise joined with their workout and inside the
      period, each once, in table order. */
  function InPeriod(db: Db, exerciseId: int, start: Option<Day>): (r: seq<ExerciseRow>)
    ensures r == MapRows(Filter(SetsWithDates(db.sets, db.workouts, exerciseId), DatedInWindow(start)))
    ensures forall i :: 0 <= i < |r| ==> InWindow(r[i].date, start)
    ensures forall i :: 0 <= i < |r| ==> FromExercise(db, exerciseId, r[i])
    ensures forall d :: d in SetsWithDates(db.sets, db.workouts, exerciseId) && InWindow(d.date, start) ==>
      ToRow(d) in r
  {
    var all := SetsWithDates(db.sets, db.workouts, exerciseId);
    var kept := Filter(all, DatedInWindow(start));
    var rows := MapRows(kept);
    forall d | d in all && InWindow(d.date, start) ensures ToRow(d) in rows {
      MappedFilterHas(all, DatedInWindow(start), ToRow, rows, d);
    }
    rows
  }

  /** `get_exercise_data`: the sets of one exercise joined with their workout,
      restricted to the period, oldest first and by set number within a day. */
  function ExerciseData(db: Db, exerciseId: int, periodDays: int, today: Day): (r: seq<ExerciseRow>)
    ensures SortedBy(r, ChartKey)
    ensures multiset(r) == multiset(InPeriod(db, exerciseId, WindowStart(today, periodDays)))
    ensures forall i :: 0 <= i < |r| ==> InWindow(r[i].date, WindowStart(today, periodDays))
    ensures forall i :: 0 <= i < |r| ==> FromExercise(db, exerciseId, r[i])
    ensures forall d :: d in SetsWithDates(db.sets, db.workouts, exerciseId) && InWindow(d.date, WindowStart(today, periodDays)) ==>
      ToRow(d) in r
  {
    var start := WindowStart(today, periodDays);
    var rows := InPeriod(db, exerciseId, start);
    var r := ChartOrder(rows);
    ReorderedRowsKeepFacts(db, exerciseId, start, rows, r);
    r
  }

  /** Reordering the rows of a period keeps what is known of them. */
  lemma ReorderedRowsKeepFacts(db: Db, exerciseId: int, start: Option<Day>, rows: seq<ExerciseRow>, r: seq<ExerciseRow>)
    requires forall x :: x in r <==> x in rows
    requires forall i :: 0 <= i < |rows| ==> InWindow(rows[i].date, start) && FromExercise(db, exerciseId, rows[i])
    requires forall d :: d in SetsWithDates(db.sets, db.workouts, exerciseId) && InWindow(d.date, start) ==> ToRow(d) in rows
    ensures forall i :: 0 <= i < |r| ==> InWindow(r[i].date, start) && FromExercise(db, exerciseId, r[i])
    ensures forall d :: d in SetsWithDates(db.sets, db.workouts, exerciseId) && InWindow(d.date, start) ==> ToRow(d) in r
  {
    forall i | 0 <= i < |r| ensures InWindow(r[i].date, start) && FromExercise(db, exerciseId, r[i]) {
      assert r[i] in rows;
    }
  }

  /** `ORDER BY w.date, s.set_number` applied to a result set. */
  function ChartOrder(rows: seq<ExerciseRow>): (r: seq<ExerciseRow>)
    ensures SortedBy(r, ChartKey)
    ensures multiset(r) == multiset(rows)
    ensures forall x :: x in r <==> x in rows
  {
    var r := SortBy(rows, ChartKey);
    SameMembers(r, rows);
    r
  }

  lemma SameMembers<T>(a: seq<T>, b: seq<T>)
    requires multiset(a) == multiset(b)
    ensures forall x :: x in a <==> x in b
  {
    forall x ensures x in a <==> x in b {
      assert x in a <==> x in multiset(a);
      assert x in b <==> x in multiset(b);
    }
  }

  // ---------------------------------------------------------------- per-day series

  function Date(r: ExerciseRow): Day { r.date }

  function Weight(r: ExerciseRow): real { r.weight }

  /** `float(row[1]) * int(row[2])`. */
  function Volume(r: ExerciseRow): real { r.weight * r.reps as real }

  /** `float(row[3]) if row[3] else 0`: a missing or zero estimate plots as 0. */
  function OneRmValue(r: ExerciseRow): real {
    if Truthy(r.oneRm) then r.oneRm.value else 0.0
  }

  predicate HasDate(rows: seq<ExerciseRow>, d: Day) {
    exists k :: 0 <= k < |rows| && rows[k].date == d
  }

  /** `v` is the value the chart shows for day `d`: the largest `f` among that day's rows. */
  predicate IsDailyMax(rows: seq<ExerciseRow>, f: ExerciseRow -> real, d: Day, v: real) {
    (exists k :: 0 <= k < |rows| && rows[k].date == d && f(rows[k]) == v)
    && (forall k :: 0 <= k < |rows| && rows[k].date == d ==> f(rows[k]) <= v)
  }

  /** The `daily_max_*` dictionaries: scanning the rows in order, the first row
      of a day creates its entry and each later row keeps the larger value. */
  function DailyMax(rows: seq<ExerciseRow>, f: ExerciseRow -> real): (m: map<Day, real>)
    ensures forall d :: d in m <==> HasDate(rows, d)
    ensures forall d :: d in m ==> IsDailyMax(rows, f, d, m[d])
  {
    if rows == [] then map[]
    else
      var front := rows[..|rows| - 1];
      var last := rows[|rows| - 1];
      var m := DailyMax(front, f);
      assert forall k :: 0 <= k < |front| ==> rows[k] == front[k];
      assert forall d :: HasDate(rows, d) <==> HasDate(front, d) || d == last.date;
      var m' := if last.date !in m then m[last.date := f(last)]
        else m[last.date := if f(last) > m[last.date] then f(last) else m[last.date]];
      forall d | d in m' ensures IsDailyMax(rows, f, d, m'[d]) {
        if d == last.date {
          assert rows[|rows| - 1].date == d;
          if d in m {
            var k :| 0 <= k < |front| && front[k].date == d && f(front[k]) == m[d];
            assert rows[k] == front[k];
          }
        } else {
          var k :| 0 <= k < |front| && front[k].date == d && f(front[k]) == m[d];
          assert rows[k] == front[k];
        }
      }
      m'
  }

  /** The `daily_volume` dictionary: each day's entry accumulates the volumes of its rows. */
  function DailySum(rows: seq<ExerciseRow>, f: ExerciseRow -> real): (m: map<Day, real>)
    ensures forall d :: d in m <==> HasDate(rows, d)
    ensures forall d :: d in m ==> m[d] == SumWhere(rows, Date, d, f)
  {
    if rows == [] then map[]
    else
      var front := rows[..|rows| - 1];
      var last := rows[|rows| - 1];
      var m := DailySum(front, f);
      assert rows == front + [last];
      assert forall k :: 0 <= k < |front| ==> rows[k] == front[k];
      assert forall d :: HasDate(rows, d) <==> HasDate(front, d) || d == last.date;
      forall d | d in m || d == last.date
        ensures SumWhere(rows, Date, d, f) == (if d in m then m[d] else 0.0) + (if d == last.date then f(last) else 0.0)
      {
        SumWhereSnoc(front, last, Date, d, f);
        if d !in m {
          SumWhereAbsent(front, Date, d, f);
        }
      }
      if last.date !in m then m[last.date := f(last)]
      else m[last.date := m[last.date] + f(last)]
  }

  function Dates(rows: seq<ExerciseRow>): (r: seq<Day>)
    ensures |r| == |rows|
    ensures forall i :: 0 <= i < |r| ==> r[i] == rows[i].date
  {
    seq(|rows|, i requires 0 <= i < |rows| => rows[i].date)
  }

  /** `sorted(daily.keys())`: each day with data once, ascending. */
  function PlotDates(rows: seq<ExerciseRow>): (r: seq<Day>)
    ensures StrictlyIncreasing(r)
    ensures forall d :: d in r <==> HasDate(rows, d)
    ensures |r| <= |rows|
  {
    var ds := Dates(rows);
    assert forall d :: d in ds <==> HasDate(rows, d) by {
      forall d ensures d in ds <==> HasDate(rows, d) {
        if HasDate(rows, d) {
          var k :| 0 <= k < |rows| && rows[k].date == d;
          assert ds[k] == d;
        }
      }
    }
    SortedDistinct(ds)
  }

  /** One plotted point: a day and its value. */
  datatype Point = Point(date: Day, value: real)

  function PointValue(p: Point): real { p.value }

  function PointDates(ps: seq<Point>): seq<Day> {
    seq(|ps|, i requires 0 <= i < |ps| => ps[i].date)
  }

  /** `[daily[d] for d in dates]` paired with the dates. */
  function PointsFor(ds: seq<Day>, m: map<Day, real>): (r: seq<Point>)
    requires forall i :: 0 <= i < |ds| ==> ds[i] in m
    ensures |r| == |ds|
    ensures forall i :: 0 <= i < |r| ==> r[i] == Point(ds[i], m[ds[i]])
  {
    if ds == [] then [] else [Point(ds[0], m[ds[0]])] + PointsFor(ds[1..], m)
  }

  /** The series of a "largest value per day" chart: one point per day with
      data, in date order, each carrying that day's largest value. */
  function MaxSeries(rows: seq<ExerciseRow>, f: ExerciseRow -> real): (r: seq<Point>)
    ensures StrictlyIncreasing(PointDates(r))
    ensures forall d :: d in PointDates(r) <==> HasDate(rows, d)
    ensures forall i :: 0 <= i < |r| ==> IsDailyMax(rows, f, r[i].date, r[i].value)
  {
    var m := DailyMax(rows, f);
    var ds := PlotDates(rows);
    var r := PointsFor(ds, m);
    assert PointDates(r) == ds;
    r
  }

  /** With no rows there is nothing to plot ("no data"); otherwise at least one point. */
  lemma EmptyChartIffNoData(rows: seq<ExerciseRow>, f: ExerciseRow -> real)
    ensures MaxSeries(rows, f) == [] <==> rows == []
  {
    if rows != [] {
      assert HasDate(rows, rows[0].date);
      assert rows[0].date in PointDates(MaxSeries(rows, f));
    }
  }

  /** `plot_one_rm_progress`: per day, the largest recorded estimate, counting a missing one as 0. */
  function OneRmSeries(rows: seq<ExerciseRow>): (r: seq<Point>)
    ensures StrictlyIncreasing(PointDates(r))
    ensures forall d :: d in PointDates(r) <==> HasDate(rows, d)
    ensures forall i :: 0 <= i < |r| ==> IsDailyMax(rows, OneRmValue, r[i].date, r[i].value)
  {
    MaxSeries(rows, OneRmValue)
  }

  /** `plot_weight_progress`: per day, the heaviest set. */
  function WeightSeries(rows: seq<ExerciseRow>): (r: seq<Point>)
    ensures StrictlyIncreasing(PointDates(r))
    ensures forall d :: d in PointDates(r) <==> HasDate(rows, d)
    ensures forall i :: 0 <= i < |r| ==> IsDailyMax(rows, Weight, r[i].date, r[i].value)
  {
    MaxSeries(rows, Weight)
  }

  /** `plot_volume_progress`: per day, the total weight times reps of its sets. */
  function VolumeSeries(rows: seq<ExerciseRow>): (r: seq<Point>)
    ensures StrictlyIncreasing(PointDates(r))
    ensures forall d :: d in PointDates(r) <==> HasDate(rows, d)
    ensures forall i :: 0 <= i < |r| ==> r[i].value == SumWhere(rows, Date, r[i].date, Volume)
  {
    var m := DailySum(rows, Volume);
    var ds := PlotDates(rows);
    var r := PointsFor(ds, m);
    assert PointDates(r) == ds;
    r
  }

  lemma {:induction false} PointsSum(ds: seq<Day>, rows: seq<ExerciseRow>, ps: seq<Point>)
    requires |ps| == |ds|
    requires forall i :: 0 <= i < |ps| ==> ps[i] == Point(ds[i], SumWhere(rows, Date, ds[i], Volume))
    ensures SumAll(ps, PointValue) == SumOverKeys(ds, rows, Date, Volume)
  {
    if ds != [] {
      PointsSum(ds[1..], rows, ps[1..]);
    }
  }

  /** The bars of the volume chart add up to the total volume of the rows:
      grouping by day neither loses nor double-counts a set. */
  lemma VolumeSeriesAddsUp(rows: seq<ExerciseRow>)
    ensures SumAll(VolumeSeries(rows), PointValue) == SumAll(rows, Volume)
  {
    var r := VolumeSeries(rows);
    var ds := PointDates(r);
    PointsSum(ds, rows, r);
    forall k | 0 <= k < |rows| ensures Date(rows[k]) in ds {
      assert HasDate(rows, rows[k].date);
    }
    Partition(ds, rows, Date, Volume);
  }

  // ---------------------------------------------------------------- statistics table

  /** The statistics table for one exercise. */
  datatype ExerciseSummary = ExerciseSummary(
    totalSets: nat, maxWeight: real, averageWeight: real, maxOneRm: Option<real>,
    totalVolume: real, averageVolume: real)

  function Weights(rows: seq<ExerciseRow>): (r: seq<real>)
    ensures |r| == |rows|
    ensures forall i :: 0 <= i < |r| ==> r[i] == rows[i].weight
  {
    seq(|rows|, i requires 0 <= i < |rows| => rows[i].weight)
  }

  predicate HasRecordedOneRm(rows: seq<ExerciseRow>, x: real) {
    exists k :: 0 <= k < |rows| && Truthy(rows[k].oneRm) && rows[k].oneRm.value == x
  }

  /** `[float(row[3]) for row in data if row[3]]`: the estimates that are present and non-zero. */
  function RecordedOneRms(rows: seq<ExerciseRow>): (r: seq<real>)
    ensures forall x :: x in r <==> HasRecordedOneRm(rows, x)
  {
    if rows == [] then []
    else
      var rest := RecordedOneRms(rows[1..]);
      assert forall x :: HasRecordedOneRm(rows, x) <==>
        (Truthy(rows[0].oneRm) && rows[0].oneRm.value == x) || HasRecordedOneRm(rows[1..], x) by {
        forall x ensures HasRecordedOneRm(rows, x) ==>
          (Truthy(rows[0].oneRm) && rows[0].oneRm.value == x) || HasRecordedOneRm(rows[1..], x) {
          if HasRecordedOneRm(rows, x) {
            var k :| 0 <= k < |rows| && Truthy(rows[k].oneRm) && rows[k].oneRm.value == x;
            if k > 0 {
              assert rows[1..][k - 1] == rows[k];
            }
          }
        }
        forall x | HasRecordedOneRm(rows[1..], x) ensures HasRecordedOneRm(rows, x) {
          var k :| 0 <= k < |rows[1..]| && Truthy(rows[1..][k].oneRm) && rows[1..][k].oneRm.value == x;
          assert rows[k + 1] == rows[1..][k];
        }
        assert Truthy(rows[0].oneRm) ==> HasRecordedOneRm(rows, rows[0].oneRm.value);
      }
      (if Truthy(rows[0].oneRm) then [rows[0].oneRm.value] else []) + rest
  }

  /** `max(weights)`. */
  function MaxWeight(rows: seq<ExerciseRow>): (r: real)
    requires rows != []
    ensures exists k :: 0 <= k < |rows| && rows[k].weight == r
    ensures forall k :: 0 <= k < |rows| ==> rows[k].weight <= r
  {
    var ws := Weights(rows);
    var r := MaxOf(ws);
    var k :| 0 <= k < |ws| && ws[k] == r;
    assert rows[k].weight == r;
    r
  }

  /** `max(one_rms) if one_rms else "N/A"`. */
  function MaxRecordedOneRm(rows: seq<ExerciseRow>): (r: Option<real>)
    ensures r.None? <==> forall k :: 0 <= k < |rows| ==> !Truthy(rows[k].oneRm)
    ensures r.Some? ==> HasRecordedOneRm(rows, r.value)
    ensures r.Some? ==> forall k :: 0 <= k < |rows| && Truthy(rows[k].oneRm) ==> rows[k].oneRm.value <= r.value
  {
    var ones := RecordedOneRms(rows);
    assert forall k :: 0 <= k < |rows| && Truthy(rows[k].oneRm) ==> rows[k].oneRm.value in ones by {
      forall k | 0 <= k < |rows| && Truthy(rows[k].oneRm) ensures rows[k].oneRm.value in ones {
        assert HasRecordedOneRm(rows, rows[k].oneRm.value);
      }
    }
    if ones == [] then None
    else
      assert HasRecordedOneRm(rows, ones[0]);
      Some(MaxOf(ones))
  }

  /** `total / n`. */
  function MeanOf(total: real, n: nat): (r: real)
    requires n > 0
    ensures IsMean(r, n, total)
  {
    DivideExact(total, n as real);
    total / n as real
  }

  /** The per-exercise branch of `update_stats_table`: nothing when there is no
      data; otherwise the number of sets, the heaviest set, the mean weight, the
      largest recorded estimate ("N/A" when none is recorded), the total volume
      and the mean volume per set. */
  function ExerciseSummaryOf(rows: seq<ExerciseRow>): (r: Option<ExerciseSummary>)
    ensures r.None? <==> rows == []
    ensures r.Some? ==> r.value.totalSets == |rows|
    ensures r.Some? ==> (exists k :: 0 <= k < |rows| && rows[k].weight == r.value.maxWeight)
    ensures r.Some? ==> (forall k :: 0 <= k < |rows| ==> rows[k].weight <= r.value.maxWeight)
    ensures r.Some? ==> IsMean(r.value.averageWeight, |rows|, SumAll(rows, Weight))
    ensures r.Some? ==> (r.value.maxOneRm.None? <==> forall k :: 0 <= k < |rows| ==> !Truthy(rows[k].oneRm))
    ensures r.Some? && r.value.maxOneRm.Some? ==> HasRecordedOneRm(rows, r.value.maxOneRm.value)
    ensures r.Some? && r.value.maxOneRm.Some? ==>
      (forall k :: 0 <= k < |rows| && Truthy(rows[k].oneRm) ==> rows[k].oneRm.value <= r.value.maxOneRm.value)
    ensures r.Some? ==> r.value.totalVolume == SumAll(rows, Volume)
    ensures r.Some? ==> IsMean(r.value.averageVolume, |rows|, r.value.totalVolume)
  {
    if rows == [] then None
    else
      var n := |rows|;
      var volume := SumAll(rows, Volume);
      var averageWeight := MeanOf(SumAll(rows, Weight), n);
      var averageVolume := MeanOf(volume, n);
      Some(ExerciseSummary(n, MaxWeight(rows), averageWeight, MaxRecordedOneRm(rows), volume, averageVolume))
  }

  /** The heaviest set in the table is the highest point of the weight chart. */
  lemma SummaryPeakIsChartPeak(rows: seq<ExerciseRow>)
    requires rows != []
    ensures exists i :: 0 <= i < |WeightSeries(rows)| && WeightSeries(rows)[i].value == ExerciseSummaryOf(rows).value.maxWeight
    ensures forall i :: 0 <= i < |WeightSeries(rows)| ==> WeightSeries(rows)[i].value <= ExerciseSummaryOf(rows).value.maxWeight
  {
    ChartPeak(rows, ExerciseSummaryOf(rows).value.maxWeight);
  }

  /** The heaviest set's weight is the highest point of the weight chart. */
  lemma ChartPeak(rows: seq<ExerciseRow>, top: real)
    requires exists k :: 0 <= k < |rows| && rows[k].weight == top
    requires forall k :: 0 <= k < |rows| ==> rows[k].weight <= top
    ensures exists i :: 0 <= i < |WeightSeries(rows)| && WeightSeries(rows)[i].value == top
    ensures forall i :: 0 <= i < |WeightSeries(rows)| ==> WeightSeries(rows)[i].value <= top
  {
    var series := WeightSeries(rows);
    var k :| 0 <= k < |rows| && rows[k].weight == top;
    assert HasDate(rows, rows[k].date);
    var i :| 0 <= i < |series| && PointDates(series)[i] == rows[k].date;
    assert IsDailyMax(rows, Weight, series[i].date, series[i].value);
    forall j | 0 <= j < |series| ensures series[j].value <= top {
      assert IsDailyMax(rows, Weight, series[j].date, series[j].value);
    }
  }

  /** The total volume in the table equals the sum of the volume chart's bars. */
  lemma SummaryVolumeIsChartTotal(rows: seq<ExerciseRow>)
    requires rows != []
    ensures ExerciseSummaryOf(rows).value.totalVolume == SumAll(VolumeSeries(rows), PointValue)
  {
    VolumeSeriesAddsUp(rows);
  }

  /** `FROM sets s JOIN workouts w ON s.workout_id = w.id`: every set whose workout is stored, with its date. */
  function JoinedWithWorkout(sets: seq<SetRecord>, workouts: seq<Workout>): (r: seq<DatedSet>)
    ensures |r| <= |sets|
    ensures forall i :: 0 <= i < |r| ==>
      r[i].row in sets && FindWorkout(workouts, r[i].row.workoutId).Some? && FindWorkout(workouts, r[i].row.workoutId).value.date == r[i].date
  {
    if sets == [] then []
    else
      var rest := JoinedWithWorkout(sets[1..], workouts);
      var w := FindWorkout(workouts, sets[0].workoutId);
      if w.Some? then [DatedSet(sets[0], w.value.date)] + rest else rest
  }

  /** Every set whose workout is stored takes part in the join. */
  lemma {:induction false} JoinedWithWorkoutComplete(sets: seq<SetRecord>, workouts: seq<Workout>, i: int)
    requires 0 <= i < |sets| && FindWorkout(workouts, sets[i].workoutId).Some?
    ensures DatedSet(sets[i], FindWorkout(workouts, sets[i].workoutId).value.date) in JoinedWithWorkout(sets, workouts)
  {
    if i > 0 {
      JoinedWithWorkoutComplete(sets[1..], workouts, i - 1);
      assert sets[1..][i - 1] == sets[i];
    }
  }

  /** The rows the whole-training statistics are computed from. */
  function PeriodRows(db: Db, start: Option<Day>): (r: seq<ExerciseRow>)
    ensures r == MapRows(Filter(JoinedWithWorkout(db.sets, db.workouts), DatedInWindow(start)))
    ensures forall i :: 0 <= i < |r| ==> InWindow(r[i].date, start)
    ensures forall d :: d in JoinedWithWorkout(db.sets, db.workouts) && InWindow(d.date, start) ==> ToRow(d) in r
    ensures r == [] <==> forall d :: d in JoinedWithWorkout(db.sets, db.workouts) ==> !InWindow(d.date, start)
  {
    var all := JoinedWithWorkout(db.sets, db.workouts);
    var kept := Filter(all, DatedInWindow(start));
    var rows := MapRows(kept);
    forall d | d in all && InWindow(d.date, start) ensures ToRow(d) in rows {
      MappedFilterHas(all, DatedInWindow(start), ToRow, rows, d);
    }
    assert rows != [] ==> kept[0] in all;
    rows
  }

  /** The statistics table for all training. */
  datatype OverallSummary = OverallSummary(
    workoutDays: nat, totalSets: nat, averageWeight: Option<real>, totalVolume: Option<real>, setsPerDay: real)

  /** The whole-training branch of `update_stats_table` over the joined rows of
      the period: nothing when there are none (`COUNT(DISTINCT w.date)` is 0);
      otherwise the number of training days and of sets, the mean weight and
      the total volume (each shown as "N/A" when it is 0) and the mean number
      of sets per day. */
  function OverallFromRows(rows: seq<ExerciseRow>): (r: Option<OverallSummary>)
    ensures r.None? <==> rows == []
    ensures r.Some? ==> r.value.totalSets == |rows|
    ensures r.Some? ==> r.value.workoutDays == |PlotDates(rows)|
    ensures r.Some? ==> 1 <= r.value.workoutDays <= r.value.totalSets
    ensures r.Some? ==> IsMean(r.value.setsPerDay, r.value.workoutDays, r.value.totalSets as real)
    ensures r.Some? ==> (r.value.averageWeight.None? <==> SumAll(rows, Weight) == 0.0)
    ensures r.Some? && r.value.averageWeight.Some? ==>
      IsMean(r.value.averageWeight.value, r.value.totalSets, SumAll(rows, Weight))
    ensures r.Some? ==> (r.value.totalVolume.None? <==> SumAll(rows, Volume) == 0.0)
    ensures r.Some? && r.value.totalVolume.Some? ==> r.value.totalVolume.value == SumAll(rows, Volume)
  {
    var days := PlotDates(rows);
    assert rows != [] ==> rows[0].date in days by {
      assert rows != [] ==> HasDate(rows, rows[0].date);
    }
    if |days| == 0 then None
    else
      var average := MeanOf(SumAll(rows, Weight), |rows|);
      var volume := SumAll(rows, Volume);
      Some(OverallSummary(
        |days|, |rows|,
        if average != 0.0 then Some(average) else None,
        if volume != 0.0 then Some(volume) else None,
        MeanOf(|rows| as real, |days|)))
  }

  /** The whole-training statistics for the selected period. */
  function OverallSummaryOf(db: Db, periodDays: int, today: Day): (r: Option<OverallSummary>)
    ensures r.None? <==> PeriodRows(db, WindowStart(today, periodDays)) == []
  {
    OverallFromRows(PeriodRows(db, WindowStart(today, periodDays)))
  }

  /** Set `i` belongs to a stored workout dated inside the period. */
  predicate SetInPeriod(db: Db, i: int, start: Option<Day>)
    requires 0 <= i < |db.sets|
  {
    FindWorkout(db.workouts, db.sets[i].workoutId).Some?
    && InWindow(FindWorkout(db.workouts, db.sets[i].workoutId).value.date, start)
  }

  /** The whole-training table is empty exactly when no stored set belongs to a
      stored workout dated inside the period. */
  lemma OverallEmptyIff(db: Db, periodDays: int, today: Day)
    ensures OverallSummaryOf(db, periodDays, today).None? <==>
      forall i :: 0 <= i < |db.sets| ==> !SetInPeriod(db, i, WindowStart(today, periodDays))
  {
    var start := WindowStart(today, periodDays);
    if exists i :: 0 <= i < |db.sets| && SetInPeriod(db, i, start) {
      var i :| 0 <= i < |db.sets| && SetInPeriod(db, i, start);
      SetInPeriodHasRow(db, i, start);
    }
    if PeriodRows(db, start) != [] {
      RowHasSetInPeriod(db, start);
    }
  }

  lemma SetInPeriodHasRow(db: Db, i: int, start: Option<Day>)
    requires 0 <= i < |db.sets| && SetInPeriod(db, i, start)
    ensures PeriodRows(db, start) != []
  {
    JoinedWithWorkoutComplete(db.sets, db.workouts, i);
  }

  lemma RowHasSetInPeriod(db: Db, start: Option<Day>)
    requires PeriodRows(db, start) != []
    ensures exists i :: 0 <= i < |db.sets| && SetInPeriod(db, i, start)
  {
    var all := JoinedWithWorkout(db.sets, db.workouts);
    var d :| d in all && InWindow(d.date, start);
    var k :| 0 <= k < |all| && all[k] == d;
    var i :| 0 <= i < |db.sets| && db.sets[i] == d.row;
    assert SetInPeriod(db, i, start);
  }

  /** The chart choices of the statistics tab. */
  datatype GraphType = OneRmProgress | WeightProgress | VolumeProgress | FrequencyAnalysis | CategoryAnalysis {
    predicate IsProgress() {
      OneRmProgress? || WeightProgress? || VolumeProgress?
    }
  }

  datatype StatsTable = ForExercise(summary: Option<ExerciseSummary>) | ForAll(overall: Option<OverallSummary>)

  /** `update_stats_table`: the per-exercise table for a progress chart with an
      exercise selected (a zero id counts as none), the whole-training table otherwise. */
  function UpdateStatsTable(db: Db, graph: GraphType, exerciseId: Option<int>, periodDays: int, today: Day): (r: StatsTable)
    ensures r.ForExercise? <==> graph.IsProgress() && exerciseId.Some? && exerciseId.value != 0
    ensures r.ForExercise? ==> (r.summary.None? <==> ExerciseData(db, exerciseId.value, periodDays, today) == [])
    ensures r.ForExercise? && r.summary.Some? ==>
      r.summary.value.totalSets == |ExerciseData(db, exerciseId.value, periodDays, today)|
    ensures r.ForAll? ==> (r.overall.None? <==> PeriodRows(db, WindowStart(today, periodDays)) == [])
  {
    if graph.IsProgress() && exerciseId.Some? && exerciseId.value != 0 then
      ForExercise(ExerciseSummaryOf(ExerciseData(db, exerciseId.value, periodDays, today)))
    else
      ForAll(OverallSummaryOf(db, periodDays, today))
  }

  // ---------------------------------------------------------------- per-category charts

  /** A row of the three-table join projected to the exercise's category and the workout's date. */
  datatype CategoryDay = CategoryDay(category: string, date: Day)

  function Category(c: CategoryDay): string { c.category }

  function ToCategoryDay(j: Joined): CategoryDay {
    CategoryDay(j.exercise.category, j.workout.date)
  }

  /** The window condition on a joined row. */
  function JoinedInWindow(start: Option<Day>): Joined -> bool {
    (j: Joined) => InWindow(j.workout.date, start)
  }

  function CategoryDays(js: seq<Joined>): (r: seq<CategoryDay>)
    ensures |r| == |js|
    ensures forall i :: 0 <= i < |r| ==> r[i] == ToCategoryDay(js[i])
  {
    seq(|js|, i requires 0 <= i < |js| => ToCategoryDay(js[i]))
  }

  /** `FROM sets s JOIN workouts w ... JOIN exercises e ... [WHERE w.date >= ?]`:
      one row per joined set inside the window, in table order. */
  function CategoryRows(db: Db, periodDays: int, today: Day): (r: seq<CategoryDay>)
    ensures r == CategoryDays(Filter(Joins(db), JoinedInWindow(WindowStart(today, periodDays))))
    ensures forall i :: 0 <= i < |r| ==> InWindow(r[i].date, WindowStart(today, periodDays))
    ensures forall j :: j in Joins(db) && InWindow(j.workout.date, WindowStart(today, periodDays)) ==> ToCategoryDay(j) in r
  {
    var start := WindowStart(today, periodDays);
    var js := Filter(Joins(db), JoinedInWindow(start));
    var r := CategoryDays(js);
    forall i | 0 <= i < |r| ensures InWindow(r[i].date, start) {
      assert JoinedInWindow(start)(js[i]);
    }
    forall j | j in Joins(db) && InWindow(j.workout.date, start) ensures ToCategoryDay(j) in r {
      MappedFilterHas(Joins(db), JoinedInWindow(start), ToCategoryDay, r, j);
    }
    r
  }

  /** Every category row comes from a joined set. */
  lemma CategoryRowsSound(db: Db, periodDays: int, today: Day)
    ensures forall i :: 0 <= i < |CategoryRows(db, periodDays, today)| ==>
      exists j :: j in Joins(db) && CategoryRows(db, periodDays, today)[i] == ToCategoryDay(j)
  {
    var js := Filter(Joins(db), JoinedInWindow(WindowStart(today, periodDays)));
    var r := CategoryRows(db, periodDays, today);
    forall i | 0 <= i < |r| ensures exists j :: j in Joins(db) && r[i] == ToCategoryDay(j) {
      assert js[i] in Joins(db) && r[i] == ToCategoryDay(js[i]);
    }
  }

  predicate HasCategory(rows: seq<CategoryDay>, c: string) {
    exists k :: 0 <= k < |rows| && rows[k].category == c
  }

  /** `GROUP BY e.category`: each category with rows, once. */
  function CategoriesOf(rows: seq<CategoryDay>): (r: seq<string>)
    ensures NoDuplicates(r)
    ensures forall c :: c in r <==> HasCategory(rows, c)
  {
    var cs := seq(|rows|, i requires 0 <= i < |rows| => rows[i].category);
    var r := Distinct(cs);
    assert forall c :: c in r <==> c in cs by {
      forall c ensures c in r <==> c in cs {
        if c in r {
          var i :| 0 <= i < |r| && r[i] == c;
        }
        if c in cs {
          var i :| 0 <= i < |cs| && cs[i] == c;
        }
      }
    }
    assert forall c :: c in cs <==> HasCategory(rows, c) by {
      forall c ensures c in cs <==> HasCategory(rows, c) {
        if HasCategory(rows, c) {
          var k :| 0 <= k < |rows| && rows[k].category == c;
          assert cs[k] == c;
        }
      }
    }
    r
  }

  /** One bar (or pie wedge): a category and its count. */
  datatype Bar = Bar(category: string, count: nat)

  /** `ORDER BY ... DESC`. */
  function BarKey(b: Bar): Key { Key(-(b.count as int), 0) }

  function BarCount(b: Bar): real { b.count as real }

  function BarCategories(bs: seq<Bar>): seq<string> {
    seq(|bs|, i requires 0 <= i < |bs| => bs[i].category)
  }

  function BarsFor(cs: seq<string>, count: string -> nat): (r: seq<Bar>)
    ensures |r| == |cs|
    ensures BarCategories(r) == cs
    ensures forall i :: 0 <= i < |r| ==> r[i] == Bar(cs[i], count(cs[i]))
  {
    if cs == [] then [] else [Bar(cs[0], count(cs[0]))] + BarsFor(cs[1..], count)
  }

  /** The categories with rows, ordered by `count`, largest first. */
  function RankedCategories(rows: seq<CategoryDay>, count: string -> nat): (r: seq<string>)
    ensures SortedBy(r, c => Key(-(count(c) as int), 0))
    ensures NoDuplicates(r)
    ensures forall c :: c in r <==> HasCategory(rows, c)
  {
    var cs := CategoriesOf(rows);
    var sorted := SortBy(cs, c => Key(-(count(c) as int), 0));
    NoDupPermutation(sorted, cs);
    SameMembers(sorted, cs);
    sorted
  }

  lemma BarsSorted(cs: seq<string>, count: string -> nat)
    requires SortedBy(cs, c => Key(-(count(c) as int), 0))
    ensures SortedBy(BarsFor(cs, count), BarKey)
  {
    var r := BarsFor(cs, count);
    forall i, j | 0 <= i < j < |r| ensures KeyLe(BarKey(r[i]), BarKey(r[j])) {
      var key := c => Key(-(count(c) as int), 0);
      assert KeyLe(key(cs[i]), key(cs[j]));
      assert BarKey(r[i]) == key(cs[i]) && BarKey(r[j]) == key(cs[j]);
    }
  }

  /** One bar per category, largest count first. */
  function Ranked(rows: seq<CategoryDay>, count: string -> nat): (r: seq<Bar>)
    ensures SortedBy(r, BarKey)
    ensures NoDuplicates(BarCategories(r))
    ensures forall c :: c in BarCategories(r) <==> HasCategory(rows, c)
    ensures forall i :: 0 <= i < |r| ==> r[i].count == count(r[i].category)
  {
    var sorted := RankedCategories(rows, count);
    BarsSorted(sorted, count);
    BarsFor(sorted, count)
  }

  /** `plot_category_analysis`: the number of sets of each category, largest first. */
  function SetsPerCategory(rows: seq<CategoryDay>): (r: seq<Bar>)
    ensures SortedBy(r, BarKey)
    ensures NoDuplicates(BarCategories(r))
    ensures forall c :: c in BarCategories(r) <==> HasCategory(rows, c)
    ensures forall i :: 0 <= i < |r| ==> r[i].count == CountWhere(rows, Category, r[i].category)
  {
    Ranked(rows, c => CountWhere(rows, Category, c))
  }

  lemma {:induction false} BarsSum(bs: seq<Bar>, rows: seq<CategoryDay>)
    requires forall i :: 0 <= i < |bs| ==> bs[i].count == CountWhere(rows, Category, bs[i].category)
    ensures SumAll(bs, BarCount) == SumOverKeys(BarCategories(bs), rows, Category, One)
  {
    if bs != [] {
      BarsSum(bs[1..], rows);
      assert BarCategories(bs[1..]) == BarCategories(bs)[1..];
      CountIsSumOfOnes(rows, Category, bs[0].category);
    }
  }

  /** The wedges of the pie chart account for every set exactly once. */
  lemma SetsPerCategoryAddUp(rows: seq<CategoryDay>)
    ensures SumAll(SetsPerCategory(rows), BarCount) == |rows| as real
  {
    var bs := SetsPerCategory(rows);
    BarsSum(bs, rows);
    forall k | 0 <= k < |rows| ensures Category(rows[k]) in BarCategories(bs) {
      assert HasCategory(rows, rows[k].category);
    }
    Partition(BarCategories(bs), rows, Category, One);
    SumOfOnes(rows);
  }

  /** The dates of a category's rows, one per row. */
  function DatesIn(rows: seq<CategoryDay>, c: string): (r: seq<Day>)
    ensures |r| == CountWhere(rows, Category, c)
    ensures forall d :: d in r ==> exists k :: 0 <= k < |rows| && rows[k].category == c && rows[k].date == d
    ensures forall k :: 0 <= k < |rows| && rows[k].category == c ==> rows[k].date in r
  {
    if rows == [] then []
    else
      var rest := DatesIn(rows[1..], c);
      assert forall k :: 1 <= k < |rows| ==> rows[k] == rows[1..][k - 1];
      assert forall d :: d in rest ==> exists k :: 0 <= k < |rows| && rows[k].category == c && rows[k].date == d by {
        forall d | d in rest ensures exists k :: 0 <= k < |rows| && rows[k].category == c && rows[k].date == d {
          var k :| 0 <= k < |rows[1..]| && rows[1..][k].category == c && rows[1..][k].date == d;
          assert rows[k + 1] == rows[1..][k];
        }
      }
      if rows[0].category == c then [rows[0].date] + rest else rest
  }

  /** `COUNT(DISTINCT w.date)` within a category. */
  function DayCount(rows: seq<CategoryDay>, c: string): nat {
    |SortedDistinct(DatesIn(rows, c))|
  }

  /** `plot_frequency_analysis`: the number of distinct training days of each category, largest first. */
  function DaysPerCategory(rows: seq<CategoryDay>): (r: seq<Bar>)
    ensures SortedBy(r, BarKey)
    ensures NoDuplicates(BarCategories(r))
    ensures forall c :: c in BarCategories(r) <==> HasCategory(rows, c)
    ensures forall i :: 0 <= i < |r| ==> r[i].count == DayCount(rows, r[i].category)
  {
    Ranked(rows, c => DayCount(rows, c))
  }

  /** A category that was trained has at least one training day and no more
      training days than sets. */
  lemma DaysAtMostSets(rows: seq<CategoryDay>, c: string)
    requires HasCategory(rows, c)
    ensures 1 <= DayCount(rows, c) <= CountWhere(rows, Category, c)
  {
    var k :| 0 <= k < |rows| && rows[k].category == c;
    var ds := DatesIn(rows, c);
    assert rows[k].date in ds;
    assert rows[k].date in SortedDistinct(ds);
  }
}

=== FILE: store.dfy ===
/**
 * The SQLite database of workouts: the transaction wrapper, seeding of the
 * exercise catalogue, set insertion (which derives the one-rep max), and the
 * history queries with their dynamically built WHERE clause. Tables are
 * sequences in insertion order; SQL joins, filters, ORDER BY and
 * LIMIT/OFFSET are sequence operations; AUTOINCREMENT is a per-table counter.
 * A failing statement is represented by a `Fault` supplied by the caller.
 */
module Store {
  import opened Wrappers
  import opened Text
  import opened Seqs
  import opened Models
  import Calculations

  datatype Db = Db(
    exercises: seq<Exercise>, workouts: seq<Workout>, sets: seq<SetRecord>,
    nextExerciseId: int, nextWorkoutId: int, nextSetId: int)

  /** An empty database with fresh AUTOINCREMENT counters. */
  const Empty: Db := Db([], [], [], 1, 1, 1)

  /** Every row has an id below its table's counter, and ids are unique. */
  predicate Valid(db: Db) {
    db.nextExerciseId >= 1 && db.nextWorkoutId >= 1 && db.nextSetId >= 1 &&
    (forall i :: 0 <= i < |db.exercises| ==> db.exercises[i].id.Some? && 1 <= db.exercises[i].id.value < db.nextExerciseId)
    && (forall i, j :: 0 <= i < j < |db.exercises| ==> db.exercises[i].id != db.exercises[j].id)
    && (forall i :: 0 <= i < |db.workouts| ==> db.workouts[i].id.Some? && 1 <= db.workouts[i].id.value < db.nextWorkoutId)
    && (forall i, j :: 0 <= i < j < |db.workouts| ==> db.workouts[i].id != db.workouts[j].id)
    && (forall i :: 0 <= i < |db.sets| ==> db.sets[i].id.Some? && 1 <= db.sets[i].id.value < db.nextSetId)
    && (forall i, j :: 0 <= i < j < |db.sets| ==> db.sets[i].id != db.sets[j].id)
  }

  // ---------------------------------------------------------------- transactions

  /** `sqlite3.IntegrityError`, or any other exception raised inside a transaction. */
  datatype Fault = IntegrityError | OtherError

  /** What the statements inside a `with safe_transaction()` block did: finished
      with the changed database, or raised. */
  datatype Block = Finished(db: Db) | Raised(fault: Fault)

  /** How a transaction ended: the database afterwards, the exception that
      propagates to the caller, and whether a connection was opened and closed. */
  datatype TxEnd = TxEnd(db: Db, raised: Option<Fault>, connectionOpened: bool, connectionClosed: bool)

  /** `safe_transaction`: BEGIN, run the block, COMMIT; on any exception ROLL BACK
      and re-raise; close the connection on the way out. When connecting fails
      there is nothing to roll back or close and the error propagates. */
  function Transaction(db: Db, connected: bool, block: Block): (r: TxEnd)
    ensures r.connectionClosed == r.connectionOpened && r.connectionOpened == connected
    ensures r.raised == None <==> connected && block.Finished?
    ensures r.raised == None ==> r.db == block.db
    ensures r.raised != None ==> r.db == db
    ensures connected && block.Raised? ==> r.raised == Some(block.fault)
  {
    if !connected then TxEnd(db, Some(OtherError), false, false)
    else match block
      case Finished(after) => TxEnd(after, None, true, true)
      case Raised(f) => TxEnd(db, Some(f), true, true)
  }

  // ---------------------------------------------------------------- seeding

  datatype Seed = Seed(name: string, variation: string, category: string)

  /** An exercise of the catalogue before its category is attached. */
  datatype Variant = Variant(name: string, variation: string)

  const Chest: seq<Variant> := [
    Variant("ベンチプレス", "バーベル"), Variant("ベンチプレス", "ダンベル"), Variant("ベンチプレス", "マシン"),
    Variant("チェストプレス", "マシン"), Variant("ダンベルフライ", "ダンベル"), Variant("ペックフライ", "マシン"),
    Variant("ケーブルフライ", "ケーブル"), Variant("プッシュアップ", "自重")]

  const Back: seq<Variant> := [
    Variant("デッドリフト", "バーベル"), Variant("ベントオーバーロウ", "バーベル"), Variant("ラットプルダウン", "マシン"),
    Variant("シーテッドロウ", "マシン"), Variant("プルアップ", "自重"), Variant("懸垂", "自重")]

  const Legs: seq<Variant> := [
    Variant("スクワット", "バーベル"), Variant("スクワット", "自重"), Variant("レッグプレス", "マシン"),
    Variant("レッグカール", "マシン"), Variant("レッグエクステンション", "マシン")]

  const Shoulders: seq<Variant> := [
    Variant("ショルダープレス", "バーベル"), Variant("ショルダープレス", "ダンベル"), Variant("ショルダープレス", "マシン"),
    Variant("サイドレイズ", "ダンベル"), Variant("インクラインサイドレイズ", "ダンベル"), Variant("リアデルト", "マシン"),
    Variant("フェイスプル", "ケーブル")]

  const Arms: seq<Variant> := [
    Variant("バーベルカール", "バーベル"), Variant("ダンベルカール", "ダンベル"), Variant("インクラインカール", "ダンベル"),
    Variant("インクラインハンマーカール", "ダンベル"), Variant("ケーブルカール", "ケーブル"),
    Variant("トライセップスエクステンション", "ダンベル"), Variant("フレンチプレス", "ダンベル"),
    Variant("プッシュダウン", "ケーブル"), Variant("ディップス", "自重")]

  function InCategory(vs: seq<Variant>, category: string): (r: seq<Seed>)
    ensures |r| == |vs|
    ensures forall i :: 0 <= i < |r| ==> r[i] == Seed(vs[i].name, vs[i].variation, category)
  {
    seq(|vs|, i requires 0 <= i < |vs| => Seed(vs[i].name, vs[i].variation, category))
  }

  /** The exercise catalogue inserted into an empty database, category by category. */
  function SeedExercises(): seq<Seed> {
    InCategory(Chest, "胸") + InCategory(Back, "背中") + InCategory(Legs, "脚")
    + InCategory(Shoulders, "肩") + InCategory(Arms, "腕")
  }

  /** The seeds as rows, numbered from the table's next AUTOINCREMENT id. */
  function SeedRows(seeds: seq<Seed>, firstId: int): (r: seq<Exercise>)
    ensures |r| == |seeds|
    ensures forall i :: 0 <= i < |r| ==> r[i] == Exercise(Some(firstId + i), seeds[i].name, seeds[i].variation, seeds[i].category)
  {
    seq(|seeds|, i requires 0 <= i < |seeds| => Exercise(Some(firstId + i), seeds[i].name, seeds[i].variation, seeds[i].category))
  }

  function CountCategory(seeds: seq<Seed>, category: string): nat {
    if seeds == [] then 0 else (if seeds[0].category == category then 1 else 0) + CountCategory(seeds[1..], category)
  }

  lemma {:induction false} CountCategoryAppend(a: seq<Seed>, b: seq<Seed>, category: string)
    ensures CountCategory(a + b, category) == CountCategory(a, category) + CountCategory(b, category)
  {
    if a == [] {
      assert a + b == b;
    } else {
      assert (a + b)[1..] == a[1..] + b;
      CountCategoryAppend(a[1..], b, category);
    }
  }

  lemma {:induction false} CountInCategory(vs: seq<Variant>, category: string, asked: string)
    ensures CountCategory(InCategory(vs, category), asked) == if category == asked then |vs| else 0
  {
    if vs != [] {
      assert InCategory(vs, category)[1..] == InCategory(vs[1..], category);
      CountInCategory(vs[1..], category, asked);
    }
  }

  lemma SeedLength()
    ensures |SeedExercises()| == 35
  {
  }

  /** How many seeds each category receives: 8 chest, 6 back, 5 leg, 7 shoulder
      and 9 arm exercises; any other category receives none. */
  lemma SeedCount(asked: string)
    ensures CountCategory(SeedExercises(), asked) ==
      (if asked == "胸" then 8 else 0) + (if asked == "背中" then 6 else 0) + (if asked == "脚" then 5 else 0)
      + (if asked == "肩" then 7 else 0) + (if asked == "腕" then 9 else 0)
  {
    var c, b, l, s, a := InCategory(Chest, "胸"), InCategory(Back, "背中"), InCategory(Legs, "脚"),
      InCategory(Shoulders, "肩"), InCategory(Arms, "腕");
    assert SeedExercises() == c + b + l + s + a;
    CountCategoryAppend(c + b + l + s, a, asked);
    CountCategoryAppend(c + b + l, s, asked);
    CountCategoryAppend(c + b, l, asked);
    CountCategoryAppend(c, b, asked);
    CountInCategory(Chest, "胸", asked);
    CountInCategory(Back, "背中", asked);
    CountInCategory(Legs, "脚", asked);
    CountInCategory(Shoulders, "肩", asked);
    CountInCategory(Arms, "腕", asked);
  }

  /** Every seed belongs to one of the five categories. */
  lemma SeedCategories()
    ensures |SeedExercises()| == 35
    ensures forall i :: 0 <= i < |SeedExercises()| ==> SeedExercises()[i].category in Categories
  {
    var c, b, l, s, a := InCategory(Chest, "胸"), InCategory(Back, "背中"), InCategory(Legs, "脚"),
      InCategory(Shoulders, "肩"), InCategory(Arms, "腕");
    var all := SeedExercises();
    assert all == c + b + l + s + a;
    assert Categories[0] == "胸" && Categories[1] == "背中" && Categories[2] == "脚";
    assert Categories[3] == "肩" && Categories[4] == "腕";
    forall i | 0 <= i < |all| ensures all[i].category in Categories {
      if i < 8 { assert all[i] == c[i]; }
      else if i < 14 { assert all[i] == b[i - 8]; }
      else if i < 19 { assert all[i] == l[i - 14]; }
      else if i < 26 { assert all[i] == s[i - 19]; }
      else { assert all[i] == a[i - 26]; }
    }
  }

  /** `_insert_initial_exercises`: only an empty exercise table is seeded. */
  function InsertInitialExercises(db: Db): (r: Db)
    ensures |db.exercises| > 0 ==> r == db
    ensures |db.exercises| == 0 ==>
      |r.exercises| == 35 && r.workouts == db.workouts && r.sets == db.sets
      && forall i :: 0 <= i < 35 ==> r.exercises[i].category in Categories
    ensures |db.exercises| == 0 ==> forall i :: 0 <= i < |SeedExercises()| ==>
      r.exercises[i] == Exercise(Some(db.nextExerciseId + i), SeedExercises()[i].name,
                                 SeedExercises()[i].variation, SeedExercises()[i].category)
  {
    if |db.exercises| > 0 then db
    else
      SeedCategories();
      db.(exercises := SeedRows(SeedExercises(), db.nextExerciseId),
          nextExerciseId := db.nextExerciseId + 35)
  }

  /** Running the initialisation again adds nothing. */
  lemma InsertInitialIdempotent(db: Db)
    ensures InsertInitialExercises(InsertInitialExercises(db)) == InsertInitialExercises(db)
  {
  }

  /** Seeding keeps the id invariant. */
  lemma InsertInitialKeepsValid(db: Db)
    requires Valid(db)
    ensures Valid(InsertInitialExercises(db))
  {
    if |db.exercises| == 0 {
      SeedLength();
      SeedRowsKeepValid(db, SeedExercises());
    }
  }

  /** Numbering rows from the counter into an empty table keeps the id invariant. */
  lemma SeedRowsKeepValid(db: Db, seeds: seq<Seed>)
    requires Valid(db) && db.exercises == []
    ensures Valid(db.(exercises := SeedRows(seeds, db.nextExerciseId), nextExerciseId := db.nextExerciseId + |seeds|))
  {
    var after := db.(exercises := SeedRows(seeds, db.nextExerciseId), nextExerciseId := db.nextExerciseId + |seeds|);
    assert forall i :: 0 <= i < |seeds| ==> after.exercises[i].id == Some(db.nextExerciseId + i);
  }

  // ---------------------------------------------------------------- workouts and sets

  /** `add_workout`: the new row's id, or `None` when the insert raised. */
  function AddWorkout(db: Db, date: Day, notes: Option<string>, fault: Option<Fault>): (r: (Option<int>, Db))
    ensures r.0.None? <==> fault.Some?
    ensures r.0.None? ==> r.1 == db
    ensures r.0.Some? ==> (r.1.workouts == db.workouts + [Workout(r.0, date, notes)]
      && r.1.exercises == db.exercises && r.1.sets == db.sets)
    ensures r.0.Some? ==> (r.0.value == db.nextWorkoutId && r.1.nextWorkoutId == db.nextWorkoutId + 1
      && r.1.nextSetId == db.nextSetId && r.1.nextExerciseId == db.nextExerciseId)
  {
    var block := if fault.Some? then Raised(fault.value)
      else Finished(db.(workouts := db.workouts + [Workout(Some(db.nextWorkoutId), date, notes)],
                        nextWorkoutId := db.nextWorkoutId + 1));
    var tx := Transaction(db, true, block);
    if tx.raised.None? then (Some(db.nextWorkoutId), tx.db) else (None, tx.db)
  }

  /** Inserting a workout keeps ids unique and below the counter. */
  lemma AddWorkoutKeepsValid(db: Db, date: Day, notes: Option<string>, fault: Option<Fault>)
    requires Valid(db)
    ensures Valid(AddWorkout(db, date, notes, fault).1)
  {
    var after := AddWorkout(db, date, notes, fault).1;
    if fault.None? {
      var n := |db.workouts|;
      assert after.workouts[n].id == Some(db.nextWorkoutId);
      forall i | 0 <= i < |after.workouts|
        ensures after.workouts[i].id.Some? && 1 <= after.workouts[i].id.value < after.nextWorkoutId
      {
        if i < n { assert after.workouts[i] == db.workouts[i]; }
      }
      forall i, j | 0 <= i < j < |after.workouts| ensures after.workouts[i].id != after.workouts[j].id {
        assert after.workouts[i] == db.workouts[i];
        if j < n { assert after.workouts[j] == db.workouts[j]; }
      }
    }
  }

  /** `get_workout_by_date`: the first stored workout on that day. */
  function WorkoutOn(workouts: seq<Workout>, date: Day): (r: Option<Workout>)
    ensures r.Some? ==> r.value in workouts && r.value.date == date
    ensures r.None? ==> forall i :: 0 <= i < |workouts| ==> workouts[i].date != date
  {
    if workouts == [] then None
    else if workouts[0].date == date then Some(workouts[0])
    else WorkoutOn(workouts[1..], date)
  }

  /** `add_set_safe`: inserts the set with its one-rep max computed from weight and
      repetitions (whatever estimate the caller supplied is ignored); true only
      when the insert committed. */
  function AddSetSafe(db: Db, s: SetRecord, fault: Option<Fault>): (r: (bool, Db))
    ensures r.0 <==> fault.None?
    ensures !r.0 ==> r.1 == db
    ensures r.0 ==> (r.1.exercises == db.exercises && r.1.workouts == db.workouts
      && r.1.sets == db.sets + [s.(id := Some(db.nextSetId), oneRm := Some(Calculations.OneRm(s.weight, s.reps)))])
    ensures r.0 ==> r.1.nextSetId == db.nextSetId + 1 && r.1.nextWorkoutId == db.nextWorkoutId && r.1.nextExerciseId == db.nextExerciseId
  {
    var row := s.(id := Some(db.nextSetId), oneRm := Some(Calculations.OneRm(s.weight, s.reps)));
    var block := if fault.Some? then Raised(fault.value)
      else Finished(db.(sets := db.sets + [row], nextSetId := db.nextSetId + 1));
    var tx := Transaction(db, true, block);
    (tx.raised.None?, tx.db)
  }

  /** Inserting a set keeps ids unique and below the counter. */
  lemma AddSetKeepsValid(db: Db, s: SetRecord, fault: Option<Fault>)
    requires Valid(db)
    ensures Valid(AddSetSafe(db, s, fault).1)
  {
    var after := AddSetSafe(db, s, fault).1;
    if fault.None? {
      var n := |db.sets|;
      assert after.sets[n].id == Some(db.nextSetId);
      forall i | 0 <= i < |after.sets|
        ensures after.sets[i].id.Some? && 1 <= after.sets[i].id.value < after.nextSetId
      {
        if i < n { assert after.sets[i] == db.sets[i]; }
      }
      forall i, j | 0 <= i < j < |after.sets| ensures after.sets[i].id != after.sets[j].id {
        assert after.sets[i] == db.sets[i];
        if j < n { assert after.sets[j] == db.sets[j]; }
      }
    }
  }

  /** Two sets that differ only in the estimate they carry are stored identically. */
  lemma AddSetIgnoresSuppliedOneRm(db: Db, s: SetRecord, estimate: Option<real>, fault: Option<Fault>)
    ensures AddSetSafe(db, s.(oneRm := estimate), fault) == AddSetSafe(db, s, fault)
  {
  }

  // ---------------------------------------------------------------- joins

  function FindWorkout(workouts: seq<Workout>, id: int): (r: Option<Workout>)
    ensures r.Some? ==> r.value in workouts && r.value.id == Some(id)
    ensures r.None? ==> forall i :: 0 <= i < |workouts| ==> workouts[i].id != Some(id)
  {
    if workouts == [] then None
    else if workouts[0].id == Some(id) then Some(workouts[0])
    else FindWorkout(workouts[1..], id)
  }

  function FindExercise(exercises: seq<Exercise>, id: int): (r: Option<Exercise>)
    ensures r.Some? ==> r.value in exercises && r.value.id == Some(id)
    ensures r.None? ==> forall i :: 0 <= i < |exercises| ==> exercises[i].id != Some(id)
  {
    if exercises == [] then None
    else if exercises[0].id == Some(id) then Some(exercises[0])
    else FindExercise(exercises[1..], id)
  }

  /** One row of `sets s JOIN workouts w JOIN exercises e`. */
  datatype Joined = Joined(row: SetRecord, workout: Workout, exercise: Exercise)

  /** The inner join of the three tables, in set-table order. */
  function JoinAll(sets: seq<SetRecord>, workouts: seq<Workout>, exercises: seq<Exercise>): (r: seq<Joined>)
    ensures |r| <= |sets|
    ensures forall i :: 0 <= i < |r| ==>
      r[i].row in sets && r[i].workout in workouts && r[i].exercise in exercises
      && r[i].workout.id == Some(r[i].row.workoutId) && r[i].exercise.id == Some(r[i].row.exerciseId)
  {
    if sets == [] then []
    else
      var rest := JoinAll(sets[1..], workouts, exercises);
      var w := FindWorkout(workouts, sets[0].workoutId);
      var e := FindExercise(exercises, sets[0].exerciseId);
      if w.Some? && e.Some? then [Joined(sets[0], w.value, e.value)] + rest else rest
  }

  function Joins(db: Db): seq<Joined> {
    JoinAll(db.sets, db.workouts, db.exercises)
  }

  /** `ORDER BY w.date DESC, s.id`. */
  function HistoryKey(j: Joined): Key {
    Key(-j.workout.date, j.row.id.GetOr(0))
  }

  /** The eight selected columns. */
  datatype HistoryRow = HistoryRow(
    date: Day, name: string, variation: string, setNumber: int,
    weight: real, reps: int, oneRm: Option<real>, setId: Option<int>)

  function Project(j: Joined): HistoryRow {
    HistoryRow(j.workout.date, j.exercise.name, j.exercise.variation, j.row.setNumber,
               j.row.weight, j.row.reps, j.row.oneRm, j.row.id)
  }

  function ProjectAll(js: seq<Joined>): (r: seq<HistoryRow>)
    ensures |r| == |js| && forall i :: 0 <= i < |js| ==> r[i] == Project(js[i])
  {
    seq(|js|, i requires 0 <= i < |js| => Project(js[i]))
  }

  /** Newest first, and by set id within a day. */
  predicate NewestFirst(rows: seq<HistoryRow>) {
    forall i, j :: 0 <= i < j < |rows| ==>
      rows[i].date > rows[j].date || (rows[i].date == rows[j].date && rows[i].setId.GetOr(0) <= rows[j].setId.GetOr(0))
  }

  lemma ProjectKeepsOrder(js: seq<Joined>)
    requires SortedBy(js, HistoryKey)
    ensures NewestFirst(ProjectAll(js))
  {
    var r := ProjectAll(js);
    forall i, j | 0 <= i < j < |r|
      ensures r[i].date > r[j].date || (r[i].date == r[j].date && r[i].setId.GetOr(0) <= r[j].setId.GetOr(0))
    {
      assert KeyLe(HistoryKey(js[i]), HistoryKey(js[j]));
    }
  }

  lemma ProjectKeepsMembers(page: seq<Joined>, all: seq<Joined>)
    requires forall i :: 0 <= i < |page| ==> page[i] in all
    ensures forall i :: 0 <= i < |page| ==> ProjectAll(page)[i] in ProjectAll(all)
  {
    forall i | 0 <= i < |page| ensures ProjectAll(page)[i] in ProjectAll(all) {
      var k :| 0 <= k < |all| && all[k] == page[i];
      assert ProjectAll(all)[k] == ProjectAll(page)[i];
    }
  }

  /** Projecting two orderings of the same rows gives two orderings of the same projected rows. */
  lemma ProjectAllPermutation(a: seq<Joined>, b: seq<Joined>)
    requires multiset(a) == multiset(b)
    ensures multiset(ProjectAll(a)) == multiset(ProjectAll(b))
  {
    MappedPermutation(a, b, Project);
    assert ProjectAll(a) == Mapped(a, Project);
    assert ProjectAll(b) == Mapped(b, Project);
  }

  /** The whole joined history in the one order both history queries use:
      every joined row once, newest first. */
  function OrderedHistory(db: Db): (r: seq<HistoryRow>)
    ensures NewestFirst(r)
    ensures multiset(r) == multiset(ProjectAll(Joins(db)))
  {
    var ordered := SortBy(Joins(db), HistoryKey);
    ProjectKeepsOrder(ordered);
    ProjectAllPermutation(ordered, Joins(db));
    ProjectAll(ordered)
  }

  /** `get_history_paginated`: the page at `offset` of the ordered history,
      so at most `pageSize` rows, newest first. */
  function HistoryPaginated(db: Db, pageSize: nat, offset: nat): (r: seq<HistoryRow>)
    ensures r == Page(OrderedHistory(db), offset, pageSize)
    ensures |r| <= pageSize
    ensures NewestFirst(r)
    ensures forall i :: 0 <= i < |r| ==> r[i] in ProjectAll(Joins(db))
  {
    var ordered := SortBy(Joins(db), HistoryKey);
    var page := Page(ordered, offset, pageSize);
    PageOfPermutation(ordered, Joins(db), offset, pageSize);
    PageOfSorted(ordered, offset, pageSize, HistoryKey);
    ProjectKeepsOrder(page);
    ProjectKeepsMembers(page, Joins(db));
    ProjectOfPage(ordered, offset, pageSize);
    ProjectAll(page)
  }

  /** Projecting a page is taking the page of the projection. */
  lemma ProjectOfPage(js: seq<Joined>, offset: nat, size: nat)
    ensures ProjectAll(Page(js, offset, size)) == Page(ProjectAll(js), offset, size)
  {
  }

  /** The paginated query as a reader of pages of `pageSize` rows. */
  function HistoryReader(db: Db, pageSize: nat): nat -> seq<HistoryRow> {
    (offset: nat) => HistoryPaginated(db, pageSize, offset)
  }

  /** The rows pages 0 … n-1 of size `pageSize` show, one page after another. */
  function HistoryPagesRead(db: Db, pageSize: nat, n: nat): seq<HistoryRow> {
    ReadPages(HistoryReader(db, pageSize), pageSize, n)
  }

  /** Paging through the history with enough pages shows every joined row
      exactly once, newest first. */
  lemma HistoryPagesCoverAll(db: Db, pageSize: nat, n: nat)
    requires n * pageSize >= |Joins(db)|
    ensures HistoryPagesRead(db, pageSize, n) == OrderedHistory(db)
    ensures multiset(HistoryPagesRead(db, pageSize, n)) == multiset(ProjectAll(Joins(db)))
  {
    var h := OrderedHistory(db);
    forall offset: nat ensures HistoryReader(db, pageSize)(offset) == Page(h, offset, pageSize) {
    }
    ReadPagesArePages(HistoryReader(db, pageSize), h, pageSize, n);
    PagesCoverAll(h, pageSize, n);
  }

  /** `get_total_record_count`: every stored set, joined or not. */
  function TotalRecordCount(db: Db): nat {
    |db.sets|
  }

  // ---------------------------------------------------------------- filtered history

  /** A piece of SQL text: literal text or a `?` placeholder. */
  datatype Token = Lit(text: string) | Hole

  function Holes(ts: seq<Token>): nat {
    if ts == [] then 0 else (if ts[0].Hole? then 1 else 0) + Holes(ts[1..])
  }

  lemma {:induction false} HolesAppend(a: seq<Token>, b: seq<Token>)
    ensures Holes(a + b) == Holes(a) + Holes(b)
  {
    if a == [] {
      assert a + b == b;
    } else {
      assert (a + b)[1..] == a[1..] + b;
      HolesAppend(a[1..], b);
    }
  }

  /** One WHERE condition with its placeholder parameter. */
  datatype Condition = DateFrom(start: Day) | DateTo(end: Day) | ExerciseIs(exerciseId: int) {
    function Sql(): (r: seq<Token>)
      ensures Holes(r) == 1 && Lit(" WHERE ") !in r
    {
      match this
      case DateFrom(_) => [Lit("w.date >= "), Hole]
      case DateTo(_) => [Lit("w.date <= "), Hole]
      case ExerciseIs(_) => [Lit("e.id = "), Hole]
    }
    function Param(): int {
      match this
      case DateFrom(d) => d
      case DateTo(d) => d
      case ExerciseIs(n) => n
    }
    predicate Holds(j: Joined) {
      match this
      case DateFrom(d) => j.workout.date >= d
      case DateTo(d) => j.workout.date <= d
      case ExerciseIs(n) => j.exercise.id == Some(n)
    }
  }

  /** The conditions both the page query and the count query build, in this order:
      start date, end date, exercise. A filter contributes only when it is truthy;
      an exercise id of 0 is falsy. */
  function BuildConditions(start: Option<Day>, end: Option<Day>, exerciseId: Option<int>): (c: seq<Condition>)
    ensures |c| <= 3
    ensures c == [] <==> start.None? && end.None? && (exerciseId.None? || exerciseId.value == 0)
    ensures forall i :: 0 <= i < |c| ==> (c[i].DateFrom? ==> start == Some(c[i].start))
    ensures forall i :: 0 <= i < |c| ==> (c[i].DateTo? ==> end == Some(c[i].end))
    ensures forall i :: 0 <= i < |c| ==> (c[i].ExerciseIs? ==> exerciseId == Some(c[i].exerciseId) && c[i].exerciseId != 0)
  {
    (if start.Some? then [DateFrom(start.value)] else [])
    + (if end.Some? then [DateTo(end.value)] else [])
    + (if exerciseId.Some? && exerciseId.value != 0 then [ExerciseIs(exerciseId.value)] else [])
  }

  predicate AllHold(conds: seq<Condition>, j: Joined) {
    forall i :: 0 <= i < |conds| ==> conds[i].Holds(j)
  }

  /** The filters as a predicate on a joined row: the meaning of the WHERE clause. */
  lemma ConditionsMeaning(start: Option<Day>, end: Option<Day>, exerciseId: Option<int>, j: Joined)
    ensures AllHold(BuildConditions(start, end, exerciseId), j) <==>
      (start.Some? ==> j.workout.date >= start.value)
      && (end.Some? ==> j.workout.date <= end.value)
      && (exerciseId.Some? && exerciseId.value != 0 ==> j.exercise.id == exerciseId)
  {
    var c := BuildConditions(start, end, exerciseId);
    var a := if start.Some? then [DateFrom(start.value)] else [];
    var b := if end.Some? then [DateTo(end.value)] else [];
    var e := if exerciseId.Some? && exerciseId.value != 0 then [ExerciseIs(exerciseId.value)] else [];
    assert c == a + b + e;
    if start.Some? { assert c[0] == DateFrom(start.value); }
    if end.Some? { assert c[|a|] == DateTo(end.value); }
    if exerciseId.Some? && exerciseId.value != 0 { assert c[|a| + |b|] == ExerciseIs(exerciseId.value); }
  }

  /** `" AND ".join(...)` over the conditions' SQL. */
  function JoinAnd(conds: seq<Condition>): (r: seq<Token>)
    ensures Holes(r) == |conds|
    ensures Lit(" WHERE ") !in r
  {
    if conds == [] then []
    else if |conds| == 1 then conds[0].Sql()
    else
      var rest := JoinAnd(conds[1..]);
      HolesAppend(conds[0].Sql() + [Lit(" AND ")], rest);
      HolesAppend(conds[0].Sql(), [Lit(" AND ")]);
      conds[0].Sql() + [Lit(" AND ")] + rest
  }

  function ConditionParams(conds: seq<Condition>): (r: seq<int>)
    ensures |r| == |conds| && forall i :: 0 <= i < |conds| ==> r[i] == conds[i].Param()
  {
    seq(|conds|, i requires 0 <= i < |conds| => conds[i].Param())
  }

  /** ` WHERE c1 AND c2 …`, or nothing when there is no condition. */
  function WhereClause(conds: seq<Condition>): (r: seq<Token>)
    ensures Holes(r) == |conds|
    ensures Lit(" WHERE ") in r <==> conds != []
  {
    if conds == [] then []
    else
      HolesAppend([Lit(" WHERE ")], JoinAnd(conds));
      [Lit(" WHERE ")] + JoinAnd(conds)
  }

  const SelectHistory: string :=
    "SELECT w.date, e.name, e.variation, s.set_number, s.weight, s.reps, s.one_rm, s.id "
    + "FROM sets s JOIN workouts w ON s.workout_id = w.id JOIN exercises e ON s.exercise_id = e.id"

  const SelectCount: string :=
    "SELECT COUNT(*) FROM sets s JOIN workouts w ON s.workout_id = w.id JOIN exercises e ON s.exercise_id = e.id"

  /** The statement `get_history_filtered` executes and its parameter list: one
      parameter per placeholder, and a WHERE clause exactly when some filter is truthy. */
  function FilteredQuery(start: Option<Day>, end: Option<Day>, exerciseId: Option<int>, pageSize: int, offset: int): (q: (seq<Token>, seq<int>))
    ensures Holes(q.0) == |q.1|
    ensures Lit(" WHERE ") in q.0 <==> start.Some? || end.Some? || (exerciseId.Some? && exerciseId.value != 0)
  {
    var conds := BuildConditions(start, end, exerciseId);
    var tail := [Lit(" ORDER BY w.date DESC, s.id LIMIT "), Hole, Lit(" OFFSET "), Hole];
    assert Holes(tail) == 2;
    assert |" WHERE "| != |SelectHistory|;
    AroundClause(SelectHistory, WhereClause(conds), tail);
    ([Lit(SelectHistory)] + WhereClause(conds) + tail, ConditionParams(conds) + [pageSize, offset])
  }

  /** Around the WHERE clause, a statement holds no ` WHERE ` of its own, and
      its placeholders are the clause's and the tail's. */
  lemma AroundClause(head: string, clause: seq<Token>, tail: seq<Token>)
    requires head != " WHERE " && Lit(" WHERE ") !in tail
    ensures Holes([Lit(head)] + clause + tail) == Holes(clause) + Holes(tail)
    ensures Lit(" WHERE ") in [Lit(head)] + clause + tail <==> Lit(" WHERE ") in clause
  {
    HolesAppend([Lit(head)] + clause, tail);
    HolesAppend([Lit(head)], clause);
    var q := [Lit(head)] + clause + tail;
    if Lit(" WHERE ") in q {
      var i :| 0 <= i < |q| && q[i] == Lit(" WHERE ");
      if 1 <= i < 1 + |clause| {
        assert clause[i - 1] == q[i];
      }
    }
    if Lit(" WHERE ") in clause {
      var i :| 0 <= i < |clause| && clause[i] == Lit(" WHERE ");
      assert q[i + 1] == clause[i];
    }
  }

  /** The statement `get_filtered_record_count` executes and its parameter list. */
  function FilteredCountQuery(start: Option<Day>, end: Option<Day>, exerciseId: Option<int>): (q: (seq<Token>, seq<int>))
    ensures Holes(q.0) == |q.1|
    ensures Lit(" WHERE ") in q.0 <==> start.Some? || end.Some? || (exerciseId.Some? && exerciseId.value != 0)
  {
    var conds := BuildConditions(start, end, exerciseId);
    HolesAppend([Lit(SelectCount)], WhereClause(conds));
    assert |" WHERE "| != |SelectCount|;
    ([Lit(SelectCount)] + WhereClause(conds), ConditionParams(conds))
  }

  /** The joined rows the WHERE clause selects, in table order. */
  function Matching(db: Db, start: Option<Day>, end: Option<Day>, exerciseId: Option<int>): seq<Joined> {
    var conds := BuildConditions(start, end, exerciseId);
    Filter(Joins(db), j => AllHold(conds, j))
  }

  /** The rows matching the filters, newest first. */
  function FilteredOrdered(db: Db, start: Option<Day>, end: Option<Day>, exerciseId: Option<int>): (r: seq<Joined>)
    ensures |r| == |Matching(db, start, end, exerciseId)|
    ensures SortedBy(r, HistoryKey)
    ensures multiset(r) == multiset(Matching(db, start, end, exerciseId))
  {
    SortBy(Matching(db, start, end, exerciseId), HistoryKey)
  }

  /** Every row the filters select, once each, in the order the filtered query uses. */
  function FilteredHistory(db: Db, start: Option<Day>, end: Option<Day>, exerciseId: Option<int>): (r: seq<HistoryRow>)
    ensures NewestFirst(r)
    ensures multiset(r) == multiset(ProjectAll(Matching(db, start, end, exerciseId)))
  {
    var ordered := FilteredOrdered(db, start, end, exerciseId);
    ProjectKeepsOrder(ordered);
    ProjectAllPermutation(ordered, Matching(db, start, end, exerciseId));
    ProjectAll(ordered)
  }

  /** `get_history_filtered`: the page at `offset` of the filtered history,
      so at most `pageSize` matching rows, newest first. */
  function HistoryFiltered(db: Db, start: Option<Day>, end: Option<Day>, exerciseId: Option<int>, pageSize: nat, offset: nat): (r: seq<HistoryRow>)
    ensures r == Page(FilteredHistory(db, start, end, exerciseId), offset, pageSize)
    ensures |r| <= pageSize
    ensures NewestFirst(r)
    ensures forall i :: 0 <= i < |r| ==> r[i] in ProjectAll(Matching(db, start, end, exerciseId))
  {
    var ordered := FilteredOrdered(db, start, end, exerciseId);
    var page := Page(ordered, offset, pageSize);
    PageOfPermutation(ordered, Matching(db, start, end, exerciseId), offset, pageSize);
    PageOfSorted(ordered, offset, pageSize, HistoryKey);
    ProjectKeepsOrder(page);
    ProjectKeepsMembers(page, Matching(db, start, end, exerciseId));
    ProjectOfPage(ordered, offset, pageSize);
    ProjectAll(page)
  }

  /** `get_filtered_record_count`: how many joined rows the same conditions
      select, which is the length of the history the filtered pages are cut from. */
  function FilteredRecordCount(db: Db, start: Option<Day>, end: Option<Day>, exerciseId: Option<int>): (n: nat)
    ensures n == |FilteredHistory(db, start, end, exerciseId)|
    ensures n <= |Joins(db)|
  {
    |Matching(db, start, end, exerciseId)|
  }

  /** The filtered query as a reader of pages of `pageSize` rows. */
  function FilteredReader(db: Db, start: Option<Day>, end: Option<Day>, exerciseId: Option<int>, pageSize: nat)
    : nat -> seq<HistoryRow>
  {
    (offset: nat) => HistoryFiltered(db, start, end, exerciseId, pageSize, offset)
  }

  /** The rows filtered pages 0 … n-1 of size `pageSize` show, one page after another. */
  function FilteredPagesRead(db: Db, start: Option<Day>, end: Option<Day>, exerciseId: Option<int>, pageSize: nat, n: nat)
    : seq<HistoryRow>
  {
    ReadPages(FilteredReader(db, start, end, exerciseId, pageSize), pageSize, n)
  }

  /** Reading filtered pages 0 … n-1, with n·pageSize at least the count,
      shows every matching row exactly once, newest first, and no other row. */
  lemma PagesCoverCount(db: Db, start: Option<Day>, end: Option<Day>, exerciseId: Option<int>, pageSize: nat, n: nat)
    requires n * pageSize >= FilteredRecordCount(db, start, end, exerciseId)
    ensures FilteredPagesRead(db, start, end, exerciseId, pageSize, n) == FilteredHistory(db, start, end, exerciseId)
    ensures multiset(FilteredPagesRead(db, start, end, exerciseId, pageSize, n)) == multiset(ProjectAll(Matching(db, start, end, exerciseId)))
  {
    var h := FilteredHistory(db, start, end, exerciseId);
    forall offset: nat ensures FilteredReader(db, start, end, exerciseId, pageSize)(offset) == Page(h, offset, pageSize) {
    }
    ReadPagesArePages(FilteredReader(db, start, end, exerciseId, pageSize), h, pageSize, n);
    PagesCoverAll(h, pageSize, n);
  }

  // ---------------------------------------------------------------- last record

  /** A stored set together with the date of its workout. */
  datatype DatedSet = DatedSet(row: SetRecord, date: Day)

  /** The exercise's sets that join with a workout, each with that workout's date. */
  function SetsWithDates(sets: seq<SetRecord>, workouts: seq<Workout>, exerciseId: int): (r: seq<DatedSet>)
    ensures |r| <= |sets|
    ensures forall i :: 0 <= i < |r| ==>
      r[i].row in sets && r[i].row.exerciseId == exerciseId && FindWorkout(workouts, r[i].row.workoutId).Some? && FindWorkout(workouts, r[i].row.workoutId).value.date == r[i].date
  {
    if sets == [] then []
    else
      var rest := SetsWithDates(sets[1..], workouts, exerciseId);
      var w := FindWorkout(workouts, sets[0].workoutId);
      if sets[0].exerciseId == exerciseId && w.Some? then [DatedSet(sets[0], w.value.date)] + rest else rest
  }

  /** Every set of the exercise whose workout exists is among them. */
  lemma {:induction false} SetsWithDatesComplete(sets: seq<SetRecord>, workouts: seq<Workout>, exerciseId: int, i: int)
    requires 0 <= i < |sets| && sets[i].exerciseId == exerciseId && FindWorkout(workouts, sets[i].workoutId).Some?
    ensures exists k :: 0 <= k < |SetsWithDates(sets, workouts, exerciseId)| && SetsWithDates(sets, workouts, exerciseId)[k].row == sets[i]
  {
    var r := SetsWithDates(sets, workouts, exerciseId);
    var rest := SetsWithDates(sets[1..], workouts, exerciseId);
    if i == 0 {
      assert r[0].row == sets[0];
    } else {
      SetsWithDatesComplete(sets[1..], workouts, exerciseId, i - 1);
      var k :| 0 <= k < |rest| && rest[k].row == sets[1..][i - 1];
      if sets[0].exerciseId == exerciseId && FindWorkout(workouts, sets[0].workoutId).Some? {
        assert r[k + 1] == rest[k];
      } else {
        assert r[k] == rest[k];
      }
    }
  }

  /** `ORDER BY w.date DESC, s.set_number`. */
  function LastRecordKey(d: DatedSet): Key {
    Key(-d.date, d.row.setNumber)
  }

  /** `get_last_exercise_record`: up to ten of the exercise's sets, most recent
      workout first and by set number within it; `None` rather than an empty list. */
  function LastExerciseRecord(db: Db, exerciseId: int): (r: Option<seq<DatedSet>>)
    ensures r.Some? ==> 1 <= |r.value| <= 10 && SortedBy(r.value, LastRecordKey)
    ensures r.Some? ==> forall i :: 0 <= i < |r.value| ==> r.value[i] in SetsWithDates(db.sets, db.workouts, exerciseId)
    ensures r.None? <==> SetsWithDates(db.sets, db.workouts, exerciseId) == []
    ensures r.Some? ==> r.value == Upto(SortBy(SetsWithDates(db.sets, db.workouts, exerciseId), LastRecordKey), 10)
  {
    var all := SetsWithDates(db.sets, db.workouts, exerciseId);
    var ordered := SortBy(all, LastRecordKey);
    var top := Page(ordered, 0, 10);
    assert top == Upto(ordered, 10);
    PageOfPermutation(ordered, all, 0, 10);
    PageOfSorted(ordered, 0, 10, LastRecordKey);
    if |top| == 0 then None else Some(top)
  }

  /** The record is absent exactly when no set of the exercise belongs to a stored workout. */
  lemma LastRecordNoneIff(db: Db, exerciseId: int)
    ensures LastExerciseRecord(db, exerciseId).None? <==>
      forall i :: 0 <= i < |db.sets| ==> db.sets[i].exerciseId != exerciseId || FindWorkout(db.workouts, db.sets[i].workoutId).None?
  {
    var all := SetsWithDates(db.sets, db.workouts, exerciseId);
    if exists i :: 0 <= i < |db.sets| && db.sets[i].exerciseId == exerciseId && FindWorkout(db.workouts, db.sets[i].workoutId).Some? {
      var i :| 0 <= i < |db.sets| && db.sets[i].exerciseId == exerciseId && FindWorkout(db.workouts, db.sets[i].workoutId).Some?;
      SetsWithDatesComplete(db.sets, db.workouts, exerciseId, i);
    }
  }
}

=== FILE: text.dfy ===
/**
 * String helpers standing in for the Python `str` methods the program uses:
 * `strip()`, `lower()`, the `in` substring test, `endswith` and `replace`.
 * Characters are code points; `Lower` folds only the ASCII letters.
 */
module Text {

  /** Python's `str.isspace()`, the characters `str.strip()` removes: the
      ASCII controls tab to carriage return and the four separators U+001C to
      U+001F, the space, next-line, no-break space, ogham space mark, the
      spaces U+2000 to U+200A, line and paragraph separators, narrow no-break
      space, medium mathematical space and the ideographic space. */
  predicate IsSpace(c: char) {
    '\t' <= c <= '\r' || '\U{001C}' <= c <= ' ' || c == '\U{0085}' || c == '\U{00A0}' || c == '\U{1680}'
    || '\U{2000}' <= c <= '\U{200A}' || c == '\U{2028}' || c == '\U{2029}' || c == '\U{202F}' || c == '\U{205F}'
    || c == '\U{3000}'
  }

  function TrimLeft(s: string): (r: string)
    ensures |r| <= |s| && r == s[|s| - |r|..]
    ensures r == [] || !IsSpace(r[0])
    ensures forall i :: 0 <= i < |s| - |r| ==> IsSpace(s[i])
  {
    if |s| > 0 && IsSpace(s[0]) then TrimLeft(s[1..]) else s
  }

  function TrimRight(s: string): (r: string)
    ensures |r| <= |s| && r == s[..|r|]
    ensures r == [] || !IsSpace(r[|r| - 1])
    ensures forall i :: |r| <= i < |s| ==> IsSpace(s[i])
  {
    if |s| > 0 && IsSpace(s[|s| - 1]) then TrimRight(s[..|s| - 1]) else s
  }

  /** `s.strip()`: the longest infix of `s` that neither starts nor ends with a space. */
  function Strip(s: string): (r: string)
    ensures |r| <= |s|
    ensures r == [] || (!IsSpace(r[0]) && !IsSpace(r[|r| - 1]))
    ensures Contains(s, r)
  {
    var l := TrimLeft(s);
    var r := TrimRight(l);
    assert s[|s| - |l|..][..|r|] == r;
    assert StartsWith(s[|s| - |l|..], r);
    r
  }

  /** A string is blank (`not s.strip()`) exactly when every character is a space. */
  lemma StripEmptyIffAllSpace(s: string)
    ensures Strip(s) == [] <==> forall i :: 0 <= i < |s| ==> IsSpace(s[i])
  {
    var l := TrimLeft(s);
    if Strip(s) == [] {
      assert l == [];
    } else {
      var k :| 0 <= k <= |s| - |Strip(s)| && StartsWith(s[k..], Strip(s));
      assert s[k] == Strip(s)[0];
    }
  }

  function LowerChar(c: char): char {
    if 'A' <= c <= 'Z' then (c as int + 32) as char else c
  }

  /** `s.lower()` restricted to ASCII letters. */
  function Lower(s: string): (r: string)
    ensures |r| == |s|
    ensures forall i :: 0 <= i < |s| ==> r[i] == LowerChar(s[i])
  {
    seq(|s|, i requires 0 <= i < |s| => LowerChar(s[i]))
  }

  predicate StartsWith(s: string, prefix: string) {
    |prefix| <= |s| && s[..|prefix|] == prefix
  }

  predicate EndsWith(s: string, suffix: string) {
    |suffix| <= |s| && s[|s| - |suffix|..] == suffix
  }

  /** Python's `needle in haystack`. */
  predicate Contains(haystack: string, needle: string) {
    exists i :: 0 <= i <= |haystack| - |needle| && StartsWith(haystack[i..], needle)
  }

  /** Witness-providing introduction rule for `Contains`. */
  lemma ContainsAt(haystack: string, needle: string, i: int)
    requires 0 <= i <= |haystack| - |needle|
    requires haystack[i..i + |needle|] == needle
    ensures Contains(haystack, needle)
  {
    assert StartsWith(haystack[i..], needle);
  }

  /** Anything containing `inner` contains what `inner` contains. */
  lemma ContainsTransitive(s: string, inner: string, needle: string)
    requires Contains(s, inner) && Contains(inner, needle)
    ensures Contains(s, needle)
  {
    var i :| 0 <= i <= |s| - |inner| && StartsWith(s[i..], inner);
    var j :| 0 <= j <= |inner| - |needle| && StartsWith(inner[j..], needle);
    forall k | 0 <= k < |needle| ensures s[i + j + k] == needle[k] {
      assert inner[j..][..|needle|][k] == needle[k];
      assert s[i..][..|inner|][j + k] == inner[j + k];
    }
    assert s[i + j..i + j + |needle|] == needle;
    ContainsAt(s, needle, i + j);
  }

  /** `s.replace(c, with)` for a single-character pattern. */
  function ReplaceChar(s: string, c: char, with: string): (r: string)
  {
    if s == [] then [] else (if s[0] == c then with else [s[0]]) + ReplaceChar(s[1..], c, with)
  }

  function CountChar(s: string, c: char): nat {
    if s == [] then 0 else (if s[0] == c then 1 else 0) + CountChar(s[1..], c)
  }

  predicate IsDigit(c: char) {
    '0' <= c <= '9'
  }

  function DigitValue(c: char): nat
    requires IsDigit(c)
  {
    c as int - '0' as int
  }

  /** The decimal digits of `n`, as `str(n)` writes them. */
  function NatText(n: nat): (r: string)
    ensures |r| >= 1 && forall i :: 0 <= i < |r| ==> IsDigit(r[i])
  {
    if n < 10 then ["0123456789"[n]] else NatText(n / 10) + ["0123456789"[n % 10]]
  }

  /** The number a run of decimal digits spells. */
  function NatValue(ds: string): nat
    requires forall i :: 0 <= i < |ds| ==> IsDigit(ds[i])
  {
    if ds == [] then 0 else NatValue(ds[..|ds| - 1]) * 10 + DigitValue(ds[|ds| - 1])
  }

  /** Reading the digits back gives the number. */
  lemma {:induction false} NatValueOfText(n: nat)
    ensures NatValue(NatText(n)) == n
  {
    var ds := NatText(n);
    assert forall d :: 0 <= d < 10 ==> DigitValue("0123456789"[d]) == d;
    if n >= 10 {
      NatValueOfText(n / 10);
      assert ds[..|ds| - 1] == NatText(n / 10);
    }
  }

  lemma TrimLeftKeepsWord(s: string, w: string)
    requires w != [] && !IsSpace(w[0])
    requires Contains(s, w)
    ensures Contains(TrimLeft(s), w)
  {
    var i :| 0 <= i <= |s| - |w| && StartsWith(s[i..], w);
    assert s[i..i + |w|] == w by {
      assert s[i..i + |w|] == s[i..][..|w|];
    }
    NotSpaceSurvivesTrimLeft(s, i);
    ContainsInSuffix(s, w, |s| - |TrimLeft(s)|, i);
  }

  /** `TrimLeft` removes spaces only, so it stops at or before the first non-space. */
  lemma NotSpaceSurvivesTrimLeft(s: string, i: int)
    requires 0 <= i < |s| && !IsSpace(s[i])
    ensures |s| - |TrimLeft(s)| <= i
  {
  }

  /** A word at position `i >= p` is contained in the suffix from `p`. */
  lemma ContainsInSuffix(s: string, w: string, p: int, i: int)
    requires 0 <= p <= i <= |s| - |w|
    requires s[i..i + |w|] == w
    ensures Contains(s[p..], w)
  {
    var t := s[p..];
    assert t[i - p..i - p + |w|] == s[i..i + |w|];
    ContainsAt(t, w, i - p);
  }

  lemma TrimRightKeepsWord(s: string, w: string)
    requires w != [] && !IsSpace(w[|w| - 1])
    requires Contains(s, w)
    ensures Contains(TrimRight(s), w)
  {
    var i :| 0 <= i <= |s| - |w| && StartsWith(s[i..], w);
    assert s[i + |w| - 1] == s[i..][|w| - 1] == w[|w| - 1];
    var r := TrimRight(s);
    assert i + |w| <= |r|;
    forall k | 0 <= k < |w| ensures r[i + k] == w[k] {
      assert s[i..][k] == w[k];
    }
    assert r[i..i + |w|] == w;
    ContainsAt(r, w, i);
  }

  /** A word that neither starts nor ends with a space survives `strip()`. */
  lemma StripKeepsWord(s: string, w: string)
    requires w != [] && !IsSpace(w[0]) && !IsSpace(w[|w| - 1])
    requires Contains(s, w)
    ensures Contains(Strip(s), w)
  {
    TrimLeftKeepsWord(s, w);
    TrimRightKeepsWord(TrimLeft(s), w);
  }

  /** A word without ASCII capitals survives `lower()`. */
  lemma LowerKeepsWord(s: string, w: string)
    requires forall k :: 0 <= k < |w| ==> !('A' <= w[k] <= 'Z')
    requires Contains(s, w)
    ensures Contains(Lower(s), w)
  {
    var i :| 0 <= i <= |s| - |w| && StartsWith(s[i..], w);
    assert Lower(s)[i..i + |w|] == w by {
      forall k | 0 <= k < |w| ensures Lower(s)[i + k] == w[k] {
        assert s[i + k] == w[k];
      }
    }
    ContainsAt(Lower(s), w, i);
  }
}

=== FILE: validation.dfy ===
/**
 * Input limits and the set validators. A validator answers with the pair
 * `(is_valid, error_message)`; the checks run in a fixed order and the first
 * failing one decides the message.
 */
module Validation {
  import opened Wrappers

  const WeightMin: real := 0.0
  const WeightMax: real := 500.0
  const WeightStep: real := 0.5
  const RepsMin: int := 1
  const RepsMax: int := 50

  /** The Python value handed to a validator: an `int`, a `float`, or anything else. */
  datatype PyValue = PyInt(i: int) | PyFloat(f: real) | PyOther {
    predicate IsNumber() { PyInt? || PyFloat? }
    function AsReal(): real requires IsNumber() {
      if PyInt? then i as real else f
    }
  }

  datatype Message =
    | WeightNotNumber | WeightBelowMin | WeightAboveMax | WeightNotHalfStep
    | RepsNotInteger | RepsBelowMin | RepsAboveMax
  {
    /** The text shown to the user, with the limits formatted as Python prints them. */
    function Text(): string {
      match this
      case WeightNotNumber => "重量は数値で入力してください"
      case WeightBelowMin => "重量は0.0kg以上で入力してください"
      case WeightAboveMax => "重量は500.0kg以下で入力してください"
      case WeightNotHalfStep => "重量は0.5kg刻みで入力してください"
      case RepsNotInteger => "回数は整数で入力してください"
      case RepsBelowMin => "回数は1回以上で入力してください"
      case RepsAboveMax => "回数は50回以下で入力してください"
    }
  }

  /** `(is_valid, error)`. */
  datatype Verdict = Verdict(valid: bool, error: Option<Message>)

  /** `round(w * 2) == w * 2`: twice the weight is a whole number. */
  predicate IsHalfStep(w: real) {
    (w * 2.0).Floor as real == w * 2.0
  }

  /** `k` steps of `WeightStep`. */
  function Steps(k: int): real {
    k as real * WeightStep
  }

  /** The half-step test accepts exactly the multiples of `WeightStep`. */
  lemma HalfStepIffMultiple(w: real)
    ensures IsHalfStep(w) <==> exists k: int :: w == Steps(k)
  {
    if IsHalfStep(w) {
      var k := (w * 2.0).Floor;
      assert w == Steps(k);
    } else {
      forall k: int ensures w != Steps(k) {
      }
    }
  }

  function ValidateWeight(v: PyValue): (r: Verdict)
    ensures r.valid <==> r.error == None
    ensures r.valid <==> v.IsNumber() && WeightMin <= v.AsReal() <= WeightMax && IsHalfStep(v.AsReal())
    ensures !v.IsNumber() ==> r.error == Some(WeightNotNumber)
    ensures v.IsNumber() && v.AsReal() < WeightMin ==> r.error == Some(WeightBelowMin)
    ensures v.IsNumber() && WeightMin <= v.AsReal() && v.AsReal() > WeightMax ==> r.error == Some(WeightAboveMax)
    ensures v.IsNumber() && WeightMin <= v.AsReal() <= WeightMax && !IsHalfStep(v.AsReal()) ==> r.error == Some(WeightNotHalfStep)
  {
    if !v.IsNumber() then Verdict(false, Some(WeightNotNumber))
    else
      var w := v.AsReal();
      if w < WeightMin then Verdict(false, Some(WeightBelowMin))
      else if w > WeightMax then Verdict(false, Some(WeightAboveMax))
      else if !IsHalfStep(w) then Verdict(false, Some(WeightNotHalfStep))
      else Verdict(true, None)
  }

  /** An independent description of the accepted weights: the 1001 values 0.0, 0.5, …, 500.0. */
  lemma {:induction false} AcceptedWeightsAreHalfKilos(w: real)
    ensures ValidateWeight(PyFloat(w)).valid <==> exists k: int :: 0 <= k <= 1000 && w == Steps(k)
  {
    HalfStepIffMultiple(w);
    if ValidateWeight(PyFloat(w)).valid {
      var k: int :| w == Steps(k);
      assert 0 <= k <= 1000;
    }
  }

  function ValidateReps(v: PyValue): (r: Verdict)
    ensures r.valid <==> r.error == None
    ensures r.valid <==> v.PyInt? && RepsMin <= v.i <= RepsMax
    ensures !v.PyInt? ==> r.error == Some(RepsNotInteger)
    ensures v.PyInt? && v.i < RepsMin ==> r.error == Some(RepsBelowMin)
    ensures v.PyInt? && v.i > RepsMax ==> r.error == Some(RepsAboveMax)
  {
    if !v.PyInt? then Verdict(false, Some(RepsNotInteger))
    else if v.i < RepsMin then Verdict(false, Some(RepsBelowMin))
    else if v.i > RepsMax then Verdict(false, Some(RepsAboveMax))
    else Verdict(true, None)
  }

  /** Weight first, then repetitions; the first failure is reported. */
  function ValidateSetData(weight: PyValue, reps: PyValue): (r: Verdict)
    ensures r.valid <==> r.error == None
    ensures r.valid <==> ValidateWeight(weight).valid && ValidateReps(reps).valid
    ensures !ValidateWeight(weight).valid ==> r.error == ValidateWeight(weight).error
    ensures ValidateWeight(weight).valid && !ValidateReps(reps).valid ==> r.error == ValidateReps(reps).error
  {
    var w := ValidateWeight(weight);
    if !w.valid then Verdict(false, w.error)
    else
      var n := ValidateReps(reps);
      if !n.valid then Verdict(false, n.error) else Verdict(true, None)
  }
}

=== FILE: wrappers.dfy ===
/** The optional value used wherever the program returns `None` for "no result". */
module Wrappers {

  datatype Option<+T> = None | Some(value: T) {

    /** The wrapped value, or `default` when there is none. */
    function GetOr(default: T): T {
      match this
      case Some(v) => v
      case None => default
    }
  }

  /** The values of the present entries, in order. */
  function Present<T(==)>(s: seq<Option<T>>): (r: seq<T>)
    ensures |r| <= |s|
    ensures forall i :: 0 <= i < |s| && s[i].Some? ==> s[i].value in r
    ensures forall k :: 0 <= k < |r| ==> Some(r[k]) in s
  {
    if s == [] then []
    else
      var rest := Present(s[1..]);
      assert forall i :: 1 <= i < |s| ==> s[i] == s[1..][i - 1];
      assert forall k :: 0 <= k < |rest| ==> Some(rest[k]) in s by {
        forall k | 0 <= k < |rest| ensures Some(rest[k]) in s {
          var i :| 0 <= i < |s[1..]| && s[1..][i] == Some(rest[k]);
          assert s[i + 1] == Some(rest[k]);
        }
      }
      if s[0].Some? then [s[0].value] + rest else rest
  }

  /** The number of present entries. */
  function CountPresent<T>(s: seq<Option<T>>): nat {
    if s == [] then 0 else (if s[0].Some? then 1 else 0) + CountPresent(s[1..])
  }

  /** The values of two runs of entries are those of the first run followed by
      those of the second: nothing is reordered. */
  lemma {:induction false} PresentAppend<T>(a: seq<Option<T>>, b: seq<Option<T>>)
    ensures Present(a + b) == Present(a) + Present(b)
  {
    if a == [] {
      assert a + b == b;
    } else {
      assert (a + b)[1..] == a[1..] + b;
      PresentAppend(a[1..], b);
    }
  }

  /** One value per present entry. */
  lemma {:induction false} PresentCount<T>(s: seq<Option<T>>)
    ensures |Present(s)| == CountPresent(s)
  {
    if s != [] {
      PresentCount(s[1..]);
    }
  }
}
